=== FILE: README.md ===
# FoodTracker core in Dafny

A model of the core of FoodTracker, a food diary: a NestJS backend over MySQL with an
Elasticsearch index of foods, a React Native frontend, and Python scripts that bulk-load foods,
measurements and barcodes from USDA FoodData Central (FDC), OpenFoodFacts and CSV exports.

What is modelled, one Dafny module per source file or component:

- **Ingestion scripts.** `FdcImport` and `OpenFoodFacts` cover the FDC/OpenFoodFacts importer:
  cell cleaning, name standardisation, nutrient extraction, and the batched match-or-insert loop
  with its lookup cache, commits and rollbacks. `BarcodePoster` covers the barcode poster's
  bounded pool of in-flight batches, its retries and its error budget. `CsvPoster` and
  `CsvBatches` cover the CSV poster's row-to-payload conversion and batched upserts.
  `PortionImporter` covers the FDC portion importer with its negative cache. `Backfill` and
  `MergeDuplicates` cover the backfill and duplicate-merge scripts. Shared pieces are `Cleaning`
  (the per-script `_clean_string` variants), `Naming` (standardised names, abbreviations, unit
  labels), `NumericToken` (the numeric-token scanner), `IntParse`, `Rounding` and `Batching`.
- **Backend services.** `AuthCookies`, `Csrf`, `Cors`, `AuditLog`, `TokenRevocation`,
  `Friends`, `FoodEntryService`, `RecipeService`, `FoodService`, `FoodSearch`,
  `FoodBarcodeService` and `Paging`.
- **Frontend calculators.** `RecipeUtils`, `FoodEntryUtils`, `Weights` and `SignUpForm`, with
  `JsNum` for the few JavaScript number rules they rely on.
- **Shared.** `Wrappers` (`Option`, `Result`) and `Text` (whitespace, strip, lower-casing,
  splitting and joining).

Conventions. Database tables are sequences or maps held in immutable state values. Each
operation is a function from the old state to the new one, or a method when it loops. Anything
the code does not decide for itself becomes a parameter: which statements fail, which in-flight
batches complete, what `float()` parses, hashing, the current time, the order a query returns,
and the search engine's answer. Real numbers stand for floats, and integers are unbounded.

## Model

| member | source | states |
|---|---|---|
| AuditLog.ExtractIpAddress | foodtracker-backend/src/auth/audit-log.service.ts:61-77 | a single header yields its first comma-separated entry, trimmed; a header list yields its first element trimmed; an empty list is the TypeError the source would throw; without a header, `request.ip` unless empty, else the socket address |
| AuditLog.ClientOfProxyChain | foodtracker-backend/src/auth/audit-log.service.ts:64-68 | for `client, proxy1, …` the client entry (trimmed) is reported, whatever the proxies are |
| AuditLog.LogEvent | foodtracker-backend/src/auth/audit-log.service.ts:30-54 | the log only grows by at most one row; a row is appended exactly when the write succeeds and the address can be read; the row carries the event's type, outcome, user, email, address and user agent; failures never reach the caller |
| AuditLog.OccurrencesPartition | foodtracker-backend/src/auth/audit-log.service.ts:143-164 | the eight event types partition any window: their counts sum to its length |
| AuditLog.AuthStatistics | foodtracker-backend/src/auth/audit-log.service.ts:126-167 | `totalEvents` is the window's length; each of the six counters equals the number of events of its type; the counters plus the uncounted password-change and email-verified events add up to the total |
| AuthCookies.IsSecureRequest | foodtracker-backend/src/auth/auth.controller.ts:51-60 | a TLS request is secure; otherwise secure exactly when a single `X-Forwarded-Proto` header's first comma-separated entry, trimmed, is `https` |
| AuthCookies.GetCookieOptions | foodtracker-backend/src/auth/auth.controller.ts:16-25 | cookies are always http-only on path `/`; `secure` follows the request; `SameSite=None` exactly when secure, else `Lax` |
| AuthCookies.BuildAuthResponse | foodtracker-backend/src/auth/auth.controller.ts:62-70 | the access token and the other fields always pass through; a client without `Origin` gets the payload unchanged; a browser never gets the refresh token in the body |
| AuthCookies.RequireRefreshToken | foodtracker-backend/src/auth/auth.controller.ts:72-77 | succeeds exactly when the refresh token is present and non-empty, returning it; otherwise the server error |
| AuthCookies.SignIn | foodtracker-backend/src/auth/auth.controller.ts:85-105 | fails exactly when the refresh token is missing; on success status 200, the access and refresh cookies with the request's options and 15-minute / 30-day lifetimes, and the filtered body |
| AuthCookies.Refresh | foodtracker-backend/src/auth/auth.controller.ts:115-139 | the cookie token wins over the body's when defined; without a usable token 401, no cookies, service not called; a token the service refuses gives the refusal's status and message and no cookies; otherwise the access cookie, the refresh cookie exactly when the service returned one, and the filtered body |
| AuthCookies.RefreshCookiesOnlyOnSuccess | foodtracker-backend/src/auth/auth.controller.ts:120-137 | a refresh sets cookies exactly when there is a usable token and the service accepts it |
| AuthCookies.Logout | foodtracker-backend/src/auth/auth.controller.ts:143-150 | the service is told about the token exactly when there is a non-empty one; with no token, or one the service accepts, the reply is 200 with both cookies cleared under the request's options; a refusal propagates as the error reply and clears nothing |
| AuthCookies.LogoutClearsOnlyOnSuccess | foodtracker-backend/src/auth/auth.controller.ts:143-150 | a logout clears cookies exactly when there is no token or the service accepts it |
| AuthCookies.EmptyCookieHidesBodyToken | foodtracker-backend/src/auth/auth.controller.ts:120-124 | a defined but empty refresh cookie shadows any body token (`??`), so the refresh is refused with 401 |
| AuthCookies.BrowserSignInKeepsTokenInCookie | foodtracker-backend/src/auth/auth.controller.ts:85-92 | a browser sign-in succeeds with no refresh token in the body while the refresh cookie holds it |
| Cors.NonEmptyTrimmed | foodtracker-backend/src/main.ts:35-38 | every origin kept is non-empty and already trimmed |
| Cors.NonEmptyTrimmedClean | foodtracker-backend/src/main.ts:35-38 | trimming comma-free pieces yields clean origins (non-empty, trimmed, comma-free) |
| Cors.GetCorsOrigins | foodtracker-backend/src/main.ts:10-39 | fails exactly in production with a missing or blank setting; outside production a blank setting gives the four development origins; every origin returned is clean |
| Cors.CorsOriginsRoundTrip | foodtracker-backend/src/main.ts:35-38 | a list of clean origins joined with commas is read back exactly, in order |
| Cors.OnlyCommaAllowsNothing | foodtracker-backend/src/main.ts:14-38 | the setting `,` passes the blank check yet allows no origin at all |
| Csrf.DiffZero | foodtracker-backend/src/auth/csrf.service.ts:58-61 | the or-accumulated xor of the first `i` code units is zero exactly when the two prefixes agree |
| Csrf.SecureCompare | foodtracker-backend/src/auth/csrf.service.ts:53-63 | answers true exactly when the two tokens are equal (length check, then a full pass with no early exit) |
| Csrf.ValidateToken | foodtracker-backend/src/auth/csrf.service.ts:39-45 | valid exactly when both tokens are non-empty and equal |
| Csrf.CanActivate | foodtracker-backend/src/common/guards/csrf.guard.ts:32-83 | never answers false; passes exactly when the route skips CSRF, the method is GET/HEAD/OPTIONS, a `Bearer ` authorization is sent, or both tokens are present and equal; "token missing" exactly when not exempt and either token is absent or empty |
| Csrf.CsrfSecret | foodtracker-backend/src/auth/csrf.service.ts:69-98 | the configured value wins when defined; a blank secret is fatal in production and replaced by the generated one elsewhere; in production a secret shorter than 32 characters is refused; an accepted configured secret is returned unchanged |
| TokenRevocation.RevokeToken | foodtracker-backend/src/auth/token-revocation.service.ts:32-69 | a hash already in the table changes nothing; otherwise the row is stored under the hash and the hash cached, nothing else changing; the cache stays inside the table |
| TokenRevocation.RevokeIdempotent | foodtracker-backend/src/auth/token-revocation.service.ts:42-49 | revoking the same token again, with any user, reason or expiry, is a no-op |
| TokenRevocation.RefreshCache | foodtracker-backend/src/auth/token-revocation.service.ts:107-124 | the table is untouched; a failure changes nothing; on success the cache is exactly the hashes expiring within 24 hours of `now` and the refresh time is `now` |
| TokenRevocation.IsTokenRevoked | foodtracker-backend/src/auth/token-revocation.service.ts:76-101 | the table is untouched; the cache is refreshed only when more than a minute stale; a hash in the table always reads as revoked; with a consistent cache the answer is exactly "the hash is in the table" |
| TokenRevocation.CleanupExpiredTokens | foodtracker-backend/src/auth/token-revocation.service.ts:131-147 | a failed delete changes nothing; otherwise exactly the rows expiring at or after `now` remain, unchanged; with a successful refresh the cache is consistent again |
| TokenRevocation.RowSurvives | foodtracker-backend/src/auth/token-revocation.service.ts:32-147 | a row survives, unchanged, any sequence of operations with no cleanup after its expiry |
| TokenRevocation.RevokedUntilCleanup | foodtracker-backend/src/auth/token-revocation.service.ts:32-101 | once revoked, a token reads as revoked after any revocations, checks, refreshes and failures, until a cleanup after its expiry |
| TokenRevocation.RunConsistent | foodtracker-backend/src/auth/token-revocation.service.ts:32-147 | every operation keeps the cache inside the table, unless a cleanup's delete or refresh fails |
| TokenRevocation.CleanupWithFailedRefreshKeepsHash | foodtracker-backend/src/auth/token-revocation.service.ts:131-143 | a cleanup whose refresh fails (the failure is swallowed inside `refreshCache`) leaves a deleted hash cached, so the expired token still reads as revoked |
| Friends.NormalizeSearchValue | foodtracker-backend/src/friends/friends.service.ts:17-18 | empty exactly when the value is missing or blank; otherwise as long as the trimmed value, and already lower case |
| Friends.ExcludedIdsMembers | foodtracker-backend/src/friends/friends.service.ts:51-72 | the excluded ids are exactly the user and everyone they have a pending or accepted friendship with, on either side |
| Friends.MatchingMembers | foodtracker-backend/src/friends/friends.service.ts:74-95 | a user is matched exactly when active, not excluded, and containing each non-empty lower-cased name |
| Friends.SearchUsers | foodtracker-backend/src/friends/friends.service.ts:33-98 | Bad Request exactly when both names normalize to nothing; otherwise at most `limit ?? 20` users |
| Friends.SearchUsersSound | foodtracker-backend/src/friends/friends.service.ts:33-98 | every user found is active, is not the searcher, has no pending or accepted friendship with them, and contains each name searched for |
| Friends.SearchUsersComplete | foodtracker-backend/src/friends/friends.service.ts:33-98 | when the matches fit under the limit, every eligible user is found |
| Friends.RequestFriend | foodtracker-backend/src/friends/friends.service.ts:100-141 | Bad Request exactly for oneself; Not Found exactly for a missing or inactive addressee; Conflict exactly when the first row between the two is pending or accepted; a failure changes nothing; success is a pending request from the user to the addressee, stored in the table |
| Friends.RequestFriendKeepsValid | foodtracker-backend/src/friends/friends.service.ts:100-141 | a request keeps the table valid: no self-friendship, one row per pair, ids increasing and below the next id |
| Friends.RequestTwiceConflicts | foodtracker-backend/src/friends/friends.service.ts:112-126 | once a request is made, asking again from either side is a Conflict |
| Friends.Answer | foodtracker-backend/src/friends/friends.service.ts:143-177 | succeeds exactly when a pending request with that id is addressed to the user; a failure is Not Found and changes nothing; success sets that row's status and changes nothing else |
| Friends.AcceptFriendRequest | foodtracker-backend/src/friends/friends.service.ts:143-159 | an accepted request is addressed to the user, and afterwards the two are friends |
| Friends.RejectFriendRequest | foodtracker-backend/src/friends/friends.service.ts:161-177 | a rejected request is addressed to the user and has status Rejected |
| Friends.AnswerKeepsValid | foodtracker-backend/src/friends/friends.service.ts:143-177 | answering keeps the table valid |
| Friends.RejectThenRequestAgain | foodtracker-backend/src/friends/friends.service.ts:120-131 | after a rejection the addressee may send a request back to the (still active) requester |
| Friends.ListFriendsAreFriends | foodtracker-backend/src/friends/friends.service.ts:179-200 | the friend list holds exactly the users with an accepted friendship with the user |
| Friends.ListPendingMembers | foodtracker-backend/src/friends/friends.service.ts:202-222 | the pending list holds exactly the pending rows addressed to the user |
| Friends.PendingNewestFirst | foodtracker-backend/src/friends/friends.service.ts:202-210 | in a valid table the pending list is ordered newest first |
| Friends.EnsureAcceptedFriendship | foodtracker-backend/src/friends/friends.service.ts:309-330 | succeeds exactly between accepted friends, returning an accepted row of the pair; otherwise Forbidden |
| Friends.FriendshipSymmetric | foodtracker-backend/src/friends/friends.service.ts:309-330 | the gate does not depend on who asked |
| Friends.GetFriendProfile | foodtracker-backend/src/friends/friends.service.ts:224-237 | Forbidden exactly when not friends; Not Found exactly when friends but the friend is inactive or missing; otherwise the active friend |
| Friends.GetFriendDiaryEntries | foodtracker-backend/src/friends/friends.service.ts:239-256 | succeeds exactly between friends, with the friend's diary; otherwise Forbidden |
| Friends.GetFriendRecipes | foodtracker-backend/src/friends/friends.service.ts:258-290 | succeeds exactly between friends, listing only rows owned by the friend; otherwise Forbidden |
| Friends.FriendRecipesAreOwnersListing | foodtracker-backend/src/friends/friends.service.ts:258-290 | a friend sees exactly the owner's own recipe listing (the query of foodtracker-backend/src/recipe/recipe.service.ts:58-86) |
| Friends.ImportFriendRecipe | foodtracker-backend/src/friends/friends.service.ts:292-307 | succeeds exactly between friends, with the copy of that recipe from the friend to the user; otherwise Forbidden |
| Friends.AcceptOpensBothWays | foodtracker-backend/src/friends/friends.service.ts:143-159 | accepting opens the gate both ways, and each appears in the other's friend list |
| RecipeService.EnsureFoodsExist | foodtracker-backend/src/recipe/recipe.service.ts:141-155 | succeeds exactly when every ingredient names a known food (counting distinct ids found against distinct ids asked for); otherwise Bad Request |
| RecipeService.GetRecipe | foodtracker-backend/src/recipe/recipe.service.ts:41-56 | found exactly when the recipe exists and the user owns it, returning it; otherwise Not Found |
| RecipeService.Create | foodtracker-backend/src/recipe/recipe.service.ts:22-39 | fails with Bad Request, changing nothing, exactly when some food is unknown; otherwise the recipe with its lines is stored under a fresh id, foods unchanged, ids staying below the next id |
| RecipeService.CreateThenGet | foodtracker-backend/src/recipe/recipe.service.ts:22-56 | a created recipe is returned to its owner as created and hidden from every other user |
| RecipeService.Patched | foodtracker-backend/src/recipe/recipe.service.ts:98-121 | each field the patch sets is replaced, each field it leaves undefined is kept, and the owner never changes |
| RecipeService.Update | foodtracker-backend/src/recipe/recipe.service.ts:88-125 | Not Found exactly when the user does not own the recipe; Bad Request exactly when a new ingredient list names an unknown food; a failure changes nothing; success replaces only that recipe by its patched version |
| RecipeService.EmptyPatchChangesNothing | foodtracker-backend/src/recipe/recipe.service.ts:98-123 | an update that sets nothing leaves the store as it was |
| RecipeService.UpdateIdempotent | foodtracker-backend/src/recipe/recipe.service.ts:88-125 | applying the same update twice is applying it once |
| RecipeService.Delete | foodtracker-backend/src/recipe/recipe.service.ts:127-139 | Not Found, changing nothing, exactly when the user does not own the recipe; success answers true and removes exactly that recipe, the others unchanged |
| RecipeService.DeleteThenGet | foodtracker-backend/src/recipe/recipe.service.ts:127-139 | after a delete the recipe is not found and a second delete is Not Found |
| RecipeService.SelectedMembers | foodtracker-backend/src/recipe/recipe.service.ts:70-83 | the listing's filter keeps exactly the user's recipes whose lower-cased title contains the lower-cased search (a blank search filters nothing) |
| RecipeService.GetRecipes | foodtracker-backend/src/recipe/recipe.service.ts:58-86 | every row listed is a selected row of the table; at most `limit ?? 50` rows |
| RecipeService.ListingPagesCover | foodtracker-backend/src/recipe/recipe.service.ts:69-77 | fetching pages 0, 1, …, n-1 with a positive page size shows the first `n * limit` selected recipes in order, none skipped and none twice |
| RecipeService.StoredRowAsWritten | foodtracker-backend/src/recipe/recipe.service.ts:30-34 | the stored line keeps the recipe and the food (its `amount` is never set) |
| RecipeService.ServingsLostAsWritten | foodtracker-backend/src/recipefood/entities/recipefood.entity.ts:17-18 | two lines with different servings and measurements are stored as the same row |
| RecipeService.StoredRow | foodtracker-backend/src/recipefood/entities/recipefood.entity.ts:17-18 | the stored line carries the recipe, the food and the servings in `amount` |
| RecipeService.StoredRowKeepsServings | foodtracker-backend/src/recipefood/entities/recipefood.entity.ts:11-18 | equal stored rows come from lines with the same food and servings |
| Paging.Window | foodtracker-backend/src/recipe/recipe.service.ts:76-77 | `skip(n).take(m)`: a contiguous slice starting at `n`, at most `m` rows when `m > 0` (a zero `take` sets no limit), empty past the end |
| Paging.PageIsSlice | foodtracker-backend/src/recipe/recipe.service.ts:76-77 | page `p` continues exactly where the first `p` pages stop |
| Paging.PagesCover | foodtracker-backend/src/recipe/recipe.service.ts:76-77 | with a positive page size the first `n` pages are the first `n * limit` rows |
| Paging.AllPagesShowAll | foodtracker-backend/src/recipe/recipe.service.ts:76-77 | enough pages show every row |
| FoodEntryService.OfUserMembers | foodtracker-backend/src/foodentry/foodentry.service.ts:30 | the owner filter keeps exactly the user's entries |
| FoodEntryService.InRangeMembers | foodtracker-backend/src/foodentry/foodentry.service.ts:57-58 | the window filter keeps exactly the entries logged at or after `start` and before `end` |
| FoodEntryService.GetHistory | foodtracker-backend/src/foodentry/foodentry.service.ts:27-43 | only the user's entries, a prefix of their entries in row order, at most `limit` of them when the limit is non-zero, and all of them without a (truthy) limit |
| FoodEntryService.HistoryLatestFirst | foodtracker-backend/src/foodentry/foodentry.service.ts:36 | rows read latest first give a history that is latest first |
| FoodEntryService.GetDiaryEntries | foodtracker-backend/src/foodentry/foodentry.service.ts:45-67 | an entry is listed exactly when it is the user's and logged in `[start, end)` |
| FoodEntryService.DiaryWindowsSplit | foodtracker-backend/src/foodentry/foodentry.service.ts:57-58 | adjacent half-open windows split a diary: each entry of `[a, c)` is in exactly one of `[a, b)` and `[b, c)` |
| FoodEntryService.GetMealName | foodtracker-backend/src/foodentry/foodentry.service.ts:204-207 | one of the four meal names: the one at the meal type's index, and Breakfast for a type out of range |
| FoodEntryService.MealNameRoundTrip | foodtracker-backend/src/foodentry/foodentry.service.ts:204-207 | the client's name-to-type mapping (foodtracker-frontend/components/foodentry/foodentry-utils.ts) reads each stored meal name back as the type that produced it |
| FoodEntryService.FindOrCreateMeal | foodtracker-backend/src/foodentry/foodentry.service.ts:209-222 | the result is the user's meal named by the trimmed name and is in the table; an existing meal changes nothing; otherwise exactly one meal is appended under the next id; nothing else changes |
| FoodEntryService.FindOrCreateKeepsUnique | foodtracker-backend/src/foodentry/foodentry.service.ts:209-222 | the table keeps at most one meal per user and name |
| FoodEntryService.FindOrCreateIdempotent | foodtracker-backend/src/foodentry/foodentry.service.ts:209-222 | asking again finds the meal the first call made and changes nothing |
| FoodEntryService.Create | foodtracker-backend/src/foodentry/foodentry.service.ts:69-142 | Bad Request, changing nothing, exactly when the request does not name exactly one of a food or a recipe or names a measurement without a food; Not Found exactly when a well-formed request's food, measurement of that food, or own recipe is missing, yet the meal is still created; success appends one entry with the request's fields under the next id, pointing at the user's meal for the meal type |
| FoodEntryService.CreateThenInDiary | foodtracker-backend/src/foodentry/foodentry.service.ts:45-142 | a created entry is in the user's diary for every window around its time |
| FoodEntryService.Update | foodtracker-backend/src/foodentry/foodentry.service.ts:144-189 | Not Found, changing nothing, without the user's entry; a new measurement on a recipe entry is Bad Request and one not of the entry's food is Not Found; success keeps the entry's id, owner, food, recipe and time, sets the measurement and servings the patch gives, keeps the meal without a new meal type, and replaces only that entry |
| FoodEntryService.EmptyPatchKeepsEntry | foodtracker-backend/src/foodentry/foodentry.service.ts:144-189 | an empty patch returns the entry unchanged and leaves the store as it was |
| FoodEntryService.Delete | foodtracker-backend/src/foodentry/foodentry.service.ts:191-202 | succeeds exactly with the user's entry, removing exactly that row and answering true; otherwise Not Found, changing nothing |
| FoodEntryService.DeleteThenNotFound | foodtracker-backend/src/foodentry/foodentry.service.ts:191-202 | with distinct ids, a second delete of the same entry is Not Found |
| FoodEntryUtils.MealTypeFromName | foodtracker-frontend/components/foodentry/foodentry-utils.ts:23-29 | a valid meal type; a known name maps to its position; a missing or unknown name maps to 0 |
| FoodEntryUtils.EntryTitle | foodtracker-frontend/components/foodentry/foodentry-utils.ts:31-32 | the food's name, else the recipe's title, else "Unknown item" |
| FoodEntryUtils.SumCaloriesFinite | foodtracker-frontend/components/foodentry/foodentry-utils.ts:77-90 | the summed ingredient calories are a finite number exactly when every ingredient's serving count is |
| FoodEntryUtils.RecipeTotalCalories | foodtracker-frontend/components/foodentry/foodentry-utils.ts:55-91 | null without a recipe; a stored finite total wins; otherwise a number exactly when the ingredients are a list and none has lost its food |
| FoodEntryUtils.RecipeCaloriesPerServing | foodtracker-frontend/components/foodentry/foodentry-utils.ts:93-99 | a number exactly when there is a total and a truthy serving count; finite exactly when the total is; times the serving count it gives back the total |
| FoodEntryUtils.EntryCalories | foodtracker-frontend/components/foodentry/foodentry-utils.ts:101-117 | a food entry's calories in its chosen or default measurement; null for an entry with neither; a recipe entry has calories exactly when its recipe has a per-serving figure |
| FoodEntryUtils.EntryCaloriesShare | foodtracker-frontend/components/foodentry/foodentry-utils.ts:93-114 | a recipe entry's calories times the recipe's serving count equal the recipe total times the entry's servings |
| FoodEntryUtils.EntryTotalsOver | foodtracker-frontend/components/foodentry/foodentry-utils.ts:127-160 | null for an entry with neither food nor recipe; a food entry has totals exactly when its serving count is a positive finite number; a recipe entry's totals need an ingredient list and positive finite serving counts on both sides |
| FoodEntryUtils.EntriesTotalsSnoc | foodtracker-frontend/components/foodentry/foodentry-utils.ts:162-174 | appending an entry to the list skips it when its totals are null and otherwise adds them to the running totals |
| FoodEntryUtils.EntryWholeRecipe | foodtracker-frontend/components/foodentry/foodentry-utils.ts:140-157 | eating exactly the recipe's serving count gives the recipe's ingredient totals unscaled |
| RecipeUtils.DefaultMeasurement | foodtracker-frontend/components/recipe/recipe-utils.ts:107-113 | nothing exactly when the food has no measurements; otherwise one of them: the first marked default when any is, else the first |
| RecipeUtils.MeasurementById | foodtracker-frontend/components/recipe/recipe-utils.ts:115-122 | nothing for a null id; for an id, found exactly when some measurement carries it, and then the first that does |
| RecipeUtils.MeasurementText | foodtracker-frontend/components/recipe/recipe-utils.ts:127-132 | never empty; the measurement's name when it has one; any label other than "100 g" is the measurement's name or abbreviation |
| RecipeUtils.CaloriesFor | foodtracker-frontend/components/recipe/recipe-utils.ts:147-154 | the calories are a finite number exactly when the serving count is |
| RecipeUtils.CaloriesLinear | foodtracker-frontend/components/recipe/recipe-utils.ts:147-154 | calories are additive and homogeneous in the serving count, and zero servings give zero calories |
| RecipeUtils.AddTotalsKeys | foodtracker-frontend/components/recipe/recipe-utils.ts:227-238 | after adding, a key is present exactly when the target had it or it is a listed field present in the addition |
| RecipeUtils.AddTotalsSkips | foodtracker-frontend/components/recipe/recipe-utils.ts:227-238 | a key the addition lacks keeps its value |
| RecipeUtils.AddTotalsAdds | foodtracker-frontend/components/recipe/recipe-utils.ts:227-238 | a key of the addition gains its value once for each field listing it, a missing target key counting as 0 |
| RecipeUtils.AddTotalsValueAt | foodtracker-frontend/components/recipe/recipe-utils.ts:227-238 | the value of every key after adding, whether or not the addition has it |
| RecipeUtils.AddTotalsCommute | foodtracker-frontend/components/recipe/recipe-utils.ts:227-238 | adding two totals into a target in either order gives the same map |
| RecipeUtils.ScaleTotalsValues | foodtracker-frontend/components/recipe/recipe-utils.ts:240-253 | scaling yields exactly the listed keys the totals carry, each multiplied by the factor |
| RecipeUtils.ScaleCompose | foodtracker-frontend/components/recipe/recipe-utils.ts:240-253 | scaling by a and then by b equals scaling once by a times b |
| RecipeUtils.ScaleByOne | foodtracker-frontend/components/recipe/recipe-utils.ts:240-253 | scaling totals whose keys are all listed fields by 1 returns them unchanged |
| RecipeUtils.IngredientTotalsFails | foodtracker-frontend/components/recipe/recipe-utils.ts:204-225 | the totals throw exactly when some ingredient has lost its food |
| RecipeUtils.IngredientTotalsWithin | foodtracker-frontend/components/recipe/recipe-utils.ts:204-225 | successful totals only hold keys of the nutrition fields |
| RecipeUtils.IngredientTotalsSnoc | foodtracker-frontend/components/recipe/recipe-utils.ts:204-225 | appending an ingredient throws without a food, else adds that food's totals for its grams times its servings; a serving count that is not a positive finite number adds nothing |
| RecipeUtils.PositiveFields | foodtracker-frontend/components/recipe/recipe-utils.ts:317-350 | a field is kept exactly when it is listed and its total is present and positive |
| RecipeUtils.RowsIncludeZero | foodtracker-frontend/components/recipe/recipe-utils.ts:317-350 | with zero rows included there is one row per field, in field order, with a null value exactly when the totals lack the key, else the rounded total |
| RecipeUtils.FieldRow | foodtracker-frontend/components/recipe/recipe-utils.ts:326-345 | the row carries the field's key, title and unit; its value is null exactly when the totals lack the key, else the rounded total |
| RecipeUtils.RowsPositiveOnly | foodtracker-frontend/components/recipe/recipe-utils.ts:317-350 | with zero rows hidden, exactly the fields with a positive total get a row, in field order, each with its rounded total |
| RecipeUtils.Sanitize | foodtracker-frontend/components/recipe/recipe-utils.ts:136-138 | the result holds only digits and dots |
| RecipeUtils.NormalizeAmountShape | foodtracker-frontend/components/recipe/recipe-utils.ts:136-145 | only digits and dots, at most one dot, a dot exactly when the sanitised input has one, and the digits in their original order |
| RecipeUtils.NormalizeAmountIdempotent | foodtracker-frontend/components/recipe/recipe-utils.ts:136-145 | normalising an already normalised amount changes nothing |
| RecipeUtils.AmountFormFixed | foodtracker-frontend/components/recipe/recipe-utils.ts:136-145 | the single-dot form is its own normal form |
| RecipeUtils.AmountFormDigits | foodtracker-frontend/components/recipe/recipe-utils.ts:136-145 | the single-dot form removes no digit and keeps a dot exactly when the input has one |
| Weights.DayIndex | foodtracker-frontend/lib/weights/normalizeweights.ts:15-16 | the position of the first kept entry of that day, or the end when the day is not yet kept |
| Weights.Keep | foodtracker-frontend/lib/weights/normalizeweights.ts:13-27 | a weigh-in on a new day is appended; on a kept day it replaces that day's entry in place exactly when it is strictly later; every other entry stays |
| Weights.KeepDistinct | foodtracker-frontend/lib/weights/normalizeweights.ts:13-27 | one loop step keeps at most one entry per day |
| Weights.KeepFromInput | foodtracker-frontend/lib/weights/normalizeweights.ts:13-27 | one loop step keeps only weigh-ins taken from the input seen so far |
| Weights.KeepCovers | foodtracker-frontend/lib/weights/normalizeweights.ts:13-27 | after one loop step every day seen so far has an entry |
| Weights.KeepLatest | foodtracker-frontend/lib/weights/normalizeweights.ts:13-27 | after one loop step no weigh-in seen so far is later than the kept entry of its day |
| Weights.KeepFirst | foodtracker-frontend/lib/weights/normalizeweights.ts:18-26 | among equally late weigh-ins of one day, the first seen is kept |
| Weights.ByDayKeeps | foodtracker-frontend/lib/weights/normalizeweights.ts:11-27 | the map after the loop has one entry per day, each from the input, covering every input day, the latest of its day and the first among equally late ones |
| Weights.InsertByTime | foodtracker-frontend/lib/weights/normalizeweights.ts:29-33 | inserting adds exactly the one entry to the multiset and keeps every other |
| Weights.SortByTime | foodtracker-frontend/lib/weights/normalizeweights.ts:29-33 | sorting is a permutation of its input |
| Weights.InsertByTimeSorted | foodtracker-frontend/lib/weights/normalizeweights.ts:29-33 | inserting into a time-ordered list keeps it ordered |
| Weights.SortByTimeSorted | foodtracker-frontend/lib/weights/normalizeweights.ts:29-33 | the sorted chart is ordered by time |
| Weights.SortByTimeDistinct | foodtracker-frontend/lib/weights/normalizeweights.ts:29-33 | sorting keeps the one-entry-per-day property |
| Weights.PermutedKeeps | foodtracker-frontend/lib/weights/normalizeweights.ts:29-33 | a reordering of the kept entries still comes from the input, covers every day, and keeps each day's latest, first-seen weigh-in |
| Weights.NormalizeWeightsByDayCorrect | foodtracker-frontend/lib/weights/normalizeweights.ts:8-34 | the chart is ordered by time, has exactly one entry per input day, each an input weigh-in no weigh-in of its day is later than (the first seen among equal ones), and is a permutation of the map's values |
| Weights.ThreeByDay | foodtracker-frontend/lib/weights/normalizeweights.ts:18-26 | two weigh-ins on one day after one on another day keep the first day's entry and the later of the two |
| Weights.TwoSorted | foodtracker-frontend/lib/weights/normalizeweights.ts:29-33 | two entries out of time order swap |
| Weights.NormalizeExample | foodtracker-frontend/lib/weights/normalizeweights.ts:8-34 | three weigh-ins on two days, given out of order, give two entries: the later of the first day, then the second day |
| SignUpForm.EmailMatchesIff | foodtracker-frontend/app/createaccount.tsx:53-57 | the direct check accepts exactly the strings the email pattern matches: a whitespace- and @-free run, an @, a run, a dot, a run |
| SignUpForm.ValidateForm | foodtracker-frontend/app/createaccount.tsx:35-75 | the form passes only with both names and the password non-blank once trimmed, the email matching the pattern, at least six password characters and a matching confirmation; a blank first name is reported exactly when present |
| SignUpForm.ValidateFormAccepts | foodtracker-frontend/app/createaccount.tsx:35-75 | a form is accepted exactly when every check passes |
| SignUpForm.ValidateFormOrder | foodtracker-frontend/app/createaccount.tsx:43-67 | a last-name, missing-password or short-password alert is raised exactly when every earlier check passed and that one fails |
| SignUpForm.ValidateFormEmailOrder | foodtracker-frontend/app/createaccount.tsx:48-72 | a missing-email, invalid-email or mismatch alert is raised exactly when every earlier check passed and that one fails |
| SignUpForm.PaddedEmailInvalid | foodtracker-frontend/app/createaccount.tsx:48-57 | an email with whitespace around it is not trimmed but reported as invalid |
| SignUpForm.ExampleEmailMatches | foodtracker-frontend/app/createaccount.tsx:53 | a plain address matches the pattern |
| SignUpForm.HandleSignUp | foodtracker-frontend/app/createaccount.tsx:77-87 | the request is sent exactly when the form validates, carrying the four fields as typed; otherwise the first failing check is alerted |
| SignUpForm.SentFormsAreValid | foodtracker-frontend/app/createaccount.tsx:77-87 | whatever is sent has a matching email, a password of at least six characters, and the password equals its confirmation |
| FoodService.ReindexBatchSize | foodtracker-backend/src/food/food.service.ts:24-29 | always at least 1; a defined reindex setting is read even when the bulk setting is also defined, and the bulk setting only when the reindex one is absent |
| FoodService.ReindexSettingShadowsBulk | foodtracker-backend/src/food/food.service.ts:24-29 | a defined but unparsable reindex setting gives the default 500, not the bulk setting |
| FoodService.ReindexFallsBackToBulk | foodtracker-backend/src/food/food.service.ts:24-29 | without a reindex setting, a bulk setting that starts with a positive number uses that number |
| FoodService.FindBySourceId | foodtracker-backend/src/food/food.service.ts:41-43 | the position of the first food with that source id, or the end when none has it |
| FoodService.CreateFood | foodtracker-backend/src/food/food.service.ts:39-56 | the saved food is a CSV food carrying the input's source id and every input column; over an existing row it keeps that row's id and owner and the columns the input does not set, replacing the row in place; otherwise a new row with the next id is appended; the index gets the food unless indexing fails |
| FoodService.CreateFoodIdempotent | foodtracker-backend/src/food/food.service.ts:39-56 | importing the same sourced record twice leaves the store as importing it once |
| FoodService.CreateFoodKeepsUnique | foodtracker-backend/src/food/food.service.ts:39-56 | creating keeps source ids unique among the foods |
| FoodService.FindBySourceIdAsWritten | foodtracker-backend/src/food/food.service.ts:41-43 | with no source id the lookup matches exactly when there is any food |
| FoodService.CreateFoodAsWritten | foodtracker-backend/src/food/food.service.ts:39-56 | a found row is replaced in place, otherwise the food is appended |
| FoodService.MissingSourceIdOverwritesFirst | foodtracker-backend/src/food/food.service.ts:39-56 | as written, a food posted without a source id takes over the first row, keeping its id and source id; the corrected create appends a new row |
| FoodService.CreateFoodAgrees | foodtracker-backend/src/food/food.service.ts:39-56 | the corrected create and the lookup as written give the same food and table for every input with a source id, and on an empty table |
| FoodService.CreateBasicFood | foodtracker-backend/src/food/food.service.ts:31-37 | a new row with the next id, the user as owner and the given columns is appended; the index gets it unless indexing fails |
| FoodService.GetFood | foodtracker-backend/src/food/food.service.ts:58-66 | found exactly when some food has the id, and then a one-element list with that food |
| FoodService.CreateBasicThenGet | foodtracker-backend/src/food/food.service.ts:31-66 | a food just created by hand can be fetched by its id |
| FoodService.GetAllFoods | foodtracker-backend/src/food/food.service.ts:68-83 | the total counts every row; page number defaults to 0 and limit to 100; a positive limit bounds the page; every food listed is a row; a page past the end is empty |
| FoodService.InSearchOrderAllFound | foodtracker-backend/src/food/food.service.ts:95-97 | when every id has a row, one row per id in search order |
| FoodService.InSearchOrderDropsMissing | foodtracker-backend/src/food/food.service.ts:95-97 | an id without a row is skipped and the rest keep their order |
| FoodService.GetFoodsByName | foodtracker-backend/src/food/food.service.ts:85-98 | the table is queried exactly when the search found ids; no ids means no foods; when every id has a row the foods are those rows in search order |
| FoodService.QueryCountBounds | foodtracker-backend/src/food/food.service.ts:104-129 | the reindex loop makes n / b + 1 queries for n rows in pages of b |
| FoodService.ReindexFoods | foodtracker-backend/src/food/food.service.ts:100-132 | every row is indexed exactly once, in id order, in pages of the batch size, and the count returned is the number of rows |
| FoodSearch.BatchSizeSetting | foodtracker-backend/src/food/food-search.service.ts:21-22 | at least 1: either the default 500 or the number the setting parses to |
| FoodSearch.BatchSizeOfRendered | foodtracker-backend/src/food/food-search.service.ts:21-22 | a positive decimal number, with or without a non-digit suffix, is read back as that number |
| FoodSearch.BatchSizeUnsetOrZero | foodtracker-backend/src/food/food-search.service.ts:21-22 | an unset or zero setting gives 500 |
| FoodSearch.BatchSizeNegativeOrText | foodtracker-backend/src/food/food-search.service.ts:21-22 | a negative or non-numeric setting gives 500 |
| FoodSearch.Operations | foodtracker-backend/src/food/food-search.service.ts:50-57 | two bulk lines per food |
| FoodSearch.OperationsAt | foodtracker-backend/src/food/food-search.service.ts:50-57 | food k owns lines 2k and 2k + 1: its index action, then its name, brand and CSV flag |
| FoodSearch.OperationIdsRoundTrip | foodtracker-backend/src/food/food-search.service.ts:51 | every index action names its food's id in a form that parses back to that id |
| FoodSearch.Slices | foodtracker-backend/src/food/food-search.service.ts:48-49 | the slices are empty exactly when there are no foods, join back to the foods, and each holds the batch size except a shorter non-empty last one |
| FoodSearch.BulkIndexFoods | foodtracker-backend/src/food/food-search.service.ts:43-68 | no call for no foods; otherwise one call per slice, in order, each carrying that slice's lines |
| FoodSearch.HitValue | foodtracker-backend/src/food/food-search.service.ts:148-152 | a hit contributes at most one id |
| FoodSearch.HitIdsAppend | foodtracker-backend/src/food/food-search.service.ts:148-152 | reading hit ids distributes over concatenation of hits |
| FoodSearch.HitIdsDropsBad | foodtracker-backend/src/food/food-search.service.ts:150-152 | a non-string or unparsable id is dropped and the others keep their order |
| FoodSearch.HitIdsOfRendered | foodtracker-backend/src/food/food-search.service.ts:148-152 | hits carrying the ids as the indexer writes them give those ids back, in hit order |
| FoodSearch.SearchFoodsByName | foodtracker-backend/src/food/food-search.service.ts:70-153 | a query blank once trimmed answers no ids without asking the engine; otherwise the engine gets the trimmed query, its lower-case form and the limit, and the answer is exactly the hits' ids that are strings and parse as integers, in hit order (HitIds, whose partners are HitIdsAppend, HitIdsDropsBad and HitIdsOfRendered) |
| FoodSearch.SearchKeepsHitOrder | foodtracker-backend/src/food/food-search.service.ts:148-152 | hits '5' and '2' come back as the ids 5 and 2, in that order |
| FoodBarcodeService.NormalizeBarcode | foodtracker-backend/src/foodbarcode/foodbarcode.service.ts:172-174 | a missing barcode is empty; otherwise the result neither starts nor ends with whitespace |
| FoodBarcodeService.BarcodePaddingIgnored | foodtracker-backend/src/foodbarcode/foodbarcode.service.ts:172-174 | whitespace around a trimmed barcode does not change it |
| FoodBarcodeService.RoundTo | foodtracker-backend/src/foodbarcode/foodbarcode.service.ts:263-264 | the result times the factor is the JavaScript rounding of the value times the factor |
| FoodBarcodeService.RoundToIdempotent | foodtracker-backend/src/foodbarcode/foodbarcode.service.ts:263-264 | rounding a rounded value changes nothing |
| FoodBarcodeService.NormalizeNumber | foodtracker-backend/src/foodbarcode/foodbarcode.service.ts:255-259 | a missing or non-finite value is 0 |
| FoodBarcodeService.NormalizeNumberFinite | foodtracker-backend/src/foodbarcode/foodbarcode.service.ts:260-264 | a finite value comes back with at most scale decimals and within half a unit of the last place of the input, rounding halves up |
| FoodBarcodeService.NormalizeNumberIdempotent | foodtracker-backend/src/foodbarcode/foodbarcode.service.ts:255-265 | normalizing a normalized value changes nothing |
| FoodBarcodeService.NormalizedNumbers | foodtracker-backend/src/foodbarcode/foodbarcode.service.ts:177-246 | every nutrient column is present, each the normalized value at its own scale, 0 when the input lacks it |
| FoodBarcodeService.NormalizeFoodDto | foodtracker-backend/src/foodbarcode/foodbarcode.service.ts:176-253 | the source id and every other column survive; the name is trimmed and stays missing when missing; each nutrient column is normalized at its scale |
| FoodBarcodeService.FindMatchingFood | foodtracker-backend/src/foodbarcode/foodbarcode.service.ts:267-282 | the position of the first food with the same name and every nutrient value equal, or the end when none matches |
| FoodBarcodeService.CreatedFoodMatches | foodtracker-backend/src/foodbarcode/foodbarcode.service.ts:127-136 | a food the food service saves from a normalized input matches that input |
| FoodBarcodeService.ErrorFor | foodtracker-backend/src/foodbarcode/foodbarcode.service.ts:113-124 | a blank barcode is reported as missing, otherwise the food name is, under the trimmed barcode |
| FoodBarcodeService.Resolve | foodtracker-backend/src/foodbarcode/foodbarcode.service.ts:127-136 | matched exactly when some food matches, leaving the table alone and returning a matching food; otherwise the corrected create FoodService.CreateFood (see Findings); either way the food is in the table |
| FoodBarcodeService.Point | foodtracker-backend/src/foodbarcode/foodbarcode.service.ts:138-152 | the barcode ends up mapped to the food; a new row counts as created, a row naming another food as updated, a row already naming it changes nothing; the food counters and errors stay |
| FoodBarcodeService.Step | foodtracker-backend/src/foodbarcode/foodbarcode.service.ts:111-153 | one error for a blank barcode or nameless food, changing nothing else; otherwise one match or creation and the barcode mapped to the resolved food; counters move by exactly one item |
| FoodBarcodeService.Apply | foodtracker-backend/src/foodbarcode/foodbarcode.service.ts:127-152 | the resolved food is counted as matched or created and the barcode mapped to it; rows are only added |
| FoodBarcodeService.ProcessItem | foodtracker-backend/src/foodbarcode/foodbarcode.service.ts:111-153 | an unusable item adds its error and changes nothing else; a usable one maps its trimmed barcode to the resolved food and counts it matched or created |
| FoodBarcodeService.TallyStep | foodtracker-backend/src/foodbarcode/foodbarcode.service.ts:111-153 | one pass of the loop keeps the import's tally invariant |
| FoodBarcodeService.UpsertBarcodeMappings | foodtracker-backend/src/foodbarcode/foodbarcode.service.ts:100-156 | after all items: every item is exactly one error, match or creation; one error per unusable item; at most one row created or moved per resolved item; rows only added, one per barcode created; every usable item's barcode mapped |
| FoodBarcodeService.FoodById | foodtracker-backend/src/foodbarcode/foodbarcode.service.ts:164-169 | a food of the table with that id, or none exactly when no food has it |
| FoodBarcodeService.GetFoodByBarcode | foodtracker-backend/src/foodbarcode/foodbarcode.service.ts:158-170 | nothing for a blank barcode; a result is a food of the table reached through the trimmed barcode's row |
| FoodBarcodeService.ImportThenLookup | foodtracker-backend/src/foodbarcode/foodbarcode.service.ts:100-170 | after importing a usable item, its barcode, padded or not, leads to a food with the id it was matched with or created as |
| FoodBarcodeService.LookupAfterPoint | foodtracker-backend/src/foodbarcode/foodbarcode.service.ts:143-170 | a barcode pointed at a food of the table leads, padded or not, to a food with its id |
| FoodBarcodeService.ResolveTwice | foodtracker-backend/src/foodbarcode/foodbarcode.service.ts:127-136 | resolving the same input again finds, as a match, the food the first resolve returned, and leaves the table alone |
| FoodBarcodeService.ImportTwiceStable | foodtracker-backend/src/foodbarcode/foodbarcode.service.ts:111-153 | importing the same usable item twice leaves foods and barcode rows as after the first import and only counts one more match |
| Cleaning.ImportCleanString | foodtracker-backend/import_fdc_and_openfoodfacts_to_db.py:189-195 | missing, NaN, blank text and the five sentinels give nothing; anything kept is non-empty, stripped, not a sentinel, and a slice of the input |
| Cleaning.ImportCleanIdempotent | foodtracker-backend/import_fdc_and_openfoodfacts_to_db.py:189-195 | cleaning a cleaned value changes nothing |
| Cleaning.ImportCleanKeepsRealText | foodtracker-backend/import_fdc_and_openfoodfacts_to_db.py:189-195 | text whose trimmed form is real text is kept as that trimmed form |
| Cleaning.BarcodeCleanString | foodtracker-backend/post_openfoodfacts_barcodes_to_db.py:39-42 | nothing exactly for missing, NaN, "" and "N/A" as sent; otherwise the value is the cell's text with surrounding whitespace removed, so non-blank text stays non-empty |
| Cleaning.BarcodeCleanKeepsBlank | foodtracker-backend/post_openfoodfacts_barcodes_to_db.py:39-42 | blank text cleans to the empty string, not to nothing |
| Cleaning.BarcodeCleanKeepsPaddedSentinel | foodtracker-backend/post_openfoodfacts_barcodes_to_db.py:39-42 | a padded "N/A" is not recognised and comes out as "N/A" |
| Cleaning.CsvCleanString | foodtracker-backend/post_all_csv_data_to_db.py:159-162 | nothing exactly for missing, NaN and the null words as sent; otherwise the value is the cell's text with surrounding whitespace removed, empty exactly when the input is blank |
| Cleaning.CsvCleanKeepsBlank | foodtracker-backend/post_all_csv_data_to_db.py:159-162 | blank text cleans to the empty string |
| Cleaning.CsvCleanKeepsPaddedSentinel | foodtracker-backend/post_all_csv_data_to_db.py:159-162 | a padded "null" passes the test and comes out as "null" |
| Cleaning.PortionCleanString | foodtracker-backend/post_fdc_portion_measurements_to_db.py:90-96 | an absent cell, blank text and the null words give nothing; anything kept is the stripped cell, non-empty and not a null word |
| Cleaning.PortionAgreesWithImport | foodtracker-backend/post_fdc_portion_measurements_to_db.py:90-96 | the portion cleaner agrees with the importer's on every text except "nan" |
| Naming.WordMatchLen | foodtracker-backend/import_fdc_and_openfoodfacts_to_db.py:225 | a match is non-empty, holds only lower-case letters and apostrophes, and is not followed by another lower-case letter |
| Naming.TitleCase | foodtracker-backend/import_fdc_and_openfoodfacts_to_db.py:224-228 | the length is kept |
| Naming.TitleCasePositions | foodtracker-backend/import_fdc_and_openfoodfacts_to_db.py:224-228 | the first letter of every match is upper-cased and every other character, including the rest of each match, is unchanged |
| Naming.MatchStartIsWordStart | foodtracker-backend/import_fdc_and_openfoodfacts_to_db.py:224-228 | a match begins with a lower-case letter that does not follow another lower-case letter |
| Naming.WordStartIsMatchStart | foodtracker-backend/import_fdc_and_openfoodfacts_to_db.py:224-228 | a lower-case letter at the start, or after a character that is neither a lower-case letter nor an apostrophe, begins a match |
| Naming.ApostropheStaysLower | foodtracker-backend/import_fdc_and_openfoodfacts_to_db.py:224-228 | the letter after an apostrophe inside a match stays lower case: "o'neil" becomes "O'neil" |
| Naming.TitleCaseChars | foodtracker-backend/import_fdc_and_openfoodfacts_to_db.py:224-228 | every character of the result is the original one or its upper-case form |
| Naming.TitleCaseLower | foodtracker-backend/import_fdc_and_openfoodfacts_to_db.py:224-228 | title-casing changes only letter case |
| Naming.TitleCaseOfLower | foodtracker-backend/import_fdc_and_openfoodfacts_to_db.py:223-228 | title-casing depends only on the lower-case form |
| Naming.StandardizeFoodName | foodtracker-backend/import_fdc_and_openfoodfacts_to_db.py:217-229 | nothing exactly when cleaning gives nothing; otherwise as long as the cleaned name with whitespace runs collapsed, and equal to it up to letter case |
| Naming.StandardizedCase | foodtracker-backend/import_fdc_and_openfoodfacts_to_db.py:217-229 | the standardised name is the lower-cased, whitespace-collapsed cleaned name with exactly the first letter of every match upper-cased |
| Naming.StandardizedShape | foodtracker-backend/import_fdc_and_openfoodfacts_to_db.py:217-229 | a standardised name is non-empty, has no whitespace at either end, and has only single plain spaces inside |
| Naming.StandardizeIdempotent | foodtracker-backend/import_fdc_and_openfoodfacts_to_db.py:217-229 | standardising a standardised name changes nothing, unless it has become a sentinel spelling |
| Naming.StandardizeUpperNone | foodtracker-backend/import_fdc_and_openfoodfacts_to_db.py:217-229 | "NONE" standardises to "None" |
| Naming.NoneIsDiscarded | foodtracker-backend/import_fdc_and_openfoodfacts_to_db.py:189-195 | "None" standardises to nothing, so standardising "NONE" twice loses the name |
| Naming.DropLeadingInt | foodtracker-backend/import_fdc_and_openfoodfacts_to_db.py:232 | only a prefix is removed; nothing is removed without a leading digit; after a count the result does not start with whitespace |
| Naming.DropLeadingDecimal | foodtracker-backend/post_fdc_portion_measurements_to_db.py:119 | only a prefix is removed, and nothing without a leading digit |
| Naming.FirstWordOr | foodtracker-backend/import_fdc_and_openfoodfacts_to_db.py:233-236 | at most eight characters; a description with a word gives a non-empty abbreviation without whitespace |
| Naming.ImportAbbreviation | foodtracker-backend/import_fdc_and_openfoodfacts_to_db.py:231-236 | at most eight characters, non-empty and without whitespace when the description has a word after its count |
| Naming.ImportAbbreviationLowerCase | foodtracker-backend/import_fdc_and_openfoodfacts_to_db.py:231-236 | abbreviations hold no upper-case letter |
| Naming.ImportAbbreviationIgnoresCount | foodtracker-backend/import_fdc_and_openfoodfacts_to_db.py:231-236 | a leading integer count and the blanks after it do not change the abbreviation |
| Naming.UnitPrefix | foodtracker-backend/post_all_csv_data_to_db.py:175 | a unit word found is one of the eight, at least three letters long, and starts the text |
| Naming.GlueUnits | foodtracker-backend/post_all_csv_data_to_db.py:173-178 | gluing never lengthens the text |
| Naming.GlueAroundUnit | foodtracker-backend/post_all_csv_data_to_db.py:173-178 | blanks before and after a unit word disappear and the word is kept |
| Naming.CsvAbbreviation | foodtracker-backend/post_all_csv_data_to_db.py:172-182 | at most eight characters |
| Naming.PortionAbbreviation | foodtracker-backend/post_fdc_portion_measurements_to_db.py:118-123 | at most eight characters, non-empty and without whitespace when the description has a word after its count |
| Naming.PortionAbbreviationDropsDecimal | foodtracker-backend/post_fdc_portion_measurements_to_db.py:118-123 | the portion importer drops a whole decimal count such as "1.5 " before taking the word |
| Naming.UnitLabel | foodtracker-backend/import_fdc_and_openfoodfacts_to_db.py:238-240 | the label has no whitespace at either end, and is empty only for a blank description |
| Naming.UnitLabelDropsCount | foodtracker-backend/import_fdc_and_openfoodfacts_to_db.py:238-240 | a description led by a decimal count is labelled by the trimmed text after it; one without a count by itself, trimmed |
| NumericToken.Search | foodtracker-backend/import_fdc_and_openfoodfacts_to_db.py:205 | a match found starts at the leftmost position where the pattern matches, with no match at any earlier position; none found means no position matches |
| NumericToken.TokenIsNumber | foodtracker-backend/import_fdc_and_openfoodfacts_to_db.py:205 | every token the scanner reports is a number in the language of the pattern `[-+]?\d*\.?\d+(?:[eE][-+]?\d+)?` |
| NumericToken.TokenIsMaximal | foodtracker-backend/import_fdc_and_openfoodfacts_to_db.py:205 | a token is never followed by a digit that could extend it |
| NumericToken.SearchIsLeftmost | foodtracker-backend/import_fdc_and_openfoodfacts_to_db.py:205 | the text found is a number and no number of the pattern's language starts before it |
| NumericToken.SearchNoneMeansNoNumber | foodtracker-backend/import_fdc_and_openfoodfacts_to_db.py:205-207 | the search finds nothing only when no slice of the text is a number of the pattern's language |
| NumericToken.ScanNumber | foodtracker-backend/import_fdc_and_openfoodfacts_to_db.py:204-211 | a token is a number of the pattern's language and holds no comma |
| NumericToken.ScanNumberLeftmost | foodtracker-backend/import_fdc_and_openfoodfacts_to_db.py:204-211 | a token is the leftmost number of the comma-free text; no token means the comma-free text contains no number |
| NumericToken.ImportCleanNumeric | foodtracker-backend/import_fdc_and_openfoodfacts_to_db.py:197-215 | missing, NaN, blank and sentinel cells give 0; any other text cell gives the scan of its stripped text, so (with NumericToken.ScanNumberLeftmost) the leftmost number of that text with the commas removed, or 0 when there is none |
| NumericToken.PortionCleanNumeric | foodtracker-backend/post_fdc_portion_measurements_to_db.py:98-116 | an absent cell, blank text and the null words give 0; any other cell gives the scan of its stripped text, so (with NumericToken.ScanNumberLeftmost) the leftmost number of that text with the commas removed, or 0 when there is none |
| IntParse.SignLen | foodtracker-backend/merge_duplicate_foods.py:88 | at most one character, and one exactly when the text starts with a sign |
| IntParse.PyIntAccepts | foodtracker-backend/merge_duplicate_foods.py:88 | `int()` accepts exactly an optionally signed, non-empty run of digits once stripped |
| IntParse.PyIntOfRendered | foodtracker-backend/merge_duplicate_foods.py:88 | a rendered natural number reads back through `int()`, with or without surrounding whitespace |
| IntParse.JsParseInt | foodtracker-backend/src/food/food-search.service.ts:151-152 | a number exactly when, after leading whitespace and an optional sign, a digit follows |
| IntParse.JsParseIntOfRendered | foodtracker-backend/src/food/food-search.service.ts:151-152 | `parseInt` reads a rendered number back, even followed by text that does not start with a digit |
| Rounding.RoundHalfEven | foodtracker-backend/post_openfoodfacts_barcodes_to_db.py:73-82 | within one half of the value, and an exact half goes to the even neighbour |
| Rounding.TruncToward0 | foodtracker-backend/post_all_csv_data_to_db.py:238 | the integer part: for a non-negative value the largest integer not above it, for a negative value the smallest not below it |
| Rounding.JsRound | foodtracker-frontend/components/recipe/recipe-utils.ts:184 | within one half of the value, an exact half going up |
| Rounding.RoundIntegral | foodtracker-backend/import_fdc_and_openfoodfacts_to_db.py:495 | every rounding leaves an integer alone |
| Rounding.RoundNonNegative | foodtracker-backend/import_fdc_and_openfoodfacts_to_db.py:495 | rounding a non-negative value gives a non-negative integer |
| JsNum.Fixed2 | foodtracker-frontend/components/recipe/recipe-utils.ts:185 | within half a hundredth of the value, with the value's sign kept |
| FdcImport.ToEntry | foodtracker-backend/import_fdc_and_openfoodfacts_to_db.py:557-572 | a usable row's entry keeps its food id and amount |
| FdcImport.Entries | foodtracker-backend/import_fdc_and_openfoodfacts_to_db.py:556-560 | no more entries than rows |
| FdcImport.Extend | foodtracker-backend/import_fdc_and_openfoodfacts_to_db.py:561-566 | the entry's food id owns the last run afterwards, and at most one run is opened |
| FdcImport.Runs | foodtracker-backend/import_fdc_and_openfoodfacts_to_db.py:551-574 | no more runs than entries, and no runs exactly when there are no entries |
| FdcImport.RunsSnoc | foodtracker-backend/import_fdc_and_openfoodfacts_to_db.py:561-566 | the runs of one more entry are the runs so far extended by that entry |
| FdcImport.RunsUniform | foodtracker-backend/import_fdc_and_openfoodfacts_to_db.py:561-566 | every entry of a run carries the run's food id, and no run is empty |
| FdcImport.RunsMaximal | foodtracker-backend/import_fdc_and_openfoodfacts_to_db.py:563-566 | neighbouring runs belong to different foods, so each run is maximal |
| FdcImport.RunsCover | foodtracker-backend/import_fdc_and_openfoodfacts_to_db.py:556-574 | the runs, joined, give back the entries: nothing lost, reordered or duplicated |
| FdcImport.Absorb | foodtracker-backend/import_fdc_and_openfoodfacts_to_db.py:567-572 | an entry whose nutrient id parses records its amount under that id, overwriting; one that does not parse changes nothing |
| FdcImport.AmountsKeys | foodtracker-backend/import_fdc_and_openfoodfacts_to_db.py:567-572 | a nutrient id is in a group exactly when some entry of the run parses to it |
| FdcImport.AmountsLastWins | foodtracker-backend/import_fdc_and_openfoodfacts_to_db.py:572 | when several entries share a nutrient id, the last one's amount is kept |
| FdcImport.GroupsAlternate | foodtracker-backend/import_fdc_and_openfoodfacts_to_db.py:551-574 | consecutive groups belong to different foods, and there are no more groups than usable rows |
| FdcImport.StreamOpen | foodtracker-backend/import_fdc_and_openfoodfacts_to_db.py:561-562 | the first usable row opens the first group |
| FdcImport.StreamClose | foodtracker-backend/import_fdc_and_openfoodfacts_to_db.py:563-566 | a usable row of another food yields the open group and opens its own |
| FdcImport.StreamAbsorb | foodtracker-backend/import_fdc_and_openfoodfacts_to_db.py:567-572 | a usable row of the open group's food joins it |
| FdcImport.IterFdcNutrients | foodtracker-backend/import_fdc_and_openfoodfacts_to_db.py:551-574 | the generator yields exactly one group per maximal run of usable rows with one food id, in file order, including the last, each with its nutrients' last amounts |
| FdcImport.Consume | foodtracker-backend/import_fdc_and_openfoodfacts_to_db.py:556-572 | a row without a food id or nutrient id is passed over; any other row advances the stream |
| FdcImport.Advance | foodtracker-backend/import_fdc_and_openfoodfacts_to_db.py:561-572 | a usable row's entry extends the current food's amounts or closes it and opens its own |
| FdcImport.FirstAmountSpec | foodtracker-backend/import_fdc_and_openfoodfacts_to_db.py:475-479 | the amount of the first listed id present, and 0 when none is |
| FdcImport.SumAmounts | foodtracker-backend/import_fdc_and_openfoodfacts_to_db.py:489 | with non-negative listed amounts the sum is non-negative |
| FdcImport.Energy | foodtracker-backend/import_fdc_and_openfoodfacts_to_db.py:481-485 | kcal when positive; otherwise the first kJ id's amount over 4.184 when that id has an amount; otherwise the non-positive kcal |
| FdcImport.TransFat | foodtracker-backend/import_fdc_and_openfoodfacts_to_db.py:487-489 | the first trans-fat amount when positive, else the sum of the isomer amounts |
| FdcImport.VitaminDiu | foodtracker-backend/import_fdc_and_openfoodfacts_to_db.py:491-492 | never negative; 40 IU per microgram for a positive amount, else 0 |
| FdcImport.ExtractFdcNutrients | foodtracker-backend/import_fdc_and_openfoodfacts_to_db.py:470-549 | calories are the energy rounded half to even; mono and poly fat are scaled by 1000; vitamin D IU follows the microgram value; every other field is its first listed amount |
| FdcImport.SumAmountsDominates | foodtracker-backend/import_fdc_and_openfoodfacts_to_db.py:489 | with non-negative amounts the isomer sum is at least each isomer's amount |
| FdcImport.EnergyIgnoresLaterKjIds | foodtracker-backend/import_fdc_and_openfoodfacts_to_db.py:483-485 | only the first kJ id is consulted: a later kJ id with an amount does not replace a missing kcal value |
| FdcImport.FirstAmountNonNegative | foodtracker-backend/import_fdc_and_openfoodfacts_to_db.py:475-479 | a lookup over non-negative amounts reads a non-negative amount |
| FdcImport.ExtractFdcNutrientsNonNegative | foodtracker-backend/import_fdc_and_openfoodfacts_to_db.py:470-549 | from non-negative amounts every nutrient is non-negative, and the IU value is 40 times the microgram value |
| OpenFoodFacts.MaybeGToMg | foodtracker-backend/import_fdc_and_openfoodfacts_to_db.py:1039-1042 | a value of at most 10 is read as grams and multiplied by 1000; a larger one is already milligrams and kept |
| OpenFoodFacts.MaybeGToMgSettles | foodtracker-backend/import_fdc_and_openfoodfacts_to_db.py:1039-1042 | converting twice equals converting once exactly when the value is 0 or above 0.01 |
| OpenFoodFacts.Sodium | foodtracker-backend/import_fdc_and_openfoodfacts_to_db.py:1028-1037 | never negative; positive exactly when the sodium or the salt column is positive; sodium grams become milligrams, otherwise salt counts as 40% sodium |
| OpenFoodFacts.OffCalories | foodtracker-backend/import_fdc_and_openfoodfacts_to_db.py:926-930 | non-zero kcal wins; otherwise the kJ column, or the energy column, divided by 4.184; otherwise 0; rounded half to even |
| OpenFoodFacts.OffCaloriesKeepsNegative | foodtracker-backend/import_fdc_and_openfoodfacts_to_db.py:930 | a negative kcal value is truthy and reaches the payload unchanged |
| OpenFoodFacts.Payload | foodtracker-backend/import_fdc_and_openfoodfacts_to_db.py:917-1026 | no payload exactly when the cleaned barcode or both standardized names are missing; the product name is preferred over the generic name; the barcode is the food's sourceId |
| OpenFoodFacts.PayloadKey | foodtracker-backend/import_fdc_and_openfoodfacts_to_db.py:1221-1223 | the match key is the name in lower case, of the same length, with the payload's calories |
| OpenFoodFacts.RowKey | foodtracker-backend/import_fdc_and_openfoodfacts_to_db.py:1086-1092 | a stored food is matchable exactly when it has a non-empty name and calories, and then keys on its lower-cased name and calories |
| OpenFoodFacts.BuildFoodMatchLookup | foodtracker-backend/import_fdc_and_openfoodfacts_to_db.py:1056-1101 | the lookup holds exactly the keys of matchable rows, each mapped to the id of the first row carrying it; under ascending ids that is the smallest |
| OpenFoodFacts.FirstIsSmallest | foodtracker-backend/import_fdc_and_openfoodfacts_to_db.py:1082-1094 | with rows read in ascending id order, `setdefault` keeps the smallest id of each key |
| OpenFoodFacts.Upsert | foodtracker-backend/import_fdc_and_openfoodfacts_to_db.py:257-270 | the returned id is a positive id of a stored food; nothing committed changes and no food disappears |
| OpenFoodFacts.Commit | foodtracker-backend/import_fdc_and_openfoodfacts_to_db.py:1252-1257 | the stored foods stay and all become committed, leaving nothing pending |
| OpenFoodFacts.Rollback | foodtracker-backend/import_fdc_and_openfoodfacts_to_db.py:1244-1247 | the stored foods go back to the committed ones, leaving nothing pending |
| OpenFoodFacts.Probe | foodtracker-backend/import_fdc_and_openfoodfacts_to_db.py:1225-1230 | the answer is the lookup's (0 when absent); the cache only ever agrees with the lookup, stays within 50000 entries, is unchanged on a hit, and is emptied on a miss exactly when it was full |
| OpenFoodFacts.Advance | foodtracker-backend/import_fdc_and_openfoodfacts_to_db.py:1249-1254 | a successful row counts as processed; the batch commits exactly when it reaches the batch size, else grows by one |
| OpenFoodFacts.Place | foodtracker-backend/import_fdc_and_openfoodfacts_to_db.py:1232-1243 | a matched key reuses its food and counts as matched; an unmatched one creates a food, records its id in lookup and cache, and counts as new |
| OpenFoodFacts.Step | foodtracker-backend/import_fdc_and_openfoodfacts_to_db.py:1213-1254 | each row is exactly one of skipped, failed or processed; every processed row is matched or new; a failure rolls back and keeps the lookup; lookup keys are never lost |
| OpenFoodFacts.PlaceKeepsCoherent | foodtracker-backend/import_fdc_and_openfoodfacts_to_db.py:1241-1242 | lookup and cache are updated together, so the cache keeps agreeing with the lookup |
| OpenFoodFacts.ReadYourWrites | foodtracker-backend/import_fdc_and_openfoodfacts_to_db.py:1238-1242 | after a row creates a food, the next successful row with the same key is matched to that food rather than creating another |
| OpenFoodFacts.CacheClearIsHarmless | foodtracker-backend/import_fdc_and_openfoodfacts_to_db.py:1225-1230 | a key in the lookup is matched whether or not the cache was cleared |
| OpenFoodFacts.RunOpenFoodFacts | foodtracker-backend/import_fdc_and_openfoodfacts_to_db.py:1198-1280 | every consumed row is skipped, failed or processed; processed rows are matched or new; nothing is left uncommitted; a non-zero `max_openfoodfacts` is the only early stop, capping the processed rows at its value when positive and at the first processed row when negative |
| OpenFoodFacts.StaleLookupAfterRollback | foodtracker-backend/import_fdc_and_openfoodfacts_to_db.py:1241-1247 | after a food is created and a later row of the same batch fails, the rollback drops the food but the lookup still maps its key to the lost id |
| OpenFoodFacts.StepCorrected | foodtracker-backend/import_fdc_and_openfoodfacts_to_db.py:1213-1254 | with the rollback also forgetting uncommitted lookup entries, every looked-up id names a stored food, and the counters add up as in Step |
| OpenFoodFacts.PlaceKeepsValid | foodtracker-backend/import_fdc_and_openfoodfacts_to_db.py:1232-1243 | placing a row keeps every lookup entry pointing at a stored food |
| OpenFoodFacts.AdvanceKeepsValid | foodtracker-backend/import_fdc_and_openfoodfacts_to_db.py:1249-1254 | committing keeps every lookup entry pointing at a stored food |
| OpenFoodFacts.RunOpenFoodFactsCorrected | foodtracker-backend/import_fdc_and_openfoodfacts_to_db.py:1198-1280 | in the corrected loop every key in the lookup maps to a committed food at the end |
| OpenFoodFacts.CorrectedRollbackForgets | foodtracker-backend/import_fdc_and_openfoodfacts_to_db.py:1241-1247 | in the scenario of StaleLookupAfterRollback the corrected rollback leaves no stale entry |
| BarcodePoster.Calories | foodtracker-backend/post_openfoodfacts_barcodes_to_db.py:73-82 | never negative; positive kcal wins, else positive kJ (or the energy column when kJ is 0) over 4.184, else 0; a negative kJ hides the energy column |
| BarcodePoster.CaloriesAgreeWithImporter | foodtracker-backend/post_openfoodfacts_barcodes_to_db.py:73-82 | on non-negative columns the poster's calories equal the direct importer's |
| BarcodePoster.CaloriesDropNegative | foodtracker-backend/post_openfoodfacts_barcodes_to_db.py:73-82 | a negative kcal value becomes 0 here but is kept by the direct importer |
| BarcodePoster.RowToPayload | foodtracker-backend/post_openfoodfacts_barcodes_to_db.py:104-166 | no payload exactly when the cleaned barcode or both cleaned names are falsy; the product name is preferred; the barcode is the source id; the name is non-empty, calories and sodium are non-negative |
| BarcodePoster.BlankProductNameFallsBack | foodtracker-backend/post_openfoodfacts_barcodes_to_db.py:39-42 | a blank product name cleans to "" and is falsy, so the generic name is used |
| BarcodePoster.SettlingAttempt | foodtracker-backend/post_openfoodfacts_barcodes_to_db.py:188-257 | the attempt that ends the retry loop is the first final one, and the last allowed attempt is always final |
| BarcodePoster.Truncate | foodtracker-backend/post_openfoodfacts_barcodes_to_db.py:229-231 | a body longer than 300 characters keeps its first 300 and gains the truncation mark; a shorter one is unchanged |
| BarcodePoster.BackoffTotal | foodtracker-backend/post_openfoodfacts_barcodes_to_db.py:224-226 | the sleep before retry `k` is `2^k` backoff units, so `n` retries sleep `2^n - 1` units in all |
| BarcodePoster.BackoffAt | foodtracker-backend/post_openfoodfacts_barcodes_to_db.py:244-246 | the `k`-th sleep is `2^k` backoff units |
| BarcodePoster.Outcome | foodtracker-backend/post_openfoodfacts_barcodes_to_db.py:199-257 | 200/201 is success, 401/403 a fatal authentication failure, an exception a failure without status, anything else a failure whose message is the status and the truncated body; the attempt count is the settling attempt plus one |
| BarcodePoster.PostBatch | foodtracker-backend/post_openfoodfacts_barcodes_to_db.py:177-268 | with retries allowed, between 1 and `max_retries + 1` attempts are made and the result is that of the first final attempt; a transient failure on the last attempt means every retry was used; with a negative count the catch-all failure is returned |
| BarcodePoster.SettlingIsFirst | foodtracker-backend/post_openfoodfacts_barcodes_to_db.py:188-257 | no attempt before the settling one ends the loop |
| BarcodePoster.RetryThenSucceed | foodtracker-backend/post_openfoodfacts_barcodes_to_db.py:223-227 | two server errors then a success settle on the third attempt |
| BarcodePoster.UnauthorizedStopsAtOnce | foodtracker-backend/post_openfoodfacts_barcodes_to_db.py:211-221 | a 401 or 403 is never retried |
| BarcodePoster.TransientExhaustsRetries | foodtracker-backend/post_openfoodfacts_barcodes_to_db.py:223-247 | an unbroken run of 429/5xx replies or exceptions uses every retry |
| BarcodePoster.ApplyResult | foodtracker-backend/post_openfoodfacts_barcodes_to_db.py:405-436 | every row of a batch counts once as success or error and every batch once; a failure is recorded as an example exactly when fewer than the limit are kept; a fatal authentication failure stops the producer |
| BarcodePoster.WaitPartitions | foodtracker-backend/post_openfoodfacts_barcodes_to_db.py:444-446 | a wait splits the in-flight batches into done and pending without losing or inventing rows |
| BarcodePoster.Done | foodtracker-backend/post_openfoodfacts_barcodes_to_db.py:444-446 | the done batches are exactly the in-flight ones the wait reported |
| BarcodePoster.Waiting | foodtracker-backend/post_openfoodfacts_barcodes_to_db.py:444-446 | the pending batches are exactly the in-flight ones the wait did not report |
| BarcodePoster.Completed | foodtracker-backend/post_openfoodfacts_barcodes_to_db.py:442-444 | a blocking wait on a non-empty pool reports at least one batch |
| BarcodePoster.Settle | foodtracker-backend/post_openfoodfacts_barcodes_to_db.py:447-459 | a completed batch reports its own rows and batch id, whether its worker returned or raised |
| BarcodePoster.ApplyAll | foodtracker-backend/post_openfoodfacts_barcodes_to_db.py:445-460 | applying several results counts all their rows and batches, keeps the example bound and never clears an authentication failure |
| BarcodePoster.Submit | foodtracker-backend/post_openfoodfacts_barcodes_to_db.py:462-479 | a non-empty batch gets the next id, counts one posted batch and its rows as submitted, and joins the pool |
| BarcodePoster.Drain | foodtracker-backend/post_openfoodfacts_barcodes_to_db.py:438-460 | a drain only removes batches, never submits; a blocking drain of a non-empty pool removes at least one; the example bound and an authentication failure survive |
| BarcodePoster.WaitForRoom | foodtracker-backend/post_openfoodfacts_barcodes_to_db.py:507-510 | after the wait fewer than `max_inflight_batches` are in flight, unless an authentication failure stopped it |
| BarcodePoster.DrainAll | foodtracker-backend/post_openfoodfacts_barcodes_to_db.py:525-526 | the final drain leaves nothing in flight |
| BarcodePoster.SubmitAndWait | foodtracker-backend/post_openfoodfacts_barcodes_to_db.py:504-510 | a full batch is appended to the submitted batches, and the pool never exceeds the in-flight limit |
| BarcodePoster.Feed | foodtracker-backend/post_openfoodfacts_barcodes_to_db.py:490-513 | one row keeps the producer's invariant and advances the row count by one |
| BarcodePoster.Poll | foodtracker-backend/post_openfoodfacts_barcodes_to_db.py:512-513 | the every-250-rows poll submits nothing and only shrinks the pool |
| BarcodePoster.Append | foodtracker-backend/post_openfoodfacts_barcodes_to_db.py:501-510 | a payload joins the batch and a full batch is submitted, keeping the producer's invariant |
| BarcodePoster.Produce | foodtracker-backend/post_openfoodfacts_barcodes_to_db.py:481-519 | the producer reads every row unless an authentication failure stops it, polling without blocking at each chunk's end |
| BarcodePoster.Finish | foodtracker-backend/post_openfoodfacts_barcodes_to_db.py:521-526 | the last partial batch is submitted unless an authentication failure stopped the producer, and every batch is settled |
| BarcodePoster.ImportBarcodes | foodtracker-backend/post_openfoodfacts_barcodes_to_db.py:270-535 | every submitted row is counted as success or error once; the submitted batches are full except possibly the last and, with any abandoned rows, are exactly the processed rows' payloads in order; without an authentication failure every row is processed; at most `max_inflight_batches` are in flight; at most the example limit of failures is kept |
| BarcodePoster.WaitSpinsWithoutLimit | foodtracker-backend/post_openfoodfacts_barcodes_to_db.py:507-508 | with an in-flight limit of 0 or less the wait's condition holds on an empty pool and a drain of it changes nothing, so the loop never ends |
| BarcodePoster.ImportBarcodesClamped | foodtracker-backend/post_openfoodfacts_barcodes_to_db.py:270-535 | with the in-flight limit read as at least 1 the import ends for every input with every batch settled and every row processed unless authentication failed |
| CsvPoster.Get | foodtracker-backend/post_all_csv_data_to_db.py:231 | a column the chunk lacks reads as absent |
| CsvPoster.CleanNumeric | foodtracker-backend/post_all_csv_data_to_db.py:164-170 | absent, NaN and null-word cells read as 0 |
| CsvPoster.Abbreviation | foodtracker-backend/post_all_csv_data_to_db.py:172-182 | a described serving's abbreviation has at most eight characters; the fixed measurements keep their own |
| CsvPoster.Serving | foodtracker-backend/post_all_csv_data_to_db.py:208-226 | serving `i` exists exactly when both its columns are present, its weight is positive and its cleaned description is non-empty, and then carries that weight and description |
| CsvPoster.Servings | foodtracker-backend/post_all_csv_data_to_db.py:208-226 | at most one serving per remaining column number, each well shaped |
| CsvPoster.ServingsListed | foodtracker-backend/post_all_csv_data_to_db.py:208-226 | the servings are exactly the present ones, in column order |
| CsvPoster.BuildMeasurements | foodtracker-backend/post_all_csv_data_to_db.py:188-228 | 100 grams (the only default) then 1 gram, then the present servings 1 to 9 in order: between two and eleven measurements, all from the source |
| CsvPoster.NutrientsListed | foodtracker-backend/post_all_csv_data_to_db.py:240-303 | every listed nutrient field appears in the payload |
| CsvPoster.NutrientsValued | foodtracker-backend/post_all_csv_data_to_db.py:240-303 | every nutrient field holds the cleaned value of its column |
| CsvPoster.RowToPayload | foodtracker-backend/post_all_csv_data_to_db.py:230-305 | no payload exactly when the cleaned name is absent or empty; otherwise the food has that stripped name, the cleaned ID as source id, calories truncated toward zero, every nutrient column cleaned, and the built measurements |
| CsvPoster.BlankNameSkipped | foodtracker-backend/post_all_csv_data_to_db.py:231-233 | a name of blanks is skipped though the cleaner does not treat it as absent |
| CsvPoster.FindByName | foodtracker-backend/post_all_csv_data_to_db.py:336-348 | the smallest id with exactly that name, or none when no food has it |
| CsvPoster.FindBySource | foodtracker-backend/post_all_csv_data_to_db.py:321-334 | the food holding the source id, or none; a null source id matches nothing |
| CsvPoster.FindByNameSnoc | foodtracker-backend/post_all_csv_data_to_db.py:336-348 | adding a food with another name does not make a missing name findable |
| CsvPoster.Upsert | foodtracker-backend/post_all_csv_data_to_db.py:321-334 | a food with the same source id is overwritten in place and keeps its id; otherwise the food is appended under the next id; nothing else changes |
| CsvPoster.EnsureOne | foodtracker-backend/post_all_csv_data_to_db.py:365-381 | a measurement is added unless the food already has one with its abbreviation; afterwards it has one |
| CsvPoster.EnsureMeasurements | foodtracker-backend/post_all_csv_data_to_db.py:350-381 | rows are only appended, at most one per measurement, all for this food |
| CsvPoster.RowsForJoin | foodtracker-backend/post_all_csv_data_to_db.py:365-381 | rows added for the first measurement and then for the rest are rows for the whole list |
| CsvPoster.EnsureMeasurementsUnique | foodtracker-backend/post_all_csv_data_to_db.py:356-363 | no food ever gets two measurements with the same abbreviation |
| CsvPoster.EnsureMeasurementsCover | foodtracker-backend/post_all_csv_data_to_db.py:365-381 | afterwards the food has a measurement for each abbreviation in the list |
| CsvPoster.Store | foodtracker-backend/post_all_csv_data_to_db.py:388-393 | an item reuses the smallest-id food with its name, else upserts by source id; the food used carries the item's name; measurements are only added, for that food |
| CsvPoster.WriteBatch | foodtracker-backend/post_all_csv_data_to_db.py:383-397 | a committed batch adds at most one food per item and only adds measurements, keeping abbreviations unique |
| CsvPoster.KnownNameKeepsFoods | foodtracker-backend/post_all_csv_data_to_db.py:390-392 | an item whose name is already stored never writes a food |
| CsvPoster.SameSourceRenames | foodtracker-backend/post_all_csv_data_to_db.py:388-393 | a later item with the same source id and a new name overwrites the food an earlier item created, so the earlier name is gone |
| CsvPoster.ImportFoods | foodtracker-backend/post_all_csv_data_to_db.py:405-506 | a chunk without a "Name" column stops the import before its rows and the pending batch is never written; otherwise all rows are read and the payloads are written in file order in full batches with a last short one; counters and database account for exactly the batches written |
| CsvPoster.ProducedNamed | foodtracker-backend/post_all_csv_data_to_db.py:230-233 | every food sent has a non-empty, stripped name |
| CsvBatches.StartAccounted | foodtracker-backend/post_all_csv_data_to_db.py:413-415 | the empty importer accounts for nothing written |
| CsvBatches.FlushAccounts | foodtracker-backend/post_all_csv_data_to_db.py:443-473 | a flush keeps every row and batch counted once as success or failure, the database equal to the replay of the successful batches, and the example list bounded; it moves the pending batch to the written ones and does nothing without a batch |
| CsvBatches.NoFailuresWriteAll | foodtracker-backend/post_all_csv_data_to_db.py:456-458 | when no batch fails, every submitted row counts as written and every batch as successful |
| CsvBatches.StepFeeds | foodtracker-backend/post_all_csv_data_to_db.py:488-500 | one row keeps the written batches plus the pending one equal to the payloads so far, all written batches full and the pending one short |
| CsvBatches.GrowFeeds | foodtracker-backend/post_all_csv_data_to_db.py:496-500 | a payload joins the pending batch, and a batch reaching `batch_size` is written at once |
| CsvBatches.Finish | foodtracker-backend/post_all_csv_data_to_db.py:502 | the closing forced flush leaves nothing pending; the written batches are exactly the payloads in order and only the last may be short |
| CsvBatches.Produced | foodtracker-backend/post_all_csv_data_to_db.py:488-496 | the payloads are the converted rows that have one, in order |
| CsvBatches.ProducedSnoc | foodtracker-backend/post_all_csv_data_to_db.py:488-496 | one more row adds its payload, if any, at the end |
| CsvBatches.FeedChunk | foodtracker-backend/post_all_csv_data_to_db.py:488-500 | feeding a chunk's rows in order keeps the loop invariant over all rows seen |
| CsvBatches.FeedChunks | foodtracker-backend/post_all_csv_data_to_db.py:477-500 | chunks are fed up to the first one without a "Name" column, whose rows are never read |
| CsvBatches.ImportChunks | foodtracker-backend/post_all_csv_data_to_db.py:475-506 | a chunk without "Name" raises before its rows and skips the closing flush; otherwise every row is read and the last batch is flushed |
| PortionImporter.FormatAmount | foodtracker-backend/post_fdc_portion_measurements_to_db.py:125-130 | nothing exactly for a non-positive amount; an integral amount prints as its integer digits, any other through the `%g` formatter |
| PortionImporter.FormatWholeAmount | foodtracker-backend/post_fdc_portion_measurements_to_db.py:128-129 | a whole amount prints as its decimal digits with no fraction |
| PortionImporter.NonEmpty | foodtracker-backend/post_fdc_portion_measurements_to_db.py:145 | keeps exactly the non-empty parts, in order |
| PortionImporter.PartsName | foodtracker-backend/post_fdc_portion_measurements_to_db.py:143-145 | a generated name is never empty when the unit name is not |
| PortionImporter.PartsNameOfThree | foodtracker-backend/post_fdc_portion_measurements_to_db.py:144-145 | three stripped non-empty parts are joined with single spaces |
| PortionImporter.BuildMeasurement | foodtracker-backend/post_fdc_portion_measurements_to_db.py:132-154 | nothing exactly when the cleaned gram weight is not positive; otherwise the unit and weight are the row's, the description names it when present, the abbreviation is that of the name (at most eight characters), and the name is non-empty |
| PortionImporter.BuildNamesFromParts | foodtracker-backend/post_fdc_portion_measurements_to_db.py:140-145 | without a description, a whole amount, a modifier and a unit give the name "2 large cup" |
| PortionImporter.UnitLookup | foodtracker-backend/post_fdc_portion_measurements_to_db.py:156-169 | every id and name in the lookup is non-empty and stripped |
| PortionImporter.UnitLookupHasId | foodtracker-backend/post_fdc_portion_measurements_to_db.py:164-168 | every row with an id and a name has its id in the lookup |
| PortionImporter.UnitLookupLastWins | foodtracker-backend/post_fdc_portion_measurements_to_db.py:164-168 | an id maps to the name of the last row carrying it |
| PortionImporter.UnitName | foodtracker-backend/post_fdc_portion_measurements_to_db.py:252-253 | the unit name is a name from the lookup, or "unit" |
| PortionImporter.EnsureMeasurement | foodtracker-backend/post_fdc_portion_measurements_to_db.py:171-205 | inserts exactly when no row has the same food, unit, name, abbreviation and a weight within 0.01; the inserted row is active, not default, from source; afterwards a match exists |
| PortionImporter.EnsureIdempotent | foodtracker-backend/post_fdc_portion_measurements_to_db.py:177-186 | ensuring the same measurement twice inserts it at most once |
| PortionImporter.Lookup | foodtracker-backend/post_fdc_portion_measurements_to_db.py:236-246 | the answer is the food table's id (0 when absent); the cache only agrees with the table, stays within 50000 entries, is unchanged on a hit, and is emptied on a miss once full |
| PortionImporter.Classify | foodtracker-backend/post_fdc_portion_measurements_to_db.py:231-257 | a row without a cleaned fdc_id is invalid; a row is skipped as missing food exactly when its id names no food; an insertable row has a food id and a measurement |
| PortionImporter.CacheIsTransparent | foodtracker-backend/post_fdc_portion_measurements_to_db.py:236-246 | a row's outcome is the same with an empty cache |
| PortionImporter.Record | foodtracker-backend/post_fdc_portion_measurements_to_db.py:259-273 | a successful statement counts once as inserted or existing, inserted moves in step with the table, and the batch commits once the batch size is reached |
| PortionImporter.Apply | foodtracker-backend/post_fdc_portion_measurements_to_db.py:259-269 | every row counts as scanned; a failing insert rolls back and counts one error while the discarded rows keep their inserted counts, so inserted never falls behind the table |
| PortionImporter.Step | foodtracker-backend/post_fdc_portion_measurements_to_db.py:228-273 | one row keeps the run's invariant and counts as scanned |
| PortionImporter.Finish | foodtracker-backend/post_fdc_portion_measurements_to_db.py:274-276 | the closing commit makes everything pending committed and leaves the counters alone |
| PortionImporter.ImportPortions | foodtracker-backend/post_fdc_portion_measurements_to_db.py:207-278 | every row is scanned and counted in exactly one outcome; the committed table extends the original; it gained at most `inserted` rows |
| PortionImporter.InsertedOvercounts | foodtracker-backend/post_fdc_portion_measurements_to_db.py:259-269 | a measurement counted as inserted is discarded by a later failing row's rollback in the same transaction, so the count exceeds the rows added |
| PortionImporter.ApplyCorrected | foodtracker-backend/post_fdc_portion_measurements_to_db.py:259-269 | with a rollback moving the discarded rows to errors, inserted moves exactly in step with the table |
| PortionImporter.StepCorrected | foodtracker-backend/post_fdc_portion_measurements_to_db.py:228-273 | one corrected row keeps the invariant and inserted moves exactly with the table |
| PortionImporter.ImportPortionsCorrected | foodtracker-backend/post_fdc_portion_measurements_to_db.py:207-278 | in the corrected run the committed table gains exactly `inserted` rows |
| PortionImporter.CorrectedRollbackUncounts | foodtracker-backend/post_fdc_portion_measurements_to_db.py:259-269 | in the scenario of InsertedOvercounts the corrected count is zero inserted and two errors |
| Backfill.CleanId | foodtracker-backend/backfill_csv_foods_and_recreate_index.py:139-143 | a kept ID is non-empty and stripped |
| Backfill.CollectAppend | foodtracker-backend/backfill_csv_foods_and_recreate_index.py:139-143 | collecting two runs of rows keeps both runs' output in order |
| Backfill.CollectKeeps | foodtracker-backend/backfill_csv_foods_and_recreate_index.py:139-143 | everything a row contributes is collected |
| Backfill.CollectFrom | foodtracker-backend/backfill_csv_foods_and_recreate_index.py:139-143 | everything collected comes from some row |
| Backfill.ChunkIdsAppend | foodtracker-backend/backfill_csv_foods_and_recreate_index.py:139-143 | the IDs of two runs of rows are the first run's followed by the second's |
| Backfill.ChunkIdsMembers | foodtracker-backend/backfill_csv_foods_and_recreate_index.py:139-143 | an ID is kept exactly when some row cleans to it |
| Backfill.Dedup | foodtracker-backend/backfill_csv_foods_and_recreate_index.py:150 | `dict.fromkeys` keeps exactly the IDs of the list, each once |
| Backfill.DedupOrder | foodtracker-backend/backfill_csv_foods_and_recreate_index.py:150 | the distinct IDs keep their first-occurrence order |
| Backfill.FirstIndex | foodtracker-backend/backfill_csv_foods_and_recreate_index.py:150 | the first position holding the element |
| Backfill.Mark | foodtracker-backend/backfill_csv_foods_and_recreate_index.py:101-102 | the UPDATE keeps the number of food rows |
| Backfill.MarkElements | foodtracker-backend/backfill_csv_foods_and_recreate_index.py:101-102 | every row keeps its sourceId, and a row is flagged afterwards exactly when it was flagged or its sourceId is listed |
| Backfill.MarkCounts | foodtracker-backend/backfill_csv_foods_and_recreate_index.py:101-103 | the statement's row count is exactly the number of flags it adds |
| Backfill.MarkNothing | foodtracker-backend/backfill_csv_foods_and_recreate_index.py:98-99 | an empty list flags nothing |
| Backfill.MarkTwice | foodtracker-backend/backfill_csv_foods_and_recreate_index.py:151-153 | flagging with two lists in turn is flagging with both |
| Backfill.MarkSameMembers | foodtracker-backend/backfill_csv_foods_and_recreate_index.py:150-153 | the outcome depends only on which IDs are listed, not their order or repetition |
| Backfill.UpdateIsCsvFood | foodtracker-backend/backfill_csv_foods_and_recreate_index.py:93-103 | an empty list runs no statement and reports 0; otherwise the listed rows are flagged and the count is the number of new flags |
| Backfill.UpdateSlices | foodtracker-backend/backfill_csv_foods_and_recreate_index.py:151-153 | the slices are the distinct IDs in order, all full but the last; together they flag exactly the listed rows and their counts sum to the new flags |
| Backfill.BackfillChunk | foodtracker-backend/backfill_csv_foods_and_recreate_index.py:139-154 | a chunk's rows are all scanned; with a positive batch size its IDs are flagged; a zero batch size with IDs raises; the updated count moves with the flags |
| Backfill.NextChunk | foodtracker-backend/backfill_csv_foods_and_recreate_index.py:133-154 | a chunk with the ID column either raises on a zero step or is read in full |
| Backfill.MarkNextChunk | foodtracker-backend/backfill_csv_foods_and_recreate_index.py:126-154 | flagging chunk by chunk is flagging with the IDs of every row read |
| Backfill.RunBackfill | foodtracker-backend/backfill_csv_foods_and_recreate_index.py:105-158 | the run reads chunks up to the first without the ID column, or the first with IDs under a zero batch size, and flags exactly the IDs of the rows read; a negative batch size flags nothing |
| MergeDuplicates.ParseIds | foodtracker-backend/merge_duplicate_foods.py:88 | empty pieces are dropped and an unreadable piece is an error; never more ids than pieces |
| MergeDuplicates.FetchGroups | foodtracker-backend/merge_duplicate_foods.py:86-92 | every group kept has at least two ids |
| MergeDuplicates.FetchGroupsSucceeds | foodtracker-backend/merge_duplicate_foods.py:86-92 | the fetch fails exactly when some row is unreadable, and otherwise keeps the rows with two or more ids |
| MergeDuplicates.FetchRendered | foodtracker-backend/merge_duplicate_foods.py:82-92 | a row written by `GROUP_CONCAT(id ORDER BY id)` reads back as its group |
| MergeDuplicates.ParseRendered | foodtracker-backend/merge_duplicate_foods.py:88 | reading back the comma-joined ids gives the ids in order |
| MergeDuplicates.Repoint | foodtracker-backend/merge_duplicate_foods.py:113-135 | an UPDATE of one table keeps its number of rows |
| MergeDuplicates.CountIn | foodtracker-backend/merge_duplicate_foods.py:117 | a row count is at most the table size |
| MergeDuplicates.RepointElements | foodtracker-backend/merge_duplicate_foods.py:113-135 | exactly the rows pointing at a duplicate move to the kept food; every other row is unchanged |
| MergeDuplicates.RepointTwice | foodtracker-backend/merge_duplicate_foods.py:112-135 | moving duplicates one after another is moving them all at once |
| MergeDuplicates.CountMoved | foodtracker-backend/merge_duplicate_foods.py:112-117 | each UPDATE counts the rows of its duplicate not moved before |
| MergeDuplicates.RepointConserves | foodtracker-backend/merge_duplicate_foods.py:112-135 | no row is created or lost: the kept food ends with its own rows and the moved ones |
| MergeDuplicates.RepointClears | foodtracker-backend/merge_duplicate_foods.py:112-135 | afterwards no row points at a removed duplicate |
| MergeDuplicates.MoveOne | foodtracker-backend/merge_duplicate_foods.py:113-138 | one duplicate's statements delete that food and leave the group count alone |
| MergeDuplicates.MoveOneStep | foodtracker-backend/merge_duplicate_foods.py:112-138 | one more duplicate after the earlier ones is the merge of the group with it added |
| MergeDuplicates.DeletedStep | foodtracker-backend/merge_duplicate_foods.py:137-138 | the DELETE of a duplicate counts a row exactly when it is still there |
| MergeDuplicates.MoveAll | foodtracker-backend/merge_duplicate_foods.py:112-138 | the duplicates' statements delete exactly those duplicates from the food table and leave the group count alone |
| MergeDuplicates.MoveAllMerged | foodtracker-backend/merge_duplicate_foods.py:112-138 | running the duplicates' statements one after another is the all-at-once merge of them all, when the kept id is none of them |
| MergeDuplicates.GroupMerged | foodtracker-backend/merge_duplicate_foods.py:106-141 | a group whose kept id is not repeated is the all-at-once merge, with the counters grown by the rows it touched |
| MergeDuplicates.MergeGroup | foodtracker-backend/merge_duplicate_foods.py:106-141 | the loop computes the group's statements one after another; a group without duplicates is passed over; otherwise it counts one group and, when the kept id is not repeated, equals the all-at-once merge with counters grown by the rows it touched |
| MergeDuplicates.MergedNone | foodtracker-backend/merge_duplicate_foods.py:106-109 | a group with nothing merged yet changes nothing but the group count |
| MergeDuplicates.RepointIntact | foodtracker-backend/merge_duplicate_foods.py:113-135 | rows pointing at existing foods still do after the move and the delete |
| MergeDuplicates.MergedIntact | foodtracker-backend/merge_duplicate_foods.py:112-138 | merging a group keeps every reference pointing at an existing food |
| MergeDuplicates.MergedTwice | foodtracker-backend/merge_duplicate_foods.py:112-138 | merging a group twice finds nothing left to move or delete |
| MergeDuplicates.MergeRun | foodtracker-backend/merge_duplicate_foods.py:99-141 | merging the first `n` groups in order counts at most `n` groups |
| MergeDuplicates.UntouchedNotDropped | foodtracker-backend/merge_duplicate_foods.py:106-107 | an id in none of the first groups is none of their duplicates |
| MergeDuplicates.MergeRunIntact | foodtracker-backend/merge_duplicate_foods.py:99-141 | with groups as the grouping query makes them, after the first `n` groups the food table has lost exactly their duplicates and every row still points at an existing food |
| MergeDuplicates.GroupStepIntact | foodtracker-backend/merge_duplicate_foods.py:106-141 | one more group removes exactly its duplicates and keeps every reference pointing at an existing food |
| MergeDuplicates.MergeRunClears | foodtracker-backend/merge_duplicate_foods.py:99-141 | after the first `n` groups no row of the four referencing tables points at a deleted duplicate |
| MergeDuplicates.AvoidsGone | foodtracker-backend/merge_duplicate_foods.py:113-138 | rows that point at existing foods point at no deleted food |
| MergeDuplicates.Merge | foodtracker-backend/merge_duplicate_foods.py:94-147 | the run fails exactly when a group's statements fail, stopping at it with that group rolled back; the database and counters are the in-order merge of the groups before it; every group before it is counted; with groups as the grouping query makes them, exactly their duplicates are deleted, references stay intact, and none points at a deleted duplicate |

## Left out

- Text.IsSpace: only space, tab, line feed, carriage return, vertical tab and form feed count. Python's `str.strip()`, `str.split()` and `\s` also treat the ASCII separators U+001C to U+001F as whitespace, which JavaScript's `trim()` does not. Both languages also strip Unicode spaces such as U+00A0 and U+2003.
- Text.Lower: lower-cases ASCII letters only. Python's `.lower()` and JavaScript's `toLowerCase()` also fold letters such as `É`.
- NumericToken.ScanNumber: `\d` matches the ASCII digits only. Python's `re` `\d` also matches other Unicode decimal digits.
- IntParse.PyInt: rejects underscores (`"1_003"`) and non-ASCII digits, both of which Python's `int()` accepts (import_fdc_and_openfoodfacts_to_db.py:566).
- Rounding.RoundHalfEven: reals have no infinity or NaN. The crashes on those values are therefore not modelled: `int(round(inf))` at post_openfoodfacts_barcodes_to_db.py:76/80 and import_fdc_and_openfoodfacts_to_db.py:495/930.
- Rounding.TruncToward0: the `int(inf)`/`int(nan)` crash at post_all_csv_data_to_db.py:238 is not modelled, for the same reason.
- CsvPoster.FloatParser: Python's `float()` is a parameter. Only its use on the scanned token is modelled.
- CsvPoster.FindByName: compares names exactly. `WHERE name = %s` compares under the column's MySQL collation, which under MySQL's default collation ignores case and accents.
- CsvPoster.FindBySource: compares source ids exactly. The unique key on `sourceId` compares them under MySQL collation.
- CsvPoster.EnsureOne: compares abbreviations exactly. `WHERE foodId = %s AND abbreviation = %s` (post_all_csv_data_to_db.py:365-381) compares under the column's MySQL collation, so an abbreviation differing only in case, accents or trailing spaces is found there and inserted here. CsvPoster.EnsureMeasurements and its lemmas inherit this.
- PortionImporter.EnsureMeasurement: compares the unit, name and abbreviation exactly. The `SELECT` at post_fdc_portion_measurements_to_db.py:177-186 compares them under MySQL collation, so a measurement differing only in case, accents or trailing spaces is reused there and inserted here. PortionImporter.EnsureIdempotent holds either way.
- FoodBarcodeService.FindMatchingFood: compares names exactly. `food.name = :name` (foodbarcode.service.ts:267-282) compares under MySQL collation, which under the default collation ignores case, accents and trailing spaces, so "Apple" there reuses a stored "apple" that the model would not match and would create again.
- Backfill.MarkElements: flags a row exactly when its source id is in the list. `sourceId IN (...)` (backfill_csv_foods_and_recreate_index.py:101-102) compares under MySQL collation and so can also flag a row whose id differs only in case or trailing spaces.
- MergeDuplicates.FetchRendered: assumes `GROUP_CONCAT(id ORDER BY id)` is returned whole. MySQL cuts it at `group_concat_max_len`, 1024 bytes by default, and merge_duplicate_foods.py:82-92 never raises that limit. A group whose joined ids pass 1024 bytes (roughly 150 to 200 ids) comes back cut, possibly inside an id, and the cut piece parses as a different id. The model does not cover groups that large.
- BarcodePoster.Done: applies the results of one drain in submission order. `for future in done` walks a set, whose order Python does not fix.
- BarcodePoster.ImportBarcodes: requires an in-flight limit of at least 1. With a limit of 0 or below, the wait loop of the source never ends (see Findings). ImportBarcodesClamped accepts any limit.
- Naming.StandardizeFoodName: not idempotent. "NONE" becomes "None", which a second pass discards as a sentinel (StandardizeUpperNone, NoneIsDiscarded). StandardizeIdempotent is therefore stated only for results that are not a sentinel spelling. This is kept as the source's behaviour, not claimed as a bug.
- Naming.CsvAbbreviation: the contract states only the eight-character bound. How unit words are glued is stated by GlueUnits and GlueAroundUnit.
- CsvPoster.Abbreviation: states the bound only for described servings, for the same reason.
- OpenFoodFacts.Step: rows of a batch that is rolled back stay counted in `processed` and `created`, as the source counts them at import_fdc_and_openfoodfacts_to_db.py:1243/1250. OpenFoodFacts.StepCorrected keeps those counts too and only fixes the lookup.
- TokenRevocation.RevokeToken: a failing database write, which the source logs and rethrows, is not modelled. Neither is `onModuleInit`, which only calls the cache refresh.
- AuditLog: `getRecentFailedLogins` and `getUserLoginHistory` are plain database queries and are not modelled.
- AuthCookies: the controller's `getUserInfo` only returns the request's user and is not modelled.
- AuthCookies.Refresh: which tokens the service refuses, and the status and message it refuses with, are a parameter. The auth.service.ts this model reads has no `refresh` method.
- Csrf: token generation (`generateToken`, random bytes) and `hashToken` (SHA-256) are parameters.
- FoodEntryService.GetDiaryEntries: states which entries are returned, not their descending `loggedAt` order. `loggedAt` is an integer timestamp supplied by the caller rather than the database's default time.
- Friends.GetFriendDiaryEntries: the friend's diary is read through a parameter.
- Friends.ImportFriendRecipe: copying the recipe is a parameter. `cloneRecipeFromUser` is not part of this model.
- FoodService.GetAllFoods: the name order the query returns is a parameter.
- RecipeService: the title order of the recipe listing is a parameter. The `LIKE` search is modelled as a substring test, so `%` or `_` typed into the search text are not treated as wildcards.
- Friends.MatchingMembers: `LOWER(name) LIKE '%value%'` is modelled as a substring test on the lower-cased name, so `%` or `_` in a search value are not treated as wildcards. Friends.SearchUsers, which filters with it, inherits this.
- FoodSearch.BatchSizeSetting: the parsed setting is an unbounded integer. JavaScript's `parseInt` turns an overlong digit string into `Infinity`, which passes the `> 0` test, and rounds long digit strings to the nearest float.
- SignUpForm.ValidateForm: counts password characters, not UTF-16 code units. `password.length` counts a character outside the Basic Multilingual Plane (an emoji, say) as 2, so such a password can pass the six-character check in the source with fewer characters than the model needs.
- JsNum.Num: one non-finite value stands for `NaN`, `Infinity` and `-Infinity`, and `Truthy` treats all of them as falsy. In JavaScript the infinities are truthy. The only truthiness test is on a recipe's serving count, which arrives as JSON and so is never infinite.
- FoodSearch: Elasticsearch's scoring and query body are a parameter. `onModuleInit`, `indexFood`, `ensureIndex`, `createIndex` and `recreateIndex` are index administration and are not modelled. FoodService's `recreateFoodIndex` is not modelled either.
- Paging.Window: limits and pages are natural numbers. Negative values, which the controllers never pass on, are not modelled.
- FoodBarcodeService.Resolve: a food that matches nothing is created through the corrected FoodService.CreateFood, not the `createFood` as written that foodbarcode.service.ts:134 calls. The two agree for every item with a source id (FoodService.CreateFoodAgrees); for an item without one, the code as written overwrites the first food's row (see Findings).
- FoodBarcodeService: the table of unit scales is a parameter. FoodBarcodeService.ImportThenLookup states only the food id the lookup finds, not the whole food.
- SignUpForm.HandleSignUp: the alerts for a failing `createAccount` call are the API's answer and are not modelled.
- FoodEntryUtils: the display formatters `formatServings`, `getEntryServingsText`, `formatEntryCalories`, `buildEntryMacroRows` and `buildEntryNutritionRows` only build text and are not modelled.
- RecipeUtils: the row builders (`buildNutritionRows`, `buildCoreNutritionRows`, `buildMacroNutritionRowsFromTotals`, `buildCoreNutritionRowsFromTotals`, `buildNutritionRowsFromTotals`, `buildNutritionRowsFromFields`), `formatCalories` and `getFoodMeasurements` only build display data and are not modelled.
- Binary floating point: `toFixed`, `Math.round` and `Number` conversion on floats, and Python float arithmetic, are modelled on exact reals.
- OpenFoodFacts.Payload: keeps the barcode, source id, name and calories, which the matching loop reads. The other nutrients, the measurements and the barcode row that `_openfoodfacts_payload` builds are not modelled.
- FdcImport.NutrientIds: the id lists that `_fdc_nutrient_ids` (import_fdc_and_openfoodfacts_to_db.py:392) builds from nutrient.csv are passed in as a function. Reading the file (`_load_nutrient_lookup`) and filtering nutrients by name and unit are not modelled.
- Backfill: `recreate_index` is an HTTP call to the backend and is not modelled.
- FdcImport: the remaining functions of the import script are reading, orchestration or index maintenance and are not modelled. These are `_fdc_to_food_payload`, `_run_fdc_import`, `_run_fdc_portions`, `_build_default_measurements`, `_build_portion_measurement`, `_parse_serving_grams`, `_load_nutrient_lookup`, `_insert_or_update_barcode`, the Elasticsearch helpers (1284-1430), `run` (1431), and the `_populate_*meta`/`_lookup_*meta` helpers.
- Logging, progress reporting, timing and latency figures, sleeping between retries (only the number of backoff units is kept), file reading and command-line parsing.

## Findings

| source | as written | input that shows it | evidently intended | confidence | as-written member | corrected member |
|---|---|---|---|---|---|---|
| foodtracker-backend/import_fdc_and_openfoodfacts_to_db.py:1238-1247 | after a failing row, `conn.rollback()` undoes the batch's earlier inserts, but the match lookup keeps their food ids | in one uncommitted batch, row 1 (name "A", calories 1) creates food 1 and row 2 fails; the lookup still maps ("a", 1) to food 1, which no longer exists | the rollback also forgets the lookup entries made since the last commit | not executed | OpenFoodFacts.StaleLookupAfterRollback | OpenFoodFacts.StepCorrected, OpenFoodFacts.RunOpenFoodFactsCorrected, OpenFoodFacts.CorrectedRollbackForgets |
| foodtracker-backend/post_openfoodfacts_barcodes_to_db.py:507-508 | `while len(futures) >= max_inflight_batches` with a limit of 0 or below, once the pool is empty | `max_inflight_batches = 0`: the empty pool satisfies the condition, and draining it changes nothing, so the loop never ends | read a limit below 1 as 1, as the portion importer does for its batch size (post_fdc_portion_measurements_to_db.py:22) | not executed | BarcodePoster.WaitSpinsWithoutLimit | BarcodePoster.ImportBarcodesClamped |
| foodtracker-backend/post_fdc_portion_measurements_to_db.py:259-269 | a measurement inserted by one row is counted in `inserted`, and stays counted after a later row's failure rolls it back | row 1 inserts "1 cup" for food 7 and row 2 ("2 cup") raises before the commit: `inserted` is 1, but nothing is committed | rows lost in a rollback are no longer counted as inserted | not executed | PortionImporter.InsertedOvercounts | PortionImporter.ApplyCorrected, PortionImporter.StepCorrected, PortionImporter.ImportPortionsCorrected, PortionImporter.CorrectedRollbackUncounts |
| foodtracker-backend/src/recipe/recipe.service.ts:30-34 | ingredient lines are saved with `servings` and `measurementId`, which the `RecipeFood` entity has no columns for, and without `amount` | lines (food 7, 1 serving) and (food 7, 2.5 servings, measurement 3) are stored as the same row | the servings are stored in `amount`, the column recipefood.entity.ts:17-18 describes | not executed; low, since the front end's foodtracker-frontend/types/recipefood/recipefood.d.ts lists `servings` and `measurementId`, so the entity file may be out of date | RecipeService.StoredRowAsWritten, RecipeService.ServingsLostAsWritten | RecipeService.StoredRow, RecipeService.StoredRowKeepsServings |
| foodtracker-backend/src/food/food.service.ts:39-56 | `findOneBy({ sourceId })` with `sourceId` undefined drops the condition, and so finds the first food | a food posted without a source id into a non-empty table overwrites the first food's row instead of adding one | a food without a source id is inserted as a new row | not executed | FoodService.FindBySourceIdAsWritten, FoodService.CreateFoodAsWritten, FoodService.MissingSourceIdOverwritesFirst | FoodService.CreateFood |

=== FILE: audit_log.dfy ===
/** The authentication audit log: where a client's IP address is read from, recording an event
    without ever failing the caller, and the per-category statistics over a window of events.
    The log table is a sequence of rows; a failing write is a parameter. */
module AuditLog {
  import opened Wrappers
  import Text
  import AuthCookies

  // ---------------------------------------------------------------------------------------------
  // Client address

  datatype Request = Request(forwardedFor: AuthCookies.Header, ip: Option<string>, remoteAddress: Option<string>)

  /** Reading the first element of an empty header list, which throws a TypeError. */
  datatype TypeError = EmptyHeaderList

  /** The address the socket reports: `request.ip`, unless it is empty or missing. */
  function SocketAddress(req: Request): Option<string>
  {
    if AuthCookies.Present(req.ip) then req.ip else req.remoteAddress
  }

  /** `extractIpAddress`: the first (client) entry of `X-Forwarded-For`, trimmed; without a
      non-empty header, the socket's address. */
  function ExtractIpAddress(req: Request): (r: Result<Option<string>, TypeError>)
    ensures req.forwardedFor.One? && req.forwardedFor.value != [] ==>
      r == Success(Some(Text.Strip(Text.FirstPiece(req.forwardedFor.value, ','))))
    ensures req.forwardedFor.Many? && req.forwardedFor.values != [] ==>
      r == Success(Some(Text.Strip(req.forwardedFor.values[0])))
    ensures req.forwardedFor == AuthCookies.Many([]) <==> r.Failure?
    ensures req.forwardedFor.Absent? || req.forwardedFor == AuthCookies.One([]) ==>
      r == Success(SocketAddress(req))
  {
    match req.forwardedFor
    case One(v) =>
      if v != [] then
        Text.FirstPieceIsSplitHead(v, ',');
        Success(Some(Text.Strip(Text.Split(v, ',')[0])))
      else Success(SocketAddress(req))
    case Many(vs) => if vs == [] then Failure(EmptyHeaderList) else Success(Some(Text.Strip(vs[0])))
    case Absent => Success(SocketAddress(req))
  }

  /** A proxy chain `client, proxy1, proxy2` yields the client. */
  lemma ClientOfProxyChain(client: string, proxies: string, req: Request)
    requires ',' !in client && req.forwardedFor == AuthCookies.One(client + [','] + proxies)
    ensures ExtractIpAddress(req) == Success(Some(Text.Strip(client)))
  {
    Text.IndexOfAfter(client, proxies, ',');
    assert (client + [','] + proxies)[..|client|] == client;
  }

  // ---------------------------------------------------------------------------------------------
  // Recording events

  datatype EventType =
    | LoginSuccess | LoginFailure | Register | Logout | TokenRefresh | TokenRefreshFailure
    | PasswordChange | EmailVerified

  datatype LogRow = LogRow(
    userId: Option<int>,
    email: Option<string>,
    eventType: EventType,
    success: bool,
    ipAddress: Option<string>,
    userAgent: Option<string>)

  datatype EventOptions = EventOptions(
    userId: Option<int>,
    email: Option<string>,
    eventType: EventType,
    success: bool,
    request: Option<(Request, Option<string>)>)

  /** `logEvent`: appends one row when the write succeeds. Any failure, including a malformed
      forwarding header, is swallowed: the log is left as it was and the caller never sees an
      error, which the result type (a log, not a `Result`) records. */
  function LogEvent(log: seq<LogRow>, opts: EventOptions, writeFails: bool): (r: seq<LogRow>)
    ensures r == log || (|r| == |log| + 1 && r[..|log|] == log)
    ensures |r| == |log| + 1 <==>
      !writeFails && (opts.request.None? || ExtractIpAddress(opts.request.value.0).Success?)
    ensures |r| == |log| + 1 ==>
      && r[|log|].eventType == opts.eventType && r[|log|].success == opts.success
      && r[|log|].userId == opts.userId && r[|log|].email == opts.email
      && (opts.request.None? ==> r[|log|].ipAddress.None? && r[|log|].userAgent.None?)
      && (opts.request.Some? ==> r[|log|].ipAddress == ExtractIpAddress(opts.request.value.0).value
                                 && r[|log|].userAgent == opts.request.value.1)
  {
    var ip := if opts.request.Some? then ExtractIpAddress(opts.request.value.0) else Success(None);
    var agent := if opts.request.Some? then opts.request.value.1 else None;
    if ip.Failure? || writeFails then log
    else log + [LogRow(opts.userId, opts.email, opts.eventType, opts.success, ip.value, agent)]
  }

  // ---------------------------------------------------------------------------------------------
  // Statistics

  datatype Stats = Stats(
    totalEvents: nat,
    loginSuccess: nat,
    loginFailure: nat,
    registrations: nat,
    tokenRefreshSuccess: nat,
    tokenRefreshFailure: nat,
    logouts: nat)

  /** How many events of type `t` the sequence holds. */
  function Occurrences(events: seq<EventType>, t: EventType): (n: nat)
    ensures n <= |events|
  {
    if events == [] then 0
    else Occurrences(events[..|events| - 1], t) + (if events[|events| - 1] == t then 1 else 0)
  }

  /** The six counted categories. */
  function CategorySum(s: Stats): nat
  {
    s.loginSuccess + s.loginFailure + s.registrations + s.tokenRefreshSuccess + s.tokenRefreshFailure + s.logouts
  }

  /** The counters `getAuthStatistics` bumps for one event. */
  function Bump(s: Stats, t: EventType): Stats
  {
    match t
    case LoginSuccess => s.(loginSuccess := s.loginSuccess + 1)
    case LoginFailure => s.(loginFailure := s.loginFailure + 1)
    case Register => s.(registrations := s.registrations + 1)
    case TokenRefresh => s.(tokenRefreshSuccess := s.tokenRefreshSuccess + 1)
    case TokenRefreshFailure => s.(tokenRefreshFailure := s.tokenRefreshFailure + 1)
    case Logout => s.(logouts := s.logouts + 1)
    case PasswordChange => s
    case EmailVerified => s
  }

  /** Each counter equals the number of events of its type among `events`. */
  predicate Counts(s: Stats, events: seq<EventType>)
  {
    && s.loginSuccess == Occurrences(events, LoginSuccess)
    && s.loginFailure == Occurrences(events, LoginFailure)
    && s.registrations == Occurrences(events, Register)
    && s.tokenRefreshSuccess == Occurrences(events, TokenRefresh)
    && s.tokenRefreshFailure == Occurrences(events, TokenRefreshFailure)
    && s.logouts == Occurrences(events, Logout)
  }

  /** Every event lands in exactly one of the eight types. */
  lemma {:induction false} OccurrencesPartition(events: seq<EventType>)
    ensures Occurrences(events, LoginSuccess) + Occurrences(events, LoginFailure)
          + Occurrences(events, Register) + Occurrences(events, TokenRefresh)
          + Occurrences(events, TokenRefreshFailure) + Occurrences(events, Logout)
          + Occurrences(events, PasswordChange) + Occurrences(events, EmailVerified) == |events|
    decreases |events|
  {
    if events != [] {
      OccurrencesPartition(events[..|events| - 1]);
    }
  }

  /** `getAuthStatistics` over the events of the window, in the order the query returns them. */
  method AuthStatistics(events: seq<EventType>) returns (s: Stats)
    ensures s.totalEvents == |events|
    ensures Counts(s, events)
    ensures CategorySum(s) + Occurrences(events, PasswordChange) + Occurrences(events, EmailVerified)
            == s.totalEvents
    ensures CategorySum(s) <= s.totalEvents
  {
    s := Stats(|events|, 0, 0, 0, 0, 0, 0);
    for i := 0 to |events|
      invariant s.totalEvents == |events|
      invariant Counts(s, events[..i])
    {
      assert events[..i + 1][..i] == events[..i];
      s := Bump(s, events[i]);
    }
    assert events[..|events|] == events;
    OccurrencesPartition(events);
  }
}

=== FILE: auth_cookies.dfy ===
/** The authentication controller's request handling: whether a request arrived over HTTPS, the
    cookie options derived from that, when the refresh token may appear in a response body, and
    what login, refresh and logout answer and which cookies they set or clear. The services behind
    the controller are parameters. */
module AuthCookies {
  import opened Wrappers
  import Text

  /** An HTTP header as Express delivers it: absent, a single value, or a list of values. */
  datatype Header = Absent | One(value: string) | Many(values: seq<string>)

  /** What the controller reads from a request; `refreshCookie` is `None` when there is no cookie
      jar or no such cookie. */
  datatype Request = Request(
    secure: bool,
    forwardedProto: Header,
    origin: Option<string>,
    refreshCookie: Option<string>)

  /** JavaScript truthiness of an optional string. */
  predicate Present(s: Option<string>) { s.Some? && s.value != [] }

  /** `isSecureRequest`: a TLS connection, or a proxy that reports `https` as the first entry of a
      single `X-Forwarded-Proto` header. */
  function IsSecureRequest(req: Request): (r: bool)
    ensures req.secure ==> r
    ensures !req.secure ==>
      (r <==> req.forwardedProto.One? && Text.Strip(Text.FirstPiece(req.forwardedProto.value, ',')) == "https")
  {
    if req.secure then true
    else match req.forwardedProto
      case One(v) =>
        Text.FirstPieceIsSplitHead(v, ',');
        Text.Strip(Text.Split(v, ',')[0]) == "https"
      case _ => false
  }

  datatype SameSite = Lax | NoRestriction

  datatype CookieOptions = CookieOptions(httpOnly: bool, secure: bool, sameSite: SameSite, path: string)

  /** `getCookieOptions`: cookies are never readable by scripts, cover the whole site, and are
      cross-site (`SameSite=None`) only when they are also marked secure. */
  function GetCookieOptions(req: Request): (o: CookieOptions)
    ensures o.httpOnly && o.path == "/"
    ensures o.secure == IsSecureRequest(req)
    ensures o.sameSite == NoRestriction <==> o.secure
  {
    var secure := IsSecureRequest(req);
    CookieOptions(true, secure, if secure then NoRestriction else Lax, "/")
  }

  const AccessCookie: string := "accessToken"
  const RefreshCookie: string := "refreshToken"

  /** Fifteen minutes and thirty days, in milliseconds. */
  const AccessMaxAgeMs: int := 1000 * 60 * 15
  const RefreshMaxAgeMs: int := 1000 * 60 * 60 * 24 * 30

  datatype CookieOp =
    | SetCookie(name: string, value: string, options: CookieOptions, maxAgeMs: int)
    | ClearCookie(name: string, options: CookieOptions)

  /** An authentication result: the two tokens and the remaining fields `X` (user id, user name,
      CSRF token), which the controller passes through untouched. */
  datatype AuthPayload<X> = AuthPayload(accessToken: string, refreshToken: Option<string>, other: X)

  /** Native clients send no `Origin` header and read the refresh token from the body; browsers
      keep it in the http-only cookie only. */
  predicate ExposesRefreshToken(req: Request) { !Present(req.origin) }

  /** `buildAuthResponse`: the payload unchanged for a native client, else without its refresh
      token and with every other field intact. */
  function BuildAuthResponse<X>(payload: AuthPayload<X>, req: Request): (r: AuthPayload<X>)
    ensures r.accessToken == payload.accessToken && r.other == payload.other
    ensures ExposesRefreshToken(req) ==> r == payload
    ensures !ExposesRefreshToken(req) ==> r.refreshToken.None?
  {
    if ExposesRefreshToken(req) then payload else payload.(refreshToken := None)
  }

  datatype ServerError = RefreshTokenMissing

  /** `requireRefreshToken`: a missing or empty refresh token is a server error. */
  function RequireRefreshToken<X>(payload: AuthPayload<X>): (r: Result<string, ServerError>)
    ensures r.Success? <==> Present(payload.refreshToken)
    ensures r.Success? ==> payload.refreshToken == Some(r.value)
  {
    if Present(payload.refreshToken) then Success(payload.refreshToken.value)
    else Failure(RefreshTokenMissing)
  }

  datatype Body<X> = Tokens(payload: AuthPayload<X>) | Message(text: string) | LoggedOut

  datatype Reply<X> = Reply(status: int, cookies: seq<CookieOp>, body: Body<X>)

  /** The two cookies a sign-in sets, with the request's options and their lifetimes. */
  function AuthCookiesFor(req: Request, access: string, refresh: string): seq<CookieOp>
  {
    var o := GetCookieOptions(req);
    [SetCookie(AccessCookie, access, o, AccessMaxAgeMs), SetCookie(RefreshCookie, refresh, o, RefreshMaxAgeMs)]
  }

  /** `login` and `create` after the service has authenticated: the refresh token is required
      before any cookie is set; then both cookies are set and the response body is built. */
  function SignIn<X>(req: Request, result: AuthPayload<X>): (r: Result<Reply<X>, ServerError>)
    ensures r.Failure? <==> !Present(result.refreshToken)
    ensures r.Success? ==>
      && r.value.status == 200
      && r.value.cookies == AuthCookiesFor(req, result.accessToken, result.refreshToken.value)
      && r.value.body == Tokens(BuildAuthResponse(result, req))
  {
    match RequireRefreshToken(result)
    case Failure(e) => Failure(e)
    case Success(refresh) =>
      Success(Reply(200, AuthCookiesFor(req, result.accessToken, refresh), Tokens(BuildAuthResponse(result, req))))
  }

  /** The refresh token a request carries: the cookie when one is defined (even empty), else
      the body's (`??`). */
  function RefreshTokenOf(req: Request, bodyToken: Option<string>): Option<string>
  {
    if req.refreshCookie.Some? then req.refreshCookie else bodyToken
  }

  /** How the service refuses a refresh token (invalid, expired or revoked): the status and message
      of the HTTP exception it throws, which the framework sends as the reply. */
  datatype Refusal = Refusal(status: int, message: string)

  /** `refresh`. The result pairs the reply with the token the service was called with, if any. A
      refusal by the service propagates as the reply, before any cookie is set. */
  function Refresh<X>(req: Request, bodyToken: Option<string>, service: string -> Result<AuthPayload<X>, Refusal>)
    : (r: (Reply<X>, Option<string>))
    ensures var token := RefreshTokenOf(req, bodyToken);
      && (!Present(token) ==> r.0.status == 401 && r.0.cookies == [] && r.1.None?)
      && (Present(token) ==> r.1 == token)
      && (Present(token) && service(token.value).Failure? ==>
            var e := service(token.value).error;
            r.0 == Reply(e.status, [], Message(e.message)))
      && (Present(token) && service(token.value).Success? ==>
            var refreshed := service(token.value).value;
            var o := GetCookieOptions(req);
            && r.0.status == 200
            && |r.0.cookies| >= 1
            && r.0.cookies[0] == SetCookie(AccessCookie, refreshed.accessToken, o, AccessMaxAgeMs)
            && (|r.0.cookies| == 2 <==> Present(refreshed.refreshToken))
            && (|r.0.cookies| == 2 ==>
                  r.0.cookies[1] == SetCookie(RefreshCookie, refreshed.refreshToken.value, o, RefreshMaxAgeMs))
            && r.0.body == Tokens(BuildAuthResponse(refreshed, req)))
  {
    var token := RefreshTokenOf(req, bodyToken);
    if !Present(token) then (Reply(401, [], Message("Missing refresh token.")), None)
    else match service(token.value)
      case Failure(e) => (Reply(e.status, [], Message(e.message)), token)
      case Success(refreshed) =>
        var o := GetCookieOptions(req);
        var access := [SetCookie(AccessCookie, refreshed.accessToken, o, AccessMaxAgeMs)];
        var cookies :=
          if Present(refreshed.refreshToken)
          then access + [SetCookie(RefreshCookie, refreshed.refreshToken.value, o, RefreshMaxAgeMs)]
          else access;
        (Reply(200, cookies, Tokens(BuildAuthResponse(refreshed, req))), token)
  }

  /** A refresh sets cookies only when it answers 200: a missing token and a refused one leave
      the client's cookies alone. */
  lemma RefreshCookiesOnlyOnSuccess<X>(req: Request, bodyToken: Option<string>,
                                       service: string -> Result<AuthPayload<X>, Refusal>)
    ensures var (reply, token) := Refresh(req, bodyToken, service);
      reply.cookies != [] <==> token.Some? && service(token.value).Success?
  {
  }

  /** `logout`: when there is a non-empty refresh token the service is told about it first, and
      a refusal propagates as the error reply before any cookie is touched; otherwise both cookies
      are cleared and the reply is 200. The result pairs the reply with the token the service was
      given; the service answers with its refusal, if it refuses. */
  function Logout<X>(req: Request, bodyToken: Option<string>, service: string -> Option<Refusal>)
    : (r: (Reply<X>, Option<string>))
    ensures var token := RefreshTokenOf(req, bodyToken);
      && (r.1.Some? <==> Present(token))
      && (Present(token) ==> r.1 == token)
      && (!Present(token) || service(token.value).None? ==>
            var o := GetCookieOptions(req);
            r.0 == Reply(200, [ClearCookie(AccessCookie, o), ClearCookie(RefreshCookie, o)], LoggedOut))
      && (Present(token) && service(token.value).Some? ==>
            var e := service(token.value).value;
            r.0 == Reply(e.status, [], Message(e.message)))
  {
    var token := RefreshTokenOf(req, bodyToken);
    if !Present(token) then
      var o := GetCookieOptions(req);
      (Reply(200, [ClearCookie(AccessCookie, o), ClearCookie(RefreshCookie, o)], LoggedOut), None)
    else match service(token.value)
      case Some(e) => (Reply(e.status, [], Message(e.message)), token)
      case None =>
        var o := GetCookieOptions(req);
        (Reply(200, [ClearCookie(AccessCookie, o), ClearCookie(RefreshCookie, o)], LoggedOut), token)
  }

  /** A logout clears the cookies exactly when it is not refused: with no token, or with a token
      the service accepts. A refused logout leaves the browser signed in. */
  lemma LogoutClearsOnlyOnSuccess<X>(req: Request, bodyToken: Option<string>,
                                     service: string -> Option<Refusal>)
    ensures var (reply, token) := Logout<X>(req, bodyToken, service);
      reply.cookies != [] <==> token.None? || service(token.value).None?
  {
  }

  /** A defined but empty refresh cookie hides a token in the body: the refresh is refused. */
  lemma EmptyCookieHidesBodyToken<X>(req: Request, bodyToken: Option<string>,
                                     service: string -> Result<AuthPayload<X>, Refusal>)
    requires req.refreshCookie == Some([])
    ensures Refresh(req, bodyToken, service).0.status == 401
    ensures Refresh(req, bodyToken, service).1.None?
  {
  }

  /** A browser that signs in never sees its refresh token in the body, but the cookie holds it. */
  lemma BrowserSignInKeepsTokenInCookie<X>(req: Request, result: AuthPayload<X>)
    requires Present(req.origin) && Present(result.refreshToken)
    ensures var r := SignIn(req, result);
      && r.Success?
      && r.value.body.payload.refreshToken.None?
      && r.value.cookies[1].value == result.refreshToken.value
  {
  }
}

=== FILE: backfill.dfy ===
/** The isCsvFood backfill (`backfill_csv_foods_and_recreate_index.py`): the IDs of the MyFoodData
    CSV are cleaned, deduplicated per chunk and sent in slices to an UPDATE that flags the foods
    with those sourceIds. The food table is a list of (sourceId, isCsvFood) rows; the UPDATE's
    row count is the number of rows it changed. */
module Backfill {
  import opened Wrappers
  import opened Cleaning
  import opened Batching
  import CsvBatches
  import CsvPoster

  /** The column the IDs are read from. */
  const IdColumn: string := "ID"

  // ---------------------------------------------------------------------------------------
  // The IDs of a chunk

  /** A row's ID as the list comprehension keeps it: cleaned, and only when non-empty. */
  function CleanId(row: CsvPoster.Row): (r: Option<string>)
    ensures r.Some? ==> r.value != [] && Stripped(r.value)
  {
    match CsvCleanString(CsvPoster.Get(row, IdColumn))
    case Some(s) => if s != [] then Some(s) else None
    case None => None
  }

  /** The ID a row contributes: none or one. */
  function KeptId(row: CsvPoster.Row): seq<string>
  {
    match CleanId(row)
    case Some(s) => [s]
    case None => []
  }

  /** What `f` keeps of each row, laid end to end in row order. */
  function Collect<R, T>(rows: seq<R>, f: R -> seq<T>): seq<T>
  {
    if rows == [] then [] else Collect(rows[..|rows| - 1], f) + f(rows[|rows| - 1])
  }

  /** Collecting two runs of rows one after the other keeps both runs' output in order. */
  lemma {:induction false} CollectAppend<R, T>(a: seq<R>, b: seq<R>, f: R -> seq<T>)
    ensures Collect(a + b, f) == Collect(a, f) + Collect(b, f)
    decreases |b|
  {
    if b == [] {
      assert a + b == a;
    } else {
      var b', last := b[..|b| - 1], b[|b| - 1];
      assert (a + b)[..|a + b| - 1] == a + b';
      assert (a + b)[|a + b| - 1] == last;
      CollectAppend(a, b', f);
    }
  }

  /** Everything a row contributes is collected. */
  lemma {:induction false} CollectKeeps<R, T>(rows: seq<R>, f: R -> seq<T>, i: nat, x: T)
    requires i < |rows| && x in f(rows[i])
    ensures x in Collect(rows, f)
  {
    var init := rows[..|rows| - 1];
    if i < |init| {
      assert init[i] == rows[i];
      CollectKeeps(init, f, i, x);
    }
  }

  /** Everything collected comes from some row. */
  lemma {:induction false} CollectFrom<R, T>(rows: seq<R>, f: R -> seq<T>, x: T)
    requires x in Collect(rows, f)
    ensures exists i :: 0 <= i < |rows| && x in f(rows[i])
  {
    var init := rows[..|rows| - 1];
    if x in Collect(init, f) {
      CollectFrom(init, f, x);
      var i :| 0 <= i < |init| && x in f(init[i]);
      assert rows[i] == init[i];
    }
  }

  /** The kept IDs of `rows`, in row order. */
  function ChunkIds(rows: seq<CsvPoster.Row>): seq<string>
  {
    Collect(rows, KeptId)
  }

  /** Reading two runs of rows one after the other keeps both runs' IDs in order. */
  lemma ChunkIdsAppend(a: seq<CsvPoster.Row>, b: seq<CsvPoster.Row>)
    ensures ChunkIds(a + b) == ChunkIds(a) + ChunkIds(b)
  {
    CollectAppend(a, b, KeptId);
  }

  /** An ID is kept exactly when some row cleans to it. */
  lemma ChunkIdsMembers(rows: seq<CsvPoster.Row>, x: string)
    ensures x in ChunkIds(rows) <==> exists i :: 0 <= i < |rows| && CleanId(rows[i]) == Some(x)
  {
    if x in ChunkIds(rows) {
      CollectFrom(rows, KeptId, x);
      var i :| 0 <= i < |rows| && x in KeptId(rows[i]);
    }
    if exists i :: 0 <= i < |rows| && CleanId(rows[i]) == Some(x) {
      var i :| 0 <= i < |rows| && CleanId(rows[i]) == Some(x);
      assert x in KeptId(rows[i]);
      CollectKeeps(rows, KeptId, i, x);
    }
  }

  // ---------------------------------------------------------------------------------------
  // `list(dict.fromkeys(ids))`

  predicate NoDuplicates(xs: seq<string>)
  {
    forall i, j :: 0 <= i < j < |xs| ==> xs[i] != xs[j]
  }

  /** The first position of `x` in `xs`. */
  function FirstIndex(xs: seq<string>, x: string): (k: nat)
    requires x in xs
    ensures k < |xs| && xs[k] == x && x !in xs[..k]
  {
    if xs[0] == x then 0
    else
      var k := FirstIndex(xs[1..], x);
      assert xs[1..][..k] == xs[1..k + 1];
      k + 1
  }

  /** The distinct elements of `xs`, each where it first occurs. */
  function Dedup(xs: seq<string>): (r: seq<string>)
    ensures forall x :: x in r <==> x in xs
    ensures NoDuplicates(r)
  {
    if xs == [] then []
    else
      var init := xs[..|xs| - 1];
      var r := Dedup(init);
      var x := xs[|xs| - 1];
      assert xs == init + [x];
      if x in r then r else r + [x]
  }

  /** Deduplication keeps first-occurrence order. */
  lemma {:induction false} DedupOrder(xs: seq<string>)
    ensures forall i, j :: 0 <= i < j < |Dedup(xs)| ==> FirstIndex(xs, Dedup(xs)[i]) < FirstIndex(xs, Dedup(xs)[j])
  {
    if xs != [] {
      var init := xs[..|xs| - 1];
      var x := xs[|xs| - 1];
      var r := Dedup(init);
      DedupOrder(init);
      assert xs == init + [x];
      forall y | y in r ensures FirstIndex(xs, y) == FirstIndex(init, y) {
        FirstIndexSnoc(init, x, y);
      }
      if x !in r {
        assert FirstIndex(xs, x) == |init| by { FirstIndexLast(init, x); }
        forall i | 0 <= i < |r| ensures FirstIndex(xs, r[i]) < |init| {
          assert r[i] in r;
        }
      }
    }
  }

  lemma FirstIndexSnoc(init: seq<string>, x: string, y: string)
    requires y in init
    ensures FirstIndex(init + [x], y) == FirstIndex(init, y)
  {
    var k := FirstIndex(init, y);
    assert (init + [x])[k] == y && (init + [x])[..k] == init[..k];
  }

  lemma FirstIndexLast(init: seq<string>, x: string)
    requires x !in init
    ensures FirstIndex(init + [x], x) == |init|
  {
    var k := FirstIndex(init + [x], x);
  }

  // ---------------------------------------------------------------------------------------
  // `_update_is_csv_food`

  /** A food row: its sourceId (NULL allowed) and its flag. */
  datatype Food = Food(sourceId: Option<string>, isCsvFood: bool)

  predicate Listed(f: Food, ids: seq<string>) { f.sourceId.Some? && f.sourceId.value in ids }

  /** `UPDATE food SET isCsvFood = 1 WHERE sourceId IN (ids)` on the rows of the table. */
  function Mark(foods: seq<Food>, ids: seq<string>): (r: seq<Food>)
    ensures |r| == |foods|
  {
    if foods == [] then []
    else
      var f := foods[|foods| - 1];
      Mark(foods[..|foods| - 1], ids) + [if Listed(f, ids) then f.(isCsvFood := true) else f]
  }

  /** The statement keeps every row's sourceId and flags exactly the listed rows. */
  lemma {:induction false} MarkElements(foods: seq<Food>, ids: seq<string>)
    ensures forall i :: 0 <= i < |foods| ==> Mark(foods, ids)[i].sourceId == foods[i].sourceId
    ensures forall i :: 0 <= i < |foods| ==> (Mark(foods, ids)[i].isCsvFood <==> foods[i].isCsvFood || Listed(foods[i], ids))
  {
    if foods != [] {
      var init := foods[..|foods| - 1];
      MarkElements(init, ids);
      forall i | 0 <= i < |init| ensures Mark(foods, ids)[i] == Mark(init, ids)[i] && foods[i] == init[i] { }
    }
  }

  /** The number of flagged rows. */
  function Flags(foods: seq<Food>): nat
  {
    if foods == [] then 0 else Flags(foods[..|foods| - 1]) + (if foods[|foods| - 1].isCsvFood then 1 else 0)
  }

  /** The rows the statement changes: listed and not yet flagged. */
  function Changed(foods: seq<Food>, ids: seq<string>): nat
  {
    if foods == [] then 0
    else
      var f := foods[|foods| - 1];
      Changed(foods[..|foods| - 1], ids) + (if Listed(f, ids) && !f.isCsvFood then 1 else 0)
  }

  /** The statement's row count is exactly the number of flags it adds. */
  lemma {:induction false} MarkCounts(foods: seq<Food>, ids: seq<string>)
    ensures Flags(Mark(foods, ids)) == Flags(foods) + Changed(foods, ids)
  {
    if foods != [] {
      var init := foods[..|foods| - 1];
      MarkCounts(init, ids);
      assert Mark(foods, ids)[..|foods| - 1] == Mark(init, ids);
    }
  }

  /** An empty list marks nothing. */
  lemma MarkNothing(foods: seq<Food>)
    ensures Mark(foods, []) == foods
  {
    MarkElements(foods, []);
  }

  /** Marking with two lists in turn is marking with both. */
  lemma MarkTwice(foods: seq<Food>, a: seq<string>, b: seq<string>)
    ensures Mark(Mark(foods, a), b) == Mark(foods, a + b)
  {
    var l, r := Mark(Mark(foods, a), b), Mark(foods, a + b);
    MarkElements(foods, a);
    MarkElements(Mark(foods, a), b);
    MarkElements(foods, a + b);
    forall i | 0 <= i < |foods| ensures l[i] == r[i] {
      assert Listed(foods[i], a + b) <==> Listed(foods[i], a) || Listed(foods[i], b);
    }
  }

  /** Marking depends only on which IDs are listed, not on their order or repetition. */
  lemma MarkSameMembers(foods: seq<Food>, a: seq<string>, b: seq<string>)
    requires forall x :: x in a <==> x in b
    ensures Mark(foods, a) == Mark(foods, b)
  {
    var l, r := Mark(foods, a), Mark(foods, b);
    MarkElements(foods, a);
    MarkElements(foods, b);
    forall i | 0 <= i < |foods| ensures l[i] == r[i] {
      assert Listed(foods[i], a) <==> Listed(foods[i], b);
    }
  }

  /** `_update_is_csv_food`: an empty list runs no statement and reports 0. */
  function UpdateIsCsvFood(foods: seq<Food>, ids: seq<string>): (r: (seq<Food>, nat))
    ensures ids == [] ==> r == (foods, 0)
    ensures r.0 == Mark(foods, ids)
    ensures r.1 == Flags(r.0) - Flags(foods)
  {
    if ids == [] then
      MarkNothing(foods);
      (foods, 0)
    else
      MarkCounts(foods, ids);
      (Mark(foods, ids), Changed(foods, ids))
  }

  // ---------------------------------------------------------------------------------------
  // The per-chunk update loop

  /** What the slice loop keeps: the statements sent so far and the IDs still to send make up
      the list, every statement but a last one is full, and the table is marked with what was sent. */
  predicate Slicing(foods: seq<Food>, unique: seq<string>, size: nat,
                    after: seq<Food>, updated: int, statements: seq<seq<string>>, rest: seq<string>)
  {
    && Concat(statements) + rest == unique
    && (AllFull(statements, size) || (rest == [] && Batched(statements, size)))
    && after == Mark(foods, Concat(statements)) && updated == Flags(after) - Flags(foods)
    && (NoDuplicates(unique) ==> NoDuplicates(rest) && forall k :: 0 <= k < |statements| ==> NoDuplicates(statements[k]))
  }

  /** One statement for the next slice of `size` IDs (or fewer, at the end). */
  lemma SliceStep(foods: seq<Food>, unique: seq<string>, size: nat,
                  after: seq<Food>, updated: int, statements: seq<seq<string>>, rest: seq<string>, k: nat)
    requires size >= 1 && rest != [] && k == (if size <= |rest| then size else |rest|)
    requires Slicing(foods, unique, size, after, updated, statements, rest)
    ensures Slicing(foods, unique, size, UpdateIsCsvFood(after, rest[..k]).0, updated + UpdateIsCsvFood(after, rest[..k]).1,
                    statements + [rest[..k]], rest[k..])
  {
    var batch, tail := rest[..k], rest[k..];
    assert rest == batch + tail;
    SliceConcat(statements, batch, tail, unique);
    SliceFull(statements, batch, tail, size);
    SliceMarks(foods, statements, after, updated, batch);
    if NoDuplicates(unique) { SliceDistinct(statements, batch, tail); }
  }

  lemma SliceConcat(statements: seq<seq<string>>, batch: seq<string>, tail: seq<string>, unique: seq<string>)
    requires Concat(statements) + (batch + tail) == unique
    ensures Concat(statements + [batch]) + tail == unique
  {
    ConcatSnoc(statements, batch);
  }

  lemma SliceFull(statements: seq<seq<string>>, batch: seq<string>, tail: seq<string>, size: nat)
    requires AllFull(statements, size) && 1 <= |batch| <= size && (tail != [] ==> |batch| == size)
    ensures AllFull(statements + [batch], size) || (tail == [] && Batched(statements + [batch], size))
  {
    if tail != [] { AllFullSnoc(statements, batch, size); } else { BatchedSnoc(statements, batch, size); }
  }

  lemma SliceMarks(foods: seq<Food>, statements: seq<seq<string>>, after: seq<Food>, updated: int, batch: seq<string>)
    requires after == Mark(foods, Concat(statements)) && updated == Flags(after) - Flags(foods)
    ensures UpdateIsCsvFood(after, batch).0 == Mark(foods, Concat(statements + [batch]))
    ensures updated + UpdateIsCsvFood(after, batch).1 == Flags(UpdateIsCsvFood(after, batch).0) - Flags(foods)
  {
    ConcatSnoc(statements, batch);
    MarkTwice(foods, Concat(statements), batch);
    if batch == [] { MarkNothing(after); }
  }

  lemma SliceDistinct(statements: seq<seq<string>>, batch: seq<string>, tail: seq<string>)
    requires NoDuplicates(batch + tail) && forall j :: 0 <= j < |statements| ==> NoDuplicates(statements[j])
    ensures NoDuplicates(tail) && forall j :: 0 <= j < |statements + [batch]| ==> NoDuplicates((statements + [batch])[j])
  {
    NoDuplicatesSplit(batch, tail);
    assert (statements + [batch])[|statements|] == batch;
  }

  /** `for i in range(0, len(unique_ids), size)`: one statement per consecutive slice. */
  method UpdateSlices(foods: seq<Food>, unique: seq<string>, size: nat)
    returns (after: seq<Food>, updated: nat, statements: seq<seq<string>>)
    requires size >= 1
    ensures Concat(statements) == unique && Batched(statements, size)
    ensures NoDuplicates(unique) ==> forall k :: 0 <= k < |statements| ==> NoDuplicates(statements[k])
    ensures after == Mark(foods, unique)
    ensures updated == Flags(after) - Flags(foods)
  {
    after, updated, statements := foods, 0, [];
    var rest := unique;
    MarkNothing(foods);
    while rest != []
      invariant Slicing(foods, unique, size, after, updated, statements, rest)
      decreases |rest|
    {
      var k := if size <= |rest| then size else |rest|;
      SliceStep(foods, unique, size, after, updated, statements, rest, k);
      var (marked, n) := UpdateIsCsvFood(after, rest[..k]);
      after, updated, statements, rest := marked, updated + n, statements + [rest[..k]], rest[k..];
    }
  }

  lemma NoDuplicatesSplit(a: seq<string>, b: seq<string>)
    requires NoDuplicates(a + b)
    ensures NoDuplicates(a) && NoDuplicates(b)
  {
    forall i, j | 0 <= i < j < |a| ensures a[i] != a[j] {
      assert (a + b)[i] == a[i] && (a + b)[j] == a[j];
    }
    forall i, j | 0 <= i < j < |b| ensures b[i] != b[j] {
      assert (a + b)[|a| + i] == b[i] && (a + b)[|a| + j] == b[j];
    }
  }

  // ---------------------------------------------------------------------------------------
  // The chunk loop of `backfill`

  /** Why a run stops early: a chunk without the ID column, or `range` with a step of 0. */
  datatype Raised = MissingIdColumn | ZeroStep

  datatype Backfilled = Backfilled(scanned: nat, updated: nat, foods: seq<Food>, statements: seq<seq<string>>)

  predicate HasId<R>(c: CsvBatches.Chunk<R>) { IdColumn in c.columns }

  /** The first `n` chunks all have the ID column. */
  predicate AllHaveId<R>(chunks: seq<CsvBatches.Chunk<R>>, n: nat)
    requires n <= |chunks|
  {
    forall c :: 0 <= c < n ==> HasId(chunks[c])
  }

  /** One chunk that has the ID column. */
  method BackfillChunk(st: Backfilled, rows: seq<CsvPoster.Row>, updateBatchSize: int)
    returns (r: Backfilled, zeroStep: bool)
    ensures r.scanned == st.scanned + |rows|
    ensures zeroStep <==> updateBatchSize == 0 && ChunkIds(rows) != []
    ensures !zeroStep && updateBatchSize >= 1 ==> r.foods == Mark(st.foods, ChunkIds(rows))
    ensures zeroStep || updateBatchSize < 1 ==> r.foods == st.foods && r.updated == st.updated
    ensures r.updated - Flags(r.foods) == st.updated - Flags(st.foods)
    ensures forall k :: |st.statements| <= k < |r.statements| ==>
              1 <= |r.statements[k]| <= updateBatchSize && NoDuplicates(r.statements[k])
    ensures |st.statements| <= |r.statements|
    ensures forall k :: 0 <= k < |st.statements| ==> r.statements[k] == st.statements[k]
  {
    var ids := ChunkIds(rows);
    r := st.(scanned := st.scanned + |rows|);
    zeroStep := false;
    if ids == [] {
      MarkNothing(st.foods);
      return;
    }
    var unique := Dedup(ids);
    if updateBatchSize == 0 { zeroStep := true; return; }
    if updateBatchSize < 0 { return; }
    var after, n, statements := UpdateSlices(st.foods, unique, updateBatchSize);
    MarkSameMembers(st.foods, unique, ids);
    r := r.(foods := after, updated := st.updated + n, statements := st.statements + statements);
  }

  /** `backfill` over the chunks of `read_csv(chunksize=5000)`. It stops at the first chunk without
      the ID column, and at the first chunk with IDs when the update batch size is 0; a negative
      size updates nothing. `n` is the number of chunks read in full. */
  method RunBackfill(chunks: seq<CsvBatches.Chunk<CsvPoster.Row>>, foods: seq<Food>, updateBatchSize: int)
    returns (st: Backfilled, n: nat, raised: Option<Raised>)
    ensures n <= |chunks| && AllHaveId(chunks, n)
    ensures raised.None? ==> n == |chunks|
    ensures raised == Some(MissingIdColumn) ==> n < |chunks| && !HasId(chunks[n])
    ensures raised == Some(ZeroStep) ==> n < |chunks| && updateBatchSize == 0 && ChunkIds(chunks[n].rows) != []
    ensures raised != Some(ZeroStep) ==> st.scanned == |CsvBatches.RowsOf(chunks, n)|
    ensures raised == Some(ZeroStep) ==> st.scanned == |CsvBatches.RowsOf(chunks, n + 1)|
    ensures Marked(chunks, n, foods, updateBatchSize, st)
  {
    st := Backfilled(0, 0, foods, []);
    n := 0;
    raised := None;
    assert Marked(chunks, 0, foods, updateBatchSize, st) by { MarkNothing(foods); }
    while n < |chunks| && HasId(chunks[n])
      invariant n <= |chunks| && AllHaveId(chunks, n)
      invariant st.scanned == |CsvBatches.RowsOf(chunks, n)| && Marked(chunks, n, foods, updateBatchSize, st)
      decreases |chunks| - n
    {
      var next, zeroStep := NextChunk(chunks, n, foods, updateBatchSize, st);
      if zeroStep {
        st, raised := next, Some(ZeroStep);
        return;
      }
      st, n := next, n + 1;
    }
    if n < |chunks| {
      raised := Some(MissingIdColumn);
    }
  }

  /** The table after `n` chunks read in full: marked with their IDs unless the size is below 1,
      and the reported count is the number of flags added. */
  predicate Marked(chunks: seq<CsvBatches.Chunk<CsvPoster.Row>>, n: nat, foods: seq<Food>, updateBatchSize: int, st: Backfilled)
    requires n <= |chunks|
  {
    && (updateBatchSize >= 1 ==> st.foods == Mark(foods, ChunkIds(CsvBatches.RowsOf(chunks, n))))
    && (updateBatchSize < 1 ==> st.foods == foods)
    && st.updated == Flags(st.foods) - Flags(foods)
  }

  /** Chunk `n`, which has the ID column: either it raises or the loop has read it in full. */
  method NextChunk(chunks: seq<CsvBatches.Chunk<CsvPoster.Row>>, n: nat, foods: seq<Food>, updateBatchSize: int, st: Backfilled)
    returns (r: Backfilled, zeroStep: bool)
    requires n < |chunks| && Marked(chunks, n, foods, updateBatchSize, st)
    requires st.scanned == |CsvBatches.RowsOf(chunks, n)|
    ensures r.scanned == |CsvBatches.RowsOf(chunks, n + 1)|
    ensures zeroStep <==> updateBatchSize == 0 && ChunkIds(chunks[n].rows) != []
    ensures zeroStep ==> Marked(chunks, n, foods, updateBatchSize, r)
    ensures !zeroStep ==> Marked(chunks, n + 1, foods, updateBatchSize, r)
  {
    r, zeroStep := BackfillChunk(st, chunks[n].rows, updateBatchSize);
    if !zeroStep && updateBatchSize >= 1 { MarkNextChunk(foods, chunks, n, st.foods, r.foods); }
  }

  /** Marking chunk by chunk is marking with the IDs of all the rows read. */
  lemma MarkNextChunk(foods: seq<Food>, chunks: seq<CsvBatches.Chunk<CsvPoster.Row>>, n: nat, before: seq<Food>, after: seq<Food>)
    requires n < |chunks|
    requires before == Mark(foods, ChunkIds(CsvBatches.RowsOf(chunks, n)))
    requires after == Mark(before, ChunkIds(chunks[n].rows))
    ensures after == Mark(foods, ChunkIds(CsvBatches.RowsOf(chunks, n + 1)))
  {
    ChunkIdsAppend(CsvBatches.RowsOf(chunks, n), chunks[n].rows);
    MarkTwice(foods, ChunkIds(CsvBatches.RowsOf(chunks, n)), ChunkIds(chunks[n].rows));
  }
}

=== FILE: barcode_poster.dfy ===
/** The OpenFoodFacts barcode poster: rows of the product dump become barcode payloads, payloads
    are grouped into batches, and each batch is posted to the bulk endpoint by a worker that
    retries transient failures. The worker pool is modelled sequentially: the batches in flight
    form a sequence, and an oracle decides which of them have completed at each wait. */
module BarcodePoster {
  import opened Batching
  import opened Wrappers
  import opened Text
  import opened Cleaning
  import opened Rounding
  import OpenFoodFacts

  // ---------------------------------------------------------------------------------------------
  // Rows to payloads

  /** The columns of one dump row that the payload depends on. Numeric columns arrive from pandas
      as floats and are cleaned to 0 when missing, so they are plain reals here. */
  datatype BarcodeRow = BarcodeRow(
    code: Cell, productName: Cell, genericName: Cell,
    kcal: real, kj: real, energy: real, sodiumG: real, saltG: real)

  datatype BarcodePayload = BarcodePayload(sourceId: string, name: string, calories: int, sodium: real)

  /** Python truthiness of a cleaned string: present and non-empty. */
  predicate Truthy(s: Option<string>)
  {
    s.Some? && s.value != []
  }

  /** `_calories`: kcal when positive; otherwise the kJ column, or the energy column when the kJ
      column is 0, converted at 4.184 kJ per kcal when positive; otherwise 0. A negative kJ value is
      truthy, so it hides the energy column. */
  function Calories(kcal: real, kj: real, energy: real): (c: int)
    ensures c >= 0
    ensures kcal > 0 as real ==> c == RoundHalfEven(kcal)
    ensures kcal <= 0 as real && kj > 0 as real ==> c == RoundHalfEven(kj / KjPerKcal)
    ensures kcal <= 0 as real && kj == 0 as real && energy > 0 as real ==>
      c == RoundHalfEven(energy / KjPerKcal)
    ensures kcal <= 0 as real && (kj < 0 as real || (kj == 0 as real && energy <= 0 as real)) ==> c == 0
  {
    if kcal > 0 as real then
      RoundNonNegative(kcal);
      RoundHalfEven(kcal)
    else
      var kjValue := if kj != 0 as real then kj else energy;
      if kjValue > 0 as real then
        RoundNonNegative(kjValue / KjPerKcal);
        RoundHalfEven(kjValue / KjPerKcal)
      else 0
  }

  /** On non-negative columns the poster and the direct importer agree on calories; they differ
      only in how a negative value is treated. */
  lemma CaloriesAgreeWithImporter(kcal: real, kj: real, energy: real)
    requires kcal >= 0 as real && kj >= 0 as real && energy >= 0 as real
    ensures Calories(kcal, kj, energy) == OpenFoodFacts.OffCalories(kcal, kj, energy)
  {
  }

  /** The direct importer keeps a negative kcal value, the poster turns it into 0. */
  lemma CaloriesDropNegative()
    ensures Calories(-5 as real, 0 as real, 0 as real) == 0
    ensures OpenFoodFacts.OffCalories(-5 as real, 0 as real, 0 as real) == -5
  {
    OpenFoodFacts.OffCaloriesKeepsNegative();
  }

  /** `_row_to_payload`: no payload without a truthy barcode or a truthy name; the name is the
      product name, falling back to the generic name. The barcode doubles as the source id. */
  function RowToPayload(row: BarcodeRow): (p: Option<BarcodePayload>)
    ensures p.None? <==>
      !Truthy(BarcodeCleanString(row.code)) ||
      (!Truthy(BarcodeCleanString(row.productName)) && !Truthy(BarcodeCleanString(row.genericName)))
    ensures p.Some? ==> p.value.sourceId == BarcodeCleanString(row.code).value && p.value.sourceId != []
    ensures p.Some? && Truthy(BarcodeCleanString(row.productName)) ==>
      p.value.name == BarcodeCleanString(row.productName).value
    ensures p.Some? && !Truthy(BarcodeCleanString(row.productName)) ==>
      p.value.name == BarcodeCleanString(row.genericName).value
    ensures p.Some? ==> p.value.name != [] && p.value.calories >= 0 && p.value.sodium >= 0 as real
  {
    var barcode := BarcodeCleanString(row.code);
    var product := BarcodeCleanString(row.productName);
    var name := if Truthy(product) then product else BarcodeCleanString(row.genericName);
    if !Truthy(barcode) || !Truthy(name) then None
    else Some(BarcodePayload(barcode.value, name.value, Calories(row.kcal, row.kj, row.energy),
                             OpenFoodFacts.Sodium(row.sodiumG, row.saltG)))
  }

  /** A blank product name is cleaned to "" rather than dropped, and "" is falsy, so the generic
      name takes over. */
  lemma BlankProductNameFallsBack(row: BarcodeRow, pad: string)
    requires row.productName == Str(pad) && pad != [] && AllSpace(pad)
    requires RowToPayload(row).Some?
    ensures RowToPayload(row).value.name == BarcodeCleanString(row.genericName).value
  {
    BarcodeCleanKeepsBlank(pad);
  }

  // ---------------------------------------------------------------------------------------------
  // Posting one batch

  /** What one POST attempt produced: a response, or a request exception with its message. */
  datatype Reply = Response(status: nat, text: string) | RequestError(message: string)

  predicate Accepted(r: Reply)
  {
    r.Response? && (r.status == 200 || r.status == 201)
  }

  predicate Unauthorized(r: Reply)
  {
    r.Response? && (r.status == 401 || r.status == 403)
  }

  /** Worth retrying: a request exception, 429, or any 5xx. */
  predicate Transient(r: Reply)
  {
    r.RequestError? || r.status == 429 || 500 <= r.status < 600
  }

  /** Whether attempt `attempt` ends the retry loop. */
  predicate Final(r: Reply, attempt: int, maxRetries: int)
  {
    !(Transient(r) && attempt < maxRetries)
  }

  /** The first attempt that ends the retry loop; the last one always does. */
  function SettlingAttempt(replies: seq<Reply>, maxRetries: int, from: nat): (k: nat)
    requires from <= maxRetries < |replies|
    ensures from <= k <= maxRetries && Final(replies[k], k, maxRetries)
    ensures forall j :: from <= j < k ==> !Final(replies[j], j, maxRetries)
    decreases maxRetries - from
  {
    if Final(replies[from], from, maxRetries) then from else SettlingAttempt(replies, maxRetries, from + 1)
  }

  datatype BatchResult = BatchResult(
    ok: bool, rows: nat, batchId: int, status: Option<nat>, attempts: int, fatalAuth: bool, error: string)

  const TruncationMark: string := "... (truncated)"

  /** A response body longer than 300 characters is cut to 300 and marked. */
  function Truncate(body: string): (r: string)
    ensures |r| <= 300 + |TruncationMark|
    ensures |body| <= 300 ==> r == body
    ensures |body| > 300 ==> |r| == 300 + |TruncationMark| && r[..300] == body[..300] && r[300..] == TruncationMark
  {
    if |body| > 300 then body[..300] + TruncationMark else body
  }

  /** The message of a permanent failure: the status and the stripped, truncated body. */
  function HttpError(status: nat, text: string): string
  {
    "HTTP " + NatToString(status) + ": " + Truncate(Strip(text))
  }

  function AuthError(status: nat): string
  {
    "Unauthorized response (" + NatToString(status) + ")."
  }

  function Pow2(k: nat): (r: nat)
    ensures r >= 1
  {
    if k == 0 then 1 else 2 * Pow2(k - 1)
  }

  /** The sleeps before the first `n` retries, in units of the retry backoff: the sleep after
      failed attempt `k` is `backoff * 2^k`. */
  function Backoffs(n: nat): (s: seq<nat>)
    ensures |s| == n
  {
    if n == 0 then [] else Backoffs(n - 1) + [Pow2(n - 1)]
  }

  function Total(s: seq<nat>): nat
  {
    if s == [] then 0 else Total(s[..|s| - 1]) + s[|s| - 1]
  }

  /** The backoff is geometric: `n` retries sleep `2^n - 1` backoff units in all. */
  lemma {:induction false} BackoffTotal(n: nat)
    ensures Total(Backoffs(n)) == Pow2(n) - 1
  {
    if n > 0 {
      var s := Backoffs(n);
      assert s[..n - 1] == Backoffs(n - 1);
      BackoffTotal(n - 1);
    }
  }

  /** The `k`-th sleep is `2^k` units. */
  lemma {:induction false} BackoffAt(n: nat, k: nat)
    requires k < n
    ensures Backoffs(n)[k] == Pow2(k)
  {
    if k < n - 1 {
      BackoffAt(n - 1, k);
    }
  }

  /** The result of the attempt that ends the loop: 200/201 is success, 401/403 a fatal
      authentication failure, an exception reports its message without a status, and any other
      status is a failure whose message carries the stripped, truncated body. */
  function Outcome(r: Reply, attempt: nat, rows: nat, batchId: int): (res: BatchResult)
    ensures res.rows == rows && res.batchId == batchId && res.attempts == attempt + 1
    ensures res.ok <==> Accepted(r)
    ensures res.fatalAuth <==> Unauthorized(r)
    ensures res.status == if r.Response? then Some(r.status) else None
    ensures res.ok ==> res.error == ""
    ensures r.RequestError? ==> res.error == r.message
    ensures r.Response? && !Accepted(r) && !Unauthorized(r) ==> res.error == HttpError(r.status, r.text)
  {
    match r
    case Response(status, text) =>
      if status == 200 || status == 201 then
        BatchResult(true, rows, batchId, Some(status), attempt + 1, false, "")
      else if status == 401 || status == 403 then
        BatchResult(false, rows, batchId, Some(status), attempt + 1, true, AuthError(status))
      else
        BatchResult(false, rows, batchId, Some(status), attempt + 1, false, HttpError(status, text))
    case RequestError(message) =>
      BatchResult(false, rows, batchId, None, attempt + 1, false, message)
  }

  /** `_post_batch`: `replies[k]` is what attempt `k` gets back. A 200/201 is success, a 401/403
      is a fatal authentication failure returned at once, a 429/5xx or an exception is retried
      after `backoff * 2^k` while attempts remain, and anything else is a permanent failure whose
      message carries the stripped, truncated body. With a negative retry count the loop never
      runs and the result is the catch-all failure. `sleeps` are the delays taken in order, in units
      of the retry backoff. */
  method PostBatch(rows: nat, batchId: int, replies: seq<Reply>, maxRetries: int)
    returns (res: BatchResult, sleeps: seq<nat>)
    requires maxRetries < |replies|
    ensures res.rows == rows && res.batchId == batchId
    ensures maxRetries < 0 ==>
      res == BatchResult(false, rows, batchId, None, maxRetries + 1, false, "Unknown failure") && sleeps == []
    ensures maxRetries >= 0 ==> 1 <= res.attempts <= maxRetries + 1
    ensures maxRetries >= 0 ==>
      var k := SettlingAttempt(replies, maxRetries, 0);
      res == Outcome(replies[k], k, rows, batchId) && sleeps == Backoffs(k)
    ensures maxRetries >= 0 && Transient(replies[res.attempts - 1]) ==> res.attempts == maxRetries + 1
  {
    sleeps := [];
    var attempt: nat := 0;
    while attempt < maxRetries + 1
      invariant maxRetries >= 0 ==> attempt <= maxRetries
      invariant maxRetries < 0 ==> attempt == 0
      invariant sleeps == Backoffs(attempt)
      invariant forall j :: 0 <= j < attempt ==> !Final(replies[j], j, maxRetries)
    {
      var reply := replies[attempt];
      if Final(reply, attempt, maxRetries) {
        SettlingIsFirst(replies, maxRetries, attempt);
        res := Outcome(reply, attempt, rows, batchId);
        return;
      }
      sleeps := sleeps + [Pow2(attempt)];
      attempt := attempt + 1;
    }
    res := BatchResult(false, rows, batchId, None, maxRetries + 1, false, "Unknown failure");
  }

  /** SettlingAttempt is the first attempt that ends the loop. */
  lemma SettlingIsFirst(replies: seq<Reply>, maxRetries: int, k: nat)
    requires k <= maxRetries < |replies| && Final(replies[k], k, maxRetries)
    requires forall j :: 0 <= j < k ==> !Final(replies[j], j, maxRetries)
    ensures SettlingAttempt(replies, maxRetries, 0) == k
  {
  }

  /** Two server errors and then a success, with three retries allowed: the third attempt succeeds
      after sleeping `backoff` and `2 * backoff`. */
  lemma RetryThenSucceed()
    ensures var replies := [Response(500, ""), Response(500, ""), Response(200, ""), Response(200, "")];
      SettlingAttempt(replies, 3, 0) == 2 && Accepted(replies[2])
  {
  }

  /** Authentication failures are never retried. */
  lemma UnauthorizedStopsAtOnce(replies: seq<Reply>, maxRetries: int)
    requires 0 <= maxRetries < |replies| && Unauthorized(replies[0])
    ensures SettlingAttempt(replies, maxRetries, 0) == 0
  {
  }

  /** A run of transient failures uses up every retry. */
  lemma TransientExhaustsRetries(replies: seq<Reply>, maxRetries: int)
    requires 0 <= maxRetries < |replies|
    requires forall k :: 0 <= k <= maxRetries ==> Transient(replies[k])
    ensures SettlingAttempt(replies, maxRetries, 0) == maxRetries
  {
  }

  // ---------------------------------------------------------------------------------------------
  // Accounting

  /** The run's counters; `errors` keeps the failed results reported as examples. */
  datatype Tally = Tally(
    success: nat, error: nat, batchSuccess: nat, batchFail: nat, errors: seq<BatchResult>, authFailed: bool)

  /** `apply_result`: every row of a batch counts once, as a success or as an error; failures are
      kept as examples up to the limit; an authentication failure stops the producer. */
  function ApplyResult(t: Tally, res: BatchResult, maxErrors: int): (r: Tally)
    ensures r.success + r.error == t.success + t.error + res.rows
    ensures r.batchSuccess + r.batchFail == t.batchSuccess + t.batchFail + 1
    ensures res.ok ==> r.success == t.success + res.rows && r.batchSuccess == t.batchSuccess + 1
    ensures !res.ok ==> r.error == t.error + res.rows && r.batchFail == t.batchFail + 1
    ensures t.errors <= r.errors && |r.errors| <= |t.errors| + 1
    ensures |t.errors| <= Max0(maxErrors) ==> |r.errors| <= Max0(maxErrors)
    ensures |r.errors| == |t.errors| + 1 <==> !res.ok && |t.errors| < maxErrors
    ensures r.authFailed <==> t.authFailed || (!res.ok && res.fatalAuth)
  {
    if res.ok then
      t.(success := t.success + res.rows, batchSuccess := t.batchSuccess + 1)
    else
      t.(error := t.error + res.rows, batchFail := t.batchFail + 1,
         errors := if |t.errors| < maxErrors then t.errors + [res] else t.errors,
         authFailed := t.authFailed || res.fatalAuth)
  }

  datatype InFlight = InFlight(id: nat, rows: nat)

  function Rows(s: seq<InFlight>): nat
  {
    if s == [] then 0 else s[0].rows + Rows(s[1..])
  }

  /** The in-flight batches the wait reports as done, in submission order. */
  function Done(s: seq<InFlight>, chosen: set<nat>): (d: seq<InFlight>)
    ensures forall f :: f in d <==> f in s && f.id in chosen
  {
    if s == [] then [] else (if s[0].id in chosen then [s[0]] else []) + Done(s[1..], chosen)
  }

  /** The in-flight batches still pending after the wait. */
  function Waiting(s: seq<InFlight>, chosen: set<nat>): (w: seq<InFlight>)
    ensures forall f :: f in w <==> f in s && f.id !in chosen
  {
    if s == [] then [] else (if s[0].id in chosen then [] else [s[0]]) + Waiting(s[1..], chosen)
  }

  /** A wait splits the in-flight batches without losing or inventing rows. */
  lemma {:induction false} WaitPartitions(s: seq<InFlight>, chosen: set<nat>)
    ensures |Done(s, chosen)| + |Waiting(s, chosen)| == |s|
    ensures Rows(Done(s, chosen)) + Rows(Waiting(s, chosen)) == Rows(s)
  {
    if s != [] {
      WaitPartitions(s[1..], chosen);
      var d, w := Done(s[1..], chosen), Waiting(s[1..], chosen);
      if s[0].id in chosen {
        assert Done(s, chosen) == [s[0]] + d;
        assert ([s[0]] + d)[1..] == d;
        assert Waiting(s, chosen) == w;
      } else {
        assert Waiting(s, chosen) == [s[0]] + w;
        assert ([s[0]] + w)[1..] == w;
        assert Done(s, chosen) == d;
      }
    }
  }

  /** A blocking wait (FIRST_COMPLETED) returns at least one batch: when the oracle picks none of
      the in-flight batches, the oldest one is taken as the first to complete. A non-blocking wait
      (timeout 0) may return none. */
  function Completed(s: seq<InFlight>, pick: set<nat>, block: bool): (chosen: set<nat>)
    ensures block && s != [] ==> exists f :: f in s && f.id in chosen
  {
    if block && s != [] && forall i :: 0 <= i < |s| ==> s[i].id !in pick then {s[0].id} else pick
  }

  /** The result a completed batch reports: the worker's own result, whose rows and batch id are
      those of the batch (`PostBatch` guarantees it), or the failure made from a worker exception. */
  function Settle(f: InFlight, outcome: nat -> BatchResult): (res: BatchResult)
    ensures res.rows == f.rows && res.batchId == f.id as int
  {
    outcome(f.id).(rows := f.rows, batchId := f.id)
  }

  /** Results applied one after the other, in order. */
  function ApplyAll(t: Tally, d: seq<InFlight>, outcome: nat -> BatchResult, maxErrors: int): (r: Tally)
    ensures r.success + r.error == t.success + t.error + Rows(d)
    ensures r.batchSuccess + r.batchFail == t.batchSuccess + t.batchFail + |d|
    ensures |t.errors| <= Max0(maxErrors) ==> |r.errors| <= Max0(maxErrors)
    ensures t.authFailed ==> r.authFailed
    decreases |d|
  {
    if d == [] then t else ApplyAll(ApplyResult(t, Settle(d[0], outcome), maxErrors), d[1..], outcome, maxErrors)
  }

  /** The producer's side of the pool: batches in flight, the next batch id, and the counters. */
  datatype Pool = Pool(inflight: seq<InFlight>, nextId: nat, posted: nat, submitted: nat, tally: Tally)

  /** Every submitted row is either in flight or counted, and so is every posted batch; ids are
      handed out consecutively from 1. */
  predicate PoolOk(p: Pool)
  {
    && p.nextId == p.posted + 1
    && p.tally.success + p.tally.error + Rows(p.inflight) == p.submitted
    && p.tally.batchSuccess + p.tally.batchFail + |p.inflight| == p.posted
  }

  /** `submit_batch` for a non-empty batch of `rows` rows. */
  function Submit(p: Pool, rows: nat): (r: Pool)
    requires PoolOk(p)
    ensures PoolOk(r) && r.tally == p.tally
    ensures r.posted == p.posted + 1 && r.submitted == p.submitted + rows
    ensures |r.inflight| == |p.inflight| + 1
  {
    var s := p.inflight + [InFlight(p.nextId, rows)];
    RowsSnoc(p.inflight, InFlight(p.nextId, rows));
    p.(inflight := s, nextId := p.nextId + 1, posted := p.posted + 1, submitted := p.submitted + rows)
  }

  lemma {:induction false} RowsSnoc(s: seq<InFlight>, f: InFlight)
    ensures Rows(s + [f]) == Rows(s) + f.rows
  {
    if s != [] {
      assert (s + [f])[1..] == s[1..] + [f];
      RowsSnoc(s[1..], f);
    }
  }

  /** `drain_completed`: the batches the wait reports are removed from the pool and their results
      applied; a blocking wait on a non-empty pool removes at least one. */
  function Drain(p: Pool, block: bool, pick: set<nat>, outcome: nat -> BatchResult, maxErrors: int): (r: Pool)
    requires PoolOk(p)
    ensures PoolOk(r)
    ensures r.nextId == p.nextId && r.posted == p.posted && r.submitted == p.submitted
    ensures |r.inflight| <= |p.inflight|
    ensures block && p.inflight != [] ==> |r.inflight| < |p.inflight|
    ensures |p.tally.errors| <= Max0(maxErrors) ==> |r.tally.errors| <= Max0(maxErrors)
    ensures p.tally.authFailed ==> r.tally.authFailed
  {
    var chosen := Completed(p.inflight, pick, block);
    var d := Done(p.inflight, chosen);
    WaitPartitions(p.inflight, chosen);
    assert block && p.inflight != [] ==> d != [] by {
      if block && p.inflight != [] {
        var f :| f in p.inflight && f.id in chosen;
        assert f in d;
      }
    }
    p.(inflight := Waiting(p.inflight, chosen), tally := ApplyAll(p.tally, d, outcome, maxErrors))
  }

  /** The payloads of the first `n` rows, in order. */
  function Payloads(rows: seq<Option<BarcodePayload>>, n: nat): (ps: seq<BarcodePayload>)
    requires n <= |rows|
    ensures |ps| <= n
  {
    if n == 0 then []
    else Payloads(rows, n - 1) + (if rows[n - 1].Some? then [rows[n - 1].value] else [])
  }

  /** The authentication failure's first sighting: rows processed and batches posted by then. */
  function Note(seen: Option<(nat, nat)>, p: Pool, processed: nat): (r: Option<(nat, nat)>)
  {
    if seen.None? && p.tally.authFailed then Some((processed, p.posted)) else seen
  }

  /** What the producer knows about an authentication failure: whether it has been seen, and
      that nothing has been processed or posted since. */
  predicate Sighted(p: Pool, seen: Option<(nat, nat)>, processed: nat)
  {
    (p.tally.authFailed <==> seen.Some?) && (seen.Some? ==> seen.value == (processed, p.posted))
  }

  /** The producer's blocking wait after a submission: drain until fewer than `maxInflight`
      batches are in flight, stopping early on an authentication failure. */
  method WaitForRoom(pool: Pool, maxInflight: int, maxErrors: int, outcome: nat -> BatchResult,
                     pick: nat -> set<nat>, waits: nat, seen: Option<(nat, nat)>, processed: nat)
    returns (r: Pool, waitsOut: nat, seenOut: Option<(nat, nat)>)
    requires PoolOk(pool) && maxInflight >= 1 && |pool.inflight| <= maxInflight
    requires Sighted(pool, seen, processed) && |pool.tally.errors| <= Max0(maxErrors)
    ensures PoolOk(r) && r.posted == pool.posted && r.submitted == pool.submitted
    ensures |r.inflight| <= |pool.inflight|
    ensures !r.tally.authFailed ==> |r.inflight| < maxInflight
    ensures Sighted(r, seenOut, processed) && |r.tally.errors| <= Max0(maxErrors)
  {
    r, waitsOut, seenOut := pool, waits, seen;
    while |r.inflight| >= maxInflight
      invariant PoolOk(r) && r.posted == pool.posted && r.submitted == pool.submitted
      invariant |r.inflight| <= |pool.inflight|
      invariant Sighted(r, seenOut, processed) && |r.tally.errors| <= Max0(maxErrors)
      decreases |r.inflight|
    {
      r := Drain(r, true, pick(waitsOut), outcome, maxErrors);
      waitsOut := waitsOut + 1;
      seenOut := Note(seenOut, r, processed);
      if r.tally.authFailed {
        return;
      }
    }
  }

  /** The final `while futures: drain_completed(block_until_one=True)`. */
  method DrainAll(pool: Pool, maxErrors: int, outcome: nat -> BatchResult, pick: nat -> set<nat>,
                  waits: nat, seen: Option<(nat, nat)>, processed: nat)
    returns (r: Pool, seenOut: Option<(nat, nat)>)
    requires PoolOk(pool) && Sighted(pool, seen, processed) && |pool.tally.errors| <= Max0(maxErrors)
    ensures PoolOk(r) && r.inflight == [] && r.posted == pool.posted && r.submitted == pool.submitted
    ensures Sighted(r, seenOut, processed) && |r.tally.errors| <= Max0(maxErrors)
    ensures pool.tally.authFailed ==> r.tally.authFailed
  {
    r, seenOut := pool, seen;
    var n := waits;
    while r.inflight != []
      invariant PoolOk(r) && r.posted == pool.posted && r.submitted == pool.submitted
      invariant Sighted(r, seenOut, processed) && |r.tally.errors| <= Max0(maxErrors)
      invariant pool.tally.authFailed ==> r.tally.authFailed
      decreases |r.inflight|
    {
      r := Drain(r, true, pick(n), outcome, maxErrors);
      n := n + 1;
      seenOut := Note(seenOut, r, processed);
    }
  }

  /** `submit_batch` on a full batch followed by the wait for room in the pool. */
  method SubmitAndWait(pool: Pool, sent: seq<seq<BarcodePayload>>, batch: seq<BarcodePayload>, peak: nat,
                       maxInflight: int, maxErrors: int, outcome: nat -> BatchResult, pick: nat -> set<nat>,
                       waits: nat, seen: Option<(nat, nat)>, processed: nat)
    returns (r: Pool, sentOut: seq<seq<BarcodePayload>>, peakOut: nat, waitsOut: nat, seenOut: Option<(nat, nat)>)
    requires PoolOk(pool) && pool.posted == |sent| && pool.submitted == |Concat(sent)|
    requires maxInflight >= 1 && |pool.inflight| < maxInflight && peak <= maxInflight
    requires !pool.tally.authFailed && seen.None? && |pool.tally.errors| <= Max0(maxErrors)
    ensures PoolOk(r) && r.posted == |sentOut| && r.submitted == |Concat(sentOut)|
    ensures sentOut == sent + [batch] && Concat(sentOut) == Concat(sent) + batch
    ensures peakOut <= maxInflight && (!r.tally.authFailed ==> |r.inflight| < maxInflight)
    ensures Sighted(r, seenOut, processed) && |r.tally.errors| <= Max0(maxErrors)
  {
    ConcatSnoc(sent, batch);
    sentOut := sent + [batch];
    r := Submit(pool, |batch|);
    peakOut := if |r.inflight| > peak then |r.inflight| else peak;
    r, waitsOut, seenOut := WaitForRoom(r, maxInflight, maxErrors, outcome, pick, waits, seen, processed);
  }

  /** The producer's loop variables. */
  datatype Producer = Producer(
    pool: Pool, processed: nat, skipped: nat, sent: seq<seq<BarcodePayload>>, batch: seq<BarcodePayload>,
    seen: Option<(nat, nat)>, peak: nat, waits: nat)

  /** What holds between rows: every payload read so far is in a submitted batch or in the
      current one, skipped rows are the payload-less ones, only full batches have been submitted,
      and the pool has room unless an authentication failure stopped the producer. */
  predicate Producing(st: Producer, rows: seq<Option<BarcodePayload>>, batchSize: int, maxInflight: int, maxErrors: int)
  {
    && st.processed <= |rows|
    && PoolOk(st.pool) && st.pool.posted == |st.sent| && st.pool.submitted == |Concat(st.sent)|
    && Concat(st.sent) + st.batch == Payloads(rows, st.processed)
    && st.skipped + |Payloads(rows, st.processed)| == st.processed
    && |st.batch| < Cap(batchSize) && AllFull(st.sent, Cap(batchSize))
    && Sighted(st.pool, st.seen, st.processed) && |st.pool.tally.errors| <= Max0(maxErrors)
    && st.peak <= maxInflight && (!st.pool.tally.authFailed ==> |st.pool.inflight| < maxInflight)
  }

  /** One row of the producer loop: count it, skip it or add its payload to the batch, submit a
      full batch and wait for room, and poll completed batches every 250 rows. */
  method Feed(st: Producer, rows: seq<Option<BarcodePayload>>, batchSize: int, maxInflight: int, maxErrors: int,
              outcome: nat -> BatchResult, pick: nat -> set<nat>)
    returns (r: Producer)
    requires maxInflight >= 1 && Producing(st, rows, batchSize, maxInflight, maxErrors)
    requires st.processed < |rows| && !st.pool.tally.authFailed
    ensures Producing(r, rows, batchSize, maxInflight, maxErrors) && r.processed == st.processed + 1
  {
    if rows[st.processed].None? {
      return st.(processed := st.processed + 1, skipped := st.skipped + 1);
    }
    r := Append(st, rows, batchSize, maxInflight, maxErrors, outcome, pick);
    if r.pool.inflight != [] && r.processed % 250 == 0 {
      r := Poll(r, rows, batchSize, maxInflight, maxErrors, outcome, pick);
    }
  }

  /** The every-250-rows `drain_completed(block_until_one=False)`. */
  method Poll(st: Producer, rows: seq<Option<BarcodePayload>>, batchSize: int, maxInflight: int, maxErrors: int,
              outcome: nat -> BatchResult, pick: nat -> set<nat>)
    returns (r: Producer)
    requires Producing(st, rows, batchSize, maxInflight, maxErrors)
    ensures Producing(r, rows, batchSize, maxInflight, maxErrors) && r.processed == st.processed
    ensures r.pool.posted == st.pool.posted && |r.pool.inflight| <= |st.pool.inflight|
  {
    var pool := Drain(st.pool, false, pick(st.waits), outcome, maxErrors);
    r := st.(pool := pool, waits := st.waits + 1, seen := Note(st.seen, pool, st.processed));
  }

  /** A row with a payload: append it to the batch, and submit the batch once it is full. */
  method Append(st: Producer, rows: seq<Option<BarcodePayload>>, batchSize: int, maxInflight: int, maxErrors: int,
                outcome: nat -> BatchResult, pick: nat -> set<nat>)
    returns (r: Producer)
    requires maxInflight >= 1 && Producing(st, rows, batchSize, maxInflight, maxErrors)
    requires st.processed < |rows| && rows[st.processed].Some? && !st.pool.tally.authFailed
    ensures Producing(r, rows, batchSize, maxInflight, maxErrors) && r.processed == st.processed + 1
  {
    var processed := st.processed + 1;
    var batch := st.batch + [rows[st.processed].value];
    assert Payloads(rows, processed) == Concat(st.sent) + batch;
    if |batch| >= batchSize {
      var pool, sent, peak, waits, seen :=
        SubmitAndWait(st.pool, st.sent, batch, st.peak, maxInflight, maxErrors, outcome, pick, st.waits, st.seen, processed);
      r := Producer(pool, processed, st.skipped, sent, [], seen, peak, waits);
    } else {
      r := st.(processed := processed, batch := batch);
    }
  }

  /** The rows `read_csv` hands over at a time. */
  const ChunkRows: nat := 5000

  /** Whether the row just processed ends a chunk: every 5000th row, and the last row of the dump. */
  predicate ChunkEnd(processed: nat, total: nat)
  {
    processed % ChunkRows == 0 || processed == total
  }

  /** The producer loop: feed rows until all are read or an authentication failure is seen. At the
      end of every chunk, unless an authentication failure stops the producer, the batches in
      flight are polled once more without blocking. */
  method Produce(rows: seq<Option<BarcodePayload>>, batchSize: int, maxInflight: int, maxErrors: int,
                 outcome: nat -> BatchResult, pick: nat -> set<nat>)
    returns (st: Producer)
    requires maxInflight >= 1
    ensures Producing(st, rows, batchSize, maxInflight, maxErrors)
    ensures st.processed == |rows| || st.pool.tally.authFailed
  {
    st := Producer(Pool([], 1, 0, 0, Tally(0, 0, 0, 0, [], false)), 0, 0, [], [], None, 0, 0);
    while st.processed < |rows| && !st.pool.tally.authFailed
      invariant Producing(st, rows, batchSize, maxInflight, maxErrors)
      decreases |rows| - st.processed
    {
      st := Feed(st, rows, batchSize, maxInflight, maxErrors, outcome, pick);
      if !st.pool.tally.authFailed && st.pool.inflight != [] && ChunkEnd(st.processed, |rows|) {
        st := Poll(st, rows, batchSize, maxInflight, maxErrors, outcome, pick);
      }
    }
  }

  /** After the producer loop: submit the last partial batch unless an authentication failure
      stopped the producer, in which case it is abandoned, then wait for every batch in flight. */
  method Finish(st: Producer, rows: seq<Option<BarcodePayload>>, batchSize: int, maxInflight: int, maxErrors: int,
                outcome: nat -> BatchResult, pick: nat -> set<nat>)
    returns (pool: Pool, processed: nat, skipped: nat, sent: seq<seq<BarcodePayload>>,
             abandoned: seq<BarcodePayload>, authSeen: Option<(nat, nat)>, peak: nat)
    requires maxInflight >= 1 && Producing(st, rows, batchSize, maxInflight, maxErrors)
    requires st.processed == |rows| || st.pool.tally.authFailed
    ensures PoolOk(pool) && pool.inflight == []
    ensures pool.tally.success + pool.tally.error == pool.submitted
    ensures pool.tally.batchSuccess + pool.tally.batchFail == pool.posted
    ensures pool.posted == |sent| && pool.nextId == |sent| + 1 && pool.submitted == |Concat(sent)|
    ensures processed <= |rows| && (processed < |rows| ==> pool.tally.authFailed)
    ensures processed == skipped + pool.submitted + |abandoned|
    ensures Concat(sent) + abandoned == Payloads(rows, processed)
    ensures Batched(sent, Cap(batchSize))
    ensures abandoned != [] ==> pool.tally.authFailed && AllFull(sent, Cap(batchSize))
    ensures !pool.tally.authFailed ==> abandoned == [] && processed == |rows| && processed == skipped + pool.submitted
    ensures pool.tally.authFailed <==> authSeen.Some?
    ensures authSeen.Some? ==> authSeen.value == (processed, pool.posted)
    ensures peak <= maxInflight
    ensures |pool.tally.errors| <= Max0(maxErrors)
  {
    pool, processed, skipped, sent, authSeen, peak := st.pool, st.processed, st.skipped, st.sent, st.seen, st.peak;
    abandoned := [];
    if !pool.tally.authFailed && st.batch != [] {
      ConcatSnoc(sent, st.batch);
      sent := sent + [st.batch];
      pool := Submit(pool, |st.batch|);
      peak := if |pool.inflight| > peak then |pool.inflight| else peak;
      BatchedSnoc(st.sent, st.batch, Cap(batchSize));
    } else {
      abandoned := st.batch;
      FullIsBatched(st.sent, Cap(batchSize));
    }
    pool, authSeen := DrainAll(pool, maxErrors, outcome, pick, st.waits, authSeen, processed);
  }

  /** `import_barcodes`: the producer loop. `rows` are the payloads of the dump's rows (None for a
      skipped row), `outcome` is each batch's result by id, and `pick(n)` is the set of batch ids
      the `n`-th wait reports as completed. Returns the pool, the rows processed and skipped, the
      batches submitted in order, the partial batch abandoned after an authentication failure,
      where that failure was first seen, and the most batches ever in flight. */
  method ImportBarcodes(rows: seq<Option<BarcodePayload>>, batchSize: int, maxInflight: int, maxErrors: int,
                        outcome: nat -> BatchResult, pick: nat -> set<nat>)
    returns (pool: Pool, processed: nat, skipped: nat, sent: seq<seq<BarcodePayload>>,
             abandoned: seq<BarcodePayload>, authSeen: Option<(nat, nat)>, peak: nat)
    requires maxInflight >= 1
    ensures PoolOk(pool) && pool.inflight == []
    ensures pool.tally.success + pool.tally.error == pool.submitted
    ensures pool.tally.batchSuccess + pool.tally.batchFail == pool.posted
    ensures pool.posted == |sent| && pool.nextId == |sent| + 1 && pool.submitted == |Concat(sent)|
    ensures processed <= |rows| && (processed < |rows| ==> pool.tally.authFailed)
    ensures processed == skipped + pool.submitted + |abandoned|
    ensures Concat(sent) + abandoned == Payloads(rows, processed)
    ensures Batched(sent, Cap(batchSize))
    ensures abandoned != [] ==> pool.tally.authFailed && AllFull(sent, Cap(batchSize))
    ensures !pool.tally.authFailed ==> abandoned == [] && processed == |rows| && processed == skipped + pool.submitted
    ensures pool.tally.authFailed <==> authSeen.Some?
    ensures authSeen.Some? ==> authSeen.value == (processed, pool.posted)
    ensures peak <= maxInflight
    ensures |pool.tally.errors| <= Max0(maxErrors)
  {
    var st := Produce(rows, batchSize, maxInflight, maxErrors, outcome, pick);
    pool, processed, skipped, sent, abandoned, authSeen, peak :=
      Finish(st, rows, batchSize, maxInflight, maxErrors, outcome, pick);
  }

  /** The wait for room as written, with an in-flight limit of 0 or below: once the pool is empty
      the loop's condition `len(futures) >= max_inflight_batches` still holds and a drain of an
      empty pool returns at once without changing anything, so the loop never ends. */
  lemma WaitSpinsWithoutLimit(p: Pool, maxInflight: int, pick: set<nat>, outcome: nat -> BatchResult, maxErrors: int)
    requires PoolOk(p) && p.inflight == [] && maxInflight <= 0
    ensures |p.inflight| >= maxInflight
    ensures Drain(p, true, pick, outcome, maxErrors) == p
  {
  }

  /** The import with the in-flight limit read as at least 1, which every input can call: the
      pool never holds more than that many batches and the run ends with every batch settled. */
  method ImportBarcodesClamped(rows: seq<Option<BarcodePayload>>, batchSize: int, maxInflight: int, maxErrors: int,
                               outcome: nat -> BatchResult, pick: nat -> set<nat>)
    returns (pool: Pool, processed: nat, sent: seq<seq<BarcodePayload>>, peak: nat)
    ensures PoolOk(pool) && pool.inflight == [] && pool.tally.success + pool.tally.error == pool.submitted
    ensures peak <= Cap(maxInflight)
    ensures !pool.tally.authFailed ==> processed == |rows| && Concat(sent) == Payloads(rows, |rows|)
  {
    var skipped, abandoned, authSeen;
    pool, processed, skipped, sent, abandoned, authSeen, peak :=
      ImportBarcodes(rows, batchSize, Cap(maxInflight), maxErrors, outcome, pick);
    assert !pool.tally.authFailed ==> Concat(sent) + abandoned == Concat(sent);
  }
}

=== FILE: batching.dfy ===
/** What the importers share about cutting a stream of payloads into batches: the batches read
    back in order as the stream, and every batch but the last is full. */
module Batching {

  /** The batches laid end to end. */
  function Concat<T>(batches: seq<seq<T>>): seq<T>
  {
    if batches == [] then [] else Concat(batches[..|batches| - 1]) + batches[|batches| - 1]
  }

  lemma ConcatSnoc<T>(batches: seq<seq<T>>, b: seq<T>)
    ensures Concat(batches + [b]) == Concat(batches) + b
  {
    assert (batches + [b])[..|batches|] == batches;
  }

  /** Prepending a batch prepends its payloads. */
  lemma {:induction false} ConcatCons<T>(b: seq<T>, batches: seq<seq<T>>)
    ensures Concat([b] + batches) == b + Concat(batches)
    decreases |batches|
  {
    if batches != [] {
      var init, last := batches[..|batches| - 1], batches[|batches| - 1];
      assert [b] + batches == ([b] + init) + [last];
      assert batches == init + [last];
      ConcatSnoc([b] + init, last);
      ConcatSnoc(init, last);
      ConcatCons(b, init);
    }
  }

  /** The effective batch size: a size below 1 flushes after every payload. */
  function Cap(batchSize: int): nat
  {
    if batchSize >= 1 then batchSize else 1
  }

  /** A count limit read as a length bound: a limit below 0 allows nothing. */
  function Max0(n: int): nat
  {
    if n > 0 then n else 0
  }

  predicate AllFull<T>(sent: seq<seq<T>>, size: nat)
  {
    forall i :: 0 <= i < |sent| ==> |sent[i]| == size
  }

  lemma AllFullSnoc<T>(sent: seq<seq<T>>, b: seq<T>, size: nat)
    requires AllFull(sent, size) && |b| == size
    ensures AllFull(sent + [b], size)
  {
  }

  /** Every batch has between 1 and `size` payloads, and only the last may be short. */
  predicate Batched<T>(sent: seq<seq<T>>, size: nat)
  {
    forall i :: 0 <= i < |sent| ==> 1 <= |sent[i]| <= size && (i < |sent| - 1 ==> |sent[i]| == size)
  }

  lemma BatchedSnoc<T>(sent: seq<seq<T>>, b: seq<T>, size: nat)
    requires AllFull(sent, size) && 1 <= |b| <= size
    ensures Batched(sent + [b], size)
  {
  }

  lemma FullIsBatched<T>(sent: seq<seq<T>>, size: nat)
    requires AllFull(sent, size) && size >= 1
    ensures Batched(sent, size)
  {
  }
}

=== FILE: cleaning.dfy ===
/** The string cleaners of the ingestion scripts. Each script carries its own variant and the
    variants differ in whether they strip before or after the sentinel test and in which
    sentinels they know, so each is modelled on its own. */
module Cleaning {
  import opened Wrappers
  import opened Text

  /** A cell as pandas hands it over: absent, a float NaN, or text. */
  datatype Cell = Missing | NaN | Str(s: string)

  /** Placeholder spellings the FDC/OpenFoodFacts importer treats as "no value". */
  const ImportSentinels: set<string> := {"N/A", "NULL", "null", "None", "nan"}

  /** Placeholder spellings of the CSV, backfill and portion scripts; the empty string is among them. */
  const NullWords: set<string> := {"", "N/A", "NULL", "null", "None"}

  predicate Stripped(s: string) { s == [] || (!IsSpace(s[0]) && !IsSpace(s[|s| - 1])) }

  /** `_clean_string` of the FDC/OpenFoodFacts importer: strip first, then reject empty text and
      the five sentinels. */
  function ImportCleanString(v: Cell): (r: Option<string>)
    ensures v.Missing? || v.NaN? ==> r == None
    ensures v.Str? && (AllSpace(v.s) || Strip(v.s) in ImportSentinels) ==> r == None
    ensures r.Some? ==> v.Str? && r.value != [] && Stripped(r.value) && r.value !in ImportSentinels
    ensures r.Some? ==> exists i, j :: 0 <= i <= j <= |v.s| && r.value == v.s[i..j]
  {
    match v
    case Missing => None
    case NaN => None
    case Str(s) =>
      StripEmptyIffAllSpace(s);
      StripIsSlice(s);
      var c := Strip(s);
      if c == [] || c in ImportSentinels then None else Some(c)
  }

  /** Cleaning a cleaned value changes nothing. */
  lemma ImportCleanIdempotent(v: Cell)
    requires ImportCleanString(v).Some?
    ensures ImportCleanString(Str(ImportCleanString(v).value)) == ImportCleanString(v)
  {
    StripOfStripped(ImportCleanString(v).value);
  }

  /** Text with surrounding blanks is kept, trimmed, exactly when its trimmed form is real text. */
  lemma ImportCleanKeepsRealText(s: string)
    requires !AllSpace(s) && Strip(s) !in ImportSentinels
    ensures ImportCleanString(Str(s)) == Some(Strip(s))
  {
    StripEmptyIffAllSpace(s);
  }

  /** `_clean_string` of the barcode poster: only NaN, "" and "N/A" are absent and the strip
      comes afterwards, so blank text survives as the empty string. */
  function BarcodeCleanString(v: Cell): (r: Option<string>)
    ensures r == None <==> (v.Missing? || v.NaN? || (v.Str? && (v.s == "" || v.s == "N/A")))
    ensures r.Some? ==> Stripped(r.value)
    ensures r.Some? && v.Str? && !AllSpace(v.s) ==> r.value != []
    ensures r.Some? ==> v.Str? && r.value == Strip(v.s)
  {
    match v
    case Missing => None
    case NaN => None
    case Str(s) =>
      StripEmptyIffAllSpace(s);
      if s == "" || s == "N/A" then None else Some(Strip(s))
  }

  /** Blank text is not absent for the barcode poster: it cleans to "". */
  lemma BarcodeCleanKeepsBlank(s: string)
    requires s != [] && AllSpace(s)
    ensures BarcodeCleanString(Str(s)) == Some("")
  {
    StripEmptyIffAllSpace(s);
  }

  /** A padded "N/A" is not recognised by the barcode poster: the test runs before the strip. */
  lemma BarcodeCleanKeepsPaddedSentinel(pad: string)
    requires pad != [] && AllSpace(pad)
    ensures BarcodeCleanString(Str(pad + "N/A")) == Some("N/A")
  {
    StripPadded(pad, "N/A", "");
    assert pad + "N/A" + "" == pad + "N/A";
    assert |pad + "N/A"| > 3;
  }

  /** `_clean_string` of the CSV poster (repeated verbatim by the backfill script): the sentinel test
      sees the raw value, the strip comes afterwards. */
  function CsvCleanString(v: Cell): (r: Option<string>)
    ensures r == None <==> (v.Missing? || v.NaN? || (v.Str? && v.s in NullWords))
    ensures r.Some? ==> Stripped(r.value)
    ensures r.Some? ==> (r.value == [] <==> AllSpace(v.s))
    ensures r.Some? ==> v.Str? && r.value == Strip(v.s)
  {
    match v
    case Missing => None
    case NaN => None
    case Str(s) =>
      StripEmptyIffAllSpace(s);
      if s in NullWords then None else Some(Strip(s))
  }

  /** Blank text is not absent for the CSV poster either: it cleans to "". */
  lemma CsvCleanKeepsBlank(s: string)
    requires s != [] && AllSpace(s)
    ensures CsvCleanString(Str(s)) == Some("")
  {
    StripEmptyIffAllSpace(s);
    assert s !in NullWords by {
      assert IsSpace(s[0]);
    }
  }

  /** A padded sentinel passes the CSV poster's test and comes out stripped. */
  lemma CsvCleanKeepsPaddedSentinel(pad: string)
    requires pad != [] && AllSpace(pad)
    ensures CsvCleanString(Str(pad + "null")) == Some("null")
  {
    StripPadded(pad, "null", "");
    assert pad + "null" + "" == pad + "null";
    assert (pad + "null")[0] == pad[0];
  }

  /** `_clean_string` of the portion importer (its rows come from `csv.DictReader`, so a cell is
      text or absent): strip first, then reject the null words. */
  function PortionCleanString(v: Option<string>): (r: Option<string>)
    ensures v.None? ==> r == None
    ensures v.Some? && (AllSpace(v.value) || Strip(v.value) in NullWords) ==> r == None
    ensures r.Some? ==> v.Some? && r.value != [] && Stripped(r.value) && r.value !in NullWords
    ensures r.Some? ==> r.value == Strip(v.value)
  {
    match v
    case None => None
    case Some(s) =>
      StripEmptyIffAllSpace(s);
      var c := Strip(s);
      if c in NullWords then None else Some(c)
  }

  /** The portion cleaner differs from the importer's only on "nan", which it keeps. */
  lemma PortionAgreesWithImport(s: string)
    requires Strip(s) != "nan"
    ensures PortionCleanString(Some(s)) == ImportCleanString(Str(s))
  {
    StripEmptyIffAllSpace(s);
  }
}

=== FILE: cors.dfy ===
/** The API's allowed CORS origins, read from the `CORS_ORIGINS` setting at start-up. */
module Cors {
  import opened Wrappers
  import opened Text

  /** The origins a development server allows when nothing is configured. */
  const DevelopmentOrigins: seq<string> :=
    ["http://localhost:3000", "http://localhost:3001", "http://localhost:8081", "http://192.168.1.4:8081"]

  datatype ConfigError = CorsOriginsMissing

  /** A clean origin: non-empty, without surrounding whitespace, without a comma. */
  predicate CleanOrigin(o: string) { o != [] && Strip(o) == o && ',' !in o }

  /** The trimmed pieces that are not empty, in order. */
  function NonEmptyTrimmed(pieces: seq<string>): (r: seq<string>)
    ensures forall o :: o in r ==> o != [] && Strip(o) == o
  {
    if pieces == [] then []
    else
      var t := Strip(pieces[0]);
      StripIdempotent(pieces[0]);
      (if t == [] then [] else [t]) + NonEmptyTrimmed(pieces[1..])
  }

  /** Trimming comma-free pieces yields comma-free origins. */
  lemma {:induction false} NonEmptyTrimmedClean(pieces: seq<string>)
    requires forall p :: p in pieces ==> ',' !in p
    ensures forall o :: o in NonEmptyTrimmed(pieces) ==> CleanOrigin(o)
  {
    if pieces != [] {
      StripKeepsAbsent(pieces[0], ',');
      assert forall p :: p in pieces[1..] ==> p in pieces;
      NonEmptyTrimmedClean(pieces[1..]);
    }
  }

  lemma DevelopmentOriginsClean()
    ensures forall o :: o in DevelopmentOrigins ==> CleanOrigin(o)
  {
    forall o | o in DevelopmentOrigins
      ensures CleanOrigin(o)
    {
      assert o[0] == 'h' && IsDigit(o[|o| - 1]);
      StripOfStripped(o);
    }
  }

  /** `getCorsOrigins`: a blank or missing setting is fatal in production and gives the
      development origins elsewhere; otherwise the comma-separated entries, trimmed, with the
      empty ones dropped. */
  function GetCorsOrigins(setting: Option<string>, production: bool): (r: Result<seq<string>, ConfigError>)
    ensures r.Failure? <==> production && (setting.None? || Strip(setting.value) == [])
    ensures !production && (setting.None? || Strip(setting.value) == []) ==> r == Success(DevelopmentOrigins)
    ensures r.Success? ==> forall o :: o in r.value ==> CleanOrigin(o)
  {
    if setting.None? || setting.value == [] || |Strip(setting.value)| == 0 then
      if production then Failure(CorsOriginsMissing)
      else
        DevelopmentOriginsClean();
        Success(DevelopmentOrigins)
    else
      var pieces := Split(setting.value, ',');
      NonEmptyTrimmedClean(pieces);
      Success(NonEmptyTrimmed(pieces))
  }

  lemma {:induction false} NonEmptyTrimmedOfClean(os: seq<string>)
    requires forall o :: o in os ==> CleanOrigin(o)
    ensures NonEmptyTrimmed(os) == os
  {
    if os != [] {
      assert CleanOrigin(os[0]);
      assert NonEmptyTrimmed(os) == [os[0]] + NonEmptyTrimmed(os[1..]);
      assert forall o :: o in os[1..] ==> o in os;
      NonEmptyTrimmedOfClean(os[1..]);
      assert os == [os[0]] + os[1..];
    }
  }

  /** A configured list of clean origins, comma-joined, is read back exactly, in order, in
      production or not. */
  lemma CorsOriginsRoundTrip(os: seq<string>, production: bool)
    requires os != [] && forall o :: o in os ==> CleanOrigin(o)
    ensures GetCorsOrigins(Some(Join(os, ',')), production) == Success(os)
  {
    var s := Join(os, ',');
    assert CleanOrigin(os[0]);
    JoinKeepsFirst(os, ',');
    assert s[0] == os[0][0];
    StripEmptyIffAllSpace(s);
    assert Strip(s) != [];
    assert forall k :: 0 <= k < |os| ==> CleanOrigin(os[k]);
    SplitJoin(os, ',');
    NonEmptyTrimmedOfClean(os);
  }

  /** The joined text starts with the first piece. */
  lemma JoinKeepsFirst(os: seq<string>, sep: char)
    requires os != []
    ensures |os[0]| <= |Join(os, sep)| && Join(os, sep)[..|os[0]|] == os[0]
  {
    if |os| > 1 {
      assert Join(os, sep) == os[0] + [sep] + Join(os[1..], sep);
    }
  }

  /** A production setting made only of a comma passes the blank check yet allows no origin. */
  lemma OnlyCommaAllowsNothing(production: bool)
    ensures GetCorsOrigins(Some(","), production) == Success([])
  {
    StripOfStripped(",");
    assert IndexOf(",", ',') == 0 && IndexOf("", ',') == 0;
    assert Split(",", ',') == ["", ""];
    assert Strip("") == [];
    assert NonEmptyTrimmed([""]) == [];
  }
}

=== FILE: csrf.dfy ===
/** The double-submit CSRF defence of the API: the constant-time token comparison, the guard that
    decides which requests need a token, and the rules the CSRF secret must satisfy at start-up.
    Header values other than the tokens are `string`s of `char`s. */
module Csrf {
  import opened Wrappers
  import Text

  /** A token as JavaScript holds it: UTF-16 code units, which `charCodeAt` returns. */
  type Token = seq<bv16>

  /** Or-ing a difference into the accumulator keeps it zero exactly when both were zero. */
  lemma OrXorZero(acc: bv16, x: bv16, y: bv16)
    ensures acc | (x ^ y) == 0 <==> acc == 0 && x == y
  {
  }

  /** Two prefixes one longer agree exactly when the shorter ones and the new position do. */
  lemma PrefixStep(a: Token, b: Token, i: nat)
    requires i < |a| == |b|
    ensures a[..i + 1] == b[..i + 1] <==> a[..i] == b[..i] && a[i] == b[i]
  {
    assert a[..i + 1] == a[..i] + [a[i]] && b[..i + 1] == b[..i] + [b[i]];
    if a[..i + 1] == b[..i + 1] {
      assert a[..i + 1][..i] == a[..i] && b[..i + 1][..i] == b[..i];
      assert a[..i + 1][i] == a[i] && b[..i + 1][i] == b[i];
    }
  }

  /** The accumulator after the first `i` positions: their differences or-ed together. */
  function Diff(a: Token, b: Token, i: nat): bv16
    requires i <= |a| == |b|
  {
    if i == 0 then 0 else Diff(a, b, i - 1) | (a[i - 1] ^ b[i - 1])
  }

  /** One more position keeps the accumulator zero exactly when that position agrees. */
  lemma DiffStep(a: Token, b: Token, i: nat)
    requires i < |a| == |b|
    ensures Diff(a, b, i + 1) == 0 <==> Diff(a, b, i) == 0 && a[i] == b[i]
  {
    var d := Diff(a, b, i);
    assert Diff(a, b, i + 1) == d | (a[i] ^ b[i]);
    OrXorZero(d, a[i], b[i]);
  }

  /** The accumulator is zero exactly when the prefixes agree. */
  lemma {:induction false} DiffZero(a: Token, b: Token, i: nat)
    requires i <= |a| == |b|
    ensures Diff(a, b, i) == 0 <==> a[..i] == b[..i]
  {
    if i > 0 {
      DiffZero(a, b, i - 1);
      DiffStep(a, b, i - 1);
      PrefixStep(a, b, i - 1);
    }
  }

  /** `secureCompare`: a length mismatch answers at once; otherwise every position is visited,
      with no early exit, and the differences are or-ed together. */
  method SecureCompare(a: Token, b: Token) returns (equal: bool)
    ensures equal <==> a == b
  {
    if |a| != |b| {
      return false;
    }
    var result: bv16 := 0;
    for i := 0 to |a|
      invariant result == Diff(a, b, i)
    {
      result := result | (a[i] ^ b[i]);
    }
    DiffZero(a, b, |a|);
    assert a[..|a|] == a && b[..|b|] == b;
    return result == 0;
  }

  /** `validateToken`: an empty token on either side never validates; otherwise the two
      tokens must be identical. */
  method ValidateToken(cookieToken: Token, headerToken: Token) returns (valid: bool)
    ensures valid <==> cookieToken != [] && cookieToken == headerToken
    ensures valid <==> headerToken != [] && headerToken == cookieToken
  {
    if cookieToken == [] || headerToken == [] {
      return false;
    }
    valid := SecureCompare(cookieToken, headerToken);
  }

  // ---------------------------------------------------------------------------------------------
  // The guard

  /** What the guard reads from a request. A header or cookie that is absent is `None`. */
  datatype Request = Request(
    skipCsrf: bool,
    httpMethod: string,
    authorization: Option<string>,
    cookieToken: Option<Token>,
    headerToken: Option<Token>)

  datatype Forbidden = TokenMissing | TokenInvalid

  const SafeMethods: seq<string> := ["GET", "HEAD", "OPTIONS"]

  const BearerPrefix: string := "Bearer "

  /** JavaScript truthiness of an optional string. */
  predicate Present<T>(s: Option<seq<T>>) { s.Some? && s.value != [] }

  /** A request the guard lets through without looking at any CSRF token: a route marked to
      skip the check, a safe method, or a bearer-authenticated (mobile) client. */
  predicate Exempt(req: Request)
  {
    || req.skipCsrf
    || req.httpMethod in SafeMethods
    || (req.authorization.Some? && |BearerPrefix| <= |req.authorization.value|
        && req.authorization.value[..|BearerPrefix|] == BearerPrefix)
  }

  /** `canActivate`: the checks in their source order. The guard either lets the request through
      or throws Forbidden; it never answers `false`. */
  method CanActivate(req: Request) returns (r: Result<bool, Forbidden>)
    ensures r.Success? ==> r.value
    ensures r.Success? <==>
      Exempt(req) || (Present(req.cookieToken) && req.cookieToken == req.headerToken)
    ensures r == Failure(TokenMissing) <==>
      !Exempt(req) && !(Present(req.cookieToken) && Present(req.headerToken))
  {
    if req.skipCsrf {
      return Success(true);
    }
    if req.httpMethod in SafeMethods {
      return Success(true);
    }
    var auth := req.authorization;
    if auth.Some? && auth.value != [] && |BearerPrefix| <= |auth.value|
       && auth.value[..|BearerPrefix|] == BearerPrefix {
      return Success(true);
    }
    if !Present(req.cookieToken) || !Present(req.headerToken) {
      return Failure(TokenMissing);
    }
    var valid := ValidateToken(req.cookieToken.value, req.headerToken.value);
    if !valid {
      return Failure(TokenInvalid);
    }
    return Success(true);
  }

  // ---------------------------------------------------------------------------------------------
  // The secret

  datatype SecretError = SecretMissing | SecretTooShort

  /** The shortest secret accepted in production. */
  const MinProductionSecret: nat := 32

  /** `getCsrfSecret`. The configured value wins over the environment variable only when it is
      defined (`??`); a blank secret is replaced by the freshly `generated` one outside production
      and is fatal in production, where a secret must also be at least 32 characters long. */
  function CsrfSecret(configured: Option<string>, env: Option<string>, production: bool,
                      generated: string): (r: Result<string, SecretError>)
    ensures var s := if configured.Some? then configured else env;
      && (r == Failure(SecretMissing) <==> production && (s.None? || Text.Strip(s.value) == []))
      && (r == Failure(SecretTooShort) <==>
            production && s.Some? && Text.Strip(s.value) != [] && |s.value| < MinProductionSecret)
      && (r.Success? && production ==> |r.value| >= MinProductionSecret && Text.Strip(r.value) != [])
      && (r.Success? && s.Some? && Text.Strip(s.value) != [] ==> r.value == s.value)
      && (!production && (s.None? || Text.Strip(s.value) == []) ==> r == Success(generated))
  {
    var secret := configured.GetOr(env.GetOr([]));
    var defined := configured.Some? || env.Some?;
    if !defined || secret == [] || |Text.Strip(secret)| == 0 then
      if production then Failure(SecretMissing) else Success(generated)
    else if production && |secret| < MinProductionSecret then Failure(SecretTooShort)
    else Success(secret)
  }
}

=== FILE: csv_batches.dfy ===
/** The batch accounting of the CSV importer (`flush_batch` inside `import_foods`), over any
    payload type `P` and any database `D` written by `write`: each batch is one transaction, so a
    batch either lands whole or leaves the database as it was, and the counters say which. */
module CsvBatches {
  import opened Wrappers
  import opened Batching

  /** The database after the first `n` written batches: batch `k` (1-based) is rolled back when
      `fails(k)` and applied by `write` otherwise. */
  function Replay<P, D>(db: D, written: seq<seq<P>>, fails: nat -> bool, write: (D, seq<P>) -> D, n: nat): D
    requires n <= |written|
  {
    if n == 0 then db
    else
      var before := Replay(db, written, fails, write, n - 1);
      if fails(n) then before else write(before, written[n - 1])
  }

  /** Rows of the first `n` written batches whose write succeeded. */
  function OkRows<P>(written: seq<seq<P>>, fails: nat -> bool, n: nat): nat
    requires n <= |written|
  {
    if n == 0 then 0 else OkRows(written, fails, n - 1) + (if fails(n) then 0 else |written[n - 1]|)
  }

  /** Successful batches among the first `n`. */
  function OkBatches(fails: nat -> bool, n: nat): nat
  {
    if n == 0 then 0 else OkBatches(fails, n - 1) + (if fails(n) then 0 else 1)
  }

  /** The importer's state: the database, the batch being filled, the batches written so far
      (batch `k + 1` is `written[k]`), and the counters. `errors` keeps (batch id, rows) of the
      failures reported as examples. */
  datatype Import<P, D> = Import(
    db: D, batch: seq<P>, written: seq<seq<P>>,
    processed: nat, skipped: nat, submitted: nat, success: nat, error: nat,
    batchSuccess: nat, batchFail: nat, errors: seq<(nat, nat)>)

  /** The importer before the first row. */
  function Start<P, D>(db: D): Import<P, D>
  {
    Import(db, [], [], 0, 0, 0, 0, 0, 0, 0, [])
  }

  /** What the counters mean: every submitted row is counted once as written or failed, all or
      nothing per batch, the database holds exactly the successful batches, and every scanned row
      is skipped, submitted or pending. */
  ghost predicate Accounted<P, D>(st: Import<P, D>, db: D, fails: nat -> bool, write: (D, seq<P>) -> D, maxErrors: int)
  {
    && st.submitted == |Concat(st.written)|
    && st.success == OkRows(st.written, fails, |st.written|) && st.success + st.error == st.submitted
    && st.batchSuccess == OkBatches(fails, |st.written|) && st.batchSuccess + st.batchFail == |st.written|
    && st.db == Replay(db, st.written, fails, write, |st.written|)
    && |st.errors| <= Max0(maxErrors)
    && st.processed == st.skipped + st.submitted + |st.batch|
  }

  lemma StartAccounted<P, D>(db: D, fails: nat -> bool, write: (D, seq<P>) -> D, maxErrors: int)
    ensures Accounted(Start<P, D>(db), db, fails, write, maxErrors)
  {
  }

  /** `flush_batch`: nothing for an empty batch (or an unforced short one); otherwise the batch is
      written under the next id, inside one transaction, and all its rows count as written or as
      failed. At most `maxErrors` failures are kept as examples. */
  function Flush<P, D>(st: Import<P, D>, force: bool, batchSize: int, fails: nat -> bool, write: (D, seq<P>) -> D, maxErrors: int): Import<P, D>
  {
    if st.batch == [] || (!force && |st.batch| < batchSize) then st
    else
      var id := |st.written| + 1;
      var rows := |st.batch|;
      var ok := !fails(id);
      st.(db := if ok then write(st.db, st.batch) else st.db,
          batch := [], written := st.written + [st.batch],
          submitted := st.submitted + rows,
          success := if ok then st.success + rows else st.success,
          error := if ok then st.error else st.error + rows,
          batchSuccess := if ok then st.batchSuccess + 1 else st.batchSuccess,
          batchFail := if ok then st.batchFail else st.batchFail + 1,
          errors := if !ok && |st.errors| < maxErrors then st.errors + [(id, rows)] else st.errors)
  }

  /** A flush keeps the accounting, moves the batch into the written list, and touches nothing
      when there is nothing to write. */
  lemma FlushAccounts<P, D>(st: Import<P, D>, db: D, force: bool, batchSize: int, fails: nat -> bool, write: (D, seq<P>) -> D, maxErrors: int)
    requires Accounted(st, db, fails, write, maxErrors)
    ensures var r := Flush(st, force, batchSize, fails, write, maxErrors);
            && Accounted(r, db, fails, write, maxErrors)
            && r.processed == st.processed && r.skipped == st.skipped
            && (st.batch == [] ==> r == st)
            && (force && st.batch != [] ==> r.batch == [] && r.written == st.written + [st.batch])
            && Concat(r.written) + r.batch == Concat(st.written) + st.batch
  {
    var r := Flush(st, force, batchSize, fails, write, maxErrors);
    if r != st {
      ConcatSnoc(st.written, st.batch);
      var n := |st.written|;
      assert r.written[..n] == st.written;
      ReplayPrefix(db, st.written, r.written, fails, write, n);
      OkRowsPrefix(st.written, r.written, fails, n);
    }
  }

  lemma {:induction false} ReplayPrefix<P, D>(db: D, a: seq<seq<P>>, b: seq<seq<P>>, fails: nat -> bool, write: (D, seq<P>) -> D, n: nat)
    requires n <= |a| && n <= |b| && a[..n] == b[..n]
    ensures Replay(db, a, fails, write, n) == Replay(db, b, fails, write, n)
  {
    if n > 0 {
      assert a[..n - 1] == b[..n - 1] by {
        assert a[..n - 1] == a[..n][..n - 1];
        assert b[..n - 1] == b[..n][..n - 1];
      }
      assert a[n - 1] == a[..n][n - 1];
      ReplayPrefix(db, a, b, fails, write, n - 1);
    }
  }

  lemma {:induction false} OkRowsPrefix<P>(a: seq<seq<P>>, b: seq<seq<P>>, fails: nat -> bool, n: nat)
    requires n <= |a| && n <= |b| && a[..n] == b[..n]
    ensures OkRows(a, fails, n) == OkRows(b, fails, n)
  {
    if n > 0 {
      assert a[..n - 1] == b[..n - 1] by {
        assert a[..n - 1] == a[..n][..n - 1];
        assert b[..n - 1] == b[..n][..n - 1];
      }
      assert a[n - 1] == a[..n][n - 1];
      OkRowsPrefix(a, b, fails, n - 1);
    }
  }

  /** When no batch fails, every submitted row is written and the database holds every batch. */
  lemma {:induction false} NoFailuresWriteAll<P>(written: seq<seq<P>>, fails: nat -> bool, n: nat)
    requires n <= |written|
    requires forall k :: 1 <= k <= n ==> !fails(k)
    ensures OkRows(written, fails, n) == |Concat(written[..n])|
    ensures OkBatches(fails, n) == n
  {
    if n > 0 {
      NoFailuresWriteAll(written, fails, n - 1);
      assert written[..n] == written[..n - 1] + [written[n - 1]];
      ConcatSnoc(written[..n - 1], written[n - 1]);
    }
  }

  /** A converted row as a list: its payload, or nothing for a skipped row. */
  function Kept<P>(p: Option<P>): seq<P>
  {
    if p.Some? then [p.value] else []
  }

  /** One row, already converted: a row without a payload is counted and skipped; otherwise its
      payload joins the batch, and a batch that reaches `batch_size` is written at once. */
  function Step<P, D>(st: Import<P, D>, p: Option<P>, batchSize: int, fails: nat -> bool, write: (D, seq<P>) -> D, maxErrors: int): Import<P, D>
  {
    if p.None? then st.(processed := st.processed + 1, skipped := st.skipped + 1)
    else
      var grown := st.(processed := st.processed + 1, batch := st.batch + [p.value]);
      if |grown.batch| >= batchSize then Flush(grown, true, batchSize, fails, write, maxErrors) else grown
  }

  /** The loop invariant of `import_foods` once the payloads `ps` have been produced: the
      accounting holds, the written batches followed by the pending one are exactly `ps` in order,
      every written batch is full, and the pending one is short. */
  ghost predicate Feeding<P, D>(st: Import<P, D>, db: D, ps: seq<P>, batchSize: int, fails: nat -> bool, write: (D, seq<P>) -> D, maxErrors: int)
  {
    && Accounted(st, db, fails, write, maxErrors)
    && Concat(st.written) + st.batch == ps
    && AllFull(st.written, Cap(batchSize)) && |st.batch| < Cap(batchSize)
  }

  /** Feeding one converted row keeps the invariant, with the row's payload (if any) produced. */
  lemma StepFeeds<P, D>(st: Import<P, D>, db: D, ps: seq<P>, p: Option<P>, batchSize: int, fails: nat -> bool, write: (D, seq<P>) -> D, maxErrors: int)
    requires Feeding(st, db, ps, batchSize, fails, write, maxErrors)
    ensures var r := Step(st, p, batchSize, fails, write, maxErrors);
            Feeding(r, db, ps + Kept(p), batchSize, fails, write, maxErrors) && r.processed == st.processed + 1
  {
    if p.Some? {
      GrowFeeds(st, db, ps, p.value, batchSize, fails, write, maxErrors);
    } else {
      assert ps + Kept(p) == ps;
    }
  }

  /** A payload joins the pending batch, which is written once it is full. */
  lemma GrowFeeds<P, D>(st: Import<P, D>, db: D, ps: seq<P>, x: P, batchSize: int, fails: nat -> bool, write: (D, seq<P>) -> D, maxErrors: int)
    requires Feeding(st, db, ps, batchSize, fails, write, maxErrors)
    ensures var r := Step(st, Some(x), batchSize, fails, write, maxErrors);
            Feeding(r, db, ps + [x], batchSize, fails, write, maxErrors) && r.processed == st.processed + 1
  {
    var grown := st.(processed := st.processed + 1, batch := st.batch + [x]);
    assert Concat(grown.written) + grown.batch == ps + [x];
    assert Accounted(grown, db, fails, write, maxErrors);
    if |grown.batch| >= batchSize {
      FlushAccounts(grown, db, true, batchSize, fails, write, maxErrors);
      AllFullSnoc(st.written, grown.batch, Cap(batchSize));
    }
  }

  /** The closing `flush_batch(force=True)`: nothing stays pending, the written batches are the
      payloads in order, and only the last may be short. */
  method Finish<P, D>(st0: Import<P, D>, db: D, ps: seq<P>, batchSize: int, fails: nat -> bool, write: (D, seq<P>) -> D, maxErrors: int)
    returns (st: Import<P, D>)
    requires Feeding(st0, db, ps, batchSize, fails, write, maxErrors)
    ensures Accounted(st, db, fails, write, maxErrors)
    ensures st.batch == [] && Concat(st.written) == ps
    ensures Batched(st.written, Cap(batchSize)) && st.processed == st0.processed
  {
    FlushAccounts(st0, db, true, batchSize, fails, write, maxErrors);
    st := Flush(st0, true, batchSize, fails, write, maxErrors);
    if st0.batch == [] {
      FullIsBatched(st0.written, Cap(batchSize));
    } else {
      BatchedSnoc(st0.written, st0.batch, Cap(batchSize));
    }
  }

  /** A chunk of the CSV file: its header and its rows. */
  datatype Chunk<R> = Chunk(columns: set<string>, rows: seq<R>)

  /** The column every row needs. */
  const NameColumn: string := "Name"

  /** The chunk's header has the name column. */
  predicate Named<R>(c: Chunk<R>) { NameColumn in c.columns }

  /** The rows of the first `n` chunks, in file order. */
  function RowsOf<R>(chunks: seq<Chunk<R>>, n: nat): seq<R>
    requires n <= |chunks|
  {
    if n == 0 then [] else RowsOf(chunks, n - 1) + chunks[n - 1].rows
  }

  /** The payloads of `rows` in order: the rows `convert` accepts. */
  function Produced<R, P>(rows: seq<R>, convert: R -> Option<P>): (ps: seq<P>)
    ensures |ps| <= |rows|
  {
    if rows == [] then [] else Produced(rows[..|rows| - 1], convert) + Kept(convert(rows[|rows| - 1]))
  }

  lemma ProducedSnoc<R, P>(rows: seq<R>, row: R, convert: R -> Option<P>)
    ensures Produced(rows + [row], convert) == Produced(rows, convert) + Kept(convert(row))
  {
    assert (rows + [row])[..|rows|] == rows;
  }

  /** The rows of one chunk, fed in order. */
  method FeedChunk<R, P, D>(st0: Import<P, D>, db: D, ghost seen: seq<R>, rows: seq<R>, batchSize: int, fails: nat -> bool,
                            write: (D, seq<P>) -> D, maxErrors: int, convert: R -> Option<P>)
    returns (st: Import<P, D>)
    requires Feeding(st0, db, Produced(seen, convert), batchSize, fails, write, maxErrors) && st0.processed == |seen|
    ensures Feeding(st, db, Produced(seen + rows, convert), batchSize, fails, write, maxErrors) && st.processed == |seen + rows|
  {
    st := st0;
    var i := 0;
    ghost var done := seen;
    assert seen + rows[..0] == seen;
    while i < |rows|
      invariant 0 <= i <= |rows| && done == seen + rows[..i]
      invariant Feeding(st, db, Produced(done, convert), batchSize, fails, write, maxErrors)
      invariant st.processed == |seen| + i
    {
      var p := convert(rows[i]);
      StepFeeds(st, db, Produced(done, convert), p, batchSize, fails, write, maxErrors);
      ProducedSnoc(done, rows[i], convert);
      AppendTakeSnoc(seen, rows, i);
      st := Step(st, p, batchSize, fails, write, maxErrors);
      done := done + [rows[i]];
      i := i + 1;
    }
    assert rows[..i] == rows;
  }

  lemma AppendTakeSnoc<R>(seen: seq<R>, rows: seq<R>, i: nat)
    requires i < |rows|
    ensures seen + rows[..i + 1] == seen + rows[..i] + [rows[i]]
  {
    assert rows[..i + 1] == rows[..i] + [rows[i]];
  }

  /** The chunk loop of `import_foods`: a chunk without a "Name" column raises before any of its
      rows and skips the closing flush; otherwise every chunk is fed and the last batch flushed. */
  method ImportChunks<R, P, D>(db: D, chunks: seq<Chunk<R>>, batchSize: int, fails: nat -> bool,
                               write: (D, seq<P>) -> D, maxErrors: int, convert: R -> Option<P>)
    returns (st: Import<P, D>, missing: Option<nat>)
    ensures Accounted(st, db, fails, write, maxErrors)
    ensures missing.Some? ==>
              && missing.value < |chunks| && !Named(chunks[missing.value])
              && (forall k :: 0 <= k < missing.value ==> Named(chunks[k]))
              && Feeding(st, db, Produced(RowsOf(chunks, missing.value), convert), batchSize, fails, write, maxErrors)
              && st.processed == |RowsOf(chunks, missing.value)|
    ensures missing.None? ==>
              && (forall k :: 0 <= k < |chunks| ==> Named(chunks[k]))
              && st.batch == [] && Concat(st.written) == Produced(RowsOf(chunks, |chunks|), convert)
              && Batched(st.written, Cap(batchSize)) && st.processed == |RowsOf(chunks, |chunks|)|
  {
    var c;
    st, c := FeedChunks(db, chunks, batchSize, fails, write, maxErrors, convert);
    if c < |chunks| {
      return st, Some(c);
    }
    st := Finish(st, db, Produced(RowsOf(chunks, c), convert), batchSize, fails, write, maxErrors);
    missing := None;
  }

  /** Feeds chunks from the first one up to the first chunk without the name column (`c` names
      it), or through all of them. */
  method FeedChunks<R, P, D>(db: D, chunks: seq<Chunk<R>>, batchSize: int, fails: nat -> bool,
                             write: (D, seq<P>) -> D, maxErrors: int, convert: R -> Option<P>)
    returns (st: Import<P, D>, c: nat)
    ensures c <= |chunks| && (c < |chunks| ==> !Named(chunks[c]))
    ensures forall k :: 0 <= k < c ==> Named(chunks[k])
    ensures Feeding(st, db, Produced(RowsOf(chunks, c), convert), batchSize, fails, write, maxErrors)
    ensures st.processed == |RowsOf(chunks, c)|
  {
    st := Start(db);
    StartAccounted<P, D>(db, fails, write, maxErrors);
    c := 0;
    ghost var seen: seq<R> := [];
    while c < |chunks| && Named(chunks[c])
      invariant 0 <= c <= |chunks| && seen == RowsOf(chunks, c)
      invariant forall k :: 0 <= k < c ==> Named(chunks[k])
      invariant Feeding(st, db, Produced(seen, convert), batchSize, fails, write, maxErrors)
      invariant st.processed == |seen|
    {
      st := FeedChunk(st, db, seen, chunks[c].rows, batchSize, fails, write, maxErrors, convert);
      seen := seen + chunks[c].rows;
      c := c + 1;
    }
  }
}

=== FILE: csv_poster.dfy ===
/** The MyFoodData CSV importer (`post_all_csv_data_to_db.py`): each row becomes a food payload with
    its serving measurements, payloads are written in batches, each batch inside one transaction,
    and the counters account for every row. */
module CsvPoster {
  import opened Wrappers
  import opened Text
  import opened Cleaning
  import opened Naming
  import Rounding
  import opened Batching
  import opened CsvBatches

  /** A row as `to_dict(orient="records")` gives it: column name to cell. */
  type Row = map<string, Cell>

  /** Python's `float()` on text, None where it raises. Parsing decimal text is not modelled. */
  type FloatParser = string -> Option<real>

  /** `row.get(col)`: a column the chunk lacks reads as absent. */
  function Get(row: Row, col: string): (v: Cell)
    ensures col !in row ==> v == Missing
  {
    if col in row then row[col] else Missing
  }

  /** `_clean_numeric`: 0 for absent, NaN and null-word cells and for text `float()` rejects. */
  function CleanNumeric(v: Cell, float: FloatParser): (x: real)
    ensures v.Missing? || v.NaN? ==> x == 0 as real
    ensures v.Str? && v.s in NullWords ==> x == 0 as real
  {
    match v
    case Missing => 0 as real
    case NaN => 0 as real
    case Str(s) => if s in NullWords then 0 as real else float(s).GetOr(0 as real)
  }

  // ---------------------------------------------------------------------------------------
  // Payloads

  /** A measurement row. The two standard measurements carry a fixed abbreviation and unit; a
      serving's are derived from its description (`Abbreviation`, `Unit`). */
  datatype Measurement = Measurement(name: string, weightInGrams: real, isDefault: bool, isFromSource: bool, kind: Label)

  datatype Label = Fixed(abbreviation: string, unit: string) | Described

  /** The abbreviation stored with a measurement: `_create_abbreviation` of a serving's description. */
  function Abbreviation(m: Measurement): (a: string)
    ensures m.kind.Described? ==> |a| <= 8
    ensures m.kind.Fixed? ==> a == m.kind.abbreviation
  {
    match m.kind
    case Fixed(abbreviation, _) => abbreviation
    case Described => CsvAbbreviation(m.name)
  }

  /** The unit stored with a measurement: `_create_unit_label` of a serving's description. */
  function Unit(m: Measurement): string
  {
    match m.kind
    case Fixed(_, unit) => unit
    case Described => UnitLabel(m.name)
  }

  /** The two measurements every food gets: 100 grams (the default) and 1 gram. */
  function Per100g(): Measurement { Measurement("100 grams", 100 as real, true, true, Fixed("100g", "g")) }
  function PerGram(): Measurement { Measurement("1 gram", 1 as real, false, true, Fixed("1g", "g")) }

  function WeightColumn(i: nat): string { "Serving Weight " + NatToString(i) + " (g)" }
  function DescriptionColumn(i: nat): string { "Serving Description " + NatToString(i) + " (g)" }

  /** What every serving measurement looks like. */
  predicate ServingShaped(m: Measurement)
  {
    m.weightInGrams > 0 as real && m.name != [] && m.kind == Described && !m.isDefault && m.isFromSource
  }

  /** The `i`-th serving of a row: present when both its columns exist, its weight is positive and
      its description is non-empty after cleaning. */
  function Serving(row: Row, float: FloatParser, i: nat): (m: Option<Measurement>)
    ensures m.Some? <==>
              (WeightColumn(i) in row && DescriptionColumn(i) in row
               && CleanNumeric(row[WeightColumn(i)], float) > 0 as real
               && CsvCleanString(row[DescriptionColumn(i)]).Some?
               && CsvCleanString(row[DescriptionColumn(i)]).value != [])
    ensures m.Some? ==>
              && Some(m.value.name) == CsvCleanString(row[DescriptionColumn(i)])
              && m.value.weightInGrams == CleanNumeric(row[WeightColumn(i)], float)
              && m.value.kind == Described && !m.value.isDefault && m.value.isFromSource
    ensures m.Some? ==> ServingShaped(m.value)
  {
    var w, d := WeightColumn(i), DescriptionColumn(i);
    if w in row && d in row then
      var weight := CleanNumeric(row[w], float);
      var desc := CsvCleanString(row[d]);
      if weight > 0 as real && desc.Some? && desc.value != [] then
        Some(Measurement(desc.value, weight, false, true, Described))
      else None
    else None
  }

  /** The present servings numbered `i` to 9, in order. */
  function Servings(row: Row, float: FloatParser, i: nat): (ms: seq<Measurement>)
    requires 1 <= i <= 10
    ensures |ms| <= 10 - i
    ensures forall m :: m in ms ==> ServingShaped(m)
    decreases 10 - i
  {
    if i == 10 then []
    else
      var rest := Servings(row, float, i + 1);
      match Serving(row, float, i)
      case Some(m) => [m] + rest
      case None => rest
  }

  /** Servings are listed in column order: every present serving numbered `i` or above is listed,
      and everything listed is such a serving. */
  lemma {:induction false} ServingsListed(row: Row, float: FloatParser, i: nat, j: nat)
    requires 1 <= i <= j < 10
    ensures Serving(row, float, j).Some? ==> Serving(row, float, j).value in Servings(row, float, i)
    ensures forall m :: m in Servings(row, float, i) ==> exists k :: i <= k < 10 && Serving(row, float, k) == Some(m)
    decreases 10 - i
  {
    if i < 9 {
      ServingsListed(row, float, i + 1, if j == i then i + 1 else j);
    }
    if j == i && Serving(row, float, j).Some? {
      assert Servings(row, float, i)[0] == Serving(row, float, j).value;
    }
    forall m | m in Servings(row, float, i)
      ensures exists k :: i <= k < 10 && Serving(row, float, k) == Some(m)
    {
      if Serving(row, float, i) != Some(m) {
        assert m in Servings(row, float, i + 1);
      }
    }
  }

  /** `_build_measurements`: 100 grams (the only default), 1 gram, then the present servings in
      column order — at most eleven measurements. */
  function BuildMeasurements(row: Row, float: FloatParser): (ms: seq<Measurement>)
    ensures 2 <= |ms| <= 11 && ms[0] == Per100g() && ms[1] == PerGram()
    ensures forall k :: 0 <= k < |ms| ==> ms[k].isFromSource && (ms[k].isDefault <==> k == 0)
    ensures forall k :: 2 <= k < |ms| ==> ServingShaped(ms[k])
    ensures ms[2..] == Servings(row, float, 1)
  {
    var servings := Servings(row, float, 1);
    assert forall k :: 0 <= k < |servings| ==> servings[k] in servings;
    [Per100g(), PerGram()] + servings
  }

  /** The nutrient fields of a food and the CSV column each is read from, in payload order. */
  const NutrientColumns: seq<(string, string)> := [
    ("protein", "Protein (g)"),
    ("carbs", "Carbohydrate (g)"),
    ("fat", "Fat (g)"),
    ("fiber", "Fiber (g)"),
    ("sugar", "Sugars (g)"),
    ("sodium", "Sodium (mg)"),
    ("saturatedFat", "Saturated Fats (g)"),
    ("transFat", "Trans Fatty Acids (g)"),
    ("cholesterol", "Cholesterol (mg)"),
    ("addedSugar", "Added Sugar (g)"),
    ("netCarbs", "Net-Carbs (g)"),
    ("solubleFiber", "Soluble Fiber (g)"),
    ("insolubleFiber", "Insoluble Fiber (g)"),
    ("water", "Water (g)"),
    ("pralScore", "PRAL score"),
    ("omega3", "Omega 3s (mg)"),
    ("omega6", "Omega 6s (mg)"),
    ("monoFat", "Fatty acids, total monounsaturated (mg)"),
    ("polyFat", "Fatty acids, total polyunsaturated (mg)"),
    ("ala", "18:3 n-3 c,c,c (ALA) (mg)"),
    ("epa", "20:5 n-3 (EPA) (mg)"),
    ("dpa", "22:5 n-3 (DPA) (mg)"),
    ("dha", "22:6 n-3 (DHA) (mg)"),
    ("calcium", "Calcium (mg)"),
    ("iron", "Iron, Fe (mg)"),
    ("potassium", "Potassium, K (mg)"),
    ("magnesium", "Magnesium (mg)"),
    ("vitaminAiu", "Vitamin A, IU (IU)"),
    ("vitaminArae", "Vitamin A, RAE (mcg)"),
    ("vitaminC", "Vitamin C (mg)"),
    ("vitaminB12", "Vitamin B-12 (mcg)"),
    ("vitaminD", "Vitamin D (mcg)"),
    ("vitaminD2", "Vitamin D2 (ergocalciferol) (mcg)"),
    ("vitaminD3", "Vitamin D3 (cholecalciferol) (mcg)"),
    ("vitaminDiu", "Vitamin D (IU) (IU)"),
    ("vitaminE", "Vitamin E (Alpha-Tocopherol) (mg)"),
    ("phosphorus", "Phosphorus, P (mg)"),
    ("zinc", "Zinc, Zn (mg)"),
    ("copper", "Copper, Cu (mg)"),
    ("manganese", "Manganese (mg)"),
    ("selenium", "Selenium, Se (mcg)"),
    ("fluoride", "Fluoride, F (mcg)"),
    ("molybdenum", "Molybdenum (mcg)"),
    ("chlorine", "Chlorine (mg)"),
    ("vitaminB1", "Thiamin (B1) (mg)"),
    ("vitaminB2", "Riboflavin (B2) (mg)"),
    ("vitaminB3", "Niacin (B3) (mg)"),
    ("vitaminB5", "Pantothenic acid (B5) (mg)"),
    ("vitaminB6", "Vitamin B6 (mg)"),
    ("biotin", "Biotin (B7) (mcg)"),
    ("folate", "Folate (B9) (mcg)"),
    ("folicAcid", "Folic acid (mcg)"),
    ("foodFolate", "Food Folate (mcg)"),
    ("folateDfe", "Folate DFE (mcg)"),
    ("vitaminK", "Vitamin K (mcg)"),
    ("dihydrophylloquinone", "Dihydrophylloquinone (mcg)"),
    ("menaquinone4", "Menaquinone-4 (mcg)"),
    ("choline", "Choline (mg)"),
    ("betaine", "Betaine (mg)"),
    ("retinol", "Retinol (mcg)"),
    ("caroteneBeta", "Carotene, beta (mcg)"),
    ("caroteneAlpha", "Carotene, alpha (mcg)"),
    ("lycopene", "Lycopene (mcg)"),
    ("luteinZeaxanthin", "Lutein + Zeaxanthin (mcg)")
  ]

  /** The number of nutrient fields. */
  const NutrientCount: nat := 64

  lemma NutrientCountIsAll()
    ensures |NutrientColumns| == NutrientCount
  {
  }

  /** The nutrient fields named by `cols`, each read from its column and cleaned as a number; a
      field listed twice keeps its last column. */
  function Nutrients(row: Row, float: FloatParser, cols: seq<(string, string)>): (m: map<string, real>)
  {
    if cols == [] then map[]
    else
      var col := cols[|cols| - 1];
      Nutrients(row, float, cols[..|cols| - 1])[col.0 := CleanNumeric(Get(row, col.1), float)]
  }

  /** Every listed field is in the payload. */
  lemma {:induction false} NutrientsListed(row: Row, float: FloatParser, cols: seq<(string, string)>)
    ensures forall j :: 0 <= j < |cols| ==> cols[j].0 in Nutrients(row, float, cols)
  {
    if cols != [] {
      var init := cols[..|cols| - 1];
      NutrientsListed(row, float, init);
      assert forall j :: 0 <= j < |init| ==> cols[j] == init[j];
    }
  }

  /** Every payload field holds the cleaned value of a column listed for it. */
  lemma {:induction false} NutrientsValued(row: Row, float: FloatParser, cols: seq<(string, string)>)
    ensures forall f :: f in Nutrients(row, float, cols) ==>
              exists j :: 0 <= j < |cols| && cols[j].0 == f
                          && Nutrients(row, float, cols)[f] == CleanNumeric(Get(row, cols[j].1), float)
  {
    if cols != [] {
      var init := cols[..|cols| - 1];
      NutrientsValued(row, float, init);
      assert forall j :: 0 <= j < |init| ==> cols[j] == init[j];
    }
  }

  datatype Food = Food(sourceId: Option<string>, name: string, calories: int, nutrients: map<string, real>)

  datatype Payload = Payload(food: Food, measurements: seq<Measurement>)

  /** `_row_to_payload`: no payload when the cleaned name is absent or empty. */
  function RowToPayload(row: Row, float: FloatParser): (p: Option<Payload>)
    ensures p.None? <==> CsvCleanString(Get(row, NameColumn)) in {None, Some("")}
    ensures p.Some? ==>
              && Some(p.value.food.name) == CsvCleanString(Get(row, NameColumn))
              && p.value.food.name != [] && Stripped(p.value.food.name)
              && p.value.food.sourceId == CsvCleanString(Get(row, "ID"))
              && p.value.food.calories == Rounding.TruncToward0(CleanNumeric(Get(row, "Calories"), float))
              && p.value.food.nutrients == Nutrients(row, float, NutrientColumns)
              && p.value.measurements == BuildMeasurements(row, float)
  {
    var name := CsvCleanString(Get(row, NameColumn));
    if name.None? || name.value == [] then None
    else
      var food := Food(
        CsvCleanString(Get(row, "ID")), name.value,
        Rounding.TruncToward0(CleanNumeric(Get(row, "Calories"), float)),
        Nutrients(row, float, NutrientColumns));
      Some(Payload(food, BuildMeasurements(row, float)))
  }

  /** A name of blanks is not absent to the cleaner, but the row is still skipped. */
  lemma BlankNameSkipped(row: Row, float: FloatParser)
    requires NameColumn in row && row[NameColumn].Str? && row[NameColumn].s != [] && AllSpace(row[NameColumn].s)
    ensures RowToPayload(row, float).None?
  {
    CsvCleanKeepsBlank(row[NameColumn].s);
  }

  // ---------------------------------------------------------------------------------------
  // The database a batch is written to

  /** A stored measurement row: its food, the abbreviation its existence test compares, and the
      measurement itself. */
  datatype Stored = Stored(foodId: nat, abbreviation: string, m: Measurement)

  /** Foods by id (food `k + 1` is `foods[k]`) and measurement rows in insertion order. */
  datatype Db = Db(foods: seq<Food>, measurements: seq<Stored>)

  /** `_find_food_id_by_name` (`ORDER BY id LIMIT 1`): the smallest id with that name. */
  function FindByName(foods: seq<Food>, name: string): (id: Option<nat>)
    ensures id.Some? ==> 1 <= id.value <= |foods| && foods[id.value - 1].name == name
    ensures id.Some? ==> forall k :: 0 <= k < id.value - 1 ==> foods[k].name != name
    ensures id.None? ==> forall k :: 0 <= k < |foods| ==> foods[k].name != name
  {
    if foods == [] then None
    else if foods[0].name == name then Some(1)
    else
      match FindByName(foods[1..], name)
      case Some(i) => Some(i + 1)
      case None => None
  }

  /** The food holding `sourceId`, which is unique among foods; NULL matches nothing. */
  function FindBySource(foods: seq<Food>, sourceId: Option<string>): (id: Option<nat>)
    ensures sourceId.None? ==> id.None?
    ensures id.Some? ==> 1 <= id.value <= |foods| && foods[id.value - 1].sourceId == sourceId
    ensures id.Some? ==> forall k :: 0 <= k < id.value - 1 ==> foods[k].sourceId != sourceId
    ensures id.None? && sourceId.Some? ==> forall k :: 0 <= k < |foods| ==> foods[k].sourceId != sourceId
  {
    if sourceId.None? || foods == [] then None
    else if foods[0].sourceId == sourceId then Some(1)
    else
      match FindBySource(foods[1..], sourceId)
      case Some(i) => Some(i + 1)
      case None => None
  }

  /** Appending a food with another name does not make a missing name findable. */
  lemma FindByNameSnoc(foods: seq<Food>, food: Food, name: string)
    requires FindByName(foods, name).None? && food.name != name
    ensures FindByName(foods + [food], name).None?
  {
  }

  /** `_insert_or_update_food` (`ON DUPLICATE KEY UPDATE`): the food with the same sourceId is
      overwritten and keeps its id, otherwise the food is appended under a fresh id. */
  function Upsert(foods: seq<Food>, food: Food): (r: (seq<Food>, nat))
    ensures 1 <= r.1 <= |r.0| && r.0[r.1 - 1] == food
    ensures |r.0| == |foods| || r.0 == foods + [food]
    ensures forall k :: 0 <= k < |foods| && k != r.1 - 1 ==> r.0[k] == foods[k]
    ensures FindBySource(foods, food.sourceId).Some? ==> |r.0| == |foods|
    ensures FindBySource(foods, food.sourceId).None? ==> r == (foods + [food], |foods| + 1)
  {
    match FindBySource(foods, food.sourceId)
    case Some(id) => (foods[id - 1 := food], id)
    case None => (foods + [food], |foods| + 1)
  }

  predicate Has(ms: seq<Stored>, foodId: nat, abbreviation: string)
  {
    exists k :: 0 <= k < |ms| && ms[k].foodId == foodId && ms[k].abbreviation == abbreviation
  }

  /** No two measurement rows of a food share an abbreviation. */
  predicate UniqueAbbreviations(ms: seq<Stored>)
  {
    forall j, k :: 0 <= j < k < |ms| ==> ms[j].foodId != ms[k].foodId || ms[j].abbreviation != ms[k].abbreviation
  }

  /** The rows from `from` on are this food's, one per listed measurement, keyed by its abbreviation. */
  predicate RowsFor(r: seq<Stored>, from: nat, foodId: nat, list: seq<Measurement>)
  {
    forall k :: from <= k < |r| ==> r[k].foodId == foodId && r[k].m in list && r[k].abbreviation == Abbreviation(r[k].m)
  }

  /** One measurement of `_ensure_measurements`: inserted unless the food already has a row with
      its abbreviation. */
  function EnsureOne(ms: seq<Stored>, foodId: nat, m: Measurement): (r: seq<Stored>)
    ensures ms <= r && |r| <= |ms| + 1
    ensures Has(r, foodId, Abbreviation(m))
    ensures RowsFor(r, |ms|, foodId, [m])
  {
    var a := Abbreviation(m);
    if Has(ms, foodId, a) then ms
    else
      var r := ms + [Stored(foodId, a, m)];
      assert r[|ms|].foodId == foodId && r[|ms|].abbreviation == a;
      r
  }

  /** Rows added by the first measurement and then by the rest are rows for the whole list. */
  lemma RowsForJoin(ms: seq<Stored>, next: seq<Stored>, r: seq<Stored>, foodId: nat, list: seq<Measurement>)
    requires list != [] && |ms| <= |next| <= |r| && next <= r
    requires RowsFor(next, |ms|, foodId, [list[0]]) && RowsFor(r, |next|, foodId, list[1..])
    ensures RowsFor(r, |ms|, foodId, list)
  {
    forall k | |ms| <= k < |r|
      ensures r[k].foodId == foodId && r[k].m in list && r[k].abbreviation == Abbreviation(r[k].m)
    {
      if k < |next| {
        assert r[k] == next[k];
      } else {
        assert r[k].m in list[1..];
      }
    }
  }

  /** `_ensure_measurements`: each measurement is inserted unless the food already has one with
      its abbreviation, so rows are only ever added, and only for this food. */
  function EnsureMeasurements(ms: seq<Stored>, foodId: nat, list: seq<Measurement>): (r: seq<Stored>)
    ensures ms <= r && |r| <= |ms| + |list|
    ensures RowsFor(r, |ms|, foodId, list)
    decreases |list|
  {
    if list == [] then ms
    else
      var next := EnsureOne(ms, foodId, list[0]);
      var r := EnsureMeasurements(next, foodId, list[1..]);
      RowsForJoin(ms, next, r, foodId, list);
      r
  }

  /** Ensuring measurements never gives a food two rows with the same abbreviation. */
  lemma {:induction false} EnsureMeasurementsUnique(ms: seq<Stored>, foodId: nat, list: seq<Measurement>)
    ensures UniqueAbbreviations(ms) ==> UniqueAbbreviations(EnsureMeasurements(ms, foodId, list))
    decreases |list|
  {
    if list != [] && UniqueAbbreviations(ms) {
      var a := Abbreviation(list[0]);
      var next := EnsureOne(ms, foodId, list[0]);
      assert UniqueAbbreviations(next) by {
        if !Has(ms, foodId, a) {
          assert forall j :: 0 <= j < |ms| ==> next[j] == ms[j];
        }
      }
      EnsureMeasurementsUnique(next, foodId, list[1..]);
    }
  }

  /** Afterwards the food has a row with each measurement's abbreviation. */
  lemma {:induction false} EnsureMeasurementsCover(ms: seq<Stored>, foodId: nat, list: seq<Measurement>)
    ensures forall m :: m in list ==> Has(EnsureMeasurements(ms, foodId, list), foodId, Abbreviation(m))
    decreases |list|
  {
    if list != [] {
      var a := Abbreviation(list[0]);
      var next := EnsureOne(ms, foodId, list[0]);
      EnsureMeasurementsCover(next, foodId, list[1..]);
      var r := EnsureMeasurements(ms, foodId, list);
      assert r == EnsureMeasurements(next, foodId, list[1..]);
      assert Has(r, foodId, a) by {
        var k :| 0 <= k < |next| && next[k].foodId == foodId && next[k].abbreviation == a;
        assert r[k] == next[k];
      }
      forall m | m in list
        ensures Has(r, foodId, Abbreviation(m))
      {
        if m != list[0] {
          assert m in list[1..];
        }
      }
    }
  }

  /** One item of `_write_batch`: reuse the first food with the item's name, else upsert the food
      by sourceId; then ensure its measurements. Returns the database and the food id used. */
  function Store(db: Db, p: Payload): (r: (Db, nat))
    ensures 1 <= r.1 <= |r.0.foods| && r.0.foods[r.1 - 1].name == p.food.name
    ensures |db.foods| <= |r.0.foods| <= |db.foods| + 1
    ensures FindByName(db.foods, p.food.name).Some? ==> r.0.foods == db.foods && Some(r.1) == FindByName(db.foods, p.food.name)
    ensures FindByName(db.foods, p.food.name).None? ==> (r.0.foods, r.1) == Upsert(db.foods, p.food)
    ensures db.measurements <= r.0.measurements
    ensures forall k :: |db.measurements| <= k < |r.0.measurements| ==> r.0.measurements[k].foodId == r.1
    ensures UniqueAbbreviations(db.measurements) ==> UniqueAbbreviations(r.0.measurements)
  {
    var found := FindByName(db.foods, p.food.name);
    var (foods, id) := if found.Some? then (db.foods, found.value) else Upsert(db.foods, p.food);
    EnsureMeasurementsUnique(db.measurements, id, p.measurements);
    (Db(foods, EnsureMeasurements(db.measurements, id, p.measurements)), id)
  }

  /** The successful path of `_write_batch`: every item stored in order, then one commit. */
  function WriteBatch(db: Db, batch: seq<Payload>): (r: Db)
    ensures |db.foods| <= |r.foods| <= |db.foods| + |batch|
    ensures db.measurements <= r.measurements
    ensures UniqueAbbreviations(db.measurements) ==> UniqueAbbreviations(r.measurements)
    decreases |batch|
  {
    if batch == [] then db else WriteBatch(Store(db, batch[0]).0, batch[1..])
  }

  /** A food already known by name is never written: an item whose name is taken only gains
      measurements. */
  lemma KnownNameKeepsFoods(db: Db, p: Payload)
    requires FindByName(db.foods, p.food.name).Some?
    ensures Store(db, p).0.foods == db.foods
  {
  }

  /** A later item with the same sourceId but a new name overwrites the food an earlier item of
      the batch created, so the earlier item's name is gone by the end of the batch. */
  lemma SameSourceRenames(db: Db, a: Payload, b: Payload)
    requires FindByName(db.foods, a.food.name).None? && FindByName(db.foods, b.food.name).None?
    requires a.food.sourceId.Some? && FindBySource(db.foods, a.food.sourceId).None?
    requires b.food.sourceId == a.food.sourceId && b.food.name != a.food.name
    ensures var d := Store(Store(db, a).0, b).0;
            d.foods == db.foods + [b.food] && FindByName(d.foods, a.food.name).None?
  {
    var d1 := Store(db, a).0;
    assert d1.foods == db.foods + [a.food];
    FindByNameSnoc(db.foods, a.food, b.food.name);
    assert FindBySource(d1.foods, b.food.sourceId) == Some(|db.foods| + 1);
    var d2 := Store(d1, b).0;
    assert d2.foods == db.foods + [b.food];
    FindByNameSnoc(db.foods, b.food, a.food.name);
  }

  // ---------------------------------------------------------------------------------------
  // The import loop

  /** The CSV importer's state. */
  type Importer = Import<Payload, Db>

  /** Writing one batch of payloads in one transaction. */
  function Write(): (Db, seq<Payload>) -> Db
  {
    (db, batch) => WriteBatch(db, batch)
  }

  /** `_row_to_payload` with the float parser fixed. */
  function Convert(float: FloatParser): Row -> Option<Payload>
  {
    row => RowToPayload(row, float)
  }

  /** `import_foods` over the chunks of `read_csv(chunksize=5000)`: a chunk whose header lacks
      "Name" stops the import before any of its rows (`missing` names it, and the pending batch is
      never written); otherwise every row is converted, the payloads are written in batches of
      `batch_size` in file order with a last short batch, and the counters and the database account
      for exactly the batches written, all or nothing each. */
  method ImportFoods(db: Db, chunks: seq<Chunk<Row>>, batchSize: int, fails: nat -> bool, maxErrors: int, float: FloatParser)
    returns (st: Importer, missing: Option<nat>)
    ensures Accounted(st, db, fails, Write(), maxErrors)
    ensures missing.Some? ==>
              && missing.value < |chunks| && !Named(chunks[missing.value])
              && (forall k :: 0 <= k < missing.value ==> Named(chunks[k]))
              && Feeding(st, db, Produced(RowsOf(chunks, missing.value), Convert(float)), batchSize, fails, Write(), maxErrors)
              && st.processed == |RowsOf(chunks, missing.value)|
    ensures missing.None? ==>
              && (forall k :: 0 <= k < |chunks| ==> Named(chunks[k]))
              && st.batch == [] && Concat(st.written) == Produced(RowsOf(chunks, |chunks|), Convert(float))
              && Batched(st.written, Cap(batchSize)) && st.processed == |RowsOf(chunks, |chunks|)|
  {
    st, missing := ImportChunks(db, chunks, batchSize, fails, Write(), maxErrors, Convert(float));
  }

  /** Every food the importer sends carries a non-blank, stripped name: blank names are exactly
      the skipped rows. */
  lemma {:induction false} ProducedNamed(rows: seq<Row>, float: FloatParser)
    ensures forall p :: p in Produced(rows, Convert(float)) ==> p.food.name != [] && Stripped(p.food.name)
  {
    if rows != [] {
      var init := rows[..|rows| - 1];
      ProducedNamed(init, float);
      ProducedSnoc(init, rows[|rows| - 1], Convert(float));
      assert init + [rows[|rows| - 1]] == rows;
    }
  }
}

=== FILE: fdc.dfy ===
/** The FoodData Central half of the bulk importer: grouping the nutrient rows of
    `food_nutrient.csv` by food (`_iter_fdc_nutrients`) and turning one food's amounts into
    the nutrient fields of a food record (`_extract_fdc_nutrients`). */
module FdcImport {
  import opened Wrappers
  import opened IntParse
  import Rounding

  /** One row of `food_nutrient.csv`; `amount` is the value `_clean_numeric` read from its amount column. */
  datatype NutrientRow = NutrientRow(fdcId: Option<string>, nutrientId: Option<string>, amount: real)

  /** One yielded group: a food id and its amounts keyed by nutrient id. */
  datatype Group = Group(fdcId: string, amounts: map<int, real>)

  /** Python truthiness of a csv cell: present and non-empty. */
  predicate Truthy(v: Option<string>) { v.Some? && v.value != "" }

  /** The rows the grouping looks at; the others are skipped outright. */
  predicate Usable(r: NutrientRow) { Truthy(r.fdcId) && Truthy(r.nutrientId) }

  /** A usable row reduced to what the grouping uses: its food id, its nutrient id as `int()` reads it
      (`None` when that raises, so the row contributes no amount), and its amount. */
  datatype Entry = Entry(fdcId: string, key: Option<int>, amount: real)

  function ToEntry(r: NutrientRow): (e: Entry)
    requires Usable(r)
    ensures e.fdcId == r.fdcId.value && e.amount == r.amount
  {
    Entry(r.fdcId.value, PyInt(r.nutrientId.value), r.amount)
  }

  /** The entries of the usable rows, in file order. */
  function Entries(rows: seq<NutrientRow>): (u: seq<Entry>)
    ensures |u| <= |rows|
  {
    if rows == [] then []
    else
      var r := rows[|rows| - 1];
      Entries(rows[..|rows| - 1]) + (if Usable(r) then [ToEntry(r)] else [])
  }

  /** A run of consecutive entries of one food. */
  datatype Run = Run(fdcId: string, entries: seq<Entry>)

  /** Appending one entry to the runs so far: it extends the last run when the food id matches and
      opens a new run otherwise. */
  function Extend(prev: seq<Run>, e: Entry): (runs: seq<Run>)
    ensures runs != [] && runs[|runs| - 1].fdcId == e.fdcId
    ensures |prev| <= |runs| <= |prev| + 1
  {
    if prev != [] && prev[|prev| - 1].fdcId == e.fdcId then
      prev[..|prev| - 1] + [Run(e.fdcId, prev[|prev| - 1].entries + [e])]
    else
      prev + [Run(e.fdcId, [e])]
  }

  /** The maximal runs of consecutive entries with the same food id, in order. */
  function Runs(v: seq<Entry>): (runs: seq<Run>)
    ensures |runs| <= |v|
    ensures v == [] <==> runs == []
  {
    if v == [] then [] else Extend(Runs(v[..|v| - 1]), v[|v| - 1])
  }

  lemma RunsSnoc(v: seq<Entry>, e: Entry)
    ensures Runs(v + [e]) == Extend(Runs(v), e)
  {
    assert (v + [e])[..|v|] == v;
  }

  /** Every run is non-empty and every entry of a run has the run's food id. */
  predicate Uniform(runs: seq<Run>)
  {
    forall k :: 0 <= k < |runs| ==> runs[k].entries != [] && forall j :: 0 <= j < |runs[k].entries| ==> runs[k].entries[j].fdcId == runs[k].fdcId
  }

  /** Neighbouring runs belong to different foods. */
  predicate Alternating(runs: seq<Run>)
  {
    forall k :: 0 <= k < |runs| - 1 ==> runs[k].fdcId != runs[k + 1].fdcId
  }

  lemma ExtendUniform(prev: seq<Run>, e: Entry)
    requires Uniform(prev)
    ensures Uniform(Extend(prev, e))
  {
    var runs := Extend(prev, e);
    forall k | 0 <= k < |runs|
      ensures runs[k].entries != [] && forall j :: 0 <= j < |runs[k].entries| ==> runs[k].entries[j].fdcId == runs[k].fdcId
    {
      if k < |prev| - 1 || (k == |prev| - 1 && runs == prev + [Run(e.fdcId, [e])]) {
        assert runs[k] == prev[k];
      }
    }
  }

  lemma ExtendAlternating(prev: seq<Run>, e: Entry)
    requires Alternating(prev)
    ensures Alternating(Extend(prev, e))
  {
    var runs := Extend(prev, e);
    forall k | 0 <= k < |runs| - 1
      ensures runs[k].fdcId != runs[k + 1].fdcId
    {
      assert runs[k] == prev[k];
      if k + 1 < |prev| {
        assert runs[k + 1].fdcId == prev[k + 1].fdcId;
      }
    }
  }

  /** Every entry of a run has the run's food id, and no run is empty. */
  lemma {:induction false} RunsUniform(v: seq<Entry>)
    ensures Uniform(Runs(v))
  {
    if v != [] {
      RunsUniform(v[..|v| - 1]);
      ExtendUniform(Runs(v[..|v| - 1]), v[|v| - 1]);
    }
  }

  /** Runs are maximal: neighbouring runs belong to different foods. */
  lemma {:induction false} RunsMaximal(v: seq<Entry>)
    ensures Alternating(Runs(v))
  {
    if v != [] {
      RunsMaximal(v[..|v| - 1]);
      ExtendAlternating(Runs(v[..|v| - 1]), v[|v| - 1]);
    }
  }

  /** The entries of the runs laid end to end. */
  function Flatten(runs: seq<Run>): (v: seq<Entry>)
  {
    if runs == [] then [] else Flatten(runs[..|runs| - 1]) + runs[|runs| - 1].entries
  }

  lemma FlattenSnoc(runs: seq<Run>, x: Run)
    ensures Flatten(runs + [x]) == Flatten(runs) + x.entries
  {
    assert (runs + [x])[..|runs|] == runs;
  }

  lemma ExtendFlatten(prev: seq<Run>, e: Entry)
    ensures Flatten(Extend(prev, e)) == Flatten(prev) + [e]
  {
    if prev != [] && prev[|prev| - 1].fdcId == e.fdcId {
      var front := prev[..|prev| - 1];
      var last := prev[|prev| - 1];
      assert prev == front + [last];
      FlattenSnoc(front, last);
      FlattenSnoc(front, Run(e.fdcId, last.entries + [e]));
    } else {
      FlattenSnoc(prev, Run(e.fdcId, [e]));
    }
  }

  /** Cutting into runs loses and reorders nothing. */
  lemma {:induction false} RunsCover(v: seq<Entry>)
    ensures Flatten(Runs(v)) == v
  {
    if v != [] {
      var init := v[..|v| - 1];
      var e := v[|v| - 1];
      RunsCover(init);
      assert v == init + [e];
      RunsSnoc(init, e);
      ExtendFlatten(Runs(init), e);
    }
  }

  /** A group's amounts: every readable nutrient id of the run, the later entry overwriting the earlier. */
  function Amounts(run: seq<Entry>): (m: map<int, real>)
  {
    if run == [] then map[] else Absorb(Amounts(run[..|run| - 1]), run[|run| - 1])
  }

  /** One entry's amount recorded under its nutrient id, when the id reads as an integer. */
  function Absorb(m: map<int, real>, e: Entry): (r: map<int, real>)
    ensures e.key.None? ==> r == m
    ensures e.key.Some? ==> r == m[e.key.value := e.amount]
  {
    match e.key
    case Some(k) => m[k := e.amount]
    case None => m
  }

  lemma AmountsSnoc(run: seq<Entry>, e: Entry)
    ensures Amounts(run + [e]) == Absorb(Amounts(run), e)
  {
    assert (run + [e])[..|run|] == run;
  }

  /** A key is present exactly when some entry of the run reads as it. */
  lemma {:induction false} AmountsKeys(run: seq<Entry>, k: int)
    ensures k in Amounts(run) <==> exists j :: 0 <= j < |run| && run[j].key == Some(k)
  {
    if run != [] {
      var init := run[..|run| - 1];
      AmountsKeys(init, k);
      if exists j :: 0 <= j < |run| && run[j].key == Some(k) {
        var j :| 0 <= j < |run| && run[j].key == Some(k);
        if j < |init| {
          assert init[j] == run[j];
        }
      }
      if exists j :: 0 <= j < |init| && init[j].key == Some(k) {
        var j :| 0 <= j < |init| && init[j].key == Some(k);
        assert run[j] == init[j];
      }
    }
  }

  /** A later entry with the same nutrient id overwrites an earlier one: the last one's amount is kept. */
  lemma {:induction false} AmountsLastWins(run: seq<Entry>, k: int, j: nat)
    requires j < |run| && run[j].key == Some(k)
    requires forall j' :: j < j' < |run| ==> run[j'].key != Some(k)
    ensures k in Amounts(run) && Amounts(run)[k] == run[j].amount
  {
    var init := run[..|run| - 1];
    if j < |init| {
      assert init[j] == run[j];
      AmountsLastWins(init, k, j);
    }
  }

  function GroupsOf(runs: seq<Run>): (gs: seq<Group>)
    ensures |gs| == |runs|
  {
    seq(|runs|, k requires 0 <= k < |runs| => Group(runs[k].fdcId, Amounts(runs[k].entries)))
  }

  /** What `_iter_fdc_nutrients` yields, by definition: one group per maximal run of usable rows. */
  function FdcGroups(rows: seq<NutrientRow>): (gs: seq<Group>)
  {
    GroupsOf(Runs(Entries(rows)))
  }

  /** Consecutive groups belong to different foods, and there are no more groups than usable rows. */
  lemma GroupsAlternate(rows: seq<NutrientRow>)
    ensures |FdcGroups(rows)| <= |Entries(rows)|
    ensures forall k :: 0 <= k < |FdcGroups(rows)| - 1 ==> FdcGroups(rows)[k].fdcId != FdcGroups(rows)[k + 1].fdcId
  {
    RunsMaximal(Entries(rows));
  }

  /** Between rows, the generator holds the last run open and has yielded the ones before it. */
  predicate StreamState(runs: seq<Run>, current: string, nutrients: map<int, real>, yielded: seq<Group>)
  {
    runs != [] && runs[|runs| - 1].fdcId == current && nutrients == Amounts(runs[|runs| - 1].entries) &&
    yielded == GroupsOf(runs[..|runs| - 1])
  }

  /** The first usable row opens the first group. */
  lemma StreamOpen(e: Entry)
    ensures StreamState(Extend([], e), e.fdcId, Absorb(map[], e), [])
  {
    assert [e][..0] == [];
  }

  /** A usable row of a new food closes the open group and opens the next. */
  lemma StreamClose(prev: seq<Run>, e: Entry, current: string, nutrients: map<int, real>, yielded: seq<Group>)
    requires StreamState(prev, current, nutrients, yielded) && e.fdcId != current
    ensures StreamState(Extend(prev, e), e.fdcId, Absorb(map[], e), yielded + [Group(current, nutrients)])
  {
    assert [e][..0] == [];
    var runs := Extend(prev, e);
    assert runs[..|runs| - 1] == prev;
    GroupsOfSnoc(prev);
  }

  /** A usable row of the open group's food joins it. */
  lemma StreamAbsorb(prev: seq<Run>, e: Entry, current: string, nutrients: map<int, real>, yielded: seq<Group>)
    requires StreamState(prev, current, nutrients, yielded) && e.fdcId == current
    ensures StreamState(Extend(prev, e), e.fdcId, Absorb(nutrients, e), yielded)
  {
    var runs := Extend(prev, e);
    assert runs[..|runs| - 1] == prev[..|prev| - 1];
    AmountsSnoc(prev[|prev| - 1].entries, e);
  }

  /** The streaming grouping, written as the generator does it: it opens a group on the first usable
      row, yields the open group when the food id changes, and yields the last one at the end. */
  method IterFdcNutrients(rows: seq<NutrientRow>) returns (groups: seq<Group>)
    ensures groups == FdcGroups(rows)
  {
    var current: Option<string> := None;
    var nutrients: map<int, real> := map[];
    groups := [];
    var i := 0;
    while i < |rows|
      invariant 0 <= i <= |rows|
      invariant Streaming(Entries(rows[..i]), current, nutrients, groups)
    {
      EntriesSnoc(rows, i);
      current, nutrients, groups := Consume(rows[i], Entries(rows[..i]), current, nutrients, groups);
      i := i + 1;
    }
    assert rows[..i] == rows;
    if current.Some? {
      groups := groups + [Group(current.value, nutrients)];
      GroupsOfSnoc(Runs(Entries(rows)));
    }
  }

  /** The generator's state after the entries `v`: nothing open before the first usable row, the
      last run open after it. */
  predicate Streaming(v: seq<Entry>, current: Option<string>, nutrients: map<int, real>, groups: seq<Group>)
  {
    if current.None? then v == [] && groups == [] && nutrients == map[]
    else StreamState(Runs(v), current.value, nutrients, groups)
  }

  /** One row of the generator's loop: rows without a food id or nutrient id are passed over. */
  method Consume(r: NutrientRow, ghost v: seq<Entry>, current0: Option<string>, nutrients0: map<int, real>, groups0: seq<Group>)
    returns (current: Option<string>, nutrients: map<int, real>, groups: seq<Group>)
    requires Streaming(v, current0, nutrients0, groups0)
    ensures Streaming(v + (if Usable(r) then [ToEntry(r)] else []), current, nutrients, groups)
  {
    if r.fdcId.Some? && r.fdcId.value != "" && r.nutrientId.Some? && r.nutrientId.value != "" {
      var e := Entry(r.fdcId.value, PyInt(r.nutrientId.value), r.amount);
      current, nutrients, groups := Advance(e, v, current0, nutrients0, groups0);
    } else {
      current, nutrients, groups := current0, nutrients0, groups0;
      assert v + [] == v;
    }
  }

  /** A usable row's entry either extends the current food's amounts or closes it and opens its own. */
  method Advance(e: Entry, ghost v: seq<Entry>, current0: Option<string>, nutrients0: map<int, real>, groups0: seq<Group>)
    returns (current: Option<string>, nutrients: map<int, real>, groups: seq<Group>)
    requires Streaming(v, current0, nutrients0, groups0)
    ensures Streaming(v + [e], current, nutrients, groups)
  {
    current, nutrients, groups := current0, nutrients0, groups0;
    RunsSnoc(v, e);
    if current.None? {
      assert v + [e] == [e];
      StreamOpen(e);
      current := Some(e.fdcId);
      nutrients := Absorb(map[], e);
    } else if e.fdcId != current.value {
      StreamClose(Runs(v), e, current.value, nutrients, groups);
      groups := groups + [Group(current.value, nutrients)];
      current := Some(e.fdcId);
      nutrients := Absorb(map[], e);
    } else {
      StreamAbsorb(Runs(v), e, current.value, nutrients, groups);
      nutrients := Absorb(nutrients, e);
    }
  }

  lemma EntriesSnoc(rows: seq<NutrientRow>, i: nat)
    requires i < |rows|
    ensures Entries(rows[..i + 1]) == Entries(rows[..i]) + (if Usable(rows[i]) then [ToEntry(rows[i])] else [])
  {
    assert rows[..i + 1][..i] == rows[..i];
  }

  lemma GroupsOfSnoc(runs: seq<Run>)
    requires runs != []
    ensures GroupsOf(runs) == GroupsOf(runs[..|runs| - 1]) + [Group(runs[|runs| - 1].fdcId, Amounts(runs[|runs| - 1].entries))]
  {
  }

  // ---------------------------------------------------------------------------------------------
  // Turning a food's amounts into nutrient fields.

  /** The output fields read as the first present amount of their own id list, unchanged. */
  datatype PlainField =
    | Protein | Fat | Carbs | Fiber | Sugar | Sodium | SaturatedFat | Cholesterol | AddedSugar
    | SolubleFiber | InsolubleFiber | Water | Calcium | Iron | Potassium | Magnesium | VitaminAiu
    | VitaminArae | VitaminC | VitaminB12 | VitaminD2 | VitaminD3 | VitaminE | Phosphorus | Zinc
    | Copper | Manganese | Selenium | Fluoride | Molybdenum | VitaminB1 | VitaminB2 | VitaminB3
    | VitaminB5 | VitaminB6 | Biotin | Folate | FolicAcid | FoodFolate | FolateDfe | Choline
    | Betaine | Retinol | CaroteneBeta | CaroteneAlpha | Lycopene | LuteinZeaxanthin | VitaminK

  /** The id lists `_fdc_nutrient_ids` builds: one per plain field and the ones with rules of their own. */
  datatype IdList =
    | CaloriesIds | EnergyKjIds | TransFatIds | TransFatAltIds | VitaminDIds | MonoFatIds | PolyFatIds
    | PlainIds(field: PlainField)

  type NutrientIds = IdList -> seq<int>

  /** The fields with a rule of their own, and the plain ones. */
  datatype FdcNutrients = FdcNutrients(
    calories: int, transFat: real, monoFat: real, polyFat: real,
    vitaminD: real, vitaminDiu: real, plain: PlainField -> real)

  /** The amount of the first listed id that has one, else 0. */
  function FirstAmount(amounts: map<int, real>, ids: seq<int>): real
  {
    if ids == [] then 0 as real
    else if ids[0] in amounts then amounts[ids[0]]
    else FirstAmount(amounts, ids[1..])
  }

  /** `first_amount` reads the first listed id present, and 0 when none is. */
  lemma {:induction false} FirstAmountSpec(amounts: map<int, real>, ids: seq<int>)
    ensures (forall j :: 0 <= j < |ids| ==> ids[j] !in amounts) ==> FirstAmount(amounts, ids) == 0 as real
    ensures forall e :: 0 <= e < |ids| && ids[e] in amounts && (forall e' :: 0 <= e' < e ==> ids[e'] !in amounts) ==>
      FirstAmount(amounts, ids) == amounts[ids[e]]
  {
    if ids != [] && ids[0] !in amounts {
      FirstAmountSpec(amounts, ids[1..]);
      assert forall j :: 1 <= j < |ids| ==> ids[j] == ids[1..][j - 1];
    }
  }

  /** Sum of the amounts of the listed ids, a missing id counting 0. */
  function SumAmounts(amounts: map<int, real>, ids: seq<int>): (s: real)
    ensures (forall j :: 0 <= j < |ids| ==> ids[j] !in amounts || amounts[ids[j]] >= 0 as real) ==> s >= 0 as real
  {
    if ids == [] then 0 as real
    else (if ids[0] in amounts then amounts[ids[0]] else 0 as real) + SumAmounts(amounts, ids[1..])
  }

  /** kilojoules per kilocalorie, 4.184. */

  /** Energy before rounding: kcal, falling back to the first kJ id's amount only when kcal is not positive. */
  function Energy(amounts: map<int, real>, ids: NutrientIds): (e: real)
    ensures FirstAmount(amounts, ids(CaloriesIds)) > 0 as real ==> e == FirstAmount(amounts, ids(CaloriesIds))
    ensures FirstAmount(amounts, ids(CaloriesIds)) <= 0 as real ==>
      if ids(EnergyKjIds) != [] && ids(EnergyKjIds)[0] in amounts
      then e * Rounding.KjPerKcal == amounts[ids(EnergyKjIds)[0]]
      else e == FirstAmount(amounts, ids(CaloriesIds))
  {
    var kcal := FirstAmount(amounts, ids(CaloriesIds));
    var kj := ids(EnergyKjIds);
    if kcal <= 0 as real && kj != [] && kj[0] in amounts then amounts[kj[0]] / Rounding.KjPerKcal else kcal
  }

  /** Trans fat: the first trans-fat id's amount, or, when that is not positive, the sum of the
      trans-isomer ids' amounts. */
  function TransFat(amounts: map<int, real>, ids: NutrientIds): (t: real)
    ensures FirstAmount(amounts, ids(TransFatIds)) > 0 as real ==> t == FirstAmount(amounts, ids(TransFatIds))
    ensures FirstAmount(amounts, ids(TransFatIds)) <= 0 as real ==> t == SumAmounts(amounts, ids(TransFatAltIds))
  {
    var tf := FirstAmount(amounts, ids(TransFatIds));
    if tf <= 0 as real then SumAmounts(amounts, ids(TransFatAltIds)) else tf
  }

  /** Vitamin D in IU from micrograms: 40 IU per microgram, 0 unless the amount is positive. */
  function VitaminDiu(vd: real): (iu: real)
    ensures iu >= 0 as real
    ensures vd > 0 as real ==> iu / 40 as real == vd
    ensures vd <= 0 as real ==> iu == 0 as real
  {
    if vd > 0 as real then vd * 40 as real else 0 as real
  }

  /** `_extract_fdc_nutrients`: each output field from the rule above for it. */
  function ExtractFdcNutrients(amounts: map<int, real>, ids: NutrientIds): (n: FdcNutrients)
    ensures n.calories == Rounding.RoundHalfEven(Energy(amounts, ids))
    ensures n.transFat == TransFat(amounts, ids)
    ensures n.vitaminD == FirstAmount(amounts, ids(VitaminDIds)) && n.vitaminDiu == VitaminDiu(n.vitaminD)
    ensures n.monoFat == 1000 as real * FirstAmount(amounts, ids(MonoFatIds))
    ensures n.polyFat == 1000 as real * FirstAmount(amounts, ids(PolyFatIds))
    ensures forall f :: n.plain(f) == FirstAmount(amounts, ids(PlainIds(f)))
  {
    var vd := FirstAmount(amounts, ids(VitaminDIds));
    FdcNutrients(
      Rounding.RoundHalfEven(Energy(amounts, ids)),
      TransFat(amounts, ids),
      FirstAmount(amounts, ids(MonoFatIds)) * 1000 as real,
      FirstAmount(amounts, ids(PolyFatIds)) * 1000 as real,
      vd, VitaminDiu(vd),
      f => FirstAmount(amounts, ids(PlainIds(f))))
  }

  /** The fallback sums the isomers, so with non-negative amounts it is at least each of them. */
  lemma {:induction false} SumAmountsDominates(amounts: map<int, real>, ids: seq<int>, j: nat)
    requires j < |ids| && ids[j] in amounts
    requires forall i :: 0 <= i < |ids| && ids[i] in amounts ==> amounts[ids[i]] >= 0 as real
    ensures SumAmounts(amounts, ids) >= amounts[ids[j]]
  {
    if j > 0 {
      assert forall i :: 0 <= i < |ids[1..]| && ids[1..][i] in amounts ==> amounts[ids[1..][i]] >= 0 as real by {
        forall i | 0 <= i < |ids[1..]| && ids[1..][i] in amounts
          ensures amounts[ids[1..][i]] >= 0 as real
        {
          assert ids[1..][i] == ids[i + 1];
        }
      }
      SumAmountsDominates(amounts, ids[1..], j - 1);
    }
  }

  /** Only the first kJ id is consulted: a later kJ id with an amount does not rescue a food without kcal. */
  lemma EnergyIgnoresLaterKjIds(amounts: map<int, real>, ids: NutrientIds)
    requires FirstAmount(amounts, ids(CaloriesIds)) <= 0 as real
    requires |ids(EnergyKjIds)| >= 2 && ids(EnergyKjIds)[0] !in amounts && ids(EnergyKjIds)[1] in amounts
    ensures Energy(amounts, ids) == FirstAmount(amounts, ids(CaloriesIds))
  {
  }

  /** A lookup of non-negative amounts reads a non-negative amount. */
  lemma {:induction false} FirstAmountNonNegative(amounts: map<int, real>, ids: seq<int>)
    requires forall k :: k in amounts ==> amounts[k] >= 0 as real
    ensures FirstAmount(amounts, ids) >= 0 as real
  {
    if ids == [] {
    } else if ids[0] in amounts {
      var k := ids[0];
      assert k in amounts;
      assert amounts[k] >= 0 as real;
      assert FirstAmount(amounts, ids) == amounts[k];
    } else {
      FirstAmountNonNegative(amounts, ids[1..]);
    }
  }

  /** From non-negative amounts every nutrient comes out non-negative, and the IU value is
      exactly 40 times the microgram value. */
  lemma ExtractFdcNutrientsNonNegative(amounts: map<int, real>, ids: NutrientIds)
    requires forall k :: k in amounts ==> amounts[k] >= 0 as real
    ensures var n := ExtractFdcNutrients(amounts, ids);
      && n.calories >= 0 && n.transFat >= 0 as real && n.monoFat >= 0 as real && n.polyFat >= 0 as real
      && n.vitaminD >= 0 as real && n.vitaminDiu == 40 as real * n.vitaminD
      && forall f :: n.plain(f) >= 0 as real
  {
    var n := ExtractFdcNutrients(amounts, ids);
    FirstAmountNonNegative(amounts, ids(CaloriesIds));
    FirstAmountNonNegative(amounts, ids(TransFatIds));
    FirstAmountNonNegative(amounts, ids(MonoFatIds));
    FirstAmountNonNegative(amounts, ids(PolyFatIds));
    FirstAmountNonNegative(amounts, ids(VitaminDIds));
    forall f ensures n.plain(f) >= 0 as real {
      FirstAmountNonNegative(amounts, ids(PlainIds(f)));
    }
    var e := Energy(amounts, ids);
    assert e >= 0 as real;
    Rounding.RoundNonNegative(e);
  }
}

=== FILE: food_search.dfy ===
/** The Elasticsearch side of foods: the bulk batch size read from the environment, bulk indexing
    in batches, and reading food ids back out of search hits. The search engine and its scoring
    are a parameter: what the model keeps is the request the service sends and what it does with
    the hits it gets back. */
module FoodSearch {
  import opened Wrappers
  import opened Text
  import IntParse
  import Batching

  const DefaultBatchSize: nat := 500

  /** A batch size setting: `Number.parseInt(value ?? '', 10)` when that is a positive number,
      else 500. */
  function BatchSizeSetting(value: Option<string>): (n: nat)
    ensures n >= 1
    ensures n == DefaultBatchSize || IntParse.JsParseInt(value.GetOr("")) == Some(n as int)
  {
    match IntParse.JsParseInt(value.GetOr(""))
    case Some(v) => if v > 0 then v else DefaultBatchSize
    case None => DefaultBatchSize
  }

  /** A positive number written in decimal, possibly followed by a non-digit suffix, is read back
      as that number. */
  lemma BatchSizeOfRendered(n: nat, rest: string)
    requires n > 0 && (rest == [] || !IsDigit(rest[0]))
    ensures BatchSizeSetting(Some(NatToString(n) + rest)) == n
  {
    IntParse.JsParseIntOfRendered(n, rest);
  }

  /** An unset or zero setting gives the default. */
  lemma BatchSizeUnsetOrZero()
    ensures BatchSizeSetting(None) == DefaultBatchSize
    ensures BatchSizeSetting(Some("0")) == DefaultBatchSize
  {
    assert TrimStart("") == "" && TrimStart("0") == "0";
    assert DigitRun("0", 0) == 1;
    assert DigitsValue("0") == 0;
  }

  /** A negative or non-numeric setting gives the default. */
  lemma BatchSizeNegativeOrText()
    ensures BatchSizeSetting(Some("-20")) == DefaultBatchSize
    ensures BatchSizeSetting(Some("abc")) == DefaultBatchSize
  {
    NegativeParses();
    TextDoesNotParse();
  }

  lemma NegativeParses()
    ensures IntParse.JsParseInt("-20") == Some(-20)
  {
    var t := "-20";
    assert TrimStart(t) == t by { assert !IsSpace(t[0]); }
    assert IntParse.SignLen(t) == 1;
    assert DigitRun(t, 3) == 3;
    assert DigitRun(t, 1) == 3;
    assert t[1..3] == "20";
    assert DigitsValue("20") == 20 by {
      assert "20"[..1] == "2";
      assert DigitsValue("2") == 2 by { assert "2"[..0] == ""; }
    }
  }

  lemma TextDoesNotParse()
    ensures IntParse.JsParseInt("abc") == None
  {
    var t := "abc";
    assert TrimStart(t) == t by { assert !IsSpace(t[0]); }
    assert IntParse.SignLen(t) == 0;
    assert !IsDigit(t[0]);
  }

  // ---------------------------------------------------------------------------------------------
  // Bulk indexing

  /** The fields a food is indexed with. */
  datatype Doc = Doc(id: nat, name: string, brand: Option<string>, isCsvFood: bool)

  /** One line of a bulk request: an index action naming the document id, or the document. */
  datatype BulkLine =
    | IndexAction(docId: string)
    | Source(name: string, brand: Option<string>, isCsvFood: bool)

  /** The two lines one food contributes: its index action, then its document. */
  function Lines(d: Doc): seq<BulkLine>
  {
    [IndexAction(NatToString(d.id)), Source(d.name, d.brand, d.isCsvFood)]
  }

  /** The lines for one batch, food by food (`flatMap`). */
  function Operations(batch: seq<Doc>): (ops: seq<BulkLine>)
    ensures |ops| == 2 * |batch|
  {
    if batch == [] then [] else Operations(batch[..|batch| - 1]) + Lines(batch[|batch| - 1])
  }

  /** Food `k` of a batch owns lines `2k` and `2k + 1`: its index action, then its document. */
  lemma {:induction false} OperationsAt(batch: seq<Doc>, k: nat)
    requires k < |batch|
    ensures Operations(batch)[2 * k] == IndexAction(NatToString(batch[k].id))
    ensures Operations(batch)[2 * k + 1] == Source(batch[k].name, batch[k].brand, batch[k].isCsvFood)
    decreases |batch|
  {
    var init := batch[..|batch| - 1];
    if k < |batch| - 1 {
      OperationsAt(init, k);
      assert init[k] == batch[k];
    }
  }

  /** Every index action names its food's id in a form that reads back as that id. */
  lemma OperationIdsRoundTrip(batch: seq<Doc>, k: nat)
    requires k < |batch|
    ensures Operations(batch)[2 * k].IndexAction?
    ensures IntParse.JsParseInt(Operations(batch)[2 * k].docId) == Some(batch[k].id as int)
  {
    OperationsAt(batch, k);
    IntParse.JsParseIntOfRendered(batch[k].id, []);
    assert NatToString(batch[k].id) + [] == NatToString(batch[k].id);
  }

  /** The slices `foods.slice(start, start + batchSize)` for `start = 0, batchSize, …` while
      `start < foods.length`. */
  method Slices(foods: seq<Doc>, batchSize: nat) returns (batches: seq<seq<Doc>>)
    requires batchSize >= 1
    ensures foods == [] <==> batches == []
    ensures Batching.Concat(batches) == foods
    ensures Batching.Batched(batches, batchSize)
  {
    batches := [];
    var start := 0;
    while start < |foods|
      invariant Batching.Concat(batches) == foods[..if start <= |foods| then start else |foods|]
      invariant start <= |foods| ==> Batching.AllFull(batches, batchSize)
      invariant start > |foods| ==> Batching.Batched(batches, batchSize)
      invariant start > 0 <==> batches != []
      decreases |foods| - start
    {
      var end := if start + batchSize <= |foods| then start + batchSize else |foods|;
      var batch := foods[start..end];
      Batching.ConcatSnoc(batches, batch);
      assert foods[..end] == foods[..start] + batch;
      if start + batchSize <= |foods| {
        Batching.AllFullSnoc(batches, batch, batchSize);
      } else {
        Batching.BatchedSnoc(batches, batch, batchSize);
      }
      batches := batches + [batch];
      start := start + batchSize;
    }
    if start <= |foods| {
      Batching.FullIsBatched(batches, batchSize);
    }
    assert foods[..|foods|] == foods;
  }

  /** `bulkIndexFoods`: nothing for no foods; otherwise one bulk call per slice of `batchSize`
      foods, in order. The batch size is the constructor's `BatchSizeSetting`, so at least 1.
      Returns the slices and the lines of each call. */
  method BulkIndexFoods(foods: seq<Doc>, batchSize: nat) returns (batches: seq<seq<Doc>>, calls: seq<seq<BulkLine>>)
    requires batchSize >= 1
    ensures foods == [] <==> calls == []
    ensures Batching.Concat(batches) == foods
    ensures Batching.Batched(batches, batchSize)
    ensures |calls| == |batches| && forall i :: 0 <= i < |calls| ==> calls[i] == Operations(batches[i])
  {
    if |foods| == 0 {
      return [], [];
    }
    batches := Slices(foods, batchSize);
    calls := seq(|batches|, i requires 0 <= i < |batches| => Operations(batches[i]));
  }

  // ---------------------------------------------------------------------------------------------
  // Searching

  /** A hit's `_id` as the client returns it: a string, or something else. */
  datatype HitId = StringId(text: string) | NonString

  /** What the service asks the engine for: the trimmed query for the analysed matches, its
      lower-cased form for the keyword and prefix matches, and the page size. */
  datatype SearchRequest = SearchRequest(sanitized: string, normalized: string, size: int)

  /** What one hit contributes: its id when that is a string that parses as an integer. */
  function HitValue(h: HitId): (r: seq<int>)
    ensures |r| <= 1
  {
    match h
    case StringId(t) => (match IntParse.JsParseInt(t) case Some(v) => [v] case None => [])
    case NonString => []
  }

  /** The hit ids that are strings and parse as integers, parsed, in hit order. */
  function HitIds(hits: seq<HitId>): (ids: seq<int>)
    ensures |ids| <= |hits|
  {
    if hits == [] then [] else HitValue(hits[0]) + HitIds(hits[1..])
  }

  lemma {:induction false} HitIdsAppend(a: seq<HitId>, b: seq<HitId>)
    ensures HitIds(a + b) == HitIds(a) + HitIds(b)
    decreases |a|
  {
    if a != [] {
      assert (a + b)[0] == a[0] && (a + b)[1..] == a[1..] + b;
      HitIdsAppend(a[1..], b);
      assert HitIds(a + b) == HitValue(a[0]) + (HitIds(a[1..]) + HitIds(b));
    } else {
      assert a + b == b;
    }
  }

  /** A non-string or unparsable id is dropped without disturbing the others. */
  lemma HitIdsDropsBad(a: seq<HitId>, bad: HitId, b: seq<HitId>)
    requires bad.NonString? || IntParse.JsParseInt(bad.text).None?
    ensures HitIds(a + [bad] + b) == HitIds(a) + HitIds(b)
  {
    HitIdsAppend(a + [bad], b);
    HitIdsAppend(a, [bad]);
  }

  /** The ids as the indexer writes them. */
  function Rendered(ids: seq<nat>): (hits: seq<HitId>)
    ensures |hits| == |ids|
  {
    if ids == [] then [] else [StringId(NatToString(ids[0]))] + Rendered(ids[1..])
  }

  /** Hits carrying the ids the indexer wrote give those ids back, in hit order. */
  lemma {:induction false} HitIdsOfRendered(ids: seq<nat>)
    ensures |HitIds(Rendered(ids))| == |ids|
    ensures forall k :: 0 <= k < |ids| ==> HitIds(Rendered(ids))[k] == ids[k] as int
  {
    if ids != [] {
      IntParse.JsParseIntOfRendered(ids[0], []);
      assert NatToString(ids[0]) + [] == NatToString(ids[0]);
      HitIdsOfRendered(ids[1..]);
      var r := HitIds(Rendered(ids));
      assert r == [ids[0] as int] + HitIds(Rendered(ids[1..]));
      forall k | 1 <= k < |ids| ensures r[k] == ids[k] as int {
        assert ids[1..][k - 1] == ids[k];
      }
    }
  }

  /** `searchFoodsByName`: a blank query answers `[]` without asking the engine; otherwise the
      engine is asked and its hit ids are read back. The result pairs the ids with the request
      sent, if any. */
  function SearchFoodsByName(query: string, limit: int, engine: SearchRequest -> seq<HitId>)
    : (r: (seq<int>, Option<SearchRequest>))
    ensures Strip(query) == [] <==> r.1.None?
    ensures r.1.None? ==> r.0 == []
    ensures r.1.Some? ==>
      && r.1.value.sanitized == Strip(query) && r.1.value.normalized == Lower(Strip(query))
      && r.1.value.size == limit
      && r.0 == HitIds(engine(r.1.value))
  {
    var sanitized := Strip(query);
    if sanitized == [] then ([], None)
    else
      var request := SearchRequest(sanitized, Lower(sanitized), limit);
      (HitIds(engine(request)), Some(request))
  }

  /** The engine's hits `'5'`, `'2'` come back as the ids 5 and 2, in that order. */
  lemma SearchKeepsHitOrder(engine: SearchRequest -> seq<HitId>)
    requires engine(SearchRequest("Apple", "apple", 10)) == [StringId("5"), StringId("2")]
    ensures SearchFoodsByName("Apple", 10, engine).0 == [5, 2]
  {
    StripOfStripped("Apple");
    assert Lower("Apple") == "apple";
    assert NatToString(5) == "5" && NatToString(2) == "2";
    assert Rendered([5, 2]) == [StringId("5"), StringId("2")];
    HitIdsOfRendered([5, 2]);
  }
}

=== FILE: food_service.dfy ===
/** The food service: the reindex batch size, the upsert of imported foods by their source id,
    the paged food list, reordering search results into food rows, and the reindex loop. The food
    table is a sequence in primary-key order; the search index is a map from food id to the
    indexed food. */
module FoodService {
  import opened Wrappers
  import Paging
  import Batching
  import FoodSearch
  import Text

  /** `ES_REINDEX_BATCH_SIZE ?? ES_BULK_BATCH_SIZE ?? ""`, read like the bulk size. A reindex
      setting that is defined wins even when it does not parse. */
  function ReindexBatchSize(reindexSetting: Option<string>, bulkSetting: Option<string>): (n: nat)
    ensures n >= 1
    ensures reindexSetting.Some? ==> n == FoodSearch.BatchSizeSetting(reindexSetting)
    ensures reindexSetting.None? ==> n == FoodSearch.BatchSizeSetting(bulkSetting)
  {
    FoodSearch.BatchSizeSetting(if reindexSetting.Some? then reindexSetting else bulkSetting)
  }

  /** A defined but unusable reindex setting is not skipped over: the default applies. */
  lemma ReindexSettingShadowsBulk(bulkSetting: Option<string>)
    ensures ReindexBatchSize(Some("abc"), bulkSetting) == FoodSearch.DefaultBatchSize
  {
    FoodSearch.BatchSizeNegativeOrText();
  }

  /** Without a reindex setting, a positive bulk setting is used. */
  lemma ReindexFallsBackToBulk(n: nat, rest: string)
    requires n > 0 && (rest == [] || !Text.IsDigit(rest[0]))
    ensures ReindexBatchSize(None, Some(Text.NatToString(n) + rest)) == n
  {
    FoodSearch.BatchSizeOfRendered(n, rest);
  }

  // ---------------------------------------------------------------------------------------------
  // Upserting by source id

  datatype Value = Num(n: real) | Str(s: string)

  /** A food row: its id, the id of the record it was imported from (a unique column), the
      remaining columns by name, the CSV flag, and the user who created it by hand. */
  datatype Food = Food(id: nat, sourceId: Option<string>, fields: map<string, Value>, isCsvFood: bool,
                       createdBy: Option<nat>)

  /** `CreateFoodDto`: the source id and the columns it sets. */
  datatype FoodInput = FoodInput(sourceId: Option<string>, fields: map<string, Value>)

  datatype Store = Store(foods: seq<Food>, nextId: nat, index: map<nat, Food>)

  /** The position of the first food with this source id. */
  function FindBySourceId(foods: seq<Food>, sourceId: string): (k: nat)
    ensures k <= |foods|
    ensures forall i :: 0 <= i < k ==> foods[i].sourceId != Some(sourceId)
    ensures k < |foods| ==> foods[k].sourceId == Some(sourceId)
  {
    if foods == [] then 0
    else if foods[0].sourceId == Some(sourceId) then 0
    else 1 + FindBySourceId(foods[1..], sourceId)
  }

  /** At most one food per source id. */
  predicate UniqueSourceIds(foods: seq<Food>)
  {
    forall i, j :: 0 <= i < j < |foods| && foods[i].sourceId.Some? ==> foods[i].sourceId != foods[j].sourceId
  }

  /** `indexFoodSafe`: a failing index call is logged and swallowed. */
  function IndexSafe(index: map<nat, Food>, food: Food, indexFails: bool): map<nat, Food>
  {
    if indexFails then index else index[food.id := food]
  }

  /** `createFood`: `{...existing, ...dto, isCsvFood: true}` over the food with the same source id,
      else a new row with `{...dto, isCsvFood: true}`; then the food is indexed, failures
      swallowed. An input without a source id is inserted (see `FindBySourceIdAsWritten`). The
      result pairs the saved food with the store. */
  function CreateFood(s: Store, input: FoodInput, indexFails: bool): (r: (Food, Store))
    ensures r.0.isCsvFood && r.0.sourceId == input.sourceId && r.0 in r.1.foods
    ensures forall key :: key in input.fields ==> key in r.0.fields && r.0.fields[key] == input.fields[key]
    ensures input.sourceId.Some? && FindBySourceId(s.foods, input.sourceId.value) < |s.foods| ==>
      var k := FindBySourceId(s.foods, input.sourceId.value);
      && r.0.id == s.foods[k].id && r.0.createdBy == s.foods[k].createdBy
      && r.0.fields.Keys == s.foods[k].fields.Keys + input.fields.Keys
      && (forall key :: key in s.foods[k].fields && key !in input.fields ==> r.0.fields[key] == s.foods[k].fields[key])
      && r.1.foods == s.foods[k := r.0] && r.1.nextId == s.nextId
    ensures input.sourceId.None? || FindBySourceId(s.foods, input.sourceId.value) == |s.foods| ==>
      && r.0.id == s.nextId && r.0.fields == input.fields
      && r.1.foods == s.foods + [r.0] && r.1.nextId == s.nextId + 1
    ensures r.1.index == IndexSafe(s.index, r.0, indexFails)
  {
    var k := if input.sourceId.Some? then FindBySourceId(s.foods, input.sourceId.value) else |s.foods|;
    if k < |s.foods| then
      var old_ := s.foods[k];
      var food := Food(old_.id, input.sourceId, old_.fields + input.fields, true, old_.createdBy);
      assert s.foods[k := food][k] == food;
      (food, Store(s.foods[k := food], s.nextId, IndexSafe(s.index, food, indexFails)))
    else
      var food := Food(s.nextId, input.sourceId, input.fields, true, None);
      (food, Store(s.foods + [food], s.nextId + 1, IndexSafe(s.index, food, indexFails)))
  }

  /** Importing the same record twice leaves the store as importing it once. */
  lemma CreateFoodIdempotent(s: Store, input: FoodInput)
    requires input.sourceId.Some?
    ensures var once := CreateFood(s, input, false).1;
      CreateFood(once, input, false).1 == once
  {
    var sid := input.sourceId.value;
    var (food, once) := CreateFood(s, input, false);
    var k := FindBySourceId(s.foods, sid);
    var k' := FindBySourceId(once.foods, sid);
    if k < |s.foods| {
      assert once.foods[k] == food;
      assert forall i :: 0 <= i < k ==> once.foods[i] == s.foods[i];
      FindFirst(once.foods, sid, k);
      assert food.fields + input.fields == food.fields;
    } else {
      assert once.foods[|s.foods|] == food;
      assert forall i :: 0 <= i < |s.foods| ==> once.foods[i] == s.foods[i];
      FindFirst(once.foods, sid, |s.foods|);
      assert food.fields + input.fields == food.fields;
    }
  }

  /** The first match is the one found. */
  lemma {:induction false} FindFirst(foods: seq<Food>, sourceId: string, k: nat)
    requires k < |foods| && foods[k].sourceId == Some(sourceId)
    requires forall i :: 0 <= i < k ==> foods[i].sourceId != Some(sourceId)
    ensures FindBySourceId(foods, sourceId) == k
    decreases k
  {
    if k > 0 {
      FindFirst(foods[1..], sourceId, k - 1);
    }
  }

  /** Creating keeps source ids unique. */
  lemma CreateFoodKeepsUnique(s: Store, input: FoodInput, indexFails: bool)
    requires UniqueSourceIds(s.foods)
    ensures UniqueSourceIds(CreateFood(s, input, indexFails).1.foods)
  {
    var (food, s') := CreateFood(s, input, indexFails);
    if input.sourceId.Some? {
      var k := FindBySourceId(s.foods, input.sourceId.value);
      if k < |s.foods| {
        assert forall i :: 0 <= i < |s.foods| && i != k ==> s'.foods[i] == s.foods[i];
      } else {
        assert forall i :: 0 <= i < |s.foods| ==> s'.foods[i] == s.foods[i];
      }
    } else {
      assert forall i :: 0 <= i < |s.foods| ==> s'.foods[i] == s.foods[i];
    }
  }

  /** `findOneBy({ sourceId })` as the repository runs it: a condition whose value is `undefined`
      is left out of the query, so an input without a source id finds the first food. */
  function FindBySourceIdAsWritten(foods: seq<Food>, sourceId: Option<string>): (k: nat)
    ensures k <= |foods|
    ensures sourceId.None? ==> (k < |foods| <==> foods != [])
  {
    if sourceId.None? then 0 else FindBySourceId(foods, sourceId.value)
  }

  /** `createFood` with the lookup as written. */
  function CreateFoodAsWritten(s: Store, input: FoodInput, indexFails: bool): (r: (Food, Store))
    ensures r.0.isCsvFood && (input.sourceId.Some? ==> r.0.sourceId == input.sourceId)
    ensures FindBySourceIdAsWritten(s.foods, input.sourceId) < |s.foods| ==> |r.1.foods| == |s.foods|
    ensures FindBySourceIdAsWritten(s.foods, input.sourceId) == |s.foods| ==> r.1.foods == s.foods + [r.0]
  {
    var k := FindBySourceIdAsWritten(s.foods, input.sourceId);
    if k < |s.foods| then
      var old_ := s.foods[k];
      var food := Food(old_.id, if input.sourceId.Some? then input.sourceId else old_.sourceId, old_.fields + input.fields, true, old_.createdBy);
      (food, Store(s.foods[k := food], s.nextId, IndexSafe(s.index, food, indexFails)))
    else
      var food := Food(s.nextId, input.sourceId, input.fields, true, None);
      (food, Store(s.foods + [food], s.nextId + 1, IndexSafe(s.index, food, indexFails)))
  }

  /** As written, a food posted without a source id takes over the first food's row: its id,
      its source id and its columns not in the input survive. The corrected
      `CreateFood` adds a row instead. */
  lemma MissingSourceIdOverwritesFirst(s: Store, input: FoodInput, indexFails: bool)
    requires s.foods != [] && input.sourceId.None?
    ensures var (food, s') := CreateFoodAsWritten(s, input, indexFails);
      && food.id == s.foods[0].id && food.sourceId == s.foods[0].sourceId
      && |s'.foods| == |s.foods| && s'.foods[0] == food
    ensures var (food, s') := CreateFood(s, input, indexFails);
      food.id == s.nextId && s'.foods == s.foods + [food]
  {
  }

  /** The corrected `CreateFood` and the lookup as written agree on every input that carries a
      source id, and on an empty table; they differ only for an input without one. */
  lemma CreateFoodAgrees(s: Store, input: FoodInput, indexFails: bool)
    requires input.sourceId.Some? || s.foods == []
    ensures CreateFoodAsWritten(s, input, indexFails) == CreateFood(s, input, indexFails)
  {
  }

  // ---------------------------------------------------------------------------------------------
  // Hand-made foods and single lookups

  /** `createBasicFood`: a new row owned by the user, then indexed with failures swallowed. */
  function CreateBasicFood(s: Store, fields: map<string, Value>, userId: nat, indexFails: bool): (r: (Food, Store))
    ensures r.0.id == s.nextId && r.0.createdBy == Some(userId) && r.0.fields == fields
    ensures r.1.foods == s.foods + [r.0] && r.1.nextId == s.nextId + 1
    ensures r.1.index == IndexSafe(s.index, r.0, indexFails)
  {
    var food := Food(s.nextId, None, fields, false, Some(userId));
    (food, Store(s.foods + [food], s.nextId + 1, IndexSafe(s.index, food, indexFails)))
  }

  datatype LookupError = NotFound

  /** `getFood`: the food with this id, as a one-element list, or not found. */
  function GetFood(foods: seq<Food>, id: nat): (r: Result<seq<Food>, LookupError>)
    ensures r.Success? <==> exists k :: 0 <= k < |foods| && foods[k].id == id
    ensures r.Success? ==> |r.value| == 1 && r.value[0] in foods && r.value[0].id == id
  {
    if foods == [] then Failure(NotFound)
    else if foods[0].id == id then Success([foods[0]])
    else
      var rest := GetFood(foods[1..], id);
      assert forall k :: 1 <= k < |foods| ==> foods[k] == foods[1..][k - 1];
      if rest.Success? then
        assert rest.value[0] in foods;
        rest
      else rest
  }

  /** A food just created by hand can be fetched by its id. */
  lemma CreateBasicThenGet(s: Store, fields: map<string, Value>, userId: nat, indexFails: bool)
    ensures var (food, s') := CreateBasicFood(s, fields, userId, indexFails);
      GetFood(s'.foods, food.id).Success?
  {
    var (food, s') := CreateBasicFood(s, fields, userId, indexFails);
    assert s'.foods[|s.foods|].id == food.id;
  }

  // ---------------------------------------------------------------------------------------------
  // Listing and search results

  datatype AllFoods = AllFoods(foods: seq<Food>, totalCount: nat, pageNumber: nat, limit: nat)

  const DefaultListLimit: nat := 100

  /** `getAllFoods`: one page of the foods in name order (a parameter: `rows`), the total, the
      page number (`page ?? 0`) and the limit (`100` when left out). */
  function GetAllFoods(rows: seq<Food>, limit: Option<nat>, page: Option<nat>): (r: AllFoods)
    ensures r.totalCount == |rows| && r.pageNumber == page.GetOr(0)
    ensures r.limit == limit.GetOr(DefaultListLimit)
    ensures r.limit > 0 ==> |r.foods| <= r.limit
    ensures forall k :: 0 <= k < |r.foods| ==> r.foods[k] in rows
    ensures Paging.Skip(page, r.limit) >= |rows| ==> r.foods == []
  {
    var l := limit.GetOr(DefaultListLimit);
    AllFoods(Paging.Page(rows, l, page), |rows|, page.GetOr(0), l)
  }

  /** Search ids to rows, in search order; ids without a row are dropped. */
  function InSearchOrder(ids: seq<int>, byId: map<int, Food>): (r: seq<Food>)
    ensures |r| <= |ids|
    ensures forall k :: 0 <= k < |r| ==> r[k] in byId.Values
  {
    if ids == [] then []
    else (if ids[0] in byId then [byId[ids[0]]] else []) + InSearchOrder(ids[1..], byId)
  }

  /** When every id has a row, the rows come back one per id, in search order. */
  lemma {:induction false} InSearchOrderAllFound(ids: seq<int>, byId: map<int, Food>)
    requires forall k :: 0 <= k < |ids| ==> ids[k] in byId
    ensures |InSearchOrder(ids, byId)| == |ids|
    ensures forall k :: 0 <= k < |ids| ==> InSearchOrder(ids, byId)[k] == byId[ids[k]]
  {
    if ids != [] {
      InSearchOrderAllFound(ids[1..], byId);
      var r := InSearchOrder(ids, byId);
      assert r == [byId[ids[0]]] + InSearchOrder(ids[1..], byId);
      forall k | 1 <= k < |ids| ensures r[k] == byId[ids[k]] {
        assert ids[1..][k - 1] == ids[k];
      }
    }
  }

  lemma {:induction false} InSearchOrderAppend(a: seq<int>, b: seq<int>, byId: map<int, Food>)
    ensures InSearchOrder(a + b, byId) == InSearchOrder(a, byId) + InSearchOrder(b, byId)
    decreases |a|
  {
    if a != [] {
      assert (a + b)[0] == a[0] && (a + b)[1..] == a[1..] + b;
      InSearchOrderAppend(a[1..], b, byId);
    } else {
      assert a + b == b;
    }
  }

  /** An id with no row is skipped and the others keep their order. */
  lemma InSearchOrderDropsMissing(a: seq<int>, id: int, b: seq<int>, byId: map<int, Food>)
    requires id !in byId
    ensures InSearchOrder(a + [id] + b, byId) == InSearchOrder(a, byId) + InSearchOrder(b, byId)
  {
    InSearchOrderAppend(a + [id], b, byId);
    InSearchOrderAppend(a, [id], byId);
  }

  const DefaultSearchLimit: nat := 20

  /** `getFoodsByName`: search, then load the rows for the ids found, in search order. No ids
      means no database query. The result pairs the foods with whether the table was queried. */
  function GetFoodsByName(name: string, limit: Option<int>, engine: FoodSearch.SearchRequest -> seq<FoodSearch.HitId>,
                          byId: map<int, Food>): (r: (seq<Food>, bool))
    ensures var ids := FoodSearch.SearchFoodsByName(name, limit.GetOr(DefaultSearchLimit), engine).0;
      (r.1 <==> ids != []) && (ids == [] ==> r.0 == []) && |r.0| <= |ids|
    ensures var ids := FoodSearch.SearchFoodsByName(name, limit.GetOr(DefaultSearchLimit), engine).0;
      (forall k :: 0 <= k < |ids| ==> ids[k] in byId) ==>
        |r.0| == |ids| && forall k :: 0 <= k < |ids| ==> r.0[k] == byId[ids[k]]
  {
    var ids := FoodSearch.SearchFoodsByName(name, limit.GetOr(DefaultSearchLimit), engine).0;
    if ids == [] then ([], false)
    else if forall k :: 0 <= k < |ids| ==> ids[k] in byId then
      InSearchOrderAllFound(ids, byId);
      (InSearchOrder(ids, byId), true)
    else
      (InSearchOrder(ids, byId), true)
  }

  // ---------------------------------------------------------------------------------------------
  // Reindexing

  /** The queries the reindex loop makes for `n` rows: one per full page, and a last one that
      comes back short or empty. */
  function QueryCount(n: nat, batchSize: nat): (q: nat)
    requires batchSize >= 1
    ensures q >= 1
    decreases n
  {
    if n < batchSize then 1 else 1 + QueryCount(n - batchSize, batchSize)
  }

  /** `QueryCount(n, b)` is `n / b + 1`: the one count with `(q - 1) * b <= n < q * b`. */
  lemma {:induction false} QueryCountBounds(n: nat, batchSize: nat)
    requires batchSize >= 1
    ensures (QueryCount(n, batchSize) - 1) * batchSize <= n < QueryCount(n, batchSize) * batchSize
    decreases n
  {
    if n >= batchSize {
      QueryCountBounds(n - batchSize, batchSize);
      var q := QueryCount(n - batchSize, batchSize);
      assert (q + 1) * batchSize == q * batchSize + batchSize;
      assert q * batchSize == (q - 1) * batchSize + batchSize;
    }
  }

  /** `reindexFoods`: fetch pages of `batchSize` rows by offset in id order, hand each non-empty
      page to the bulk indexer, and stop after an empty or short page. Returns the count, the
      pages indexed and the number of queries made. */
  method ReindexFoods(rows: seq<FoodSearch.Doc>, batchSize: nat)
    returns (indexedCount: nat, pages: seq<seq<FoodSearch.Doc>>, queries: nat)
    requires batchSize >= 1
    ensures indexedCount == |rows|
    ensures Batching.Concat(pages) == rows
    ensures Batching.Batched(pages, batchSize)
    ensures queries == QueryCount(|rows|, batchSize)
  {
    indexedCount, pages, queries := 0, [], 0;
    var offset := 0;
    while true
      invariant offset <= |rows| && offset == indexedCount
      invariant Batching.Concat(pages) == rows[..offset]
      invariant Batching.AllFull(pages, batchSize)
      invariant queries == |pages|
      invariant queries + QueryCount(|rows| - offset, batchSize) == QueryCount(|rows|, batchSize)
      decreases |rows| - offset
    {
      var end := if offset + batchSize <= |rows| then offset + batchSize else |rows|;
      var page := rows[offset..end];
      queries := queries + 1;
      if |page| == 0 {
        assert rows[..offset] == rows;
        Batching.FullIsBatched(pages, batchSize);
        return;
      }
      Batching.ConcatSnoc(pages, page);
      assert rows[..end] == rows[..offset] + page;
      if |page| < batchSize {
        Batching.BatchedSnoc(pages, page, batchSize);
        pages := pages + [page];
        indexedCount := indexedCount + |page|;
        assert rows[..end] == rows;
        return;
      }
      Batching.AllFullSnoc(pages, page, batchSize);
      pages := pages + [page];
      indexedCount := indexedCount + |page|;
      offset := offset + |page|;
    }
  }
}

=== FILE: foodbarcode_service.dfy ===
/** Barcode mappings: importing `(barcode, food)` pairs, each food matched against an existing
    row with the same name and nutrient values or created through the food service, and looking
    a food up by barcode. The food table and its ids are the food service's store; the mapping
    table is a map from barcode to food id. */
module FoodBarcodeService {
  import opened Wrappers
  import Text
  import Rounding
  import JsNum
  import FoodService

  /** The nutrient columns a barcode import normalizes and matches on, with the decimal places
      each is rounded to. */
  const Scales: map<string, nat> := map[
      "calories" := 0, "protein" := 2, "carbs" := 2, "fat" := 2,
      "fiber" := 2, "sugar" := 2, "sodium" := 2, "saturatedFat" := 2,
      "transFat" := 2, "cholesterol" := 4, "addedSugar" := 2, "netCarbs" := 2,
      "solubleFiber" := 2, "insolubleFiber" := 2, "water" := 2, "pralScore" := 2,
      "omega3" :=  4, "omega6" := 4, "calcium" := 4, "iron" := 4,
      "potassium" := 4, "magnesium" := 4, "vitaminAiu" := 2, "vitaminArae" := 4,
      "vitaminC" := 4, "vitaminB12" := 4, "vitaminD" := 4, "vitaminE" := 4,
      "phosphorus" := 4, "zinc" := 4, "copper" := 4, "manganese" := 4,
      "selenium" := 4, "fluoride" :=  4, "molybdenum" := 4, "chlorine" := 4,
      "vitaminB1" := 4, "vitaminB2" := 4, "vitaminB3" := 4, "vitaminB5" := 4,
      "vitaminB6" := 4, "biotin" := 4, "folate" := 4, "folicAcid" := 4,
      "foodFolate" := 4, "folateDfe" := 4, "choline" := 4, "betaine" := 4,
      "retinol" := 4, "caroteneBeta" := 4, "caroteneAlpha" := 4, "lycopene" := 4,
      "luteinZeaxanthin" := 4, "vitaminD2" := 4, "vitaminD3" := 4, "vitaminDiu" := 2,
      "vitaminK" := 4, "dihydrophylloquinone" := 4, "menaquinone4" := 4, "monoFat" := 4,
      "polyFat" := 4, "ala" := 4, "epa" := 4, "dpa" := 4,
      "dha" := 4  ]

  // ---------------------------------------------------------------------------------------------
  // Normalizing

  /** `normalizeBarcode`: the trimmed barcode, `''` when missing. */
  function NormalizeBarcode(value: Option<string>): (r: string)
    ensures r == [] || (!Text.IsSpace(r[0]) && !Text.IsSpace(r[|r| - 1]))
    ensures value.None? ==> r == []
  {
    Text.Strip(value.GetOr(""))
  }

  /** Whitespace around a barcode does not change it. */
  lemma BarcodePaddingIgnored(a: string, w: string, b: string)
    requires Text.AllSpace(a) && Text.AllSpace(b)
    requires w == [] || (!Text.IsSpace(w[0]) && !Text.IsSpace(w[|w| - 1]))
    ensures NormalizeBarcode(Some(a + w + b)) == NormalizeBarcode(Some(w)) == w
  {
    Text.StripOfStripped(w);
    if w == [] {
      assert a + w + b == a + b;
      Text.StripEmptyIffAllSpace(a + b);
    } else {
      Text.StripPadded(a, w, b);
    }
  }

  function Pow10(n: nat): (r: nat)
    ensures r >= 1
  {
    if n == 0 then 1 else 10 * Pow10(n - 1)
  }

  /** `Math.round(x * f) / f`: `x` rounded to a multiple of `1 / f`. */
  function RoundTo(x: real, f: real): (r: real)
    requires f > 0 as real
    ensures r * f == Rounding.JsRound(x * f) as real
  {
    var n := Rounding.JsRound(x * f) as real;
    DivideBack(n / f, f, n);
    n / f
  }

  lemma DivideBack(r: real, f: real, m: real)
    requires f > 0 as real
    ensures r * f == m <==> r == m / f
  {
  }

  /** `RoundTo`'s contract for a value known to equal it, as a fact a proof can call up where
      the solver does not find it. */
  lemma RoundToScaled(r: real, x: real, f: real)
    requires f > 0 as real && r == RoundTo(x, f)
    ensures r * f == Rounding.JsRound(x * f) as real
  {
  }

  /** Rounding a rounded value changes nothing. */
  lemma RoundToIdempotent(x: real, f: real)
    requires f > 0 as real
    ensures RoundTo(RoundTo(x, f), f) == RoundTo(x, f)
  {
    var r := RoundTo(x, f);
    var n := Rounding.JsRound(x * f);
    RoundToScaled(r, x, f);
    RoundToScaled(RoundTo(r, f), r, f);
    Rounding.RoundIntegral(n);
    assert Rounding.JsRound(r * f) == n;
    DivideBack(RoundTo(r, f), f, n as real);
    DivideBack(r, f, n as real);
  }

  /** `normalizeNumber`: a missing value is 0, a non-finite one is 0, and a finite one is rounded
      (`Math.round`, halves up) to `scale` decimal places (`NormalizeNumberFinite`). */
  function NormalizeNumber(value: Option<JsNum.Num>, scale: nat): (r: real)
    ensures value.None? || value.value.NonFinite? ==> r == 0 as real
  {
    if value.None? || value.value.NonFinite? then 0 as real
    else RoundTo(value.value.value, Pow10(scale) as real)
  }

  /** A finite value, scaled by `f = 10^scale`, is the rounded scaled value it was sent as: it
      has at most `scale` decimals and lies within half a unit of the last place of the value. */
  lemma NormalizeNumberFinite(x: real, scale: nat, f: real)
    requires f == Pow10(scale) as real
    ensures var r := NormalizeNumber(Some(JsNum.Finite(x)), scale);
      && r * f == Rounding.JsRound(x * f) as real
      && (r * f).Floor as real == r * f
      && -1 as real / 2 as real <= x * f - r * f < 1 as real / 2 as real
  {
    var r := NormalizeNumber(Some(JsNum.Finite(x)), scale);
    assert r == RoundTo(x, f);
    RoundToScaled(r, x, f);
    RoundToClose(r, x, f);
  }

  lemma RoundToClose(r: real, x: real, f: real)
    requires f > 0 as real && r == RoundTo(x, f)
    ensures (r * f).Floor as real == r * f
    ensures -1 as real / 2 as real <= x * f - r * f < 1 as real / 2 as real
  {
    var n := Rounding.JsRound(x * f);
    RoundToScaled(r, x, f);
    assert (n as real).Floor == n;
  }

  /** Normalizing a normalized value changes nothing. */
  lemma NormalizeNumberIdempotent(x: real, scale: nat)
    ensures var r := NormalizeNumber(Some(JsNum.Finite(x)), scale);
      NormalizeNumber(Some(JsNum.Finite(r)), scale) == r
  {
    RoundToIdempotent(x, Pow10(scale) as real);
  }

  /** A food in an import: its source id, name, nutrient values as sent, and the other columns. */
  datatype FoodDto = FoodDto(sourceId: Option<string>, name: Option<string>, numbers: map<string, JsNum.Num>,
                             other: map<string, FoodService.Value>)

  /** The nutrient columns, each normalized at its scale. */
  function NormalizedNumbers(scales: map<string, nat>, numbers: map<string, JsNum.Num>): (r: map<string, FoodService.Value>)
    ensures r.Keys == scales.Keys
    ensures forall k :: k in scales ==>
      r[k] == FoodService.Num(NormalizeNumber(if k in numbers then Some(numbers[k]) else None, scales[k]))
  {
    map k | k in scales :: FoodService.Num(NormalizeNumber(if k in numbers then Some(numbers[k]) else None, scales[k]))
  }

  /** `normalizeFoodDto`: `{...food, name: food.name?.trim(), ...numeric}`. A missing name stays
      missing. */
  function NormalizeFoodDto(scales: map<string, nat>, dto: FoodDto): (r: FoodService.FoodInput)
    ensures r.sourceId == dto.sourceId
    ensures "name" !in scales ==> (dto.name.Some? <==> "name" in r.fields)
    ensures "name" !in scales && dto.name.Some? ==> r.fields["name"] == FoodService.Str(Text.Strip(dto.name.value))
    ensures forall k :: k in scales ==>
      k in r.fields && r.fields[k] == FoodService.Num(NormalizeNumber(if k in dto.numbers then Some(dto.numbers[k]) else None, scales[k]))
    ensures forall k :: k in dto.other && k != "name" && k !in scales ==> k in r.fields && r.fields[k] == dto.other[k]
  {
    var base := dto.other - {"name"};
    var named := if dto.name.Some? then base["name" := FoodService.Str(Text.Strip(dto.name.value))] else base;
    FoodService.FoodInput(dto.sourceId, named + NormalizedNumbers(scales, dto.numbers))
  }

  /** The non-empty name of a normalized food, if it has one. */
  function FoodName(input: FoodService.FoodInput): Option<string>
  {
    if "name" in input.fields && input.fields["name"].Str? && input.fields["name"].s != [] then Some(input.fields["name"].s)
    else None
  }

  // ---------------------------------------------------------------------------------------------
  // Matching

  /** `findMatchingFood`'s `WHERE`: the same name and the same value in every nutrient column
      (a column without a value never matches). */
  predicate Matches(scales: map<string, nat>, food: FoodService.Food, input: FoodService.FoodInput)
  {
    && "name" in food.fields && "name" in input.fields && food.fields["name"] == input.fields["name"]
    && forall k :: k in scales ==> k in food.fields && k in input.fields && food.fields[k] == input.fields[k]
  }

  /** The position of the first matching food. */
  function FindMatchingFood(scales: map<string, nat>, foods: seq<FoodService.Food>, input: FoodService.FoodInput): (k: nat)
    ensures k <= |foods|
    ensures forall i :: 0 <= i < k ==> !Matches(scales, foods[i], input)
    ensures k < |foods| ==> Matches(scales, foods[k], input)
  {
    if foods == [] then 0
    else if Matches(scales, foods[0], input) then 0
    else 1 + FindMatchingFood(scales, foods[1..], input)
  }

  lemma {:induction false} FindMatchingFirst(scales: map<string, nat>, foods: seq<FoodService.Food>, input: FoodService.FoodInput, k: nat)
    requires k < |foods| && Matches(scales, foods[k], input)
    requires forall i :: 0 <= i < k ==> !Matches(scales, foods[i], input)
    ensures FindMatchingFood(scales, foods, input) == k
    decreases k
  {
    if k > 0 {
      FindMatchingFirst(scales, foods[1..], input, k - 1);
    }
  }

  /** A food the food service saves from an input carries every column of it, so it matches the
      input. */
  lemma CreatedFoodMatches(scales: map<string, nat>, s: FoodService.Store, input: FoodService.FoodInput, indexFails: bool)
    requires "name" in input.fields && scales.Keys <= input.fields.Keys
    ensures Matches(scales, FoodService.CreateFood(s, input, indexFails).0, input)
  {
  }

  // ---------------------------------------------------------------------------------------------
  // Importing

  datatype Reason = MissingBarcode | MissingFoodName

  datatype ItemError = ItemError(barcode: string, reason: Reason)

  datatype Summary = Summary(createdFoods: nat, matchedFoods: nat, barcodesCreated: nat, barcodesUpdated: nat,
                             errors: seq<ItemError>)

  /** One `(barcode, food)` pair of an import. */
  datatype Item = Item(barcode: Option<string>, food: FoodDto)

  /** The item carries a barcode and a food name after normalizing. */
  predicate Usable(scales: map<string, nat>, item: Item)
  {
    NormalizeBarcode(item.barcode) != [] && FoodName(NormalizeFoodDto(scales, item.food)).Some?
  }

  /** The error an unusable item is reported with: a blank barcode as it was sent, or the
      trimmed barcode of a nameless food. */
  function ErrorFor(item: Item): (e: ItemError)
    ensures NormalizeBarcode(item.barcode) == [] <==> e.reason == MissingBarcode
    ensures e.reason == MissingFoodName ==> e.barcode == NormalizeBarcode(item.barcode)
  {
    var barcode := NormalizeBarcode(item.barcode);
    if barcode == [] then ItemError(item.barcode.GetOr(""), MissingBarcode) else ItemError(barcode, MissingFoodName)
  }

  /** The food a usable item stands for: the first matching food, or (`matched` false) the one
      the food service saves from it. */
  function Resolve(scales: map<string, nat>, s: FoodService.Store, input: FoodService.FoodInput)
    : (r: (FoodService.Food, FoodService.Store, bool))
    ensures var k := FindMatchingFood(scales, s.foods, input);
      r.2 <==> k < |s.foods|
    ensures r.2 ==> r.1 == s && Matches(scales, r.0, input)
    ensures !r.2 ==> (r.0, r.1) == FoodService.CreateFood(s, input, false)
    ensures r.0 in r.1.foods
  {
    var k := FindMatchingFood(scales, s.foods, input);
    if k < |s.foods| then (s.foods[k], s, true)
    else
      var (food, s1) := FoodService.CreateFood(s, input, false);
      (food, s1, false)
  }

  /** Pointing a barcode at a food: a new row is counted as created, a row that named another
      food as updated, and a row already naming it changes nothing. */
  function Point(mappings: map<string, nat>, summary: Summary, barcode: string, id: nat)
    : (r: (map<string, nat>, Summary))
    ensures r.0 == mappings[barcode := id]
    ensures r.1.createdFoods == summary.createdFoods && r.1.matchedFoods == summary.matchedFoods
    ensures r.1.errors == summary.errors
    ensures barcode !in mappings ==>
      r.1 == summary.(barcodesCreated := summary.barcodesCreated + 1) && |r.0.Keys| == |mappings.Keys| + 1
    ensures barcode in mappings ==> r.0.Keys == mappings.Keys
    ensures barcode in mappings && mappings[barcode] != id ==>
      r.1 == summary.(barcodesUpdated := summary.barcodesUpdated + 1)
    ensures barcode in mappings && mappings[barcode] == id ==> r.1 == summary && r.0 == mappings
  {
    if barcode in mappings then
      if mappings[barcode] != id then
        (mappings[barcode := id], summary.(barcodesUpdated := summary.barcodesUpdated + 1))
      else
        assert mappings[barcode := id] == mappings;
        (mappings, summary)
    else
      assert (mappings[barcode := id]).Keys == mappings.Keys + {barcode};
      (mappings[barcode := id], summary.(barcodesCreated := summary.barcodesCreated + 1))
  }

  /** The import counters move by exactly one item: one error, match or creation, and at most
      one barcode row created or moved, only for an item that resolved to a food. */
  predicate Advances(before: Summary, after: Summary)
  {
    && after.matchedFoods + after.createdFoods + |after.errors| == before.matchedFoods + before.createdFoods + |before.errors| + 1
    && after.barcodesCreated + after.barcodesUpdated <= before.barcodesCreated + before.barcodesUpdated + 1
    && (after.barcodesCreated + after.barcodesUpdated > before.barcodesCreated + before.barcodesUpdated ==>
          after.matchedFoods + after.createdFoods > before.matchedFoods + before.createdFoods)
  }

  /** The loop body on an item's trimmed barcode and normalized food. */
  function Step(scales: map<string, nat>, s: FoodService.Store, mappings: map<string, nat>, summary: Summary,
                barcode: string, input: FoodService.FoodInput, error: ItemError)
    : (r: (FoodService.Store, map<string, nat>, Summary))
    ensures Advances(summary, r.2)
    ensures mappings.Keys <= r.1.Keys
    ensures r.2.barcodesCreated == summary.barcodesCreated + |r.1.Keys| - |mappings.Keys|
    ensures barcode == [] || FoodName(input).None? ==>
      r.0 == s && r.1 == mappings && r.2 == summary.(errors := summary.errors + [error])
    ensures barcode != [] && FoodName(input).Some? ==>
      var (food, s1, matched) := Resolve(scales, s, input);
      && r.0 == s1 && r.1 == mappings[barcode := food.id]
      && r.2.errors == summary.errors
      && r.2.matchedFoods == summary.matchedFoods + (if matched then 1 else 0)
      && r.2.createdFoods == summary.createdFoods + (if matched then 0 else 1)
  {
    if barcode == [] || FoodName(input).None? then
      (s, mappings, summary.(errors := summary.errors + [error]))
    else
      Apply(scales, s, mappings, summary, barcode, input)
  }

  /** The loop body past its two checks: resolve the food, count it, point the barcode at it. */
  function Apply(scales: map<string, nat>, s: FoodService.Store, mappings: map<string, nat>, summary: Summary,
                 barcode: string, input: FoodService.FoodInput)
    : (r: (FoodService.Store, map<string, nat>, Summary))
    ensures Advances(summary, r.2)
    ensures mappings.Keys <= r.1.Keys
    ensures r.2.barcodesCreated == summary.barcodesCreated + |r.1.Keys| - |mappings.Keys|
    ensures var (food, s1, matched) := Resolve(scales, s, input);
      && r.0 == s1 && r.1 == mappings[barcode := food.id]
      && r.2.errors == summary.errors
      && r.2.matchedFoods == summary.matchedFoods + (if matched then 1 else 0)
      && r.2.createdFoods == summary.createdFoods + (if matched then 0 else 1)
  {
    var (food, s1, matched) := Resolve(scales, s, input);
    var sum1 := if matched then summary.(matchedFoods := summary.matchedFoods + 1)
                else summary.(createdFoods := summary.createdFoods + 1);
    var (m1, sum2) := Point(mappings, sum1, barcode, food.id);
    (s1, m1, sum2)
  }

  /** One pass of the import loop over an item: the error for a blank barcode or a nameless
      food; else the matching food or a new one from the food service, and the barcode pointed at
      it (created, moved, or left as it was). */
  function ProcessItem(scales: map<string, nat>, s: FoodService.Store, mappings: map<string, nat>, summary: Summary, item: Item)
    : (r: (FoodService.Store, map<string, nat>, Summary))
    ensures Advances(summary, r.2)
    ensures mappings.Keys <= r.1.Keys
    ensures r.2.barcodesCreated == summary.barcodesCreated + |r.1.Keys| - |mappings.Keys|
    ensures !Usable(scales, item) ==>
      r.0 == s && r.1 == mappings && r.2 == summary.(errors := summary.errors + [ErrorFor(item)])
    ensures Usable(scales, item) ==>
      var (food, s1, matched) := Resolve(scales, s, NormalizeFoodDto(scales, item.food));
      && r.0 == s1 && r.1 == mappings[NormalizeBarcode(item.barcode) := food.id]
      && r.2.errors == summary.errors
      && r.2.matchedFoods == summary.matchedFoods + (if matched then 1 else 0)
      && r.2.createdFoods == summary.createdFoods + (if matched then 0 else 1)
  {
    Step(scales, s, mappings, summary, NormalizeBarcode(item.barcode), NormalizeFoodDto(scales, item.food), ErrorFor(item))
  }

  /** The items without a usable barcode or name. */
  function Rejected(scales: map<string, nat>, items: seq<Item>): (n: nat)
    ensures n <= |items|
  {
    if items == [] then 0 else Rejected(scales, items[..|items| - 1]) + (if Usable(scales, items[|items| - 1]) then 0 else 1)
  }

  /** Every usable item's barcode has a row. */
  predicate Covered(scales: map<string, nat>, items: seq<Item>, mappings: map<string, nat>)
  {
    forall j :: 0 <= j < |items| && Usable(scales, items[j]) ==> NormalizeBarcode(items[j].barcode) in mappings
  }

  /** The import counters and rows after the items `done`, starting from the rows `mappings`:
      every item is an error or a matched or created food; one error per unusable item; at most
      one barcode row created or moved per usable item; rows only ever added, one per barcode
      created; and each usable item's barcode mapped. */
  predicate Tally(scales: map<string, nat>, mappings: map<string, nat>, done: seq<Item>, summary: Summary,
                  mappings': map<string, nat>)
  {
    && summary.matchedFoods + summary.createdFoods + |summary.errors| == |done|
    && |summary.errors| == Rejected(scales, done)
    && summary.barcodesCreated + summary.barcodesUpdated <= summary.matchedFoods + summary.createdFoods
    && mappings.Keys <= mappings'.Keys && summary.barcodesCreated == |mappings'.Keys| - |mappings.Keys|
    && Covered(scales, done, mappings')
  }

  lemma CoveredStep(scales: map<string, nat>, done: seq<Item>, item: Item, m: map<string, nat>, m': map<string, nat>)
    requires Covered(scales, done, m) && m.Keys <= m'.Keys
    requires Usable(scales, item) ==> NormalizeBarcode(item.barcode) in m'
    ensures Covered(scales, done + [item], m')
  {
    forall j | 0 <= j < |done + [item]| && Usable(scales, (done + [item])[j])
      ensures NormalizeBarcode((done + [item])[j].barcode) in m'
    {
      if j < |done| {
        assert (done + [item])[j] == done[j];
      }
    }
  }

  /** What the loop needs of one pass: an error exactly for an unusable item, and a usable
      item's barcode mapped afterwards. */
  lemma ProcessItemTracks(scales: map<string, nat>, s: FoodService.Store, m: map<string, nat>, summary: Summary, item: Item)
    ensures var r := ProcessItem(scales, s, m, summary, item);
      && |r.2.errors| == |summary.errors| + (if Usable(scales, item) then 0 else 1)
      && (Usable(scales, item) ==> NormalizeBarcode(item.barcode) in r.1)
  {
  }

  /** One pass of the loop keeps the invariant. */
  lemma TallyStep(scales: map<string, nat>, mappings: map<string, nat>, done: seq<Item>, s: FoodService.Store,
                  m: map<string, nat>, summary: Summary, item: Item)
    requires Tally(scales, mappings, done, summary, m)
    ensures var r := ProcessItem(scales, s, m, summary, item);
      Tally(scales, mappings, done + [item], r.2, r.1)
  {
    var r := ProcessItem(scales, s, m, summary, item);
    assert (done + [item])[..|done|] == done;
    ProcessItemTracks(scales, s, m, summary, item);
    CoveredStep(scales, done, item, m, r.1);
  }

  /** `upsertBarcodeMappings`: the counters and rows `Tally` describes, item by item. Index
      failures are not modelled here (the food service swallows them). */
  method UpsertBarcodeMappings(scales: map<string, nat>, s: FoodService.Store, mappings: map<string, nat>, items: seq<Item>)
    returns (summary: Summary, s': FoodService.Store, mappings': map<string, nat>)
    ensures Tally(scales, mappings, items, summary, mappings')
  {
    summary, s', mappings' := Summary(0, 0, 0, 0, []), s, mappings;
    var i := 0;
    while i < |items|
      invariant i <= |items|
      invariant Tally(scales, mappings, items[..i], summary, mappings')
    {
      TallyStep(scales, mappings, items[..i], s', mappings', summary, items[i]);
      assert items[..i + 1] == items[..i] + [items[i]];
      var (s1, m1, sum1) := ProcessItem(scales, s', mappings', summary, items[i]);
      summary, s', mappings' := sum1, s1, m1;
      i := i + 1;
    }
    assert items[..i] == items;
  }

  // ---------------------------------------------------------------------------------------------
  // Looking up

  /** The first food with this id. */
  function FoodById(foods: seq<FoodService.Food>, id: nat): (r: Option<FoodService.Food>)
    ensures r.Some? ==> r.value in foods && r.value.id == id
    ensures r.None? ==> forall k :: 0 <= k < |foods| ==> foods[k].id != id
  {
    if foods == [] then None
    else if foods[0].id == id then Some(foods[0])
    else
      var rest := FoodById(foods[1..], id);
      assert forall k :: 1 <= k < |foods| ==> foods[k] == foods[1..][k - 1];
      if rest.Some? then
        assert rest.value in foods;
        rest
      else rest
  }

  /** `getFoodByBarcode`: nothing for a blank barcode; otherwise the food the trimmed barcode is
      mapped to, if any. */
  function GetFoodByBarcode(foods: seq<FoodService.Food>, mappings: map<string, nat>, barcode: string)
    : (r: Option<FoodService.Food>)
    ensures NormalizeBarcode(Some(barcode)) == [] ==> r.None?
    ensures r.Some? ==> r.value in foods && NormalizeBarcode(Some(barcode)) in mappings
                        && r.value.id == mappings[NormalizeBarcode(Some(barcode))]
  {
    var normalized := NormalizeBarcode(Some(barcode));
    if normalized == [] then None
    else if normalized !in mappings then None
    else FoodById(foods, mappings[normalized])
  }

  /** After importing an item, its barcode, padded or not, leads to a food with the id of the
      food it was matched with or created as. */
  lemma ImportThenLookup(scales: map<string, nat>, s: FoodService.Store, mappings: map<string, nat>, summary: Summary, item: Item,
                         pad1: string, pad2: string)
    requires Usable(scales, item) && Text.AllSpace(pad1) && Text.AllSpace(pad2)
    ensures var (s', m', _) := ProcessItem(scales, s, mappings, summary, item);
      var (food, _, _) := Resolve(scales, s, NormalizeFoodDto(scales, item.food));
      var r := GetFoodByBarcode(s'.foods, m', pad1 + NormalizeBarcode(item.barcode) + pad2);
      r.Some? && r.value.id == food.id
  {
    var barcode := NormalizeBarcode(item.barcode);
    BarcodePaddingIgnored(pad1, barcode, pad2);
    ApplyThenLookup(scales, s, mappings, summary, barcode, NormalizeFoodDto(scales, item.food), pad1, pad2);
  }

  lemma ApplyThenLookup(scales: map<string, nat>, s: FoodService.Store, mappings: map<string, nat>, summary: Summary,
                        barcode: string, input: FoodService.FoodInput, pad1: string, pad2: string)
    requires barcode != [] && NormalizeBarcode(Some(pad1 + barcode + pad2)) == barcode
    ensures var (s', m', _) := Apply(scales, s, mappings, summary, barcode, input);
      var r := GetFoodByBarcode(s'.foods, m', pad1 + barcode + pad2);
      r.Some? && r.value.id == Resolve(scales, s, input).0.id
  {
    var (food, s1, _) := Resolve(scales, s, input);
    LookupAfterPoint(s1.foods, mappings, barcode, food, pad1, pad2);
  }

  /** A barcode pointed at a food of the table leads, padded or not, to a food with its id. */
  lemma LookupAfterPoint(foods: seq<FoodService.Food>, mappings: map<string, nat>, barcode: string, food: FoodService.Food,
                         pad1: string, pad2: string)
    requires food in foods && barcode != [] && NormalizeBarcode(Some(pad1 + barcode + pad2)) == barcode
    ensures var r := GetFoodByBarcode(foods, mappings[barcode := food.id], pad1 + barcode + pad2);
      r.Some? && r.value.id == food.id
  {
  }

  /** A usable item resolves, the second time, to the food it resolved to the first time, and
      leaves the table alone. */
  lemma ResolveTwice(scales: map<string, nat>, s: FoodService.Store, input: FoodService.FoodInput)
    requires "name" in input.fields && scales.Keys <= input.fields.Keys
    ensures var (food, s1, _) := Resolve(scales, s, input);
      Resolve(scales, s1, input) == (food, s1, true)
  {
    var (food, s1, matched) := Resolve(scales, s, input);
    if !matched {
      CreatedFoodMatches(scales, s, input, false);
      var p := if input.sourceId.Some? && FoodService.FindBySourceId(s.foods, input.sourceId.value) < |s.foods|
               then FoodService.FindBySourceId(s.foods, input.sourceId.value) else |s.foods|;
      assert s1.foods[p] == food;
      forall i | 0 <= i < p ensures !Matches(scales, s1.foods[i], input) {
        assert s1.foods[i] == s.foods[i];
      }
      FindMatchingFirst(scales, s1.foods, input, p);
    }
  }

  /** Importing the same item again matches the food the first import left, and leaves the
      foods and barcode rows as they were. */
  lemma ImportTwiceStable(scales: map<string, nat>, s: FoodService.Store, mappings: map<string, nat>, summary: Summary, item: Item)
    requires Usable(scales, item)
    ensures var (s1, m1, sum1) := ProcessItem(scales, s, mappings, summary, item);
      var (s2, m2, sum2) := ProcessItem(scales, s1, m1, sum1, item);
      && s2 == s1 && m2 == m1 && sum2 == sum1.(matchedFoods := sum1.matchedFoods + 1)
  {
    var input := NormalizeFoodDto(scales, item.food);
    ResolveTwice(scales, s, input);
    var (s1, m1, sum1) := ProcessItem(scales, s, mappings, summary, item);
    var (food, _, _) := Resolve(scales, s, input);
    assert Apply(scales, s1, m1, sum1, NormalizeBarcode(item.barcode), input).1 == m1[NormalizeBarcode(item.barcode) := food.id];
  }
}

=== FILE: foodentry_service.dfy ===
/** The diary on the server: a user's entries by time, creating an entry for a food or a recipe
    in one of the four meals, changing and deleting entries, and the per-user meal rows that
    entries point at. Entries are a sequence in table order; foods, measurements and recipes
    are the sets of keys the lookups can find. */
module FoodEntryService {
  import opened Wrappers
  import Text
  import FoodEntryUtils

  datatype Meal = Meal(id: nat, userId: nat, name: string)

  /** A diary entry: its owner, exactly one of a food or a recipe, the measurement chosen for a
      food, the servings, the meal, and when it was logged. */
  datatype Entry = Entry(id: nat, userId: nat, food: Option<nat>, recipe: Option<nat>, measurement: Option<nat>,
                         servings: real, mealId: nat, loggedAt: int)

  /** `measurements` holds `(measurementId, foodId)` pairs; `recipes` holds `(recipeId, ownerId)`. */
  datatype Store = Store(entries: seq<Entry>, meals: seq<Meal>, foods: set<nat>, measurements: set<(nat, nat)>,
                         recipes: set<(nat, nat)>, nextEntryId: nat, nextMealId: nat)

  datatype Error = BadRequest | NotFound

  // ---------------------------------------------------------------------------------------------
  // Reading the diary

  /** The user's entries among `rows`, in row order. */
  function OfUser(rows: seq<Entry>, userId: nat): (r: seq<Entry>)
    ensures |r| <= |rows|
    decreases |rows|
  {
    if rows == [] then []
    else (if rows[0].userId == userId then [rows[0]] else []) + OfUser(rows[1..], userId)
  }

  /** The entries logged in `[start, end)`, in row order. */
  function InRange(rows: seq<Entry>, start: int, end: int): (r: seq<Entry>)
    ensures |r| <= |rows|
    decreases |rows|
  {
    if rows == [] then []
    else (if start <= rows[0].loggedAt < end then [rows[0]] else []) + InRange(rows[1..], start, end)
  }

  /** Logging times never grow along the rows. */
  predicate LatestFirst(rows: seq<Entry>)
  {
    forall i, j :: 0 <= i < j < |rows| ==> rows[i].loggedAt >= rows[j].loggedAt
  }

  lemma {:induction false} OfUserMembers(rows: seq<Entry>, userId: nat, e: Entry)
    ensures e in OfUser(rows, userId) <==> e in rows && e.userId == userId
    decreases |rows|
  {
    if rows != [] {
      OfUserMembers(rows[1..], userId, e);
      assert rows == [rows[0]] + rows[1..];
    }
  }

  lemma {:induction false} InRangeMembers(rows: seq<Entry>, start: int, end: int, e: Entry)
    ensures e in InRange(rows, start, end) <==> e in rows && start <= e.loggedAt < end
    decreases |rows|
  {
    if rows != [] {
      InRangeMembers(rows[1..], start, end, e);
      assert rows == [rows[0]] + rows[1..];
    }
  }

  /** Keeping some rows keeps them latest first. */
  lemma {:induction false} OfUserLatestFirst(rows: seq<Entry>, userId: nat)
    requires LatestFirst(rows)
    ensures LatestFirst(OfUser(rows, userId))
    decreases |rows|
  {
    if rows != [] {
      var tail := rows[1..];
      assert LatestFirst(tail) by {
        forall i, j | 0 <= i < j < |tail| ensures tail[i].loggedAt >= tail[j].loggedAt {
          assert tail[i] == rows[i + 1] && tail[j] == rows[j + 1];
        }
      }
      OfUserLatestFirst(tail, userId);
      var rest := OfUser(tail, userId);
      var r := OfUser(rows, userId);
      if rows[0].userId == userId {
        assert r == [rows[0]] + rest;
        forall i, j | 0 <= i < j < |r| ensures r[i].loggedAt >= r[j].loggedAt {
          assert r[j] == rest[j - 1];
          if i == 0 {
            OfUserMembers(tail, userId, rest[j - 1]);
            var k :| 0 <= k < |tail| && tail[k] == rest[j - 1];
            assert rows[k + 1] == tail[k];
          } else {
            assert r[i] == rest[i - 1];
          }
        }
      } else {
        assert r == [] + rest;
      }
    }
  }

  /** `getHistory`: the user's entries, latest first (the rows come in that order), at most
      `limit` of them when a non-zero limit is given. */
  function GetHistory(rows: seq<Entry>, userId: nat, limit: Option<nat>): (r: seq<Entry>)
    ensures limit.Some? && limit.value > 0 ==> |r| <= limit.value
    ensures forall k :: 0 <= k < |r| ==> r[k] in rows && r[k].userId == userId
    ensures |r| <= |OfUser(rows, userId)| && r == OfUser(rows, userId)[..|r|]
    ensures (limit.None? || limit.value == 0 || |OfUser(rows, userId)| <= limit.value) ==> r == OfUser(rows, userId)
  {
    var mine := OfUser(rows, userId);
    var r := if limit.Some? && limit.value > 0 && limit.value < |mine| then mine[..limit.value] else mine;
    forall k | 0 <= k < |r| ensures r[k] in rows && r[k].userId == userId {
      assert r[k] in mine;
      OfUserMembers(rows, userId, r[k]);
    }
    r
  }

  /** The history of latest-first rows is latest first. */
  lemma HistoryLatestFirst(rows: seq<Entry>, userId: nat, limit: Option<nat>)
    requires LatestFirst(rows)
    ensures LatestFirst(GetHistory(rows, userId, limit))
  {
    OfUserLatestFirst(rows, userId);
    var mine := OfUser(rows, userId);
    var r := GetHistory(rows, userId, limit);
    assert forall i :: 0 <= i < |r| ==> r[i] == mine[i];
  }

  /** `getDiaryEntries`: the user's entries logged in `[start, end)`. */
  function GetDiaryEntries(rows: seq<Entry>, userId: nat, start: int, end: int): (r: seq<Entry>)
    ensures forall e :: e in r <==> e in rows && e.userId == userId && start <= e.loggedAt < end
  {
    var r := InRange(OfUser(rows, userId), start, end);
    forall e ensures e in r <==> e in rows && e.userId == userId && start <= e.loggedAt < end {
      InRangeMembers(OfUser(rows, userId), start, end, e);
      OfUserMembers(rows, userId, e);
    }
    r
  }

  /** Adjacent windows split a diary: each entry of `[a, c)` is in exactly one of `[a, b)` and
      `[b, c)`. */
  lemma DiaryWindowsSplit(rows: seq<Entry>, userId: nat, a: int, b: int, c: int, e: Entry)
    requires a <= b <= c
    ensures e in GetDiaryEntries(rows, userId, a, c) <==>
      e in GetDiaryEntries(rows, userId, a, b) || e in GetDiaryEntries(rows, userId, b, c)
    ensures !(e in GetDiaryEntries(rows, userId, a, b) && e in GetDiaryEntries(rows, userId, b, c))
  {
  }

  // ---------------------------------------------------------------------------------------------
  // Meals

  /** `getMealName`: the name of a meal type, and breakfast for a type out of range. */
  function GetMealName(mealType: int): (r: string)
    ensures r in FoodEntryUtils.MealOrder
    ensures 0 <= mealType < |FoodEntryUtils.MealOrder| ==> r == FoodEntryUtils.MealOrder[mealType]
    ensures !(0 <= mealType < |FoodEntryUtils.MealOrder|) ==> r == FoodEntryUtils.MealOrder[0]
  {
    if 0 <= mealType < |FoodEntryUtils.MealOrder| then FoodEntryUtils.MealOrder[mealType]
    else FoodEntryUtils.MealOrder[0]
  }

  /** The client reads the stored meal name back as the meal type it sent. */
  lemma MealNameRoundTrip(mealType: int)
    requires 0 <= mealType < |FoodEntryUtils.MealOrder|
    ensures FoodEntryUtils.MealTypeFromName(Some(GetMealName(mealType))) == mealType
  {
    var m := FoodEntryUtils.MealOrder;
    assert m[0] != m[1] && m[0] != m[2] && m[0] != m[3] && m[1] != m[2] && m[1] != m[3] && m[2] != m[3] by {
      assert m[0][0] == 'B' && m[1][0] == 'L' && m[2][0] == 'D' && m[3][0] == 'S';
    }
  }

  /** The position of the user's meal with this name. */
  function FindMeal(meals: seq<Meal>, userId: nat, name: string): (k: nat)
    ensures k <= |meals|
    ensures forall i :: 0 <= i < k ==> !(meals[i].userId == userId && meals[i].name == name)
    ensures k < |meals| ==> meals[k].userId == userId && meals[k].name == name
  {
    if meals == [] then 0
    else if meals[0].userId == userId && meals[0].name == name then 0
    else 1 + FindMeal(meals[1..], userId, name)
  }

  /** At most one meal per user and name. */
  predicate UniqueMeals(meals: seq<Meal>)
  {
    forall i, j :: 0 <= i < j < |meals| ==> !(meals[i].userId == meals[j].userId && meals[i].name == meals[j].name)
  }

  /** `findOrCreateMeal`: the user's meal with the trimmed name, created when missing. The result
      pairs the meal with the new store. */
  function FindOrCreateMeal(s: Store, userId: nat, name: string): (r: (Meal, Store))
    ensures r.0.userId == userId && r.0.name == Text.Strip(name)
    ensures r.0 in r.1.meals
    ensures r.1.entries == s.entries && r.1.foods == s.foods && r.1.measurements == s.measurements
    ensures r.1.recipes == s.recipes && r.1.nextEntryId == s.nextEntryId
    ensures FindMeal(s.meals, userId, Text.Strip(name)) < |s.meals| ==> r.1 == s
    ensures FindMeal(s.meals, userId, Text.Strip(name)) == |s.meals| ==>
      r.0.id == s.nextMealId && r.1.meals == s.meals + [r.0] && r.1.nextMealId == s.nextMealId + 1
  {
    var normalized := Text.Strip(name);
    var k := FindMeal(s.meals, userId, normalized);
    if k < |s.meals| then (s.meals[k], s)
    else
      var meal := Meal(s.nextMealId, userId, normalized);
      (meal, s.(meals := s.meals + [meal], nextMealId := s.nextMealId + 1))
  }

  /** Finding or creating a meal keeps one meal per user and name. */
  lemma FindOrCreateKeepsUnique(s: Store, userId: nat, name: string)
    requires UniqueMeals(s.meals)
    ensures UniqueMeals(FindOrCreateMeal(s, userId, name).1.meals)
  {
  }

  /** Asking for the same meal twice finds the one the first call made. */
  lemma FindOrCreateIdempotent(s: Store, userId: nat, name: string)
    ensures var (m1, s1) := FindOrCreateMeal(s, userId, name);
      FindOrCreateMeal(s1, userId, name) == (m1, s1)
  {
    var normalized := Text.Strip(name);
    var (m1, s1) := FindOrCreateMeal(s, userId, name);
    var k := FindMeal(s.meals, userId, normalized);
    if k == |s.meals| {
      assert s1.meals[|s.meals|] == m1;
      assert forall i :: 0 <= i < |s.meals| ==> s1.meals[i] == s.meals[i];
      FindMealFirst(s1.meals, userId, normalized, |s.meals|);
    }
  }

  lemma {:induction false} FindMealFirst(meals: seq<Meal>, userId: nat, name: string, k: nat)
    requires k < |meals| && meals[k].userId == userId && meals[k].name == name
    requires forall i :: 0 <= i < k ==> !(meals[i].userId == userId && meals[i].name == name)
    ensures FindMeal(meals, userId, name) == k
    decreases k
  {
    if k > 0 {
      FindMealFirst(meals[1..], userId, name, k - 1);
    }
  }

  // ---------------------------------------------------------------------------------------------
  // Creating, changing and deleting entries

  datatype EntryInput = EntryInput(foodId: Option<nat>, recipeId: Option<nat>, measurementId: Option<nat>,
                                   servings: real, mealType: int, loggedAt: int)

  /** The request names exactly one of a food or a recipe, and a measurement only with a food. */
  predicate WellFormed(input: EntryInput)
  {
    input.foodId.Some? != input.recipeId.Some? && (input.measurementId.Some? ==> input.foodId.Some?)
  }

  /** Everything the request refers to exists: the food and its measurement, or the user's own
      recipe. */
  predicate Resolves(s: Store, input: EntryInput, userId: nat)
  {
    && (input.foodId.Some? ==> input.foodId.value in s.foods)
    && (input.foodId.Some? && input.measurementId.Some? ==> (input.measurementId.value, input.foodId.value) in s.measurements)
    && (input.recipeId.Some? ==> (input.recipeId.value, userId) in s.recipes)
  }

  /** `create`: the request is checked for shape first; then the meal is found or created, and
      only then are the food, measurement and recipe looked up, so a lookup that fails leaves the
      new meal behind. The result pairs the entry with the new store. */
  function Create(s: Store, input: EntryInput, userId: nat): (r: (Result<Entry, Error>, Store))
    ensures r.0 == Failure(BadRequest) <==> !WellFormed(input)
    ensures r.0 == Failure(NotFound) <==> WellFormed(input) && !Resolves(s, input, userId)
    ensures !WellFormed(input) ==> r.1 == s
    ensures WellFormed(input) ==> r.1.meals == FindOrCreateMeal(s, userId, GetMealName(input.mealType)).1.meals
    ensures r.0.Failure? ==> r.1.entries == s.entries
    ensures r.0.Success? ==>
      var e := r.0.value;
      && e.userId == userId && e.food == input.foodId && e.recipe == input.recipeId
      && e.measurement == input.measurementId && e.servings == input.servings && e.loggedAt == input.loggedAt
      && e.id == s.nextEntryId && r.1.entries == s.entries + [e]
      && exists m :: m in r.1.meals && m.id == e.mealId && m.userId == userId && m.name == GetMealName(input.mealType)
  {
    if !WellFormed(input) then (Failure(BadRequest), s)
    else
      var (meal, s1) := FindOrCreateMeal(s, userId, GetMealName(input.mealType));
      StripMealName(input.mealType);
      if !Resolves(s, input, userId) then (Failure(NotFound), s1)
      else
        var e := Entry(s1.nextEntryId, userId, input.foodId, input.recipeId, input.measurementId,
                       input.servings, meal.id, input.loggedAt);
        (Success(e), s1.(entries := s1.entries + [e], nextEntryId := s1.nextEntryId + 1))
  }

  /** Meal names carry no surrounding whitespace. */
  lemma StripMealName(mealType: int)
    ensures Text.Strip(GetMealName(mealType)) == GetMealName(mealType)
  {
    var n := GetMealName(mealType);
    assert !Text.IsSpace(n[0]) && !Text.IsSpace(n[|n| - 1]);
    Text.StripOfStripped(n);
  }

  /** A created entry is in the user's diary for any window around its time. */
  lemma CreateThenInDiary(s: Store, input: EntryInput, userId: nat, start: int, end: int)
    requires Create(s, input, userId).0.Success?
    requires start <= input.loggedAt < end
    ensures var (r, s') := Create(s, input, userId);
      r.value in GetDiaryEntries(s'.entries, userId, start, end)
  {
    var (r, s') := Create(s, input, userId);
    assert s'.entries[|s.entries|] == r.value;
  }

  /** The position of the user's entry with this id. */
  function FindEntry(entries: seq<Entry>, entryId: nat, userId: nat): (k: nat)
    ensures k <= |entries|
    ensures forall i :: 0 <= i < k ==> !(entries[i].id == entryId && entries[i].userId == userId)
    ensures k < |entries| ==> entries[k].id == entryId && entries[k].userId == userId
  {
    if entries == [] then 0
    else if entries[0].id == entryId && entries[0].userId == userId then 0
    else 1 + FindEntry(entries[1..], entryId, userId)
  }

  datatype EntryPatch = EntryPatch(mealType: Option<int>, measurementId: Option<nat>, servings: Option<real>)

  /** `update`: only the owner's entry; a new meal type finds or creates that meal first; a new
      measurement needs a food entry and a measurement of that food; then the servings. The
      result pairs the entry with the new store. */
  function Update(s: Store, entryId: nat, patch: EntryPatch, userId: nat): (r: (Result<Entry, Error>, Store))
    ensures var k := FindEntry(s.entries, entryId, userId);
      k == |s.entries| ==> r == (Failure(NotFound), s)
    ensures var k := FindEntry(s.entries, entryId, userId);
      k < |s.entries| && patch.measurementId.Some? && s.entries[k].food.None? ==> r.0 == Failure(BadRequest)
    ensures var k := FindEntry(s.entries, entryId, userId);
      k < |s.entries| && patch.measurementId.Some? && s.entries[k].food.Some?
      && (patch.measurementId.value, s.entries[k].food.value) !in s.measurements
      ==> r.0 == Failure(NotFound)
    ensures var k := FindEntry(s.entries, entryId, userId);
      r.0.Success? <==> k < |s.entries| && (patch.measurementId.Some? ==>
        s.entries[k].food.Some? && (patch.measurementId.value, s.entries[k].food.value) in s.measurements)
    ensures r.0.Failure? ==> r.1.entries == s.entries
    ensures r.0.Success? ==>
      var k := FindEntry(s.entries, entryId, userId);
      var old_ := s.entries[k];
      var e := r.0.value;
      && k < |s.entries|
      && e.id == old_.id && e.userId == old_.userId && e.food == old_.food && e.recipe == old_.recipe
      && e.loggedAt == old_.loggedAt
      && e.servings == patch.servings.GetOr(old_.servings)
      && e.measurement == (if patch.measurementId.Some? then patch.measurementId else old_.measurement)
      && (patch.mealType.None? ==> e.mealId == old_.mealId && r.1.meals == s.meals)
      && r.1.entries == s.entries[k := e]
  {
    var k := FindEntry(s.entries, entryId, userId);
    if k == |s.entries| then (Failure(NotFound), s)
    else
      var old_ := s.entries[k];
      var (mealId, s1) :=
        if patch.mealType.Some? then
          var (meal, s1) := FindOrCreateMeal(s, userId, GetMealName(patch.mealType.value));
          (meal.id, s1)
        else (old_.mealId, s);
      if patch.measurementId.Some? && old_.food.None? then (Failure(BadRequest), s1)
      else if patch.measurementId.Some? && (patch.measurementId.value, old_.food.value) !in s.measurements then
        (Failure(NotFound), s1)
      else
        var e := old_.(mealId := mealId,
                       measurement := if patch.measurementId.Some? then patch.measurementId else old_.measurement,
                       servings := patch.servings.GetOr(old_.servings));
        (Success(e), s1.(entries := s1.entries[k := e]))
  }

  /** An empty patch saves the entry as it was. */
  lemma EmptyPatchKeepsEntry(s: Store, entryId: nat, userId: nat)
    requires FindEntry(s.entries, entryId, userId) < |s.entries|
    ensures Update(s, entryId, EntryPatch(None, None, None), userId) ==
      (Success(s.entries[FindEntry(s.entries, entryId, userId)]), s)
  {
    var k := FindEntry(s.entries, entryId, userId);
    assert s.entries[k := s.entries[k]] == s.entries;
  }

  /** `delete`: only the owner's entry, which is removed. */
  function Delete(s: Store, entryId: nat, userId: nat): (r: (Result<bool, Error>, Store))
    ensures var k := FindEntry(s.entries, entryId, userId);
      (r.0.Success? <==> k < |s.entries|) && (r.0.Failure? ==> r == (Failure(NotFound), s))
    ensures r.0.Success? ==>
      var k := FindEntry(s.entries, entryId, userId);
      && r.0.value && r.1 == s.(entries := s.entries[..k] + s.entries[k + 1..])
      && |r.1.entries| == |s.entries| - 1
  {
    var k := FindEntry(s.entries, entryId, userId);
    if k == |s.entries| then (Failure(NotFound), s)
    else (Success(true), s.(entries := s.entries[..k] + s.entries[k + 1..]))
  }

  /** Entries have distinct ids. */
  predicate DistinctIds(entries: seq<Entry>)
  {
    forall i, j :: 0 <= i < j < |entries| ==> entries[i].id != entries[j].id
  }

  /** Once deleted, an entry is gone: a second delete is not found. */
  lemma DeleteThenNotFound(s: Store, entryId: nat, userId: nat)
    requires DistinctIds(s.entries)
    requires Delete(s, entryId, userId).0.Success?
    ensures var s' := Delete(s, entryId, userId).1;
      Delete(s', entryId, userId).0 == Failure(NotFound)
  {
    var k := FindEntry(s.entries, entryId, userId);
    var s' := Delete(s, entryId, userId).1;
    var es := s'.entries;
    forall i | 0 <= i < |es| ensures !(es[i].id == entryId && es[i].userId == userId) {
      if i < k {
        assert es[i] == s.entries[i];
      } else {
        assert es[i] == s.entries[i + 1];
      }
    }
  }
}

=== FILE: foodentry_utils.dfy ===
/** The client's diary arithmetic: meal names, entry titles, calories of a food or recipe entry,
    and the nutrient totals of one entry and of a list of entries. */
module FoodEntryUtils {
  import opened Wrappers
  import opened JsNum
  import opened RecipeUtils

  /** The meal names in diary order; a meal type is an index into this list. */
  const MealOrder: seq<string> := ["Breakfast", "Lunch", "Dinner", "Snack"]

  /** A recipe as the client receives it. `calories` is the stored total when it reads as a finite
      number; `ingredients` is `None` when the payload carries no array; `servings` is the
      recipe's serving count read as a number (`NaN` for a missing one). */
  datatype Recipe = Recipe(title: string, calories: Option<real>, ingredients: Option<seq<Ingredient>>, servings: Num)

  /** A diary entry: a food (with an optional chosen measurement) or a recipe, and a serving count. */
  datatype Entry = Entry(food: Option<Food>, recipe: Option<Recipe>, measurement: Option<Measurement>, servings: Num)

  /** The first position of `x` in `xs`, or `|xs|`. */
  function Position(xs: seq<string>, x: string): (k: nat)
    ensures k <= |xs|
    ensures k < |xs| ==> xs[k] == x
    ensures k == |xs| ==> x !in xs
  {
    if xs == [] then 0 else if xs[0] == x then 0 else 1 + Position(xs[1..], x)
  }

  /** `getMealTypeFromName`: the position of a known meal name, and 0 for anything else. */
  function MealTypeFromName(name: Option<string>): (r: nat)
    ensures r < |MealOrder|
    ensures name.Some? && name.value in MealOrder ==> MealOrder[r] == name.value
    ensures name.None? || name.value !in MealOrder ==> r == 0
  {
    match name
    case None => 0
    case Some(n) =>
      if n == [] then 0
      else
        var k := Position(MealOrder, n);
        if k < |MealOrder| then k else 0
  }

  /** `getEntryTitle`: the food's name, else the recipe's title, else "Unknown item". */
  function EntryTitle(e: Entry): (r: string)
    ensures e.food.Some? ==> r == e.food.value.name
    ensures e.food.None? && e.recipe.Some? ==> r == e.recipe.value.title
    ensures e.food.None? && e.recipe.None? ==> r == "Unknown item"
  {
    match e.food
    case Some(f) => f.name
    case None =>
      match e.recipe
      case Some(rc) => rc.title
      case None => "Unknown item"
  }

  // ---------------------------------------------------------------------------------------------
  // Calories

  predicate AllHaveFood(ings: seq<Ingredient>)
  {
    forall j :: 0 <= j < |ings| ==> HasFood(ings[j])
  }

  /** The calories of one ingredient with a food, in its own or its food's default measurement. */
  function IngredientCalories(i: Ingredient): Num
    requires HasFood(i)
  {
    CaloriesFor(i.food.value, IngredientMeasurement(i.food.value, i.measurementId), i.servings)
  }

  /** The `reduce` of `getRecipeTotalCalories`: the ingredient calories summed from the left. */
  function SumCalories(ings: seq<Ingredient>): Num
    requires AllHaveFood(ings)
  {
    if ings == [] then Finite(0 as real)
    else Add(SumCalories(ings[..|ings| - 1]), IngredientCalories(ings[|ings| - 1]))
  }

  /** The sum is a finite number exactly when every ingredient's serving count is. */
  lemma {:induction false} SumCaloriesFinite(ings: seq<Ingredient>)
    requires AllHaveFood(ings)
    ensures SumCalories(ings).Finite? <==> forall j :: 0 <= j < |ings| ==> ings[j].servings.Finite?
    decreases |ings|
  {
    if ings != [] {
      var init := ings[..|ings| - 1];
      SumCaloriesFinite(init);
      assert forall j :: 0 <= j < |init| ==> init[j] == ings[j];
    }
  }

  /** `getRecipeTotalCalories`: the stored total when there is one; otherwise the ingredient sum,
      unless the ingredients are not a list or one of them has lost its food. */
  function RecipeTotalCalories(recipe: Option<Recipe>): (r: Option<Num>)
    ensures recipe.None? ==> r.None?
    ensures recipe.Some? && recipe.value.calories.Some? ==> r == Some(Finite(recipe.value.calories.value))
    ensures recipe.Some? && recipe.value.calories.None? ==>
      (r.Some? <==> recipe.value.ingredients.Some? && AllHaveFood(recipe.value.ingredients.value))
  {
    match recipe
    case None => None
    case Some(rc) =>
      match rc.calories
      case Some(c) => Some(Finite(c))
      case None =>
        match rc.ingredients
        case None => None
        case Some(ings) =>
          if exists j :: 0 <= j < |ings| && !HasFood(ings[j]) then None
          else Some(SumCalories(ings))
  }

  /** `getRecipeCaloriesPerServing`: the total divided by the serving count, or null when there is
      no total or the serving count is 0, missing or `NaN`. */
  function RecipeCaloriesPerServing(recipe: Option<Recipe>): (r: Option<Num>)
    ensures r.Some? <==> RecipeTotalCalories(recipe).Some? && recipe.value.servings.Truthy()
    ensures r.Some? ==> (r.value.Finite? <==> RecipeTotalCalories(recipe).value.Finite?)
    ensures r.Some? && r.value.Finite? ==>
      r.value.value * recipe.value.servings.value == RecipeTotalCalories(recipe).value.value
  {
    match RecipeTotalCalories(recipe)
    case None => None
    case Some(total) =>
      var s := recipe.value.servings;
      if !s.Truthy() then None
      else if total.Finite? then Some(Finite(total.value / s.value))
      else Some(NonFinite)
  }

  /** The measurement an entry of a food is weighed in: the chosen one, else the default. */
  function EntryMeasurement(e: Entry, food: Food): Option<Measurement>
  {
    match e.measurement
    case Some(m) => Some(m)
    case None => DefaultMeasurement(food)
  }

  /** `getEntryCalories`: a food entry's calories for its measurement and servings; a recipe
      entry's per-serving calories times its servings; null otherwise. */
  function EntryCalories(e: Entry): (r: Option<Num>)
    ensures e.food.Some? ==> r == Some(CaloriesFor(e.food.value, EntryMeasurement(e, e.food.value), e.servings))
    ensures e.food.None? && e.recipe.None? ==> r.None?
    ensures e.food.None? && e.recipe.Some? ==> (r.Some? <==> RecipeCaloriesPerServing(e.recipe).Some?)
  {
    match e.food
    case Some(f) => Some(CaloriesFor(f, EntryMeasurement(e, f), e.servings))
    case None =>
      match e.recipe
      case None => None
      case Some(_) =>
        match RecipeCaloriesPerServing(e.recipe)
        case None => None
        case Some(per) => Some(Mul(per, e.servings))
  }

  /** A recipe entry eats its servings' share of the recipe: its calories times the recipe's
      serving count are the recipe's total times the entry's serving count. */
  lemma EntryCaloriesShare(e: Entry)
    requires e.food.None? && e.recipe.Some? && EntryCalories(e).Some?
    requires EntryCalories(e).value.Finite?
    ensures EntryCalories(e).value.value * e.recipe.value.servings.value
      == RecipeTotalCalories(e.recipe).value.value * e.servings.value
  {
    var per := RecipeCaloriesPerServing(e.recipe).value;
    var s := e.recipe.value.servings.value;
    assert per.value * s == RecipeTotalCalories(e.recipe).value.value;
    assert (per.value * e.servings.value) * s == (per.value * s) * e.servings.value;
  }

  // ---------------------------------------------------------------------------------------------
  // Nutrient totals

  /** `getEntryNutritionTotals` over `fields`: null for a non-positive or non-finite serving count
      (the entry's, or for a recipe also the recipe's) and for a recipe without an ingredient list;
      a food's totals for its grams; a recipe's ingredient totals scaled by entry servings over
      recipe servings. Summing a recipe throws when an ingredient has lost its food. */
  function EntryTotalsOver(fields: seq<Field>, e: Entry): (r: Result<Option<Totals>, Error>)
    ensures e.food.None? && e.recipe.None? ==> r == Success(None)
    ensures e.food.Some? ==> r.Success? && (r.value.Some? <==> e.servings.Positive())
    ensures e.food.None? && e.recipe.Some? && r.Success? && r.value.Some? ==>
      e.recipe.value.ingredients.Some? && e.recipe.value.servings.Positive() && e.servings.Positive()
  {
    match e.food
    case Some(food) =>
      var m := EntryMeasurement(e, food);
      if !e.servings.Positive() then Success(None)
      else Success(Some(FoodTotals(food, Grams(m) * e.servings.value, fields)))
    case None =>
      match e.recipe
      case None => Success(None)
      case Some(rc) =>
        match rc.ingredients
        case None => Success(None)
        case Some(ings) =>
          if !rc.servings.Positive() || !e.servings.Positive() then Success(None)
          else
            match IngredientTotalsFrom(fields, map[], ings)
            case Failure(err) => Failure(err)
            case Success(t) => Success(Some(ScaleTotals(fields, t, e.servings.value / rc.servings.value)))
  }

  function EntryNutritionTotals(e: Entry): Result<Option<Totals>, Error>
  {
    EntryTotalsOver(NutritionFields, e)
  }

  /** `getEntriesNutritionTotals` over `fields`, from an accumulated total. */
  function EntriesTotalsFrom(fields: seq<Field>, acc: Totals, entries: seq<Entry>): Result<Totals, Error>
    decreases |entries|
  {
    if entries == [] then Success(acc)
    else
      match EntryTotalsOver(fields, entries[0])
      case Failure(err) => Failure(err)
      case Success(None) => EntriesTotalsFrom(fields, acc, entries[1..])
      case Success(Some(t)) => EntriesTotalsFrom(fields, AddTotals(fields, acc, t), entries[1..])
  }

  function EntriesNutritionTotals(entries: seq<Entry>): Result<Totals, Error>
  {
    EntriesTotalsFrom(NutritionFields, map[], entries)
  }

  /** Appending an entry skips it when its totals are null and otherwise adds them in. */
  lemma {:induction false} EntriesTotalsSnoc(fields: seq<Field>, acc: Totals, entries: seq<Entry>, e: Entry)
    requires EntriesTotalsFrom(fields, acc, entries).Success?
    ensures EntriesTotalsFrom(fields, acc, entries + [e]) ==
      match EntryTotalsOver(fields, e)
      case Failure(err) => Failure(err)
      case Success(None) => EntriesTotalsFrom(fields, acc, entries)
      case Success(Some(t)) => Success(AddTotals(fields, EntriesTotalsFrom(fields, acc, entries).value, t))
    decreases |entries|
  {
    if entries == [] {
      assert [] + [e] == [e];
    } else {
      assert (entries + [e])[1..] == entries[1..] + [e];
      assert (entries + [e])[0] == entries[0];
      var acc' := match EntryTotalsOver(fields, entries[0])
        case Success(Some(t)) => AddTotals(fields, acc, t)
        case _ => acc;
      assert EntriesTotalsFrom(fields, acc, entries) == EntriesTotalsFrom(fields, acc', entries[1..]);
      EntriesTotalsSnoc(fields, acc', entries[1..], e);
    }
  }

  /** Eating exactly the recipe's serving count gives the recipe's ingredient totals unscaled. */
  lemma EntryWholeRecipe(fields: seq<Field>, e: Entry)
    requires e.food.None? && e.recipe.Some? && e.recipe.value.ingredients.Some?
    requires e.recipe.value.servings.Positive() && e.servings == e.recipe.value.servings
    requires IngredientTotalsFrom(fields, map[], e.recipe.value.ingredients.value).Success?
    ensures EntryTotalsOver(fields, e)
      == Success(Some(IngredientTotalsFrom(fields, map[], e.recipe.value.ingredients.value).value))
  {
    var t := IngredientTotalsFrom(fields, map[], e.recipe.value.ingredients.value).value;
    IngredientTotalsWithin(fields, map[], e.recipe.value.ingredients.value);
    ScaleByOne(fields, t);
    var s := e.servings.value;
    assert s / s == 1 as real;
  }
}

=== FILE: friends.dfy ===
/** Friendships between users: searching for people to add, the request / accept / reject life
    cycle, the friend list, and the gate that only accepted friends pass to see a friend's
    profile, diary and recipes. The friendship table is a sequence in insertion order; the user
    table is a sequence in the `lastName, firstName` order the search sorts by. */
module Friends {
  import opened Wrappers
  import Text
  import Paging
  import RecipeService

  datatype Status = Pending | Accepted | Rejected

  datatype Friendship = Friendship(id: nat, requester: nat, addressee: nat, status: Status)

  datatype User = User(id: nat, firstName: string, lastName: string, email: string, isActive: bool)

  datatype State = State(users: seq<User>, friendships: seq<Friendship>, nextId: nat)

  datatype Error = BadRequest | NotFound | Conflict | Forbidden

  /** The friendship links `a` and `b`, in either direction. */
  predicate SamePair(f: Friendship, a: nat, b: nat)
  {
    (f.requester == a && f.addressee == b) || (f.requester == b && f.addressee == a)
  }

  predicate Involves(f: Friendship, u: nat) { f.requester == u || f.addressee == u }

  /** The other side of a friendship `u` is in. */
  function Other(f: Friendship, u: nat): nat
  {
    if f.requester == u then f.addressee else f.requester
  }

  /** Nobody befriends themself, a pair of users has at most one friendship row, and ids grow
      with insertion and stay below the next id. */
  predicate Valid(st: State)
  {
    var fs := st.friendships;
    && (forall i :: 0 <= i < |fs| ==> fs[i].requester != fs[i].addressee && fs[i].id < st.nextId)
    && (forall i, j :: 0 <= i < j < |fs| ==> fs[i].id < fs[j].id)
    && (forall i, j :: 0 <= i < j < |fs| ==> !SamePair(fs[j], fs[i].requester, fs[i].addressee))
  }

  /** `a` and `b` have an accepted friendship. */
  predicate AreFriends(fs: seq<Friendship>, a: nat, b: nat)
  {
    exists i :: 0 <= i < |fs| && SamePair(fs[i], a, b) && fs[i].status == Accepted
  }

  // ---------------------------------------------------------------------------------------------
  // Searching for users

  /** `normalizeSearchValue`: trimmed and lower-cased, `''` when missing. */
  function NormalizeSearchValue(value: Option<string>): (r: string)
    ensures r == [] <==> value.None? || Text.Strip(value.value) == []
    ensures value.Some? ==> |r| == |Text.Strip(value.value)|
    ensures Text.Lower(r) == r
  {
    if value.None? then [] else Text.Lower(Text.Strip(value.value))
  }

  /** The ids a search leaves out: the user, and everyone they have a pending or accepted
      friendship with, whichever side asked. */
  function ExcludedIds(fs: seq<Friendship>, userId: nat): (r: set<nat>)
    ensures userId in r
    decreases |fs|
  {
    if fs == [] then {userId}
    else
      var f := fs[|fs| - 1];
      ExcludedIds(fs[..|fs| - 1], userId) + (if Involves(f, userId) && f.status != Rejected then {Other(f, userId)} else {})
  }

  /** The user has a pending or accepted friendship with `x`. */
  predicate Related(fs: seq<Friendship>, userId: nat, x: nat)
  {
    exists i :: 0 <= i < |fs| && Involves(fs[i], userId) && fs[i].status != Rejected && Other(fs[i], userId) == x
  }

  lemma {:induction false} ExcludedIdsMembers(fs: seq<Friendship>, userId: nat, x: nat)
    ensures x in ExcludedIds(fs, userId) <==> x == userId || Related(fs, userId, x)
    decreases |fs|
  {
    if fs != [] {
      var init := fs[..|fs| - 1];
      ExcludedIdsMembers(init, userId, x);
      if Related(init, userId, x) {
        var i :| 0 <= i < |init| && Involves(init[i], userId) && init[i].status != Rejected && Other(init[i], userId) == x;
        assert fs[i] == init[i];
      }
      if Related(fs, userId, x) {
        var i :| 0 <= i < |fs| && Involves(fs[i], userId) && fs[i].status != Rejected && Other(fs[i], userId) == x;
        if i < |init| {
          assert init[i] == fs[i];
        }
      }
    }
  }

  /** The `WHERE` of the user search: active, not excluded, and containing each non-empty
      normalized name (`LOWER(name) LIKE %value%`). */
  predicate Matches(excluded: set<nat>, first: string, last: string, u: User)
  {
    && u.isActive && u.id !in excluded
    && (first == [] || Text.IsInfix(first, Text.Lower(u.firstName)))
    && (last == [] || Text.IsInfix(last, Text.Lower(u.lastName)))
  }

  /** The users the search's `WHERE` keeps, in table order. */
  function Matching(users: seq<User>, excluded: set<nat>, first: string, last: string): (r: seq<User>)
    ensures |r| <= |users|
    decreases |users|
  {
    if users == [] then []
    else (if Matches(excluded, first, last, users[0]) then [users[0]] else []) + Matching(users[1..], excluded, first, last)
  }

  lemma {:induction false} MatchingMembers(users: seq<User>, excluded: set<nat>, first: string, last: string, u: User)
    ensures u in Matching(users, excluded, first, last) <==> u in users && Matches(excluded, first, last, u)
    decreases |users|
  {
    if users != [] {
      MatchingMembers(users[1..], excluded, first, last, u);
      assert users == [users[0]] + users[1..];
    }
  }

  const DefaultSearchLimit: nat := 20

  /** `searchUsers`: rejected when both names normalize to nothing; otherwise the matching
      active users who are neither the user nor already linked to them, at most `limit ?? 20`. */
  function SearchUsers(st: State, userId: nat, firstName: Option<string>, lastName: Option<string>,
                       limit: Option<nat>): (r: Result<seq<User>, Error>)
    ensures r.Failure? <==> NormalizeSearchValue(firstName) == [] && NormalizeSearchValue(lastName) == []
    ensures r.Failure? ==> r.error == BadRequest
    ensures r.Success? && limit.GetOr(DefaultSearchLimit) > 0 ==> |r.value| <= limit.GetOr(DefaultSearchLimit)
  {
    var first := NormalizeSearchValue(firstName);
    var last := NormalizeSearchValue(lastName);
    if first == [] && last == [] then Failure(BadRequest)
    else Success(Paging.Window(Matching(st.users, ExcludedIds(st.friendships, userId), first, last), 0,
                               limit.GetOr(DefaultSearchLimit)))
  }

  /** Every user found is active, is not the searcher, has no pending or accepted friendship with
      them, and contains each name searched for. */
  lemma SearchUsersSound(st: State, userId: nat, firstName: Option<string>, lastName: Option<string>,
                         limit: Option<nat>, u: User)
    requires SearchUsers(st, userId, firstName, lastName, limit).Success?
    requires u in SearchUsers(st, userId, firstName, lastName, limit).value
    ensures u in st.users && u.isActive && u.id != userId && !Related(st.friendships, userId, u.id)
    ensures var first := NormalizeSearchValue(firstName);
      first == [] || Text.IsInfix(first, Text.Lower(u.firstName))
    ensures var last := NormalizeSearchValue(lastName);
      last == [] || Text.IsInfix(last, Text.Lower(u.lastName))
  {
    var first := NormalizeSearchValue(firstName);
    var last := NormalizeSearchValue(lastName);
    var excluded := ExcludedIds(st.friendships, userId);
    var m := Matching(st.users, excluded, first, last);
    var r := SearchUsers(st, userId, firstName, lastName, limit).value;
    assert r == m[..|r|];
    assert u in m;
    MatchingMembers(st.users, excluded, first, last, u);
    ExcludedIdsMembers(st.friendships, userId, u.id);
  }

  /** When the matches fit under the limit, every eligible user is found. */
  lemma SearchUsersComplete(st: State, userId: nat, firstName: Option<string>, lastName: Option<string>,
                            limit: Option<nat>, u: User)
    requires NormalizeSearchValue(firstName) != [] || NormalizeSearchValue(lastName) != []
    requires u in st.users && u.isActive && u.id != userId && !Related(st.friendships, userId, u.id)
    requires var first := NormalizeSearchValue(firstName);
      first == [] || Text.IsInfix(first, Text.Lower(u.firstName))
    requires var last := NormalizeSearchValue(lastName);
      last == [] || Text.IsInfix(last, Text.Lower(u.lastName))
    requires var m := Matching(st.users, ExcludedIds(st.friendships, userId), NormalizeSearchValue(firstName),
                               NormalizeSearchValue(lastName));
      limit.GetOr(DefaultSearchLimit) == 0 || |m| <= limit.GetOr(DefaultSearchLimit)
    ensures u in SearchUsers(st, userId, firstName, lastName, limit).value
  {
    var first := NormalizeSearchValue(firstName);
    var last := NormalizeSearchValue(lastName);
    var excluded := ExcludedIds(st.friendships, userId);
    ExcludedIdsMembers(st.friendships, userId, u.id);
    MatchingMembers(st.users, excluded, first, last, u);
    var m := Matching(st.users, excluded, first, last);
    assert SearchUsers(st, userId, firstName, lastName, limit).value == m;
  }

  // ---------------------------------------------------------------------------------------------
  // Requests

  /** The position of the first friendship between `a` and `b`, either way round. */
  function FindPair(fs: seq<Friendship>, a: nat, b: nat): (k: nat)
    ensures k <= |fs|
    ensures forall i :: 0 <= i < k ==> !SamePair(fs[i], a, b)
    ensures k < |fs| ==> SamePair(fs[k], a, b)
  {
    if fs == [] then 0
    else if SamePair(fs[0], a, b) then 0
    else 1 + FindPair(fs[1..], a, b)
  }

  /** The first user with this id who is active. */
  predicate ActiveUser(users: seq<User>, id: nat)
  {
    exists k :: 0 <= k < |users| && users[k].id == id && users[k].isActive
  }

  /** `requestFriend`: not to oneself, only to an active user, and not when the two already
      have a pending or accepted friendship; a rejected one is turned round into a new pending
      request from this user, keeping its id. The result pairs the outcome with the new state. */
  function RequestFriend(st: State, userId: nat, addresseeId: nat): (r: (Result<Friendship, Error>, State))
    ensures r.0 == Failure(BadRequest) <==> userId == addresseeId
    ensures r.0 == Failure(NotFound) <==> userId != addresseeId && !ActiveUser(st.users, addresseeId)
    ensures r.0 == Failure(Conflict) <==>
      && userId != addresseeId && ActiveUser(st.users, addresseeId)
      && FindPair(st.friendships, userId, addresseeId) < |st.friendships|
      && st.friendships[FindPair(st.friendships, userId, addresseeId)].status != Rejected
    ensures r.0.Failure? ==> r.1 == st && r.0.error != Forbidden
    ensures r.0.Success? ==>
      && r.0.value.requester == userId && r.0.value.addressee == addresseeId && r.0.value.status == Pending
      && r.1.users == st.users && r.0.value in r.1.friendships
  {
    if userId == addresseeId then (Failure(BadRequest), st)
    else if !ActiveUser(st.users, addresseeId) then (Failure(NotFound), st)
    else
      var fs := st.friendships;
      var k := FindPair(fs, userId, addresseeId);
      if k < |fs| then
        if fs[k].status != Rejected then (Failure(Conflict), st)
        else
          var f := Friendship(fs[k].id, userId, addresseeId, Pending);
          assert fs[k := f][k] == f;
          (Success(f), State(st.users, fs[k := f], st.nextId))
      else
        var f := Friendship(st.nextId, userId, addresseeId, Pending);
        (Success(f), State(st.users, fs + [f], st.nextId + 1))
  }

  /** A request keeps the table valid. */
  lemma RequestFriendKeepsValid(st: State, userId: nat, addresseeId: nat)
    requires Valid(st)
    ensures Valid(RequestFriend(st, userId, addresseeId).1)
  {
    var (r, st') := RequestFriend(st, userId, addresseeId);
    if r.Success? {
      var fs := st.friendships;
      var k := FindPair(fs, userId, addresseeId);
      if k < |fs| {
        forall i, j | 0 <= i < j < |fs|
          ensures !SamePair(st'.friendships[j], st'.friendships[i].requester, st'.friendships[i].addressee)
        {
          if j == k {
            assert !SamePair(fs[k], fs[i].requester, fs[i].addressee);
          } else if i == k {
            assert !SamePair(fs[j], fs[k].requester, fs[k].addressee);
          }
        }
      }
    }
  }

  /** Once a request is made, asking again, from either side, is a conflict. */
  lemma RequestTwiceConflicts(st: State, userId: nat, addresseeId: nat)
    requires RequestFriend(st, userId, addresseeId).0.Success?
    ensures var st' := RequestFriend(st, userId, addresseeId).1;
      && RequestFriend(st', userId, addresseeId).0 == Failure(Conflict)
      && (ActiveUser(st.users, userId) ==> RequestFriend(st', addresseeId, userId).0 == Failure(Conflict))
  {
    var (r, st') := RequestFriend(st, userId, addresseeId);
    var fs := st.friendships;
    var k := FindPair(fs, userId, addresseeId);
    var f := r.value;
    var p := if k < |fs| then k else |fs|;
    assert st'.friendships[p] == f;
    assert forall i :: 0 <= i < p ==> st'.friendships[i] == fs[i];
    FindPairFirst(st'.friendships, userId, addresseeId, p);
    FindPairFirst(st'.friendships, addresseeId, userId, p);
  }

  /** The first pair match is the one found. */
  lemma {:induction false} FindPairFirst(fs: seq<Friendship>, a: nat, b: nat, k: nat)
    requires k < |fs| && SamePair(fs[k], a, b)
    requires forall i :: 0 <= i < k ==> !SamePair(fs[i], a, b)
    ensures FindPair(fs, a, b) == k
    decreases k
  {
    if k > 0 {
      FindPairFirst(fs[1..], a, b, k - 1);
    }
  }

  /** The pending request with this id, addressed to the user. */
  predicate Incoming(f: Friendship, userId: nat, friendshipId: nat)
  {
    f.id == friendshipId && f.addressee == userId && f.status == Pending
  }

  /** The position of the pending request with this id addressed to the user. */
  function FindIncoming(fs: seq<Friendship>, userId: nat, friendshipId: nat): (k: nat)
    ensures k <= |fs|
    ensures forall i :: 0 <= i < k ==> !Incoming(fs[i], userId, friendshipId)
    ensures k < |fs| ==> Incoming(fs[k], userId, friendshipId)
  {
    if fs == [] then 0
    else if Incoming(fs[0], userId, friendshipId) then 0
    else 1 + FindIncoming(fs[1..], userId, friendshipId)
  }

  /** `acceptFriendRequest` / `rejectFriendRequest`: only the addressee answers a pending request;
      the answer sets its status and nothing else. */
  function Answer(st: State, userId: nat, friendshipId: nat, answer: Status): (r: (Result<Friendship, Error>, State))
    requires answer != Pending
    ensures r.0.Success? <==> exists i :: 0 <= i < |st.friendships| && Incoming(st.friendships[i], userId, friendshipId)
    ensures r.0.Failure? ==> r.0.error == NotFound && r.1 == st
    ensures r.0.Success? ==>
      var k := FindIncoming(st.friendships, userId, friendshipId);
      && r.0.value == st.friendships[k].(status := answer)
      && r.1 == st.(friendships := st.friendships[k := r.0.value])
  {
    var k := FindIncoming(st.friendships, userId, friendshipId);
    if k == |st.friendships| then (Failure(NotFound), st)
    else
      var f := st.friendships[k].(status := answer);
      (Success(f), st.(friendships := st.friendships[k := f]))
  }

  function AcceptFriendRequest(st: State, userId: nat, friendshipId: nat): (r: (Result<Friendship, Error>, State))
    ensures r.0.Success? ==> r.0.value.status == Accepted && r.0.value.addressee == userId
    ensures r.0.Success? ==> AreFriends(r.1.friendships, userId, r.0.value.requester)
  {
    var r := Answer(st, userId, friendshipId, Accepted);
    if r.0.Success? then
      var k := FindIncoming(st.friendships, userId, friendshipId);
      assert r.1.friendships[k] == r.0.value;
      r
    else r
  }

  function RejectFriendRequest(st: State, userId: nat, friendshipId: nat): (r: (Result<Friendship, Error>, State))
    ensures r.0.Success? ==> r.0.value.status == Rejected && r.0.value.addressee == userId
  {
    Answer(st, userId, friendshipId, Rejected)
  }

  /** Answering keeps the table valid: pairs and ids do not move. */
  lemma AnswerKeepsValid(st: State, userId: nat, friendshipId: nat, answer: Status)
    requires Valid(st) && answer != Pending
    ensures Valid(Answer(st, userId, friendshipId, answer).1)
  {
    var fs := st.friendships;
    var fs' := Answer(st, userId, friendshipId, answer).1.friendships;
    var k := FindIncoming(fs, userId, friendshipId);
    if k < |fs| {
      assert fs' == fs[k := fs[k].(status := answer)];
      forall i, j | 0 <= i < j < |fs'|
        ensures fs'[i].id < fs'[j].id && !SamePair(fs'[j], fs'[i].requester, fs'[i].addressee)
      {
        assert fs'[i].id == fs[i].id && fs'[i].requester == fs[i].requester && fs'[i].addressee == fs[i].addressee;
        assert fs'[j].id == fs[j].id && fs'[j].requester == fs[j].requester && fs'[j].addressee == fs[j].addressee;
      }
    }
  }

  /** A rejected request can be made again, by either side, and is pending again. */
  lemma RejectThenRequestAgain(st: State, userId: nat, friendshipId: nat)
    requires Valid(st)
    requires RejectFriendRequest(st, userId, friendshipId).0.Success?
    requires var f := RejectFriendRequest(st, userId, friendshipId).0.value;
      ActiveUser(st.users, f.requester)
    ensures var (r, st') := RejectFriendRequest(st, userId, friendshipId);
      RequestFriend(st', userId, r.value.requester).0.Success?
  {
    var (r, st') := RejectFriendRequest(st, userId, friendshipId);
    var fs := st.friendships;
    var k := FindIncoming(fs, userId, friendshipId);
    var f := r.value;
    assert st'.friendships[k] == f;
    assert SamePair(f, userId, f.requester);
    forall i | 0 <= i < k ensures !SamePair(st'.friendships[i], userId, f.requester) {
      assert st'.friendships[i] == fs[i];
      assert !SamePair(fs[k], fs[i].requester, fs[i].addressee);
    }
    FindPairFirst(st'.friendships, userId, f.requester, k);
  }

  // ---------------------------------------------------------------------------------------------
  // Listing

  /** `listFriends`: the other side of each accepted friendship, in table order. */
  function ListFriends(fs: seq<Friendship>, userId: nat): (r: seq<nat>)
    ensures |r| <= |fs|
    decreases |fs|
  {
    if fs == [] then []
    else
      var f := fs[|fs| - 1];
      ListFriends(fs[..|fs| - 1], userId) + (if Involves(f, userId) && f.status == Accepted then [Other(f, userId)] else [])
  }

  /** The friend list holds exactly the accepted friends. */
  lemma {:induction false} ListFriendsAreFriends(fs: seq<Friendship>, userId: nat, x: nat)
    ensures x in ListFriends(fs, userId) <==> AreFriends(fs, userId, x)
    decreases |fs|
  {
    if fs != [] {
      var init := fs[..|fs| - 1];
      var f := fs[|fs| - 1];
      ListFriendsAreFriends(init, userId, x);
      if AreFriends(init, userId, x) {
        var i :| 0 <= i < |init| && SamePair(init[i], userId, x) && init[i].status == Accepted;
        assert fs[i] == init[i];
      }
      if AreFriends(fs, userId, x) {
        var i :| 0 <= i < |fs| && SamePair(fs[i], userId, x) && fs[i].status == Accepted;
        if i < |init| {
          assert init[i] == fs[i];
        }
      }
      assert (Involves(f, userId) && Other(f, userId) == x) <==> SamePair(f, userId, x);
    }
  }

  /** `listPendingRequests`: the pending requests addressed to the user, newest first. Rows are
      appended in creation order and answering or renewing one keeps its creation time, so
      newest first is the table read backwards. */
  function ListPendingRequests(fs: seq<Friendship>, userId: nat): (r: seq<Friendship>)
    ensures |r| <= |fs|
    decreases |fs|
  {
    if fs == [] then []
    else
      var f := fs[|fs| - 1];
      (if f.addressee == userId && f.status == Pending then [f] else []) + ListPendingRequests(fs[..|fs| - 1], userId)
  }

  lemma {:induction false} ListPendingMembers(fs: seq<Friendship>, userId: nat, f: Friendship)
    ensures f in ListPendingRequests(fs, userId) <==> f in fs && f.addressee == userId && f.status == Pending
    decreases |fs|
  {
    if fs != [] {
      ListPendingMembers(fs[..|fs| - 1], userId, f);
      assert fs == fs[..|fs| - 1] + [fs[|fs| - 1]];
    }
  }

  /** Ids grow along the table. */
  predicate IdsIncreasing(fs: seq<Friendship>)
  {
    forall i, j :: 0 <= i < j < |fs| ==> fs[i].id < fs[j].id
  }

  /** Ids shrink along the list. */
  predicate NewestFirst(r: seq<Friendship>)
  {
    forall i, j :: 0 <= i < j < |r| ==> r[i].id > r[j].id
  }

  /** With ids growing along the table, the pending list is newest first. */
  lemma {:induction false} ListPendingNewestFirst(fs: seq<Friendship>, userId: nat)
    requires IdsIncreasing(fs)
    ensures NewestFirst(ListPendingRequests(fs, userId))
    decreases |fs|
  {
    if fs != [] {
      var init := fs[..|fs| - 1];
      var last := fs[|fs| - 1];
      assert IdsIncreasing(init) by {
        forall i, j | 0 <= i < j < |init| ensures init[i].id < init[j].id {
          assert init[i] == fs[i] && init[j] == fs[j];
        }
      }
      ListPendingNewestFirst(init, userId);
      var rest := ListPendingRequests(init, userId);
      var r := ListPendingRequests(fs, userId);
      if last.addressee == userId && last.status == Pending {
        assert r == [last] + rest;
        forall i, j | 0 <= i < j < |r| ensures r[i].id > r[j].id {
          assert r[j] == rest[j - 1];
          if i == 0 {
            ListPendingMembers(init, userId, rest[j - 1]);
            var k :| 0 <= k < |init| && init[k] == rest[j - 1];
            assert fs[k] == init[k];
            assert fs[k].id < fs[|fs| - 1].id;
          } else {
            assert r[i] == rest[i - 1];
            assert NewestFirst(rest);
            assert rest[i - 1].id > rest[j - 1].id;
          }
        }
      } else {
        assert r == [] + rest;
      }
    }
  }

  /** A valid table lists pending requests newest first. */
  lemma PendingNewestFirst(st: State, userId: nat)
    requires Valid(st)
    ensures NewestFirst(ListPendingRequests(st.friendships, userId))
  {
    ListPendingNewestFirst(st.friendships, userId);
  }

  // ---------------------------------------------------------------------------------------------
  // What friends may see

  /** `ensureAcceptedFriendship`: passes only between accepted friends. */
  function EnsureAcceptedFriendship(fs: seq<Friendship>, userId: nat, friendId: nat): (r: Result<Friendship, Error>)
    ensures r.Success? <==> AreFriends(fs, userId, friendId)
    ensures r.Success? ==> r.value in fs && SamePair(r.value, userId, friendId) && r.value.status == Accepted
    ensures r.Failure? ==> r.error == Forbidden
    decreases |fs|
  {
    if fs == [] then Failure(Forbidden)
    else if SamePair(fs[0], userId, friendId) && fs[0].status == Accepted then Success(fs[0])
    else
      var rest := EnsureAcceptedFriendship(fs[1..], userId, friendId);
      assert forall i :: 1 <= i < |fs| ==> fs[i] == fs[1..][i - 1];
      if rest.Success? then
        assert rest.value in fs;
        rest
      else
        assert forall i :: 0 <= i < |fs[1..]| ==> fs[1..][i] == fs[i + 1];
        rest
  }

  /** Friendship is symmetric: who asked does not matter. */
  lemma FriendshipSymmetric(fs: seq<Friendship>, userId: nat, friendId: nat)
    ensures EnsureAcceptedFriendship(fs, userId, friendId).Success? == EnsureAcceptedFriendship(fs, friendId, userId).Success?
  {
    if AreFriends(fs, userId, friendId) {
      var i :| 0 <= i < |fs| && SamePair(fs[i], userId, friendId) && fs[i].status == Accepted;
      assert SamePair(fs[i], friendId, userId);
    }
    if AreFriends(fs, friendId, userId) {
      var i :| 0 <= i < |fs| && SamePair(fs[i], friendId, userId) && fs[i].status == Accepted;
      assert SamePair(fs[i], userId, friendId);
    }
  }

  /** The first active user with this id. */
  function FindActiveUser(users: seq<User>, id: nat): (r: Option<User>)
    ensures r.Some? <==> ActiveUser(users, id)
    ensures r.Some? ==> r.value in users && r.value.id == id && r.value.isActive
  {
    if users == [] then None
    else if users[0].id == id && users[0].isActive then Some(users[0])
    else
      var rest := FindActiveUser(users[1..], id);
      assert forall k :: 1 <= k < |users| ==> users[k] == users[1..][k - 1];
      if rest.Some? then
        assert rest.value in users;
        rest
      else
        assert forall k :: 0 <= k < |users[1..]| ==> users[1..][k] == users[k + 1];
        rest
  }

  /** `getFriendProfile`: forbidden unless friends, then the friend if still active. */
  function GetFriendProfile(st: State, userId: nat, friendId: nat): (r: Result<User, Error>)
    ensures r == Failure(Forbidden) <==> !AreFriends(st.friendships, userId, friendId)
    ensures r == Failure(NotFound) <==> AreFriends(st.friendships, userId, friendId) && !ActiveUser(st.users, friendId)
    ensures r.Success? ==> r.value in st.users && r.value.id == friendId && r.value.isActive
  {
    if EnsureAcceptedFriendship(st.friendships, userId, friendId).Failure? then Failure(Forbidden)
    else
      match FindActiveUser(st.users, friendId)
      case Some(u) => Success(u)
      case None => Failure(NotFound)
  }

  /** `getFriendDiaryEntries`: forbidden unless friends, then the friend's diary (the diary
      reader is a parameter). */
  function GetFriendDiaryEntries<E>(fs: seq<Friendship>, userId: nat, friendId: nat, diaryOf: nat -> E): (r: Result<E, Error>)
    ensures r.Success? <==> AreFriends(fs, userId, friendId)
    ensures r.Success? ==> r.value == diaryOf(friendId)
    ensures r.Failure? ==> r.error == Forbidden
  {
    if EnsureAcceptedFriendship(fs, userId, friendId).Failure? then Failure(Forbidden)
    else Success(diaryOf(friendId))
  }

  /** `getFriendRecipes`: forbidden unless friends, then the friend's recipe list, the same query
      the friend's own listing runs. */
  function GetFriendRecipes(fs: seq<Friendship>, rows: seq<(nat, RecipeService.Recipe)>, userId: nat, friendId: nat,
                            search: Option<string>, limit: Option<nat>, page: Option<nat>)
    : (r: Result<seq<(nat, RecipeService.Recipe)>, Error>)
    ensures r.Success? <==> AreFriends(fs, userId, friendId)
    ensures r.Failure? ==> r.error == Forbidden
    ensures r.Success? ==> forall k :: 0 <= k < |r.value| ==> r.value[k] in rows && r.value[k].1.owner == friendId
  {
    if EnsureAcceptedFriendship(fs, userId, friendId).Failure? then Failure(Forbidden)
    else Success(RecipeService.GetRecipes(rows, RecipeService.Query(friendId, search, limit, page)))
  }

  /** A friend sees exactly what the owner's own listing shows. */
  lemma FriendRecipesAreOwnersListing(fs: seq<Friendship>, rows: seq<(nat, RecipeService.Recipe)>, userId: nat,
                                       friendId: nat, search: Option<string>, limit: Option<nat>, page: Option<nat>)
    requires AreFriends(fs, userId, friendId)
    ensures GetFriendRecipes(fs, rows, userId, friendId, search, limit, page)
         == Success(RecipeService.GetRecipes(rows, RecipeService.Query(friendId, search, limit, page)))
  {
  }

  /** `importFriendRecipe`: forbidden unless friends, then the copy into the user's recipes (the
      copy is a parameter). */
  function ImportFriendRecipe<R>(fs: seq<Friendship>, userId: nat, friendId: nat, recipeId: nat,
                                 cloneRecipe: (nat, nat, nat) -> R): (r: Result<R, Error>)
    ensures r.Success? <==> AreFriends(fs, userId, friendId)
    ensures r.Success? ==> r.value == cloneRecipe(recipeId, friendId, userId)
    ensures r.Failure? ==> r.error == Forbidden
  {
    if EnsureAcceptedFriendship(fs, userId, friendId).Failure? then Failure(Forbidden)
    else Success(cloneRecipe(recipeId, friendId, userId))
  }

  /** Accepting a request opens the profile, diary and recipes to both sides. */
  lemma AcceptOpensBothWays(st: State, userId: nat, friendshipId: nat)
    requires AcceptFriendRequest(st, userId, friendshipId).0.Success?
    ensures var (r, st') := AcceptFriendRequest(st, userId, friendshipId);
      && EnsureAcceptedFriendship(st'.friendships, userId, r.value.requester).Success?
      && EnsureAcceptedFriendship(st'.friendships, r.value.requester, userId).Success?
      && r.value.requester in ListFriends(st'.friendships, userId)
      && userId in ListFriends(st'.friendships, r.value.requester)
  {
    var (r, st') := AcceptFriendRequest(st, userId, friendshipId);
    FriendshipSymmetric(st'.friendships, userId, r.value.requester);
    ListFriendsAreFriends(st'.friendships, userId, r.value.requester);
    ListFriendsAreFriends(st'.friendships, r.value.requester, userId);
  }
}

=== FILE: intparse.dfy ===
/** Reading integers out of text the way the two runtimes do: Python's `int(str)` accepts the
    whole (stripped) string or fails; JavaScript's `parseInt(str, 10)` reads the longest digit
    prefix after leading whitespace and an optional sign, ignoring what follows. */
module IntParse {
  import opened Wrappers
  import opened Text

  predicate IsSign(c: char) { c == '+' || c == '-' }

  /** The length of an optional leading sign. */
  function SignLen(t: string): (k: nat)
    ensures k <= 1 && k <= |t|
    ensures k == 1 <==> (t != [] && IsSign(t[0]))
  {
    if t != [] && IsSign(t[0]) then 1 else 0
  }

  function Signed(t: string, magnitude: nat): (v: int)
    ensures v == magnitude || v == -(magnitude as int)
    ensures v < 0 ==> t != [] && t[0] == '-'
  {
    if t != [] && t[0] == '-' then -(magnitude as int) else magnitude
  }

  /** Python `int(s)`: surrounding whitespace, an optional sign and at least one digit, nothing else. */
  function PyInt(s: string): (r: Option<int>)
  {
    var t := Strip(s);
    var body := t[SignLen(t)..];
    if body != [] && AllDigits(body) then Some(Signed(t, DigitsValue(body))) else None
  }

  /** JavaScript `parseInt(s, 10)`; `None` stands for NaN. */
  function JsParseInt(s: string): (r: Option<int>)
    ensures r.Some? <==>
      (var t := TrimStart(s); SignLen(t) < |t| && IsDigit(t[SignLen(t)]))
  {
    var t := TrimStart(s);
    var k := SignLen(t);
    var e := DigitRun(t, k);
    if e > k then Some(Signed(t, DigitsValue(t[k..e]))) else None
  }

  /** `int()` accepts exactly an optionally signed non-empty digit string, once stripped. */
  lemma PyIntAccepts(s: string)
    ensures PyInt(s).Some? <==>
      (var t := Strip(s); |t| > SignLen(t) && AllDigits(t[SignLen(t)..]))
  {
  }

  /** `str(n)` reads back through `int()`, with or without padding. */
  lemma PyIntOfRendered(n: nat, a: string, b: string)
    requires AllSpace(a) && AllSpace(b)
    ensures PyInt(a + NatToString(n) + b) == Some(n)
  {
    var w := NatToString(n);
    StripPadded(a, w, b);
    NatToStringRoundTrip(n);
  }

  /** `parseInt` reads a rendered number back even with trailing text that does not start with a digit. */
  lemma JsParseIntOfRendered(n: nat, rest: string)
    requires rest == [] || !IsDigit(rest[0])
    ensures JsParseInt(NatToString(n) + rest) == Some(n)
  {
    var w := NatToString(n);
    var s := w + rest;
    assert !IsSpace(s[0]);
    TrimStartPadded([], s);
    assert [] + s == s;
    assert SignLen(s) == 0;
    DigitRunPrefix(s, w);
    assert s[0..|w|] == w;
    NatToStringRoundTrip(n);
  }

  lemma DigitRunPrefix(s: string, w: string)
    requires AllDigits(w) && |w| <= |s| && s[..|w|] == w
    requires |w| == |s| || !IsDigit(s[|w|])
    ensures DigitRun(s, 0) == |w|
  {
    DigitRunFrom(s, 0, |w|);
  }

  lemma {:induction false} DigitRunFrom(s: string, i: nat, e: nat)
    requires i <= e <= |s|
    requires forall j :: i <= j < e ==> IsDigit(s[j])
    requires e == |s| || !IsDigit(s[e])
    ensures DigitRun(s, i) == e
    decreases e - i
  {
    if i < e {
      DigitRunFrom(s, i + 1, e);
    }
  }
}

=== FILE: jsnum.dfy ===
/** JavaScript numbers as the client code meets them: a finite value, or one of the non-finite
    values (`NaN`, `Infinity`, `-Infinity`) that `Number.isFinite` rejects. Arithmetic keeps a
    non-finite operand non-finite; overflow of finite values is not modelled. */
module JsNum {
  import opened Wrappers
  import opened Rounding

  datatype Num = Finite(value: real) | NonFinite {

    /** `Number.isFinite(x) && x > 0`, the servings guard of the client. */
    predicate Positive() { Finite? && value > 0 as real }

    /** JavaScript truthiness of a number: `0` and `NaN` are falsy. */
    predicate Truthy() { Finite? && value != 0 as real }
  }

  function Add(a: Num, b: Num): (r: Num)
    ensures r.Finite? <==> a.Finite? && b.Finite?
    ensures r.Finite? ==> r.value == a.value + b.value
  {
    if a.Finite? && b.Finite? then Finite(a.value + b.value) else NonFinite
  }

  function Mul(a: Num, b: Num): (r: Num)
    ensures r.Finite? <==> a.Finite? && b.Finite?
    ensures r.Finite? ==> r.value == a.value * b.value
  {
    if a.Finite? && b.Finite? then Finite(a.value * b.value) else NonFinite
  }

  /** `Number(x.toFixed(2))`: two decimals, halves rounded away from zero. */
  function Fixed2(x: real): (r: real)
    ensures -1 as real / 200 as real <= r - x <= 1 as real / 200 as real
    ensures x >= 0 as real ==> r >= 0 as real
    ensures x <= 0 as real ==> r <= 0 as real
  {
    if x >= 0 as real then JsRound(x * 100 as real) as real / 100 as real
    else -(JsRound(-x * 100 as real) as real / 100 as real)
  }
}

=== FILE: merge_duplicates.dfy ===
/** The duplicate-food merge (`merge_duplicate_foods.py`). The database groups foods by name and
    calories and hands back each group's ids as one comma-separated, ascending string; within a
    group the first (smallest) id is kept, every row of the four tables that reference foods is
    repointed to it, and the other foods are deleted, one transaction per group. */
module MergeDuplicates {
  import opened Wrappers
  import opened Text
  import IntParse

  // ---------------------------------------------------------------------------------------
  // `_fetch_duplicate_groups`

  /** A row of the grouping query: the name, the calories (NULL allowed) and `GROUP_CONCAT(id ORDER BY id)`. */
  datatype GroupRow = GroupRow(name: string, calories: Option<int>, ids: string)

  /** A group as the merge loop receives it. */
  datatype Group = Group(name: string, calories: int, ids: seq<int>)

  /** `[int(value) for value in pieces if value]`: empty pieces are dropped, and `None` stands for
      the `ValueError` of a piece `int()` rejects. */
  function ParseIds(pieces: seq<string>): (r: Option<seq<int>>)
    ensures r.Some? ==> |r.value| <= |pieces|
  {
    if pieces == [] then Some([])
    else if pieces[0] == [] then ParseIds(pieces[1..])
    else
      match IntParse.PyInt(pieces[0])
      case None => None
      case Some(v) =>
        match ParseIds(pieces[1..])
        case None => None
        case Some(vs) => Some([v] + vs)
  }

  /** The ids of one group row. */
  function GroupIds(s: string): Option<seq<int>>
  {
    ParseIds(Split(s, ','))
  }

  /** `_fetch_duplicate_groups` after the query: rows with fewer than two ids are skipped (before
      their calories are read), and `None` stands for the error of an unreadable id or of NULL
      calories on a kept row. */
  function FetchGroups(rows: seq<GroupRow>): (r: Option<seq<Group>>)
    ensures r.Some? ==> forall k :: 0 <= k < |r.value| ==> |r.value[k].ids| >= 2
  {
    if rows == [] then Some([])
    else
      var row := rows[0];
      match GroupIds(row.ids)
      case None => None
      case Some(ids) =>
        if |ids| < 2 then FetchGroups(rows[1..])
        else if row.calories.None? then None
        else
          match FetchGroups(rows[1..])
          case None => None
          case Some(gs) => Some([Group(row.name, row.calories.value, ids)] + gs)
  }

  /** A row the fetch can read: its ids parse, and a row it keeps has calories. */
  predicate Readable(row: GroupRow)
  {
    GroupIds(row.ids).Some? && (|GroupIds(row.ids).value| >= 2 ==> row.calories.Some?)
  }

  /** The fetch raises exactly when some row is unreadable; otherwise it keeps, in order, the
      rows with at least two ids. */
  lemma FetchGroupsSucceeds(rows: seq<GroupRow>)
    ensures FetchGroups(rows).Some? <==> forall k :: 0 <= k < |rows| ==> Readable(rows[k])
    ensures FetchGroups(rows).Some? ==> |FetchGroups(rows).value| == Kept(rows)
  {
    FetchGroupsReadable(rows);
    FetchGroupsKept(rows);
  }

  /** Every row is readable. */
  predicate AllReadable(rows: seq<GroupRow>)
  {
    forall k :: 0 <= k < |rows| ==> Readable(rows[k])
  }

  lemma AllReadableCons(rows: seq<GroupRow>)
    requires rows != []
    ensures AllReadable(rows) <==> Readable(rows[0]) && AllReadable(rows[1..])
  {
    assert forall k :: 1 <= k < |rows| ==> rows[k] == rows[1..][k - 1];
  }

  lemma {:induction false} FetchGroupsReadable(rows: seq<GroupRow>)
    ensures FetchGroups(rows).Some? <==> AllReadable(rows)
  {
    if rows != [] {
      FetchGroupsReadable(rows[1..]);
      AllReadableCons(rows);
    }
  }

  lemma {:induction false} FetchGroupsKept(rows: seq<GroupRow>)
    ensures FetchGroups(rows).Some? ==> |FetchGroups(rows).value| == Kept(rows)
  {
    if rows != [] {
      FetchGroupsKept(rows[1..]);
    }
  }

  /** The number of readable rows with at least two ids. */
  function Kept(rows: seq<GroupRow>): nat
  {
    if rows == [] then 0
    else (if GroupIds(rows[0].ids).Some? && |GroupIds(rows[0].ids).value| >= 2 then 1 else 0) + Kept(rows[1..])
  }

  /** A row the database wrote for ids in ascending order comes back as that group. */
  lemma FetchRendered(name: string, calories: int, ids: seq<nat>)
    requires |ids| >= 2
    ensures FetchGroups([GroupRow(name, Some(calories), Join(Rendered(ids), ','))]) == Some([Group(name, calories, ids)])
  {
    ParseRendered(ids);
    var rows := [GroupRow(name, Some(calories), Join(Rendered(ids), ','))];
    assert rows[1..] == [] && FetchGroups([]) == Some([]);
    assert [Group(name, calories, ids)] + [] == [Group(name, calories, ids)];
  }

  /** The rendering of a list of ids the way `GROUP_CONCAT` writes it. */
  function Rendered(ids: seq<nat>): seq<string>
  {
    seq(|ids|, k requires 0 <= k < |ids| => NatToString(ids[k]))
  }

  /** Reading back what `GROUP_CONCAT` writes gives the ids, in order. */
  lemma {:induction false} ParseRendered(ids: seq<nat>)
    ensures GroupIds(Join(Rendered(ids), ',')) == Some(ids)
  {
    if ids == [] {
      assert Split([], ',') == [[]];
    } else {
      var parts := Rendered(ids);
      forall k | 0 <= k < |parts| ensures ',' !in parts[k] {
        assert AllDigits(parts[k]);
      }
      SplitJoin(parts, ',');
      ParsePieces(ids);
    }
  }

  lemma {:induction false} ParsePieces(ids: seq<nat>)
    ensures ParseIds(Rendered(ids)) == Some(ids)
  {
    if ids != [] {
      var w := NatToString(ids[0]);
      assert Rendered(ids) == [w] + Rendered(ids[1..]);
      assert IntParse.PyInt(w) == Some(ids[0] as int) by {
        IntParse.PyIntOfRendered(ids[0], [], []);
        assert [] + w + [] == w;
      }
      ParsePieces(ids[1..]);
      ParseIdsCons(w, Rendered(ids[1..]));
      assert [ids[0]] + ids[1..] == ids;
    }
  }

  lemma ParseIdsCons(p: string, rest: seq<string>)
    requires p != [] && IntParse.PyInt(p).Some? && ParseIds(rest).Some?
    ensures ParseIds([p] + rest) == Some([IntParse.PyInt(p).value] + ParseIds(rest).value)
  {
    assert ([p] + rest)[0] == p && ([p] + rest)[1..] == rest;
  }

  // ---------------------------------------------------------------------------------------
  // The tables the merge touches

  /** The food ids, and the `foodId` column of each referencing table, row by row. */
  datatype Db = Db(foods: set<int>, measurements: seq<int>, entries: seq<int>, recipeFoods: seq<int>, barcodes: seq<int>)

  /** `UPDATE … SET foodId = to WHERE foodId IN from` on one table's `foodId` column. */
  function Repoint(refs: seq<int>, from: set<int>, to: int): (r: seq<int>)
    ensures |r| == |refs|
  {
    if refs == [] then [] else [if refs[0] in from then to else refs[0]] + Repoint(refs[1..], from, to)
  }

  /** The rows whose `foodId` is in `ids`. */
  function CountIn(refs: seq<int>, ids: set<int>): (n: nat)
    ensures n <= |refs|
  {
    if refs == [] then 0 else (if refs[0] in ids then 1 else 0) + CountIn(refs[1..], ids)
  }

  /** Repointing moves exactly the rows whose food is in `from` and leaves every other row alone. */
  lemma {:induction false} RepointElements(refs: seq<int>, from: set<int>, to: int)
    ensures forall i :: 0 <= i < |refs| ==> Repoint(refs, from, to)[i] == (if refs[i] in from then to else refs[i])
  {
    if refs != [] {
      RepointElements(refs[1..], from, to);
      var r := Repoint(refs, from, to);
      forall i | 1 <= i < |refs| ensures r[i] == (if refs[i] in from then to else refs[i]) {
        assert r[i] == Repoint(refs[1..], from, to)[i - 1] && refs[i] == refs[1..][i - 1];
      }
    }
  }

  /** Repointing one duplicate after others is repointing them all at once, when the kept id
      is not among them. */
  lemma {:induction false} RepointTwice(refs: seq<int>, a: set<int>, b: set<int>, to: int)
    requires to !in b
    ensures Repoint(Repoint(refs, a, to), b, to) == Repoint(refs, a + b, to)
  {
    if refs != [] {
      RepointTwice(refs[1..], a, b, to);
    }
  }

  /** The rows one UPDATE changes: those of the duplicate not already moved by an earlier one. */
  lemma {:induction false} CountMoved(refs: seq<int>, a: set<int>, d: int, to: int)
    requires to != d
    ensures CountIn(refs, a) + CountIn(Repoint(refs, a, to), {d}) == CountIn(refs, a + {d})
  {
    if refs != [] {
      CountMoved(refs[1..], a, d, to);
    }
  }

  /** Rows are neither created nor lost: the kept food ends up with its own rows and the moved ones. */
  lemma {:induction false} RepointConserves(refs: seq<int>, from: set<int>, to: int)
    ensures CountIn(Repoint(refs, from, to), {to}) == CountIn(refs, from + {to})
  {
    if refs != [] {
      RepointConserves(refs[1..], from, to);
    }
  }

  /** After the merge no row points at a removed duplicate. */
  lemma {:induction false} RepointClears(refs: seq<int>, from: set<int>, to: int)
    requires to !in from
    ensures CountIn(Repoint(refs, from, to), from) == 0
  {
    if refs != [] {
      RepointClears(refs[1..], from, to);
    }
  }

  // ---------------------------------------------------------------------------------------
  // One group: `for duplicate_id in duplicate_ids`, then commit

  /** The run's counters. */
  datatype Tally = Tally(groups: nat, deleted: nat, measurements: nat, entries: nat, recipeFoods: nat, barcodes: nat)

  /** One duplicate: the four UPDATEs and the DELETE, each adding its row count. */
  function MoveOne(db: Db, t: Tally, canonical: int, dup: int): (r: (Db, Tally))
    ensures r.0.foods == db.foods - {dup}
    ensures r.1.groups == t.groups
  {
    var from := {dup};
    (Db(db.foods - from,
        Repoint(db.measurements, from, canonical), Repoint(db.entries, from, canonical),
        Repoint(db.recipeFoods, from, canonical), Repoint(db.barcodes, from, canonical)),
     Tally(t.groups, t.deleted + (if dup in db.foods then 1 else 0),
           t.measurements + CountIn(db.measurements, from), t.entries + CountIn(db.entries, from),
           t.recipeFoods + CountIn(db.recipeFoods, from), t.barcodes + CountIn(db.barcodes, from)))
  }

  /** What a committed group does, all at once: the duplicates' rows move to the kept food and
      the duplicates are deleted. */
  function Merged(db: Db, canonical: int, dups: set<int>): Db
  {
    Db(db.foods - dups,
       Repoint(db.measurements, dups, canonical), Repoint(db.entries, dups, canonical),
       Repoint(db.recipeFoods, dups, canonical), Repoint(db.barcodes, dups, canonical))
  }

  /** The counters a committed group adds, all at once. */
  function Counted(db: Db, t: Tally, dups: set<int>): Tally
  {
    Tally(t.groups + 1, t.deleted + |db.foods * dups|,
          t.measurements + CountIn(db.measurements, dups), t.entries + CountIn(db.entries, dups),
          t.recipeFoods + CountIn(db.recipeFoods, dups), t.barcodes + CountIn(db.barcodes, dups))
  }

  /** One more duplicate, applied after the earlier ones, is the group with that duplicate added. */
  lemma MoveOneStep(db0: Db, t0: Tally, canonical: int, seen: set<int>, dup: int)
    requires canonical != dup && canonical !in seen
    ensures MoveOne(Merged(db0, canonical, seen), Counted(db0, t0, seen), canonical, dup)
            == (Merged(db0, canonical, seen + {dup}), Counted(db0, t0, seen + {dup}))
  {
    MoveOneTables(db0, canonical, seen, dup);
    MoveOneCounts(db0, t0, canonical, seen, dup);
  }

  lemma MoveOneTables(db0: Db, canonical: int, seen: set<int>, dup: int)
    requires canonical != dup && canonical !in seen
    ensures MoveOne(Merged(db0, canonical, seen), Tally(0, 0, 0, 0, 0, 0), canonical, dup).0 == Merged(db0, canonical, seen + {dup})
  {
    var from := {dup};
    RepointTwice(db0.measurements, seen, from, canonical);
    RepointTwice(db0.entries, seen, from, canonical);
    RepointTwice(db0.recipeFoods, seen, from, canonical);
    RepointTwice(db0.barcodes, seen, from, canonical);
    assert (db0.foods - seen) - {dup} == db0.foods - (seen + {dup});
  }

  lemma MoveOneCounts(db0: Db, t0: Tally, canonical: int, seen: set<int>, dup: int)
    requires canonical != dup && canonical !in seen
    ensures MoveOne(Merged(db0, canonical, seen), Counted(db0, t0, seen), canonical, dup).1 == Counted(db0, t0, seen + {dup})
  {
    CountMoved(db0.measurements, seen, dup, canonical);
    CountMoved(db0.entries, seen, dup, canonical);
    CountMoved(db0.recipeFoods, seen, dup, canonical);
    CountMoved(db0.barcodes, seen, dup, canonical);
    DeletedStep(db0.foods, seen, dup);
  }

  /** The DELETE of one more duplicate removes a row exactly when it is still there. */
  lemma DeletedStep(foods: set<int>, seen: set<int>, dup: int)
    ensures |foods * seen| + (if dup in foods - seen then 1 else 0) == |foods * (seen + {dup})|
  {
    if dup in foods - seen {
      assert foods * (seen + {dup}) == foods * seen + {dup};
    } else {
      assert foods * (seen + {dup}) == foods * seen;
    }
  }

  /** The statements of one group's duplicates, one `MoveOne` after another. */
  function MoveAll(db: Db, t: Tally, canonical: int, dups: seq<int>): (r: (Db, Tally))
    ensures r.1.groups == t.groups
    ensures r.0.foods == db.foods - Members(dups)
    decreases |dups|
  {
    if dups == [] then (db, t)
    else
      var (d, n) := MoveOne(db, t, canonical, dups[0]);
      MoveAll(d, n, canonical, dups[1..])
  }

  /** What the loop body does for one group: a group with no duplicate is passed over, any other
      counts one group and runs its duplicates' statements in order. */
  function GroupResult(db: Db, t: Tally, ids: seq<int>): (Db, Tally)
    requires ids != []
  {
    if |ids| < 2 then (db, t) else MoveAll(db, t.(groups := t.groups + 1), ids[0], ids[1..])
  }

  /** The duplicates' statements applied after some already merged are the all-at-once merge of
      them all, when the kept id is none of them. */
  lemma {:induction false} MoveAllMerged(db0: Db, t0: Tally, canonical: int, seen: set<int>, dups: seq<int>)
    requires canonical !in seen && canonical !in dups
    ensures MoveAll(Merged(db0, canonical, seen), Counted(db0, t0, seen), canonical, dups)
            == (Merged(db0, canonical, seen + Members(dups)), Counted(db0, t0, seen + Members(dups)))
    decreases |dups|
  {
    if dups != [] {
      MoveOneStep(db0, t0, canonical, seen, dups[0]);
      MoveAllMerged(db0, t0, canonical, seen + {dups[0]}, dups[1..]);
      assert seen + {dups[0]} + Members(dups[1..]) == seen + Members(dups);
    }
  }

  /** A group whose kept id is not repeated among its duplicates is the all-at-once merge, with
      the counters grown by the rows it touched. */
  lemma GroupMerged(db: Db, t: Tally, ids: seq<int>)
    requires |ids| >= 2 && ids[0] !in ids[1..]
    ensures GroupResult(db, t, ids) == (Merged(db, ids[0], Members(ids[1..])), Counted(db, t, Members(ids[1..])))
  {
    MergedNone(db, t, ids[0]);
    MoveAllMerged(db, t, ids[0], Members([]), ids[1..]);
    assert Members([]) + Members(ids[1..]) == Members(ids[1..]);
  }

  /** The merge of one group of ids, statement by statement. A group with no duplicate is passed
      over; otherwise, when the kept id is not repeated among the duplicates, the result is the
      all-at-once merge and the counters grow by the rows it touched. */
  method MergeGroup(db: Db, t: Tally, ids: seq<int>) returns (db': Db, t': Tally)
    requires ids != []
    ensures (db', t') == GroupResult(db, t, ids)
    ensures |ids| < 2 ==> db' == db && t' == t
    ensures t'.groups == t.groups + (if |ids| >= 2 then 1 else 0)
    ensures |ids| >= 2 && ids[0] !in ids[1..] ==>
              db' == Merged(db, ids[0], Members(ids[1..])) && t' == Counted(db, t, Members(ids[1..]))
  {
    var canonical, dups := ids[0], ids[1..];
    if dups == [] { return db, t; }
    db', t' := db, t.(groups := t.groups + 1);
    var rest := dups;
    while rest != []
      invariant MoveAll(db', t', canonical, rest) == GroupResult(db, t, ids)
      invariant t'.groups == t.groups + 1
    {
      var (d, n) := MoveOne(db', t', canonical, rest[0]);
      db', t', rest := d, n, rest[1..];
    }
    if canonical !in dups {
      GroupMerged(db, t, ids);
    }
  }

  /** The ids listed in `xs`. */
  function Members(xs: seq<int>): set<int>
  {
    set d | d in xs
  }

  lemma MembersSnoc(xs: seq<int>, x: int)
    ensures Members(xs + [x]) == Members(xs) + {x}
  {
  }

  /** A group with no duplicate merged yet changes nothing but the group count. */
  lemma MergedNone(db: Db, t: Tally, canonical: int)
    ensures Merged(db, canonical, Members([])) == db
    ensures Counted(db, t, Members([])) == t.(groups := t.groups + 1)
  {
    assert Members([]) == {};
    RepointNone(db.measurements, canonical); RepointNone(db.entries, canonical);
    RepointNone(db.recipeFoods, canonical); RepointNone(db.barcodes, canonical);
    CountNone(db.measurements); CountNone(db.entries); CountNone(db.recipeFoods); CountNone(db.barcodes);
  }

  lemma {:induction false} RepointNone(refs: seq<int>, to: int)
    ensures Repoint(refs, {}, to) == refs
  {
    if refs != [] { RepointNone(refs[1..], to); }
  }

  lemma {:induction false} CountNone(refs: seq<int>)
    ensures CountIn(refs, {}) == 0
  {
    if refs != [] { CountNone(refs[1..]); }
  }

  /** Every row of one table points at one of `foods`. */
  predicate AllIn(refs: seq<int>, foods: set<int>)
  {
    forall i :: 0 <= i < |refs| ==> refs[i] in foods
  }

  /** Every row points at an existing food. */
  predicate Intact(db: Db)
  {
    AllIn(db.measurements, db.foods) && AllIn(db.entries, db.foods) && AllIn(db.recipeFoods, db.foods) && AllIn(db.barcodes, db.foods)
  }

  /** Repointing a table whose rows point at `foods` to a kept food leaves its rows pointing at
      `foods` without the duplicates. */
  lemma RepointIntact(refs: seq<int>, foods: set<int>, canonical: int, dups: set<int>)
    requires AllIn(refs, foods) && canonical in foods && canonical !in dups
    ensures AllIn(Repoint(refs, dups, canonical), foods - dups)
  {
    RepointElements(refs, dups, canonical);
  }

  /** A group's merge keeps every reference pointing at an existing food when the kept food exists. */
  lemma MergedIntact(db: Db, canonical: int, dups: set<int>)
    requires Intact(db) && canonical in db.foods && canonical !in dups
    ensures Intact(Merged(db, canonical, dups))
  {
    RepointIntact(db.measurements, db.foods, canonical, dups);
    RepointIntact(db.entries, db.foods, canonical, dups);
    RepointIntact(db.recipeFoods, db.foods, canonical, dups);
    RepointIntact(db.barcodes, db.foods, canonical, dups);
  }

  /** Merging a group a second time finds nothing left to move or delete. */
  lemma MergedTwice(db: Db, canonical: int, dups: set<int>)
    requires canonical !in dups
    ensures Merged(Merged(db, canonical, dups), canonical, dups) == Merged(db, canonical, dups)
    ensures CountIn(Merged(db, canonical, dups).measurements, dups) == 0
    ensures |Merged(db, canonical, dups).foods * dups| == 0
  {
    var m := Merged(db, canonical, dups);
    RepointTwice(db.measurements, dups, dups, canonical);
    RepointTwice(db.entries, dups, dups, canonical);
    RepointTwice(db.recipeFoods, dups, dups, canonical);
    RepointTwice(db.barcodes, dups, dups, canonical);
    assert dups + dups == dups;
    RepointClears(db.measurements, dups, canonical);
    assert m.foods * dups == {};
  }

  // ---------------------------------------------------------------------------------------
  // `merge`: the groups in order, one transaction each

  /** The groups `groups[..n]` merged in order, each committed before the next: a left fold of
      `GroupResult`. */
  function MergeRun(db: Db, t: Tally, groups: seq<Group>, n: nat): (r: (Db, Tally))
    requires n <= |groups| && forall k :: 0 <= k < |groups| ==> groups[k].ids != []
    ensures r.1.groups <= t.groups + n
  {
    if n == 0 then (db, t)
    else
      var (d, c) := MergeRun(db, t, groups, n - 1);
      GroupResult(d, c, groups[n - 1].ids)
  }

  /** The duplicates (every id after the first) of the groups `groups[..n]`. */
  function Dropped(groups: seq<Group>, n: nat): set<int>
    requires n <= |groups|
  {
    if n == 0 then {} else Dropped(groups, n - 1) + Duplicates(groups[n - 1].ids)
  }

  /** The ids of a group after the kept first one. */
  function Duplicates(ids: seq<int>): set<int>
  {
    if |ids| < 2 then {} else Members(ids[1..])
  }

  /** An id in none of the first `n` groups is none of their duplicates. */
  lemma {:induction false} UntouchedNotDropped(groups: seq<Group>, n: nat, x: int)
    requires n <= |groups| && Untouched(groups, n, x)
    ensures x !in Dropped(groups, n)
  {
    if n > 0 {
      assert x !in groups[n - 1].ids;
      UntouchedNotDropped(groups, n - 1, x);
    }
  }

  /** Every row of one table points outside `ids`. */
  predicate Avoids(refs: seq<int>, ids: set<int>)
  {
    forall i :: 0 <= i < |refs| ==> refs[i] !in ids
  }

  /** After the first `n` groups, when the groups are as the grouping query makes them, exactly
      their duplicates are gone from the food table and every row still points at an existing food. */
  lemma {:induction false} MergeRunIntact(db: Db, t: Tally, groups: seq<Group>, n: nat)
    requires n <= |groups| && forall k :: 0 <= k < |groups| ==> groups[k].ids != []
    requires Intact(db) && AllKeep(db, groups)
    ensures MergeRun(db, t, groups, n).0.foods == db.foods - Dropped(groups, n)
    ensures Intact(MergeRun(db, t, groups, n).0)
  {
    if n > 0 {
      MergeRunIntact(db, t, groups, n - 1);
      var (prev, c) := MergeRun(db, t, groups, n - 1);
      var ids := groups[n - 1].ids;
      if |ids| >= 2 {
        GroupStepIntact(db, groups, n - 1, prev, c);
      }
    }
  }

  /** One more group, merged into a database holding the earlier ones, removes exactly its
      duplicates and keeps every reference pointing at an existing food. */
  lemma GroupStepIntact(db: Db, groups: seq<Group>, k: nat, prev: Db, c: Tally)
    requires k < |groups| && forall j :: 0 <= j < |groups| ==> groups[j].ids != []
    requires AllKeep(db, groups) && |groups[k].ids| >= 2
    requires Intact(prev) && prev.foods == db.foods - Dropped(groups, k)
    ensures GroupResult(prev, c, groups[k].ids).0.foods == db.foods - Dropped(groups, k + 1)
    ensures Intact(GroupResult(prev, c, groups[k].ids).0)
  {
    var ids := groups[k].ids;
    assert Keeps(db, groups, k);
    assert Untouched(groups, k, ids[0]);
    UntouchedNotDropped(groups, k, ids[0]);
    GroupMerged(prev, c, ids);
    MergedIntact(prev, ids[0], Members(ids[1..]));
  }

  /** Hence, after the first `n` groups, no row of the four referencing tables points at a
      deleted duplicate. */
  lemma MergeRunClears(db: Db, t: Tally, groups: seq<Group>, n: nat)
    requires n <= |groups| && forall k :: 0 <= k < |groups| ==> groups[k].ids != []
    requires Intact(db) && AllKeep(db, groups)
    ensures var r := MergeRun(db, t, groups, n).0;
            && Avoids(r.measurements, Dropped(groups, n)) && Avoids(r.entries, Dropped(groups, n))
            && Avoids(r.recipeFoods, Dropped(groups, n)) && Avoids(r.barcodes, Dropped(groups, n))
  {
    MergeRunIntact(db, t, groups, n);
    var r := MergeRun(db, t, groups, n).0;
    AvoidsGone(r.measurements, r.foods, Dropped(groups, n));
    AvoidsGone(r.entries, r.foods, Dropped(groups, n));
    AvoidsGone(r.recipeFoods, r.foods, Dropped(groups, n));
    AvoidsGone(r.barcodes, r.foods, Dropped(groups, n));
  }

  /** Rows that point at existing foods point at no deleted one. */
  lemma AvoidsGone(refs: seq<int>, foods: set<int>, gone: set<int>)
    requires AllIn(refs, foods) && foods * gone == {}
    ensures Avoids(refs, gone)
  {
    forall i | 0 <= i < |refs| ensures refs[i] !in gone {
      assert refs[i] in foods && refs[i] !in foods * gone;
    }
  }

  /** The merge over `groups`, with `failing` the index of a group whose statements raise a
      database error: that group is rolled back and the error ends the run, so the database holds
      the groups before it. `stop` is the number of groups committed or passed over. */
  method Merge(db: Db, groups: seq<Group>, failing: Option<nat>) returns (db': Db, t: Tally, stop: nat, raised: bool)
    requires forall k :: 0 <= k < |groups| ==> groups[k].ids != []
    ensures raised <==> failing.Some? && failing.value < |groups|
    ensures stop == (if raised then failing.value else |groups|)
    ensures (db', t) == MergeRun(db, Tally(0, 0, 0, 0, 0, 0), groups, stop)
    ensures t.groups <= stop
    ensures (forall k :: 0 <= k < |groups| ==> |groups[k].ids| >= 2) ==> t.groups == stop
    ensures Intact(db) && AllKeep(db, groups) ==>
              Intact(db') && db'.foods == db.foods - Dropped(groups, stop)
              && Avoids(db'.measurements, Dropped(groups, stop)) && Avoids(db'.entries, Dropped(groups, stop))
              && Avoids(db'.recipeFoods, Dropped(groups, stop)) && Avoids(db'.barcodes, Dropped(groups, stop))
  {
    db', t, stop, raised := db, Tally(0, 0, 0, 0, 0, 0), 0, false;
    while stop < |groups|
      invariant stop <= |groups| && t.groups <= stop
      invariant (db', t) == MergeRun(db, Tally(0, 0, 0, 0, 0, 0), groups, stop)
      invariant (forall k :: 0 <= k < stop ==> |groups[k].ids| >= 2) ==> t.groups == stop
      invariant failing.Some? ==> stop <= failing.value
    {
      if failing == Some(stop) {
        raised := true;
        break;
      }
      db', t := MergeGroup(db', t, groups[stop].ids);
      stop := stop + 1;
    }
    if Intact(db) && AllKeep(db, groups) {
      MergeRunIntact(db, Tally(0, 0, 0, 0, 0, 0), groups, stop);
      MergeRunClears(db, Tally(0, 0, 0, 0, 0, 0), groups, stop);
    }
  }

  /** `x` is none of the first `n` groups' ids. */
  predicate Untouched(groups: seq<Group>, n: nat, x: int)
    requires n <= |groups|
  {
    forall j :: 0 <= j < n ==> x !in groups[j].ids
  }

  /** Every group keeps a food of the starting table that no other group touches. */
  predicate AllKeep(db: Db, groups: seq<Group>)
    requires forall k :: 0 <= k < |groups| ==> groups[k].ids != []
  {
    forall k :: 0 <= k < |groups| ==> Keeps(db, groups, k)
  }

  /** Group `k`'s kept id is a food of the starting table, belongs to no other group, and is not
      repeated among its duplicates: what the grouping query guarantees. */
  predicate Keeps(db: Db, groups: seq<Group>, k: nat)
    requires k < |groups| && groups[k].ids != []
  {
    var c := groups[k].ids[0];
    && c in db.foods && c !in groups[k].ids[1..]
    && forall j :: 0 <= j < |groups| && j != k ==> c !in groups[j].ids
  }
}

=== FILE: naming.dfy ===
/** Food-name standardisation and the abbreviation and unit-label helpers of the ingestion
    scripts. */
module Naming {
  import opened Wrappers
  import opened Text
  import opened Cleaning

  // ---------------------------------------------------------------------------------------
  // `_standardize_food_name`

  /** Length of the `[a-z]+(?:'[a-z]+)?` match at the start of `s` (which starts with a letter). */
  function WordMatchLen(s: string): (k: nat)
    requires s != [] && IsLowerLetter(s[0])
    ensures 1 <= k <= |s|
    ensures forall j :: 0 <= j < k ==> IsLowerLetter(s[j]) || s[j] == '\''
    ensures k < |s| ==> !IsLowerLetter(s[k])
  {
    var a := LetterRun(s, 0);
    if a + 1 < |s| && s[a] == '\'' && IsLowerLetter(s[a + 1]) then LetterRun(s, a + 1) else a
  }

  /** End of the run of lower-case letters starting at `i`. */
  function LetterRun(s: string, i: nat): (e: nat)
    requires i <= |s|
    ensures i <= e <= |s|
    ensures forall k :: i <= k < e ==> IsLowerLetter(s[k])
    ensures e < |s| ==> !IsLowerLetter(s[e])
    decreases |s| - i
  {
    if i < |s| && IsLowerLetter(s[i]) then LetterRun(s, i + 1) else i
  }

  /** `re.sub(r"[a-z]+(?:'[a-z]+)?", capitalize, s)`: the first letter of every match is upper-cased.
      `capitalize` also lower-cases the rest of the match, which holds only lower-case letters and
      an apostrophe, so the rest is kept as it is. */
  function TitleCase(s: string): (r: string)
    ensures |r| == |s|
    decreases |s|
  {
    if s == [] then []
    else if IsLowerLetter(s[0]) then
      var k := WordMatchLen(s);
      [UpperChar(s[0])] + s[1..k] + TitleCase(s[k..])
    else [s[0]] + TitleCase(s[1..])
  }

  /** `i` is where one of the pattern's matches begins, scanning `s` from the left as `re.sub`
      does: a match begins at the first lower-case letter not inside an earlier match. */
  predicate IsMatchStart(s: string, i: nat)
    requires i < |s|
    decreases |s|
  {
    if IsLowerLetter(s[0]) then
      var k := WordMatchLen(s);
      i == 0 || (k <= i && IsMatchStart(s[k..], i - k))
    else 0 < i && IsMatchStart(s[1..], i - 1)
  }

  /** `r` is `s` with the first letter of every match upper-cased and nothing else changed. */
  predicate CasedAt(s: string, r: string)
  {
    |r| == |s| && forall i :: 0 <= i < |s| ==> r[i] == (if IsMatchStart(s, i) then UpperChar(s[i]) else s[i])
  }

  /** Title-casing upper-cases the first letter of every match and leaves every other character
      as it is. */
  lemma {:induction false} TitleCasePositions(s: string)
    ensures CasedAt(s, TitleCase(s))
    decreases |s|
  {
    if s == [] {
    } else if IsLowerLetter(s[0]) {
      TitleCasePositions(s[WordMatchLen(s)..]);
      MatchStep(s);
    } else {
      TitleCasePositions(s[1..]);
      OtherStep(s);
    }
  }

  lemma MatchStep(s: string)
    requires s != [] && IsLowerLetter(s[0])
    requires CasedAt(s[WordMatchLen(s)..], TitleCase(s[WordMatchLen(s)..]))
    ensures CasedAt(s, TitleCase(s))
  {
    var k := WordMatchLen(s);
    var t := TitleCase(s[k..]);
    var r := TitleCase(s);
    assert r == [UpperChar(s[0])] + s[1..k] + t;
    forall i | 0 <= i < |s|
      ensures r[i] == (if IsMatchStart(s, i) then UpperChar(s[i]) else s[i])
    {
      if k <= i {
        assert r[i] == t[i - k] && s[k..][i - k] == s[i];
        assert IsMatchStart(s, i) == IsMatchStart(s[k..], i - k);
      }
    }
  }

  lemma OtherStep(s: string)
    requires s != [] && !IsLowerLetter(s[0])
    requires CasedAt(s[1..], TitleCase(s[1..]))
    ensures CasedAt(s, TitleCase(s))
  {
    var t := TitleCase(s[1..]);
    var r := TitleCase(s);
    assert r == [s[0]] + t;
    forall i | 0 <= i < |s|
      ensures r[i] == (if IsMatchStart(s, i) then UpperChar(s[i]) else s[i])
    {
      if 1 <= i {
        assert r[i] == t[i - 1] && s[1..][i - 1] == s[i];
        assert IsMatchStart(s, i) == IsMatchStart(s[1..], i - 1);
      }
    }
  }

  /** A match begins with a lower-case letter that does not follow another one. */
  lemma {:induction false} MatchStartIsWordStart(s: string, i: nat)
    requires i < |s| && IsMatchStart(s, i)
    ensures IsLowerLetter(s[i]) && (i == 0 || !IsLowerLetter(s[i - 1]))
    decreases |s|
  {
    if IsLowerLetter(s[0]) {
      var k := WordMatchLen(s);
      if i != 0 {
        MatchStartIsWordStart(s[k..], i - k);
        assert s[k..][i - k] == s[i];
        if i - k != 0 {
          assert s[k..][i - k - 1] == s[i - 1];
        }
      }
    } else {
      MatchStartIsWordStart(s[1..], i - 1);
      assert s[1..][i - 1] == s[i];
      if i - 1 != 0 {
        assert s[1..][i - 2] == s[i - 1];
      }
    }
  }

  /** A lower-case letter at the start of the text, or after a character that is neither a
      lower-case letter nor an apostrophe, begins a match. */
  lemma {:induction false} WordStartIsMatchStart(s: string, i: nat)
    requires i < |s| && IsLowerLetter(s[i])
    requires i == 0 || (!IsLowerLetter(s[i - 1]) && s[i - 1] != '\'')
    ensures IsMatchStart(s, i)
    decreases |s|
  {
    if IsLowerLetter(s[0]) {
      var k := WordMatchLen(s);
      if i != 0 {
        assert k <= i;
        assert s[k..][i - k] == s[i];
        if i - k != 0 {
          assert s[k..][i - k - 1] == s[i - 1];
        }
        WordStartIsMatchStart(s[k..], i - k);
      }
    } else {
      assert s[1..][i - 1] == s[i];
      if i - 1 != 0 {
        assert s[1..][i - 2] == s[i - 1];
      }
      WordStartIsMatchStart(s[1..], i - 1);
    }
  }

  /** The letter after an apostrophe inside a match is not a match start: "o'neil" becomes
      "O'neil". */
  lemma ApostropheStaysLower()
    ensures TitleCase("o'neil") == "O'neil"
  {
    var s := "o'neil";
    assert LetterRun(s, 6) == 6;
    assert LetterRun(s, 2) == 6;
    assert LetterRun(s, 1) == 1;
    assert LetterRun(s, 0) == 1;
    assert WordMatchLen(s) == 6;
    assert TitleCase(s) == [UpperChar('o')] + s[1..6] + TitleCase([]);
  }

  /** `r` is `s` with some characters replaced by their upper-case form. */
  predicate CaseVariant(r: string, s: string)
  {
    |r| == |s| && forall i :: 0 <= i < |s| ==> r[i] == s[i] || r[i] == UpperChar(s[i])
  }

  lemma CaseVariantConcat(r1: string, s1: string, r2: string, s2: string)
    requires CaseVariant(r1, s1) && CaseVariant(r2, s2)
    ensures CaseVariant(r1 + r2, s1 + s2)
  {
    assert forall i :: |s1| <= i < |s1| + |s2| ==> (r1 + r2)[i] == r2[i - |s1|] && (s1 + s2)[i] == s2[i - |s1|];
  }

  /** Every character of the title-cased string is the original one or its upper-case form. */
  lemma {:induction false} TitleCaseChars(s: string)
    ensures CaseVariant(TitleCase(s), s)
    decreases |s|
  {
    if s == [] {
    } else if IsLowerLetter(s[0]) {
      var k := WordMatchLen(s);
      TitleCaseChars(s[k..]);
      assert CaseVariant([UpperChar(s[0])], [s[0]]);
      assert CaseVariant(s[1..k], s[1..k]);
      CaseVariantConcat([UpperChar(s[0])], [s[0]], s[1..k], s[1..k]);
      CaseVariantConcat([UpperChar(s[0])] + s[1..k], [s[0]] + s[1..k], TitleCase(s[k..]), s[k..]);
      assert s == [s[0]] + s[1..k] + s[k..];
    } else {
      TitleCaseChars(s[1..]);
      assert CaseVariant([s[0]], [s[0]]);
      CaseVariantConcat([s[0]], [s[0]], TitleCase(s[1..]), s[1..]);
      assert s == [s[0]] + s[1..];
    }
  }

  /** Title-casing only changes letter case. */
  lemma TitleCaseLower(s: string)
    ensures Lower(TitleCase(s)) == Lower(s)
  {
    var r := TitleCase(s);
    TitleCaseChars(s);
    assert forall i :: 0 <= i < |s| ==> LowerChar(r[i]) == LowerChar(s[i]);
  }

  /** `_standardize_food_name`: clean, collapse whitespace runs to one space, lower-case, then
      capitalise every word. */
  function StandardizeFoodName(v: Cell): (r: Option<string>)
    ensures r.None? <==> ImportCleanString(v).None?
    ensures r.Some? ==> |r.value| == |CollapseSpaces(ImportCleanString(v).value)|
    ensures r.Some? ==> Lower(r.value) == Lower(CollapseSpaces(ImportCleanString(v).value))
  {
    match ImportCleanString(v)
    case None => None
    case Some(c) =>
      var t := Lower(CollapseSpaces(c));
      TitleCaseLower(t);
      LowerIdempotent(CollapseSpaces(c));
      Some(TitleCase(t))
  }

  /** The standardised name is the lower-cased, whitespace-collapsed cleaned name with the first
      letter of every match of the word pattern upper-cased and nothing else changed. */
  lemma StandardizedCase(v: Cell)
    requires StandardizeFoodName(v).Some?
    ensures var t := Lower(CollapseSpaces(ImportCleanString(v).value));
            var r := StandardizeFoodName(v).value;
            CasedAt(t, r)
  {
    TitleCasePositions(Lower(CollapseSpaces(ImportCleanString(v).value)));
  }

  /** A standardised name has single spaces only, none at either end, and is non-empty. */
  lemma StandardizedShape(v: Cell)
    requires StandardizeFoodName(v).Some?
    ensures var r := StandardizeFoodName(v).value;
            r != [] && Stripped(r)
            && (forall i :: 0 <= i < |r| ==> (IsSpace(r[i]) ==> r[i] == ' '))
            && (forall i :: 0 <= i < |r| - 1 ==> !(IsSpace(r[i]) && IsSpace(r[i + 1])))
  {
    var c := ImportCleanString(v).value;
    var k := CollapseSpaces(c);
    var t := Lower(k);
    var r := StandardizeFoodName(v).value;
    assert r == TitleCase(t);
    assert forall i :: 0 <= i < |r| ==> (IsSpace(r[i]) <==> IsSpace(k[i]));
  }

  /** Standardising a standardised name changes nothing, unless the name has become one of the
      sentinel spellings, which the cleaning step then discards. */
  lemma StandardizeIdempotent(v: Cell)
    requires StandardizeFoodName(v).Some?
    requires StandardizeFoodName(v).value !in ImportSentinels
    ensures StandardizeFoodName(Str(StandardizeFoodName(v).value)) == StandardizeFoodName(v)
  {
    var r := StandardizeFoodName(v).value;
    StandardizedShape(v);
    StripOfStripped(r);
    assert !AllSpace(r) by { assert !IsSpace(r[0]); }
    ImportCleanKeepsRealText(r);
    CollapseFixed(r);
    var c := ImportCleanString(v).value;
    var t := Lower(CollapseSpaces(c));
    TitleCaseLower(t);
    LowerIdempotent(CollapseSpaces(c));
    TitleCaseOfLower(t, r);
  }

  /** Title-casing depends only on the lower-case form. */
  lemma TitleCaseOfLower(t: string, r: string)
    requires r == TitleCase(t) && Lower(t) == t
    ensures TitleCase(Lower(r)) == r
  {
    TitleCaseLower(t);
  }

  /** "NONE" standardises to "None", which is itself a sentinel (see `NoneIsDiscarded`):
      standardising twice loses the name. */
  lemma StandardizeUpperNone()
    ensures StandardizeFoodName(Str("NONE")) == Some("None")
  {
    UpperNoneCleans();
    UpperNoneCollapses();
    UpperNoneTitles();
  }

  lemma UpperNoneCleans()
    ensures ImportCleanString(Str("NONE")) == Some("NONE")
  {
    UpperNoneStripped();
    UpperNoneNotSentinel();
    assert !AllSpace("NONE") by { assert !IsSpace("NONE"[0]); }
    ImportCleanKeepsRealText("NONE");
  }

  lemma UpperNoneStripped()
    ensures Strip("NONE") == "NONE"
  {
    var s := "NONE";
    assert !IsSpace(s[0]) && !IsSpace(s[3]);
    StripOfStripped(s);
  }

  lemma UpperNoneNotSentinel()
    ensures "NONE" !in ImportSentinels
  {
    var s := "NONE";
    assert s[1] == 'O';
    assert s != "NULL" && s != "None" && s != "null";
  }

  lemma UpperNoneCollapses()
    ensures Lower(CollapseSpaces("NONE")) == "none"
  {
    var s := "NONE";
    assert NoSpace(s);
    CollapseFixed(s);
  }

  lemma UpperNoneTitles()
    ensures TitleCase("none") == "None"
  {
    var t := "none";
    assert LetterRun(t, 4) == 4;
    assert LetterRun(t, 0) == 4;
    assert WordMatchLen(t) == 4;
    assert TitleCase(t) == [UpperChar('n')] + t[1..4] + TitleCase([]);
  }

  lemma NoneIsDiscarded()
    ensures StandardizeFoodName(Str("None")) == None
  {
    var s := "None";
    assert !IsSpace(s[0]) && !IsSpace(s[3]);
    StripOfStripped(s);
  }

  // ---------------------------------------------------------------------------------------
  // Leading counts

  /** `re.sub(r"^\d+\s*", "", s)`: a leading integer and the blanks after it. */
  function DropLeadingInt(s: string): (r: string)
    ensures |r| <= |s| && (|r| == |s| ==> r == s)
    ensures |r| < |s| ==> r == s[|s| - |r|..]
    ensures s == [] || !IsDigit(s[0]) ==> r == s
    ensures s != [] && IsDigit(s[0]) ==> (r == [] || !IsSpace(r[0]))
  {
    if s != [] && IsDigit(s[0]) then TrimStart(s[DigitRun(s, 0)..]) else s
  }

  /** End of the `\d+(\.\d+)?` count at the start of `s` (which starts with a digit). */
  function CountEnd(s: string): (e: nat)
    requires s != [] && IsDigit(s[0])
    ensures 0 < e <= |s|
  {
    var a := DigitRun(s, 0);
    if a + 1 < |s| && s[a] == '.' && IsDigit(s[a + 1]) then DigitRun(s, a + 1) else a
  }

  /** `re.sub(r"^\d+(\.\d+)?\s*", "", s)`: a leading integer or decimal and the blanks after it. */
  function DropLeadingDecimal(s: string): (r: string)
    ensures |r| <= |s| && (|r| == |s| ==> r == s)
    ensures |r| < |s| ==> r == s[|s| - |r|..]
    ensures s == [] || !IsDigit(s[0]) ==> r == s
  {
    if s != [] && IsDigit(s[0]) then TrimStart(s[CountEnd(s)..]) else s
  }

  // ---------------------------------------------------------------------------------------
  // The three `_create_abbreviation` variants and `_create_unit_label`

  /** First word truncated to eight characters, else the space-free description. */
  function FirstWordOr(cleaned: string, desc: string): (r: string)
    ensures |r| <= 8
    ensures !AllSpace(cleaned) ==> r != [] && NoSpace(r)
  {
    WordsEmptyIffAllSpace(cleaned);
    var words := Words(cleaned);
    if words != [] then Take(words[0], 8) else Take(RemoveChar(Lower(desc), ' '), 8)
  }

  /** `_create_abbreviation` of the FDC/OpenFoodFacts importer. */
  function ImportAbbreviation(desc: string): (r: string)
    ensures |r| <= 8
    ensures !AllSpace(DropLeadingInt(Lower(desc))) ==> r != [] && NoSpace(r)
  {
    FirstWordOr(DropLeadingInt(Lower(desc)), desc)
  }

  /** Abbreviations are lower case. */
  lemma ImportAbbreviationLowerCase(desc: string)
    ensures NoUpper(ImportAbbreviation(desc))
  {
    var lowered := Lower(desc);
    var cleaned := DropLeadingInt(lowered);
    SuffixNoUpper(lowered, |lowered| - |cleaned|);
    FirstWordOrNoUpper(cleaned, desc);
  }

  lemma SuffixNoUpper(s: string, k: nat)
    requires NoUpper(s) && k <= |s|
    ensures NoUpper(s[k..])
  {
    assert forall i :: 0 <= i < |s[k..]| ==> s[k..][i] == s[k + i];
  }

  lemma FirstWordOrNoUpper(cleaned: string, desc: string)
    requires NoUpper(cleaned)
    ensures NoUpper(FirstWordOr(cleaned, desc))
  {
    var words := Words(cleaned);
    if words != [] {
      WordsNoUpper(cleaned);
      assert words[0] in words;
      var w := words[0];
      SliceNoUpper(w, 0, |Take(w, 8)|);
      assert w[0..|Take(w, 8)|] == Take(w, 8);
    } else {
      var l := Lower(desc);
      assert NoUpper(l);
      RemoveCharNoUpper(l, ' ');
      var w := RemoveChar(l, ' ');
      SliceNoUpper(w, 0, |Take(w, 8)|);
      assert w[0..|Take(w, 8)|] == Take(w, 8);
    }
  }

  lemma {:induction false} WordsNoUpper(s: string)
    requires NoUpper(s)
    ensures forall w :: w in Words(s) ==> NoUpper(w)
    decreases |s|
  {
    var t := TrimStart(s);
    SliceNoUpper(s, |s| - |t|, |s|);
    assert s[|s| - |t|..|s|] == t;
    if t != [] {
      var k := WordEnd(t);
      SliceNoUpper(t, 0, k);
      SliceNoUpper(t, k, |t|);
      assert t[k..|t|] == t[k..];
      assert t[0..k] == t[..k];
      WordsNoUpper(t[k..]);
      assert Words(s) == [t[..k]] + Words(t[k..]);
    }
  }

  lemma SliceNoUpper(s: string, a: nat, b: nat)
    requires NoUpper(s) && a <= b <= |s|
    ensures NoUpper(s[a..b])
  {
    assert forall i :: 0 <= i < b - a ==> s[a..b][i] == s[a + i];
  }

  lemma {:induction false} RemoveCharNoUpper(s: string, c: char)
    requires NoUpper(s)
    ensures NoUpper(RemoveChar(s, c))
  {
    if s != [] {
      RemoveCharNoUpper(s[1..], c);
    }
  }

  /** A leading count does not change the abbreviation of a description that has a word. */
  lemma ImportAbbreviationIgnoresCount(count: string, gap: string, desc: string)
    requires count != [] && AllDigits(count) && AllSpace(gap)
    requires desc != [] && !IsDigit(desc[0]) && !IsSpace(desc[0])
    ensures ImportAbbreviation(count + gap + desc) == ImportAbbreviation(desc)
  {
    var ld := Lower(desc);
    LowerCountGap(count, gap, desc);
    assert ld[0] == LowerChar(desc[0]);
    CountDropped(count, Lower(gap), ld);
    assert !AllSpace(ld) by { assert !IsSpace(ld[0]); }
    FirstWordOrIgnoresFallback(ld, count + gap + desc, desc);
  }

  lemma LowerCountGap(count: string, gap: string, desc: string)
    requires AllDigits(count) && AllSpace(gap)
    ensures Lower(count + gap + desc) == count + (Lower(gap) + Lower(desc))
    ensures AllSpace(Lower(gap))
  {
    assert Lower(count + gap + desc) == Lower(count) + Lower(gap) + Lower(desc);
    assert Lower(count) == count;
  }

  lemma CountDropped(count: string, gap: string, rest: string)
    requires count != [] && AllDigits(count) && AllSpace(gap)
    requires rest != [] && !IsDigit(rest[0]) && !IsSpace(rest[0])
    ensures DropLeadingInt(count + (gap + rest)) == rest
  {
    var s := count + (gap + rest);
    assert gap + rest == [] || !IsDigit((gap + rest)[0]);
    DigitRunOver(count, gap + rest, 0);
    assert s[|count|..] == gap + rest;
    TrimStartPadded(gap, rest);
  }

  lemma FirstWordOrIgnoresFallback(cleaned: string, d1: string, d2: string)
    requires !AllSpace(cleaned)
    ensures FirstWordOr(cleaned, d1) == FirstWordOr(cleaned, d2)
  {
    WordsEmptyIffAllSpace(cleaned);
  }

  lemma {:induction false} DigitRunOver(d: string, rest: string, i: nat)
    requires AllDigits(d) && i <= |d| && (rest == [] || !IsDigit(rest[0]))
    ensures DigitRun(d + rest, i) == |d|
    decreases |d| - i
  {
    if i < |d| {
      DigitRunOver(d, rest, i + 1);
    }
  }

  /** The unit words whose surrounding blanks the CSV poster removes, in the order its pattern
      tries them. */
  const UnitWords: seq<string> := ["piece", "pieces", "slice", "slices", "cup", "cups", "tablespoon", "teaspoon"]

  /** The first unit word (in pattern order) that `s` starts with. */
  function UnitPrefix(s: string, k: nat): (r: Option<string>)
    requires k <= |UnitWords|
    ensures r.Some? ==> r.value in UnitWords && |r.value| >= 3 && r.value <= s
    decreases |UnitWords| - k
  {
    if k == |UnitWords| then None
    else if UnitWords[k] <= s then Some(UnitWords[k])
    else UnitPrefix(s, k + 1)
  }

  /** `re.sub(r"\s*(piece|pieces|slice|slices|cup|cups|tablespoon|teaspoon)\s*", r"\1", s)`. */
  function GlueUnits(s: string): (r: string)
    ensures |r| <= |s|
    decreases |s|
  {
    if s == [] then []
    else
      var t := TrimStart(s);
      match UnitPrefix(t, 0)
      case Some(u) =>
        var after := TrimStart(t[|u|..]);
        u + GlueUnits(after)
      case None => [s[0]] + GlueUnits(s[1..])
  }

  /** Blanks around a unit word disappear, and the unit word is kept. */
  lemma GlueAroundUnit(before: string, u: string, after: string, rest: string)
    requires AllSpace(before) && AllSpace(after) && (rest == [] || !IsSpace(rest[0]))
    requires UnitPrefix(u + after + rest, 0) == Some(u)
    ensures GlueUnits(before + u + after + rest) == u + GlueUnits(rest)
  {
    var s := before + u + after + rest;
    SkipBlanksBeforeUnit(before, u, after, rest);
    SkipBlanksAfterUnit(u, after, rest);
    UnitStartsWithLetter(u);
    GlueStep(s, u);
  }

  lemma SkipBlanksBeforeUnit(before: string, u: string, after: string, rest: string)
    requires AllSpace(before) && UnitPrefix(u + after + rest, 0) == Some(u)
    ensures TrimStart(before + u + after + rest) == u + after + rest
  {
    var t := u + after + rest;
    UnitStartsWithLetter(u);
    assert before + u + after + rest == before + t;
    assert !IsSpace(t[0]) by { assert t[0] == u[0]; }
    TrimStartPadded(before, t);
  }

  lemma SkipBlanksAfterUnit(u: string, after: string, rest: string)
    requires AllSpace(after) && (rest == [] || !IsSpace(rest[0]))
    ensures TrimStart((u + after + rest)[|u|..]) == rest
  {
    assert (u + after + rest)[|u|..] == after + rest;
    TrimStartPadded(after, rest);
  }

  lemma UnitStartsWithLetter(u: string)
    requires u in UnitWords
    ensures u != [] && IsLowerLetter(u[0])
  {
  }

  lemma GlueStep(s: string, u: string)
    requires s != [] && UnitPrefix(TrimStart(s), 0) == Some(u)
    ensures GlueUnits(s) == u + GlueUnits(TrimStart(TrimStart(s)[|u|..]))
  {
  }

  /** `_create_abbreviation` of the CSV poster: the leading count goes, unit words are glued to
      their neighbours, then the first word is cut to eight characters. */
  function CsvAbbreviation(desc: string): (r: string)
    ensures |r| <= 8
  {
    FirstWordOr(GlueUnits(DropLeadingInt(Lower(desc))), desc)
  }

  /** `_create_abbreviation` of the portion importer: the leading count may be a decimal. */
  function PortionAbbreviation(desc: string): (r: string)
    ensures |r| <= 8
    ensures !AllSpace(DropLeadingDecimal(Lower(desc))) ==> r != [] && NoSpace(r)
  {
    var cleaned := Strip(DropLeadingDecimal(Lower(desc)));
    StripEmptyIffAllSpace(DropLeadingDecimal(Lower(desc)));
    assert cleaned != [] ==> !AllSpace(cleaned) by {
      if cleaned != [] { assert !IsSpace(cleaned[0]); }
    }
    FirstWordOr(cleaned, desc)
  }

  /** The portion importer drops a decimal count where the others would keep its fraction. */
  lemma PortionAbbreviationDropsDecimal(count: string, frac: string, desc: string)
    requires count != [] && AllDigits(count) && frac != [] && AllDigits(frac)
    requires desc != [] && !IsDigit(desc[0]) && !IsSpace(desc[0])
    ensures DropLeadingDecimal(Lower(count + "." + frac + " " + desc)) == Lower(desc)
  {
    LowerKeepsCount(count + "." + frac + " ", desc);
    DecimalCountDropped(count, frac, Lower(desc));
  }

  lemma LowerKeepsCount(prefix: string, desc: string)
    requires forall i :: 0 <= i < |prefix| ==> !IsUpperLetter(prefix[i])
    ensures Lower(prefix + desc) == prefix + Lower(desc)
  {
  }

  lemma DecimalCountDropped(count: string, frac: string, rest: string)
    requires count != [] && AllDigits(count) && frac != [] && AllDigits(frac)
    requires rest != [] && !IsDigit(rest[0]) && !IsSpace(rest[0])
    ensures DropLeadingDecimal(count + "." + frac + " " + rest) == rest
  {
    DecimalParts(count, frac, rest);
    TrimStartPadded(" ", rest);
  }

  lemma DecimalParts(count: string, frac: string, rest: string)
    requires count != [] && AllDigits(count) && frac != [] && AllDigits(frac)
    requires rest != [] && !IsDigit(rest[0])
    ensures var s := count + "." + frac + " " + rest;
            s != [] && IsDigit(s[0]) && s[CountEnd(s)..] == " " + rest
  {
    var s := count + "." + frac + " " + rest;
    var cf := count + "." + frac;
    assert s == count + ("." + frac + " " + rest);
    DigitRunOver(count, "." + frac + " " + rest, 0);
    assert s == cf + (" " + rest);
    assert AllDigits(frac);
    DigitRunOverFrac(cf, " " + rest, |count| + 1);
  }

  lemma {:induction false} DigitRunOverFrac(d: string, rest: string, i: nat)
    requires i <= |d| && AllDigits(d[i..]) && (rest == [] || !IsDigit(rest[0]))
    ensures DigitRun(d + rest, i) == |d|
    decreases |d| - i
  {
    if i < |d| {
      assert d[i..][0] == d[i];
      assert d[i + 1..] == d[i..][1..];
      DigitRunOverFrac(d, rest, i + 1);
    }
  }

  /** `_create_unit_label`: the description without its leading count, else the whole description. */
  function UnitLabel(desc: string): (r: string)
    ensures Stripped(r)
    ensures r == [] ==> AllSpace(desc)
  {
    var cleaned := Strip(DropLeadingDecimal(desc));
    StripEmptyIffAllSpace(desc);
    if cleaned != [] then cleaned else Strip(desc)
  }

  /** A description led by a decimal count is labelled by the text after it, trimmed; one with no
      leading count is labelled by itself, trimmed. */
  lemma UnitLabelDropsCount(count: string, frac: string, rest: string)
    requires count != [] && AllDigits(count) && frac != [] && AllDigits(frac)
    requires rest != [] && !IsDigit(rest[0]) && !IsSpace(rest[0])
    ensures UnitLabel(count + "." + frac + " " + rest) == Strip(rest)
    ensures UnitLabel(rest) == Strip(rest)
  {
    DecimalCountDropped(count, frac, rest);
    StripEmptyIffAllSpace(rest);
    assert !AllSpace(rest) by { assert !IsSpace(rest[0]); }
  }
}

=== FILE: numeric.dfy ===
/** `_clean_numeric`: the first signed decimal or exponent number found in a cell, after
    commas are removed. The pattern `[-+]?\d*\.?\d+(?:[eE][-+]?\d+)?` is modelled twice: as the
    scanner the regular-expression engine effectively runs (greedy with backtracking, leftmost
    start), and as a finite automaton that recognises the pattern's language. The lemmas tie
    the two together. Converting the token to a float is outside the model. */
module NumericToken {
  import opened Wrappers
  import opened Text
  import opened Cleaning

  predicate IsSign(c: char) { c == '+' || c == '-' }

  predicate IsExpMark(c: char) { c == 'e' || c == 'E' }

  /** What `_clean_numeric` yields: 0.0 without a token, else the float of the token. */
  datatype Numeric = Zero | Token(text: string)

  // ---------------------------------------------------------------------------------------
  // Reference: an automaton for the pattern's language

  datatype State = Start | Signed | Int | Dot | Frac | Exp | ExpSigned | ExpDigits | Dead

  function Step(q: State, c: char): State {
    match q
    case Start => if IsSign(c) then Signed else if IsDigit(c) then Int else if c == '.' then Dot else Dead
    case Signed => if IsDigit(c) then Int else if c == '.' then Dot else Dead
    case Int => if IsDigit(c) then Int else if c == '.' then Dot else if IsExpMark(c) then Exp else Dead
    case Dot => if IsDigit(c) then Frac else Dead
    case Frac => if IsDigit(c) then Frac else if IsExpMark(c) then Exp else Dead
    case Exp => if IsSign(c) then ExpSigned else if IsDigit(c) then ExpDigits else Dead
    case ExpSigned => if IsDigit(c) then ExpDigits else Dead
    case ExpDigits => if IsDigit(c) then ExpDigits else Dead
    case Dead => Dead
  }

  function Run(q: State, t: string): State
    decreases |t|
  {
    if t == [] then q else Run(Step(q, t[0]), t[1..])
  }

  predicate Accepting(q: State) { q == Int || q == Frac || q == ExpDigits }

  /** `t` is in the language of `[-+]?\d*\.?\d+(?:[eE][-+]?\d+)?`. */
  predicate IsNumberText(t: string) { Accepting(Run(Start, t)) }

  lemma {:induction false} RunAppend(q: State, a: string, b: string)
    ensures Run(q, a + b) == Run(Run(q, a), b)
    decreases |a|
  {
    if a != [] {
      assert (a + b)[0] == a[0] && (a + b)[1..] == a[1..] + b;
      RunAppend(Step(q, a[0]), a[1..], b);
    } else {
      assert a + b == b;
    }
  }

  lemma {:induction false} RunDead(t: string)
    ensures Run(Dead, t) == Dead
    decreases |t|
  {
    if t != [] { RunDead(t[1..]); }
  }

  /** A digit run keeps the automaton in a digit state. */
  lemma {:induction false} RunDigits(q: State, t: string)
    requires q == Int || q == Frac || q == ExpDigits
    requires AllDigits(t)
    ensures Run(q, t) == q
    decreases |t|
  {
    if t != [] { RunDigits(q, t[1..]); }
  }

  // ---------------------------------------------------------------------------------------
  // The scanner

  /** End of the `\d*\.?\d+` part matched at `i`, if it matches there. */
  function MantissaEnd(s: string, i: nat): (r: Option<nat>)
    requires i <= |s|
    ensures r.Some? ==> i < r.value <= |s|
  {
    var a := DigitRun(s, i);
    if a + 1 < |s| && s[a] == '.' && IsDigit(s[a + 1]) then Some(DigitRun(s, a + 1))
    else if a > i then Some(a)
    else None
  }

  /** End of the optional exponent after a mantissa ending at `m`. */
  function ExponentEnd(s: string, m: nat): (e: nat)
    requires m <= |s|
    ensures m <= e <= |s|
  {
    if m < |s| && IsExpMark(s[m]) then
      var k := if m + 1 < |s| && IsSign(s[m + 1]) then m + 2 else m + 1;
      if k < |s| && IsDigit(s[k]) then DigitRun(s, k) else m
    else m
  }

  /** End of the token the pattern matches when the search is at position `i`. */
  function TokenAt(s: string, i: nat): (r: Option<nat>)
    requires i <= |s|
    ensures r.Some? ==> i < r.value <= |s|
  {
    var j := if i < |s| && IsSign(s[i]) then i + 1 else i;
    match MantissaEnd(s, j)
    case None => None
    case Some(m) => Some(ExponentEnd(s, m))
  }

  /** `re.search`: the leftmost position from `i` on where the pattern matches. */
  function Search(s: string, i: nat): (r: Option<(nat, nat)>)
    requires i <= |s|
    ensures r.Some? ==> i <= r.value.0 < r.value.1 <= |s| && TokenAt(s, r.value.0) == Some(r.value.1)
    ensures r.Some? ==> forall k :: i <= k < r.value.0 ==> TokenAt(s, k).None?
    ensures r.None? ==> forall k :: i <= k <= |s| ==> TokenAt(s, k).None?
    decreases |s| - i
  {
    if TokenAt(s, i).Some? then Some((i, TokenAt(s, i).value))
    else if i == |s| then None
    else Search(s, i + 1)
  }

  // ---------------------------------------------------------------------------------------
  // Scanner against automaton

  lemma RunSplit(q: State, s: string, x: nat, y: nat, z: nat)
    requires x <= y <= z <= |s|
    ensures Run(q, s[x..z]) == Run(Run(q, s[x..y]), s[y..z])
  {
    assert s[x..z] == s[x..y] + s[y..z];
    RunAppend(q, s[x..y], s[y..z]);
  }

  lemma RunOne(q: State, s: string, x: nat)
    requires x < |s|
    ensures Run(q, s[x..x + 1]) == Step(q, s[x])
  {
    assert s[x..x + 1][1..] == [];
  }

  lemma RunCons(q: State, s: string, x: nat, z: nat)
    requires x < z <= |s|
    ensures Run(q, s[x..z]) == Run(Step(q, s[x]), s[x + 1..z])
  {
    RunSplit(q, s, x, x + 1, z);
    RunOne(q, s, x);
  }

  /** A non-empty digit run from a start or sign state ends in the integer state. */
  lemma RunIntDigits(q: State, s: string, x: nat, y: nat)
    requires q == Start || q == Signed || q == Int
    requires x < y <= |s| && AllDigits(s[x..y])
    ensures Run(q, s[x..y]) == Int
  {
    RunSplit(q, s, x, x + 1, y);
    RunOne(q, s, x);
    assert s[x..y][0] == s[x];
    RunDigits(Int, s[x + 1..y]);
  }

  /** The mantissa the scanner takes drives the automaton into a digit state. */
  lemma MantissaRun(s: string, j: nat, q0: State)
    requires j <= |s| && MantissaEnd(s, j).Some?
    requires q0 == Start || q0 == Signed
    ensures Run(q0, s[j..MantissaEnd(s, j).value]) in {Int, Frac}
  {
    var a := DigitRun(s, j);
    var m := MantissaEnd(s, j).value;
    if a + 1 < |s| && s[a] == '.' && IsDigit(s[a + 1]) {
      var qa := Run(q0, s[j..a]);
      if a > j {
        RunIntDigits(q0, s, j, a);
      } else {
        assert s[j..a] == [];
      }
      assert Step(qa, s[a]) == Dot;
      assert Step(Dot, s[a + 1]) == Frac;
      assert m == DigitRun(s, a + 1);
      SliceDigits(s, a + 1, a + 2, m);
      RunSplit(q0, s, j, a, m);
      RunCons(qa, s, a, m);
      RunCons(Dot, s, a + 1, m);
      RunDigits(Frac, s[a + 2..m]);
    } else {
      RunIntDigits(q0, s, j, m);
    }
  }

  /** A suffix of a digit run is a digit run. */
  lemma SliceDigits(s: string, i: nat, x: nat, e: nat)
    requires i <= x <= e <= |s| && AllDigits(s[i..e])
    ensures AllDigits(s[x..e])
  {
    assert forall k :: 0 <= k < e - x ==> s[x..e][k] == s[i..e][k + x - i];
  }

  /** The exponent the scanner takes, when it takes one, ends in the exponent-digit state. */
  lemma ExponentRun(s: string, m: nat, q: State)
    requires m <= |s| && ExponentEnd(s, m) > m
    requires q == Int || q == Frac
    ensures Run(q, s[m..ExponentEnd(s, m)]) == ExpDigits
  {
    var e := ExponentEnd(s, m);
    var k := if m + 1 < |s| && IsSign(s[m + 1]) then m + 2 else m + 1;
    RunSplit(q, s, m, m + 1, e);
    RunOne(q, s, m);
    if k == m + 2 {
      RunSplit(Exp, s, m + 1, m + 2, e);
      RunOne(Exp, s, m + 1);
      RunSplit(ExpSigned, s, k, k + 1, e);
      RunOne(ExpSigned, s, k);
    } else {
      RunSplit(Exp, s, k, k + 1, e);
      RunOne(Exp, s, k);
    }
    RunDigits(ExpDigits, s[k + 1..e]);
  }

  /** Every token the scanner reports is a number in the pattern's language. */
  lemma TokenIsNumber(s: string, i: nat)
    requires i <= |s| && TokenAt(s, i).Some?
    ensures IsNumberText(s[i..TokenAt(s, i).value])
  {
    var e := TokenAt(s, i).value;
    var j := if i < |s| && IsSign(s[i]) then i + 1 else i;
    var m := MantissaEnd(s, j).value;
    var q0 := if j == i + 1 then Signed else Start;
    if j == i + 1 {
      RunOne(Start, s, i);
    } else {
      assert s[i..j] == [];
    }
    assert Run(Start, s[i..j]) == q0;
    MantissaRun(s, j, q0);
    RunSplit(Start, s, i, j, m);
    var qm := Run(Start, s[i..m]);
    if e > m {
      ExponentRun(s, m, qm);
      RunSplit(Start, s, i, m, e);
    }
  }

  /** A token ends where no digit can extend it. */
  lemma TokenIsMaximal(s: string, i: nat)
    requires i <= |s| && TokenAt(s, i).Some?
    ensures TokenAt(s, i).value < |s| ==> !IsDigit(s[TokenAt(s, i).value])
  {
  }

  /** The first one or two characters of a number decide whether the scanner starts a token there. */
  lemma NumberStart(t: string)
    requires IsNumberText(t)
    ensures |t| >= 1
    ensures IsDigit(t[0]) || (|t| >= 2 && t[0] == '.' && IsDigit(t[1]))
         || (|t| >= 2 && IsSign(t[0]) && (IsDigit(t[1]) || (|t| >= 3 && t[1] == '.' && IsDigit(t[2]))))
  {
    if !(|t| >= 1 && (IsDigit(t[0]) || (|t| >= 2 && t[0] == '.' && IsDigit(t[1]))
         || (|t| >= 2 && IsSign(t[0]) && (IsDigit(t[1]) || (|t| >= 3 && t[1] == '.' && IsDigit(t[2])))))) {
      NotNumberStart(t);
    }
  }

  /** Text whose first characters cannot begin the pattern is not a number. */
  lemma NotNumberStart(t: string)
    requires !(|t| >= 1 && (IsDigit(t[0]) || (|t| >= 2 && t[0] == '.' && IsDigit(t[1]))
         || (|t| >= 2 && IsSign(t[0]) && (IsDigit(t[1]) || (|t| >= 3 && t[1] == '.' && IsDigit(t[2]))))))
    ensures !IsNumberText(t)
  {
    if t == [] {
      assert Run(Start, t) == Start;
    } else if t[0] == '.' {
      RunAfterTwo(t);
    } else if IsSign(t[0]) {
      if |t| == 1 {
        assert Run(Start, t) == Run(Signed, t[1..]);
        assert t[1..] == [];
      } else if t[1] == '.' {
        RunAfterThree(t);
      } else {
        RunAfterTwo(t);
      }
    } else {
      assert Run(Start, t) == Run(Dead, t[1..]);
      RunDead(t[1..]);
    }
  }

  /** Helper for `NumberStart`: a '.' or sign not followed by what the pattern needs rejects. */
  lemma RunAfterTwo(t: string)
    requires |t| >= 1
    requires (t[0] == '.' && (|t| == 1 || !IsDigit(t[1])))
          || (IsSign(t[0]) && |t| >= 2 && !IsDigit(t[1]) && t[1] != '.')
    ensures !IsNumberText(t)
  {
    if |t| == 1 {
      assert Run(Start, t) == Run(Dot, []);
    } else {
      assert t[1..][0] == t[1];
      assert Run(Start, t) == Run(Step(Start, t[0]), t[1..]);
      assert Run(Step(Start, t[0]), t[1..]) == Run(Dead, t[2..]);
      RunDead(t[2..]);
    }
  }

  lemma RunAfterThree(t: string)
    requires |t| >= 2 && IsSign(t[0]) && t[1] == '.' && (|t| == 2 || !IsDigit(t[2]))
    ensures !IsNumberText(t)
  {
    assert Run(Start, t) == Run(Signed, t[1..]);
    if |t| == 2 {
      assert Run(Signed, t[1..]) == Run(Dot, []);
    } else {
      assert Run(Signed, t[1..]) == Run(Dot, t[2..]);
      assert Run(Dot, t[2..]) == Run(Dead, t[3..]);
      RunDead(t[3..]);
    }
  }

  /** Where the scanner finds nothing, no number of the pattern's language starts. */
  lemma NoTokenNoNumber(s: string, i: nat, e: nat)
    requires i <= e <= |s| && TokenAt(s, i).None?
    ensures !IsNumberText(s[i..e])
  {
    if IsNumberText(s[i..e]) {
      NumberStart(s[i..e]);
    }
  }

  /** The search result is the leftmost start of any number in the text. */
  lemma SearchIsLeftmost(s: string)
    requires Search(s, 0).Some?
    ensures IsNumberText(s[Search(s, 0).value.0..Search(s, 0).value.1])
    ensures forall k, e :: 0 <= k < Search(s, 0).value.0 && k <= e <= |s| ==> !IsNumberText(s[k..e])
  {
    var (b, e) := Search(s, 0).value;
    TokenIsNumber(s, b);
    forall k, e' | 0 <= k < b && k <= e' <= |s|
      ensures !IsNumberText(s[k..e'])
    {
      NoTokenNoNumber(s, k, e');
    }
  }

  /** The search finds nothing only when no number occurs anywhere in the text. */
  lemma SearchNoneMeansNoNumber(s: string)
    requires Search(s, 0).None?
    ensures forall k, e :: 0 <= k <= e <= |s| ==> !IsNumberText(s[k..e])
  {
    forall k, e | 0 <= k <= e <= |s|
      ensures !IsNumberText(s[k..e])
    {
      NoTokenNoNumber(s, k, e);
    }
  }

  // ---------------------------------------------------------------------------------------
  // The two `_clean_numeric` variants

  /** The token part shared by both variants, applied to the stripped text. */
  function ScanNumber(stripped: string): (r: Numeric)
    ensures r.Token? ==> IsNumberText(r.text) && ',' !in r.text
  {
    var t := RemoveChar(stripped, ',');
    match Search(t, 0)
    case None => Zero
    case Some((b, e)) =>
      TokenIsNumber(t, b);
      Token(t[b..e])
  }

  /** `_clean_numeric` of the FDC/OpenFoodFacts importer: 0 for absent, NaN, blank and sentinel
      cells, otherwise the first number of the comma-free text. */
  function ImportCleanNumeric(v: Cell): (r: Numeric)
    ensures v.Missing? || v.NaN? ==> r == Zero
    ensures v.Str? && (AllSpace(v.s) || Strip(v.s) in ImportSentinels) ==> r == Zero
    ensures v.Str? && Strip(v.s) != [] && Strip(v.s) !in ImportSentinels ==> r == ScanNumber(Strip(v.s))
    ensures r.Token? ==> IsNumberText(r.text) && ',' !in r.text
  {
    match v
    case Missing => Zero
    case NaN => Zero
    case Str(s) =>
      StripEmptyIffAllSpace(s);
      var stripped := Strip(s);
      if stripped == [] || stripped in ImportSentinels then Zero else ScanNumber(stripped)
  }

  /** `_clean_numeric` of the portion importer: the same scan, without "nan" as a sentinel. */
  function PortionCleanNumeric(v: Option<string>): (r: Numeric)
    ensures v.None? ==> r == Zero
    ensures v.Some? && (AllSpace(v.value) || Strip(v.value) in NullWords) ==> r == Zero
    ensures v.Some? && Strip(v.value) !in NullWords ==> r == ScanNumber(Strip(v.value))
    ensures r.Token? ==> IsNumberText(r.text) && ',' !in r.text
  {
    match v
    case None => Zero
    case Some(s) =>
      StripEmptyIffAllSpace(s);
      var stripped := Strip(s);
      if stripped in NullWords then Zero else ScanNumber(stripped)
  }

  /** A token is the leftmost number of the comma-free text and nothing before it is one. */
  lemma ScanNumberLeftmost(stripped: string)
    ensures var t := RemoveChar(stripped, ',');
            match ScanNumber(stripped)
            case Zero => forall k, e :: 0 <= k <= e <= |t| ==> !IsNumberText(t[k..e])
            case Token(x) => exists b, e :: 0 <= b <= e <= |t| && x == t[b..e]
                               && forall k, e' :: 0 <= k < b && k <= e' <= |t| ==> !IsNumberText(t[k..e'])
  {
    var t := RemoveChar(stripped, ',');
    match Search(t, 0)
    case None => SearchNoneMeansNoNumber(t);
    case Some((b, e)) => SearchIsLeftmost(t);
  }
}

=== FILE: openfoodfacts.dfy ===
/** The OpenFoodFacts half of the bulk importer: the unit conversions of a product row, the
    payload built from it, the (name, calories) match lookup over the existing foods, and the
    per-row match/create loop with its match cache. Numeric cells arrive as the reals
    `_clean_numeric` produced; the database is a set of food ids with a pending (uncommitted) part. */
module OpenFoodFacts {
  import opened Wrappers
  import opened Text
  import opened Cleaning
  import Naming
  import Rounding

  // ---------------------------------------------------------------------------------------------
  // Conversions

  /** `_maybe_g_to_mg`: a value of at most 10 is taken to be grams and scaled to milligrams. */
  function MaybeGToMg(v: real): (r: real)
    ensures v <= 10 as real ==> r == v * 1000 as real
    ensures v > 10 as real ==> r == v
  {
    if v <= 10 as real then v * 1000 as real else v
  }

  /** Converting twice is converting once only for values above 0.01 (or exactly 0): a tiny value
      is scaled a second time. */
  lemma MaybeGToMgSettles(v: real)
    ensures MaybeGToMg(MaybeGToMg(v)) == MaybeGToMg(v) <==> (v > 1 as real / 100 as real || v == 0 as real)
  {
  }

  /** `_openfoodfacts_sodium`: sodium in mg from the sodium column, else from salt (40% sodium), else 0. */
  function Sodium(sodiumG: real, saltG: real): (mg: real)
    ensures mg >= 0 as real
    ensures mg > 0 as real <==> (sodiumG > 0 as real || saltG > 0 as real)
    ensures sodiumG > 0 as real ==> mg == sodiumG * 1000 as real
    ensures sodiumG <= 0 as real && saltG > 0 as real ==> mg * 10 as real == saltG * 4000 as real
  {
    if sodiumG > 0 as real then sodiumG * 1000 as real
    else if saltG > 0 as real then saltG * 1000 as real * (4 as real / 10 as real)
    else 0 as real
  }

  /** The energy the payload uses: kcal when non-zero, else kJ (the kJ column, else the energy
      column) divided by 4.184 when non-zero, else 0; then `int(round(...))`. A negative kcal value
      is truthy and is kept. */
  function OffCalories(kcal: real, kj: real, energy: real): (c: int)
    ensures kcal != 0 as real ==> c == Rounding.RoundHalfEven(kcal)
    ensures kcal == 0 as real && kj != 0 as real ==> c == Rounding.RoundHalfEven(kj / Rounding.KjPerKcal)
    ensures kcal == 0 as real && kj == 0 as real && energy != 0 as real ==>
      c == Rounding.RoundHalfEven(energy / Rounding.KjPerKcal)
    ensures kcal == 0 as real && kj == 0 as real && energy == 0 as real ==> c == 0
  {
    var kjValue := if kj != 0 as real then kj else energy;
    var e := if kcal != 0 as real then kcal else if kjValue != 0 as real then kjValue / Rounding.KjPerKcal else 0 as real;
    Rounding.RoundHalfEven(e)
  }

  /** Unlike the barcode poster, this importer lets a negative energy through. */
  lemma OffCaloriesKeepsNegative()
    ensures OffCalories(-5 as real, 0 as real, 0 as real) == -5
  {
    assert Rounding.RoundHalfEven(-5 as real) == -5 by { Rounding.RoundIntegral(-5); }
  }

  // ---------------------------------------------------------------------------------------------
  // Payload

  /** The natural key foods are matched on: lower-cased name and integer calories. */
  datatype MatchKey = MatchKey(name: string, calories: int)

  /** The cells of a product row the match depends on. */
  datatype ProductRow = ProductRow(code: Cell, productName: Cell, genericName: Cell, kcal: real, kj: real, energy: real)

  /** The part of `_openfoodfacts_payload` the match loop reads. */
  datatype OffPayload = OffPayload(barcode: string, sourceId: string, name: string, calories: int)

  /** `_openfoodfacts_payload`: no payload without a barcode or without a name from either name column. */
  function Payload(row: ProductRow): (p: Option<OffPayload>)
    ensures p.None? <==>
      ImportCleanString(row.code).None? ||
      (Naming.StandardizeFoodName(row.productName).None? && Naming.StandardizeFoodName(row.genericName).None?)
    ensures p.Some? ==> p.value.sourceId == p.value.barcode && Some(p.value.barcode) == ImportCleanString(row.code)
    ensures p.Some? && Naming.StandardizeFoodName(row.productName).Some? ==>
      p.value.name == Naming.StandardizeFoodName(row.productName).value
    ensures p.Some? && Naming.StandardizeFoodName(row.productName).None? ==>
      Some(p.value.name) == Naming.StandardizeFoodName(row.genericName)
    ensures p.Some? ==> p.value.calories == OffCalories(row.kcal, row.kj, row.energy)
  {
    var barcode := ImportCleanString(row.code);
    var name := match Naming.StandardizeFoodName(row.productName)
      case Some(n) => Some(n)
      case None => Naming.StandardizeFoodName(row.genericName);
    if barcode.None? || name.None? then None
    else
      var b := barcode.value;
      Some(OffPayload(b, b, name.value, OffCalories(row.kcal, row.kj, row.energy)))
  }

  /** The key the loop matches a payload on. */
  function PayloadKey(p: OffPayload): (k: MatchKey)
    ensures NoUpper(k.name) && |k.name| == |p.name| && k.calories == p.calories
  {
    MatchKey(Lower(p.name), p.calories)
  }

  // ---------------------------------------------------------------------------------------------
  // The match lookup over existing foods

  /** A row of `SELECT id, name, calories FROM food`. */
  datatype FoodRow = FoodRow(id: nat, name: Option<string>, calories: Option<int>)

  /** Rows without a name or with null calories are not matchable. */
  function RowKey(r: FoodRow): (k: Option<MatchKey>)
    ensures k.Some? <==> r.name.Some? && r.name.value != [] && r.calories.Some?
    ensures k.Some? ==> k.value == MatchKey(Lower(r.name.value), r.calories.value)
  {
    if r.name.None? || r.name.value == [] || r.calories.None? then None
    else Some(MatchKey(Lower(r.name.value), r.calories.value))
  }

  predicate AscendingIds(rows: seq<FoodRow>)
  {
    forall i, j :: 0 <= i < j < |rows| ==> rows[i].id < rows[j].id
  }

  /** The first row carrying a key. */
  predicate FirstWithKey(rows: seq<FoodRow>, i: int, k: MatchKey)
  {
    0 <= i < |rows| && RowKey(rows[i]) == Some(k) &&
    forall j :: 0 <= j < i ==> RowKey(rows[j]) != Some(k)
  }

  /** `_build_food_match_lookup`: every matchable key maps to the id of the first row carrying it
      (`setdefault`); under the query's ascending-id order that is the smallest id. */
  method BuildFoodMatchLookup(rows: seq<FoodRow>) returns (lookup: map<MatchKey, nat>)
    ensures forall k :: k in lookup <==> exists i :: 0 <= i < |rows| && RowKey(rows[i]) == Some(k)
    ensures forall k, i :: FirstWithKey(rows, i, k) ==> k in lookup && lookup[k] == rows[i].id
    ensures AscendingIds(rows) ==>
      forall k, i :: 0 <= i < |rows| && RowKey(rows[i]) == Some(k) ==> k in lookup && lookup[k] <= rows[i].id
  {
    lookup := map[];
    var n := 0;
    while n < |rows|
      invariant 0 <= n <= |rows|
      invariant forall k :: k in lookup <==> exists i :: 0 <= i < n && RowKey(rows[i]) == Some(k)
      invariant forall k, i :: 0 <= i < n && FirstWithKey(rows, i, k) ==> k in lookup && lookup[k] == rows[i].id
      invariant forall k :: k in lookup ==> exists i :: 0 <= i < n && FirstWithKey(rows, i, k) && lookup[k] == rows[i].id
    {
      var key := RowKey(rows[n]);
      if key.Some? && key.value !in lookup {
        lookup := lookup[key.value := rows[n].id];
        assert FirstWithKey(rows, n, key.value);
      }
      n := n + 1;
    }
    if AscendingIds(rows) {
      FirstIsSmallest(rows, lookup);
    }
  }

  /** Under ascending ids, the id of a key's first row is the smallest id carrying the key. */
  lemma FirstIsSmallest(rows: seq<FoodRow>, lookup: map<MatchKey, nat>)
    requires AscendingIds(rows)
    requires forall k :: k in lookup <==> exists i :: 0 <= i < |rows| && RowKey(rows[i]) == Some(k)
    requires forall k :: k in lookup ==> exists i :: 0 <= i < |rows| && FirstWithKey(rows, i, k) && lookup[k] == rows[i].id
    ensures forall k, i :: 0 <= i < |rows| && RowKey(rows[i]) == Some(k) ==> k in lookup && lookup[k] <= rows[i].id
  {
    forall k, i | 0 <= i < |rows| && RowKey(rows[i]) == Some(k)
      ensures k in lookup && lookup[k] <= rows[i].id
    {
      var f :| 0 <= f < |rows| && FirstWithKey(rows, f, k) && lookup[k] == rows[f].id;
      assert f <= i;
    }
  }

  // ---------------------------------------------------------------------------------------------
  // The match/create loop

  /** The match cache is cleared wholesale once it holds more than this many keys. */
  const CacheLimit: nat := 50000

  /** Food ids in the database, split into committed ones and ones inserted since the last commit;
      `committedSources`/`pendingSources` index them by sourceId (the upsert key), and `nextId` is
      the auto-increment counter, which a rollback does not rewind. */
  datatype Db = Db(
    committed: set<nat>, pending: set<nat>,
    committedSources: map<string, nat>, pendingSources: map<string, nat>, nextId: nat)

  function FoodIds(db: Db): (ids: set<nat>)
  {
    db.committed + db.pending
  }

  /** Every indexed id is a food of the right part, and every id is positive and below the counter. */
  predicate DbOk(db: Db)
  {
    db.nextId > 0 &&
    (forall s :: s in db.committedSources ==> db.committedSources[s] in db.committed) &&
    (forall s :: s in db.pendingSources ==> db.pendingSources[s] in db.pending) &&
    (forall id :: id in db.committed ==> 0 < id < db.nextId) &&
    (forall id :: id in db.pending ==> 0 < id < db.nextId)
  }

  /** `_insert_or_update_food`: the food with the same sourceId if there is one, else a fresh id. */
  function Upsert(db: Db, sourceId: string): (r: (Db, nat))
    requires DbOk(db)
    ensures DbOk(r.0) && r.1 in FoodIds(r.0) && r.1 > 0
    ensures r.0.committed == db.committed && r.0.committedSources == db.committedSources
    ensures FoodIds(db) <= FoodIds(r.0)
  {
    if sourceId in db.pendingSources then (db, db.pendingSources[sourceId])
    else if sourceId in db.committedSources then (db, db.committedSources[sourceId])
    else
      var id := db.nextId;
      (db.(pending := db.pending + {id}, pendingSources := db.pendingSources[sourceId := id], nextId := id + 1), id)
  }

  function Commit(db: Db): (r: Db)
    requires DbOk(db)
    ensures DbOk(r) && FoodIds(r) == FoodIds(db) && r.committed == FoodIds(db) && r.pending == {}
  {
    Db(db.committed + db.pending, {}, db.committedSources + db.pendingSources, map[], db.nextId)
  }

  function Rollback(db: Db): (r: Db)
    requires DbOk(db)
    ensures DbOk(r) && FoodIds(r) == db.committed && r.committed == db.committed && r.pending == {}
  {
    db.(pending := {}, pendingSources := map[])
  }

  function Get(m: map<MatchKey, nat>, k: MatchKey): nat
  {
    if k in m then m[k] else 0
  }

  /** The loop's state between rows. `saved` is the lookup as of the last commit. */
  datatype MatchState = MatchState(
    lookup: map<MatchKey, nat>, cache: map<MatchKey, nat>, saved: map<MatchKey, nat>, db: Db,
    batch: nat, matched: nat, created: nat, skipped: nat, errors: nat, processed: nat)

  /** Every cached id is the lookup's answer for its key (0 standing for "no food"), and the cache is bounded. */
  predicate Coherent(st: MatchState)
  {
    |st.cache| <= CacheLimit && forall k :: k in st.cache ==> st.cache[k] == Get(st.lookup, k)
  }

  /** The loop's cache read: a hit answers from the cache; a miss asks the lookup (default 0),
      remembers the answer, and clears the whole cache if it has grown past the limit. */
  function Probe(cache: map<MatchKey, nat>, lookup: map<MatchKey, nat>, key: MatchKey): (r: (map<MatchKey, nat>, nat))
    requires |cache| <= CacheLimit && forall k :: k in cache ==> cache[k] == Get(lookup, k)
    ensures r.1 == Get(lookup, key)
    ensures |r.0| <= CacheLimit && forall k :: k in r.0 ==> r.0[k] == Get(lookup, k)
    ensures key in cache ==> r.0 == cache
    ensures key !in cache ==> (r.0 == map[] <==> |cache| == CacheLimit)
    ensures r.0 == map[] || key in r.0
  {
    if key in cache then (cache, cache[key])
    else
      var id := Get(lookup, key);
      var grown := cache[key := id];
      if |grown| > CacheLimit then (map[], id) else (grown, id)
  }

  /** The part of a row's handling after its database work succeeded: count it, and commit when the
      batch is full. */
  function Advance(st: MatchState, batchSize: int): (r: MatchState)
    requires DbOk(st.db)
    ensures DbOk(r.db) && FoodIds(r.db) == FoodIds(st.db)
    ensures r.processed == st.processed + 1
    ensures r.lookup == st.lookup && r.cache == st.cache
    ensures r.matched == st.matched && r.created == st.created && r.skipped == st.skipped && r.errors == st.errors
    ensures st.batch + 1 >= batchSize ==> r.batch == 0 && r.db == Commit(st.db) && r.saved == st.lookup
    ensures st.batch + 1 < batchSize ==> r.batch == st.batch + 1 && r.db == st.db && r.saved == st.saved
  {
    var st2 := st.(batch := st.batch + 1, processed := st.processed + 1);
    if st2.batch >= batchSize then st2.(db := Commit(st2.db), batch := 0, saved := st2.lookup) else st2
  }

  /** The successful path for a payload whose key probed to `id`: reuse the matched food, or
      upsert a new one and record it in both the lookup and the cache. */
  function Place(st: MatchState, p: OffPayload, cache: map<MatchKey, nat>, id: nat): (r: MatchState)
    requires DbOk(st.db)
    ensures DbOk(r.db) && FoodIds(st.db) <= FoodIds(r.db) && r.db.committed == st.db.committed
    ensures id != 0 ==> r == st.(cache := cache, matched := st.matched + 1)
    ensures id == 0 ==> (
      r.created == st.created + 1 && r.matched == st.matched && PayloadKey(p) in r.lookup &&
      r.lookup == st.lookup[PayloadKey(p) := r.lookup[PayloadKey(p)]] &&
      r.cache == cache[PayloadKey(p) := r.lookup[PayloadKey(p)]] &&
      r.lookup[PayloadKey(p)] in FoodIds(r.db) && r.lookup[PayloadKey(p)] > 0)
    ensures r.skipped == st.skipped && r.errors == st.errors && r.processed == st.processed
    ensures r.batch == st.batch && r.saved == st.saved
  {
    if id != 0 then st.(cache := cache, matched := st.matched + 1)
    else
      var (db, newId) := Upsert(st.db, p.sourceId);
      var key := PayloadKey(p);
      st.(cache := cache[key := newId], lookup := st.lookup[key := newId], db := db, created := st.created + 1)
  }

  /** One row of `_run_openfoodfacts`, as written. `fails` says whether the row's database work raised. */
  function Step(st: MatchState, row: Option<OffPayload>, fails: bool, batchSize: int): (r: MatchState)
    requires Coherent(st) && DbOk(st.db)
    ensures Coherent(r) && DbOk(r.db)
    ensures r.skipped + r.errors + r.processed == st.skipped + st.errors + st.processed + 1
    ensures r.skipped >= st.skipped && r.errors >= st.errors && r.processed >= st.processed
    ensures r.matched + r.created == st.matched + st.created + (r.processed - st.processed)
    ensures st.lookup.Keys <= r.lookup.Keys
    ensures row.None? ==> r == st.(skipped := st.skipped + 1)
    ensures row.Some? && fails ==> r.errors == st.errors + 1 && r.lookup == st.lookup && r.db == Rollback(st.db)
  {
    match row
    case None => st.(skipped := st.skipped + 1)
    case Some(p) =>
      var (cache, id) := Probe(st.cache, st.lookup, PayloadKey(p));
      if fails then st.(cache := cache, db := Rollback(st.db), errors := st.errors + 1)
      else
        var placed := Place(st, p, cache, id);
        PlaceKeepsCoherent(st, p, cache, id);
        Advance(placed, batchSize)
  }

  /** Recording a new food in both the lookup and the cache keeps them in agreement. */
  lemma PlaceKeepsCoherent(st: MatchState, p: OffPayload, cache: map<MatchKey, nat>, id: nat)
    requires DbOk(st.db)
    requires |cache| <= CacheLimit && forall k :: k in cache ==> cache[k] == Get(st.lookup, k)
    requires cache == map[] || PayloadKey(p) in cache
    ensures Coherent(Place(st, p, cache, id))
  {
    var r := Place(st, p, cache, id);
    if id == 0 {
      var key := PayloadKey(p);
      if cache != map[] {
        assert r.cache.Keys == cache.Keys;
      } else {
        assert r.cache == map[key := r.lookup[key]];
      }
      forall k | k in r.cache
        ensures r.cache[k] == Get(r.lookup, k)
      {
        if k != key {
          assert r.cache[k] == cache[k];
        }
      }
    }
  }

  /** A food created for a key is found for that key afterwards: the next row with the same key is
      matched to it instead of creating another. */
  lemma ReadYourWrites(st: MatchState, p: OffPayload, q: OffPayload, batchSize: int)
    requires Coherent(st) && DbOk(st.db)
    requires Get(st.lookup, PayloadKey(p)) == 0 && PayloadKey(q) == PayloadKey(p)
    ensures var st1 := Step(st, Some(p), false, batchSize);
      st1.created == st.created + 1 && Get(st1.lookup, PayloadKey(p)) != 0 &&
      var st2 := Step(st1, Some(q), false, batchSize);
      st2.matched == st1.matched + 1 && st2.created == st1.created && st2.lookup == st1.lookup
  {
  }

  /** A row whose key is in the lookup is matched, whether or not the cache still remembers it. */
  lemma CacheClearIsHarmless(st: MatchState, p: OffPayload, batchSize: int)
    requires Coherent(st) && DbOk(st.db)
    requires Get(st.lookup, PayloadKey(p)) != 0
    ensures var st1 := Step(st, Some(p), false, batchSize);
      st1.matched == st.matched + 1 && st1.lookup == st.lookup
    ensures var st1 := Step(st.(cache := map[]), Some(p), false, batchSize);
      st1.matched == st.matched + 1 && st1.lookup == st.lookup
  {
  }

  /** The loop of `_run_openfoodfacts` over the payloads of the product rows (`None` for a row
      without a payload), as written. `maxRows` is `max_openfoodfacts` (0 for `None` and no cap):
      any other value is truthy, so a negative one stops the loop after the first processed row.
      `consumed`
      is how many rows were read before the loop stopped. */
  method RunOpenFoodFacts(rows: seq<Option<OffPayload>>, fails: seq<bool>, lookup: map<MatchKey, nat>, db: Db,
                          batchSize: int, maxRows: int)
    returns (st: MatchState, consumed: nat)
    requires |fails| == |rows| && DbOk(db)
    ensures consumed <= |rows|
    ensures Coherent(st) && DbOk(st.db) && st.db.pending == {}
    ensures st.skipped + st.errors + st.processed == consumed
    ensures st.matched + st.created == st.processed
    ensures lookup.Keys <= st.lookup.Keys
    ensures maxRows > 0 ==> st.processed <= maxRows
    ensures maxRows < 0 ==> st.processed <= 1
    ensures consumed < |rows| ==> maxRows != 0 && st.processed == if maxRows > 0 then maxRows else 1
  {
    st := MatchState(lookup, map[], lookup, db, 0, 0, 0, 0, 0, 0);
    consumed := 0;
    while consumed < |rows|
      invariant consumed <= |rows|
      invariant Coherent(st) && DbOk(st.db)
      invariant st.skipped + st.errors + st.processed == consumed
      invariant st.matched + st.created == st.processed
      invariant lookup.Keys <= st.lookup.Keys
      invariant maxRows > 0 ==> st.processed < maxRows
      invariant maxRows < 0 ==> st.processed == 0
    {
      var before := st.processed;
      st := Step(st, rows[consumed], fails[consumed], batchSize);
      consumed := consumed + 1;
      if maxRows != 0 && st.processed > before && st.processed >= maxRows {
        st := st.(db := Commit(st.db), batch := 0, saved := st.lookup);
        return;
      }
    }
    st := st.(db := Commit(st.db), batch := 0, saved := st.lookup);
  }

  // ---------------------------------------------------------------------------------------------
  // A rollback leaves the lookup pointing at foods that no longer exist.

  /** After a row created a food and a later row of the same (uncommitted) batch failed, the
      rollback removed the food but the lookup still hands out its id. */
  lemma StaleLookupAfterRollback()
    ensures var db := Db({}, {}, map[], map[], 1);
      var k := MatchKey("a", 1);
      var st0 := MatchState(map[], map[], map[], db, 0, 0, 0, 0, 0, 0);
      var st1 := Step(st0, Some(OffPayload("1", "1", "A", 1)), false, 10);
      var st2 := Step(st1, Some(OffPayload("2", "2", "B", 2)), true, 10);
      Get(st2.lookup, k) == 1 && 1 !in FoodIds(st2.db)
  {
    var db := Db({}, {}, map[], map[], 1);
    var k := MatchKey("a", 1);
    assert PayloadKey(OffPayload("1", "1", "A", 1)) == k by { LowerA(); }
    var st0 := MatchState(map[], map[], map[], db, 0, 0, 0, 0, 0, 0);
    var st1 := Step(st0, Some(OffPayload("1", "1", "A", 1)), false, 10);
    assert st1.lookup == map[k := 1];
    var st2 := Step(st1, Some(OffPayload("2", "2", "B", 2)), true, 10);
    assert st2.lookup == st1.lookup;
  }

  lemma LowerA()
    ensures Lower("A") == "a"
  {
  }

  /** The lookup only names foods of the database; the one at the last commit only committed foods. */
  predicate LookupValid(st: MatchState)
  {
    (forall k :: k in st.lookup ==> st.lookup[k] in FoodIds(st.db) && st.lookup[k] > 0) &&
    (forall k :: k in st.saved ==> st.saved[k] in st.db.committed && st.saved[k] > 0)
  }

  /** One row with the rollback also forgetting the lookup entries made since the last commit
      (and emptying the cache, which may hold them). */
  function StepCorrected(st: MatchState, row: Option<OffPayload>, fails: bool, batchSize: int): (r: MatchState)
    requires Coherent(st) && DbOk(st.db) && LookupValid(st)
    ensures Coherent(r) && DbOk(r.db) && LookupValid(r)
    ensures r.skipped + r.errors + r.processed == st.skipped + st.errors + st.processed + 1
    ensures r.skipped >= st.skipped && r.errors >= st.errors && r.processed >= st.processed
    ensures r.matched + r.created == st.matched + st.created + (r.processed - st.processed)
    ensures row.Some? ==> Get(st.lookup, PayloadKey(row.value)) == 0 || Get(st.lookup, PayloadKey(row.value)) in FoodIds(st.db)
  {
    match row
    case None => st.(skipped := st.skipped + 1)
    case Some(p) =>
      var (cache, id) := Probe(st.cache, st.lookup, PayloadKey(p));
      if fails then
        var r := st.(lookup := st.saved, cache := map[], db := Rollback(st.db), errors := st.errors + 1);
        assert LookupValid(r);
        r
      else
        var placed := Place(st, p, cache, id);
        PlaceKeepsValid(st, p, cache, id);
        PlaceKeepsCoherent(st, p, cache, id);
        var r := Advance(placed, batchSize);
        AdvanceKeepsValid(placed, batchSize);
        r
  }

  lemma PlaceKeepsValid(st: MatchState, p: OffPayload, cache: map<MatchKey, nat>, id: nat)
    requires DbOk(st.db) && LookupValid(st)
    ensures LookupValid(Place(st, p, cache, id))
  {
    var r := Place(st, p, cache, id);
    if id == 0 {
      forall k | k in r.lookup
        ensures r.lookup[k] in FoodIds(r.db) && r.lookup[k] > 0
      {
        if k != PayloadKey(p) {
          assert r.lookup[k] == st.lookup[k];
        }
      }
    }
  }

  lemma AdvanceKeepsValid(st: MatchState, batchSize: int)
    requires DbOk(st.db) && LookupValid(st)
    ensures LookupValid(Advance(st, batchSize))
  {
  }

  /** The corrected loop: every food a row is matched to exists in the database. */
  method RunOpenFoodFactsCorrected(rows: seq<Option<OffPayload>>, fails: seq<bool>, lookup: map<MatchKey, nat>, db: Db,
                                   batchSize: int, maxRows: int)
    returns (st: MatchState, consumed: nat)
    requires |fails| == |rows| && DbOk(db)
    requires forall k :: k in lookup ==> lookup[k] in db.committed && lookup[k] > 0
    ensures consumed <= |rows|
    ensures Coherent(st) && DbOk(st.db) && st.db.pending == {} && LookupValid(st)
    ensures st.skipped + st.errors + st.processed == consumed
    ensures st.matched + st.created == st.processed
    ensures forall k :: k in st.lookup ==> st.lookup[k] in st.db.committed
    ensures maxRows > 0 ==> st.processed <= maxRows
    ensures maxRows < 0 ==> st.processed <= 1
    ensures consumed < |rows| ==> maxRows != 0 && st.processed == if maxRows > 0 then maxRows else 1
  {
    st := MatchState(lookup, map[], lookup, db, 0, 0, 0, 0, 0, 0);
    consumed := 0;
    while consumed < |rows|
      invariant consumed <= |rows|
      invariant Coherent(st) && DbOk(st.db) && LookupValid(st)
      invariant st.skipped + st.errors + st.processed == consumed
      invariant st.matched + st.created == st.processed
      invariant maxRows > 0 ==> st.processed < maxRows
      invariant maxRows < 0 ==> st.processed == 0
    {
      var before := st.processed;
      st := StepCorrected(st, rows[consumed], fails[consumed], batchSize);
      consumed := consumed + 1;
      if maxRows != 0 && st.processed > before && st.processed >= maxRows {
        st := st.(db := Commit(st.db), batch := 0, saved := st.lookup);
        return;
      }
    }
    st := st.(db := Commit(st.db), batch := 0, saved := st.lookup);
  }

  /** With the corrected rollback the scenario above leaves no stale entry. */
  lemma CorrectedRollbackForgets()
    ensures var db := Db({}, {}, map[], map[], 1);
      var st0 := MatchState(map[], map[], map[], db, 0, 0, 0, 0, 0, 0);
      var st1 := StepCorrected(st0, Some(OffPayload("1", "1", "A", 1)), false, 10);
      var st2 := StepCorrected(st1, Some(OffPayload("2", "2", "B", 2)), true, 10);
      st2.lookup == map[] && FoodIds(st2.db) == {}
  {
  }
}

=== FILE: paging.dfy ===
/** Offset paging as the services ask the query builder for it: `skip(page ? page * limit : 0)`
    followed by `take(limit)`. */
module Paging {
  import opened Wrappers

  /** `skip(skip).take(take)` on rows already in query order; a `take` of zero is falsy and sets
      no limit. */
  function Window<T>(xs: seq<T>, skip: nat, take: nat): (r: seq<T>)
    ensures take > 0 ==> |r| <= take
    ensures |r| <= |xs|
    ensures skip >= |xs| ==> r == []
    ensures skip <= |xs| ==> skip + |r| <= |xs| && r == xs[skip..skip + |r|]
  {
    var from := if skip <= |xs| then skip else |xs|;
    var to := if take == 0 || from + take > |xs| then |xs| else from + take;
    xs[from..to]
  }

  /** The offset of a page: a missing or zero page starts at the top. */
  function Skip(page: Option<nat>, limit: nat): (n: nat)
    ensures n == page.GetOr(0) * limit
  {
    if page.None? || page.value == 0 then 0 else page.value * limit
  }

  /** One page of `limit` rows. */
  function Page<T>(xs: seq<T>, limit: nat, page: Option<nat>): (r: seq<T>)
    ensures limit > 0 ==> |r| <= limit
    ensures forall k :: 0 <= k < |r| ==> r[k] in xs
  {
    var skip := Skip(page, limit);
    var r := Window(xs, skip, limit);
    forall k | 0 <= k < |r| ensures r[k] in xs {
      assert r[k] == xs[skip + k];
    }
    r
  }

  /** The first `n` rows of `xs`, or all of them. */
  function Prefix<T>(xs: seq<T>, n: nat): (r: seq<T>)
    ensures |r| <= n && |r| <= |xs| && r == xs[..|r|]
    ensures n <= |xs| ==> |r| == n
  {
    xs[..if n <= |xs| then n else |xs|]
  }

  /** Pages `0 .. n-1` read one after another. */
  function Pages<T>(xs: seq<T>, limit: nat, n: nat): seq<T>
  {
    if n == 0 then [] else Pages(xs, limit, n - 1) + Page(xs, limit, Some(n - 1))
  }

  /** Page `p` continues exactly where the first `p` pages stop. */
  lemma PageIsSlice<T>(xs: seq<T>, limit: nat, p: nat)
    requires limit > 0
    ensures Prefix(xs, p * limit) + Page(xs, limit, Some(p)) == Prefix(xs, (p + 1) * limit)
  {
    var a := if p * limit <= |xs| then p * limit else |xs|;
    var b := if (p + 1) * limit <= |xs| then (p + 1) * limit else |xs|;
    assert Page(xs, limit, Some(p)) == xs[a..b];
    assert xs[..b] == xs[..a] + xs[a..b];
  }

  /** With a positive page size, the first `n` pages are the first `n * limit` rows: paging
      skips no row and shows none twice. */
  lemma {:induction false} PagesCover<T>(xs: seq<T>, limit: nat, n: nat)
    requires limit > 0
    ensures Pages(xs, limit, n) == Prefix(xs, n * limit)
  {
    if n > 0 {
      PagesCover(xs, limit, n - 1);
      PageIsSlice(xs, limit, n - 1);
    }
  }

  /** Enough pages show every row. */
  lemma AllPagesShowAll<T>(xs: seq<T>, limit: nat, n: nat)
    requires limit > 0 && n * limit >= |xs|
    ensures Pages(xs, limit, n) == xs
  {
    PagesCover(xs, limit, n);
  }
}

=== FILE: portion_importer.dfy ===
/** The FDC portion-measurement importer: each row of food_portion.csv becomes a measurement of
    the food whose sourceId is the row's fdc_id, inserted unless an equal one is already stored.
    The measurement table is a list of rows together with the part of it that is committed; the
    lookup of foods by sourceId is a map, and whether an insert statement raises arrives as one
    flag per row. */
module PortionImporter {
  import opened Wrappers
  import opened Text
  import opened Cleaning
  import opened Naming
  import NumericToken
  import Batching

  /** Python's `float()` of a number token; the scanner only yields text it accepts. */
  type TokenValue = string -> real

  /** `%g` rendering of a non-integral float. Floating-point formatting is not modelled. */
  type GFormat = real -> string

  /** `_clean_numeric` of the portion importer, read as a real. */
  function CleanNumeric(v: Option<string>, float: TokenValue): real
  {
    match NumericToken.PortionCleanNumeric(v)
    case Zero => 0 as real
    case Token(t) => float(t)
  }

  // ---------------------------------------------------------------------------------------
  // Measurements built from a row

  /** `_format_amount`: nothing for a non-positive amount, the integer digits for an integral one. */
  function FormatAmount(amount: real, g: GFormat): (r: Option<string>)
    ensures r.None? <==> amount <= 0 as real
    ensures r.Some? && amount == amount.Floor as real ==>
              AllDigits(r.value) && r.value != [] && DigitsValue(r.value) == amount.Floor
    ensures r.Some? && amount != amount.Floor as real ==> r.value == g(amount)
  {
    if amount <= 0 as real then None
    else if amount == amount.Floor as real then
      NatToStringRoundTrip(amount.Floor);
      Some(NatToString(amount.Floor))
    else Some(g(amount))
  }

  /** An integral amount prints as its decimal digits, with no fraction. */
  lemma FormatWholeAmount(k: nat, g: GFormat)
    requires k >= 1
    ensures FormatAmount(k as real, g) == Some(NatToString(k))
  {
  }

  /** The pieces of a list that are not empty, in order. */
  function NonEmpty(parts: seq<string>): (r: seq<string>)
    ensures forall i :: 0 <= i < |r| ==> r[i] != []
    ensures forall p :: p in parts && p != [] ==> p in r
    ensures forall p :: p in r ==> p in parts
  {
    if parts == [] then []
    else if parts[0] == [] then NonEmpty(parts[1..])
    else [parts[0]] + NonEmpty(parts[1..])
  }

  /** A generated measurement name: the non-empty parts joined by spaces, else the unit name. */
  function PartsName(amountText: string, modifier: string, unit: string): (name: string)
    ensures unit != [] ==> name != []
  {
    var joined := Strip(Join(NonEmpty([amountText, modifier, unit]), ' '));
    if joined != [] then joined else unit
  }

  /** Three stripped non-empty parts are joined with single spaces. */
  lemma PartsNameOfThree(a: string, m: string, u: string)
    requires a != [] && m != [] && u != [] && Stripped(a) && Stripped(u)
    ensures PartsName(a, m, u) == a + " " + m + " " + u
  {
    assert NonEmpty([u]) == [u] by { assert [u][1..] == []; }
    assert NonEmpty([m, u]) == [m, u] by { assert [m, u][1..] == [u]; }
    assert NonEmpty([a, m, u]) == [a, m, u] by { assert [a, m, u][1..] == [m, u]; }
    var j := a + " " + m + " " + u;
    assert Join([m, u], ' ') == m + " " + u by { assert [m, u][1..] == [u]; }
    assert Join([a, m, u], ' ') == j by { assert [a, m, u][1..] == [m, u]; }
    assert j[0] == a[0];
    assert j[|j| - 1] == u[|u| - 1];
    StripOfStripped(j);
  }

  datatype PortionRow = PortionRow(
    fdcId: Option<string>, measureUnitId: Option<string>, gramWeight: Option<string>,
    amount: Option<string>, modifier: Option<string>, description: Option<string>)

  datatype Measurement = Measurement(unit: string, name: string, abbreviation: string, weightInGrams: real)

  /** `_build_measurement`: nothing without a positive gram weight; the description names the
      measurement when present, else the amount, modifier and unit do. */
  function BuildMeasurement(row: PortionRow, unitName: string, float: TokenValue, g: GFormat): (r: Option<Measurement>)
    ensures r.None? <==> CleanNumeric(row.gramWeight, float) <= 0 as real
    ensures r.Some? ==> r.value.unit == unitName && r.value.weightInGrams == CleanNumeric(row.gramWeight, float)
    ensures r.Some? ==> r.value.abbreviation == PortionAbbreviation(r.value.name) && |r.value.abbreviation| <= 8
    ensures r.Some? && PortionCleanString(row.description).Some? ==>
              r.value.name == PortionCleanString(row.description).value
    ensures r.Some? && unitName != [] ==> r.value.name != []
  {
    var weight := CleanNumeric(row.gramWeight, float);
    if weight <= 0 as real then None
    else
      var name := match PortionCleanString(row.description)
        case Some(d) => d
        case None =>
          var amountText := FormatAmount(CleanNumeric(row.amount, float), g).GetOr("");
          PartsName(amountText, PortionCleanString(row.modifier).GetOr(""), unitName);
      Some(Measurement(unitName, name, PortionAbbreviation(name), weight))
  }

  /** Without a description, a whole amount, a modifier and a unit read as "2 large cup". */
  lemma BuildNamesFromParts(row: PortionRow, unitName: string, float: TokenValue, g: GFormat, k: nat)
    requires CleanNumeric(row.gramWeight, float) > 0 as real
    requires PortionCleanString(row.description).None?
    requires k >= 1 && CleanNumeric(row.amount, float) == k as real
    requires PortionCleanString(row.modifier).Some?
    requires unitName != [] && Stripped(unitName)
    ensures BuildMeasurement(row, unitName, float, g).Some?
    ensures BuildMeasurement(row, unitName, float, g).value.name
            == NatToString(k) + " " + PortionCleanString(row.modifier).value + " " + unitName
  {
    DigitsStripped(NatToString(k));
    FormatWholeAmount(k, g);
    PartsNameOfThree(NatToString(k), PortionCleanString(row.modifier).value, unitName);
    GeneratedName(row, unitName, float, g);
  }

  lemma DigitsStripped(a: string)
    requires a != [] && AllDigits(a)
    ensures Stripped(a)
  {
    assert IsDigit(a[0]) && IsDigit(a[|a| - 1]);
  }

  lemma GeneratedName(row: PortionRow, unitName: string, float: TokenValue, g: GFormat)
    requires CleanNumeric(row.gramWeight, float) > 0 as real
    requires PortionCleanString(row.description).None?
    ensures BuildMeasurement(row, unitName, float, g).value.name
            == PartsName(FormatAmount(CleanNumeric(row.amount, float), g).GetOr(""),
                         PortionCleanString(row.modifier).GetOr(""), unitName)
  {
  }

  // ---------------------------------------------------------------------------------------
  // The unit lookup from measure_unit.csv

  datatype UnitRow = UnitRow(id: Option<string>, name: Option<string>)

  /** The entry a measure_unit.csv row contributes: its cleaned id and name, when it has both. */
  function UnitEntry(row: UnitRow): Option<(string, string)>
  {
    match (PortionCleanString(row.id), PortionCleanString(row.name))
    case (Some(id), Some(name)) => Some((id, name))
    case _ => None
  }

  /** `_load_unit_lookup`: cleaned id to cleaned name for rows that have both; a later row wins. */
  function UnitLookup(rows: seq<UnitRow>): (units: map<string, string>)
    ensures forall k :: k in units ==> k != [] && Stripped(k) && units[k] != [] && Stripped(units[k])
  {
    if rows == [] then map[]
    else
      var earlier := UnitLookup(rows[..|rows| - 1]);
      match UnitEntry(rows[|rows| - 1])
      case Some((id, name)) => earlier[id := name]
      case None => earlier
  }

  /** Every row with an id and a name has its id in the lookup. */
  lemma {:induction false} UnitLookupHasId(rows: seq<UnitRow>, i: nat)
    requires i < |rows| && UnitEntry(rows[i]).Some?
    ensures UnitEntry(rows[i]).value.0 in UnitLookup(rows)
  {
    if i < |rows| - 1 {
      var init := rows[..|rows| - 1];
      assert init[i] == rows[i];
      UnitLookupHasId(init, i);
    }
  }

  /** The name an id maps to comes from the last row with that id. */
  lemma {:induction false} UnitLookupLastWins(rows: seq<UnitRow>, i: nat)
    requires i < |rows| && UnitEntry(rows[i]).Some?
    requires forall j :: i < j < |rows| && UnitEntry(rows[j]).Some? ==> UnitEntry(rows[j]).value.0 != UnitEntry(rows[i]).value.0
    ensures UnitEntry(rows[i]).value.0 in UnitLookup(rows)
            && UnitLookup(rows)[UnitEntry(rows[i]).value.0] == UnitEntry(rows[i]).value.1
  {
    UnitLookupHasId(rows, i);
    if i < |rows| - 1 {
      var init := rows[..|rows| - 1];
      assert init[i] == rows[i];
      forall j | i < j < |init| ensures UnitEntry(init[j]).Some? ==> UnitEntry(init[j]).value.0 != UnitEntry(rows[i]).value.0 {
        assert init[j] == rows[j];
      }
      UnitLookupLastWins(init, i);
    }
  }

  /** `unit_lookup.get(unit_id, "unit")`. */
  function UnitName(units: map<string, string>, row: PortionRow): (name: string)
    ensures name == "unit" || name in units.Values
  {
    var id := PortionCleanString(row.measureUnitId).GetOr("");
    if id in units then units[id] else "unit"
  }

  // ---------------------------------------------------------------------------------------
  // `_ensure_measurement`: a conditional insert

  /** A stored food_measurement row; the importer inserts it active, not default, from source. */
  datatype Stored = Stored(foodId: int, m: Measurement, isDefault: bool, isActive: bool, isFromSource: bool)

  /** Weights closer than this are the same measurement. */
  const Tolerance: real := 0.01

  /** The insert's NOT EXISTS test: same food, unit, name and abbreviation, weight within 0.01. */
  predicate Matches(s: Stored, foodId: int, m: Measurement)
  {
    && s.foodId == foodId && s.m.unit == m.unit && s.m.name == m.name && s.m.abbreviation == m.abbreviation
    && -Tolerance < s.m.weightInGrams - m.weightInGrams < Tolerance
  }

  predicate Has(table: seq<Stored>, foodId: int, m: Measurement)
  {
    exists s :: s in table && Matches(s, foodId, m)
  }

  /** Inserts the measurement unless a matching one exists; reports whether it inserted. */
  function EnsureMeasurement(table: seq<Stored>, foodId: int, m: Measurement): (r: (seq<Stored>, bool))
    ensures r.1 <==> !Has(table, foodId, m)
    ensures r.1 ==> r.0 == table + [Stored(foodId, m, false, true, true)]
    ensures !r.1 ==> r.0 == table
    ensures Has(r.0, foodId, m)
  {
    if Has(table, foodId, m) then (table, false)
    else
      var s := Stored(foodId, m, false, true, true);
      assert s in table + [s] && Matches(s, foodId, m);
      (table + [s], true)
  }

  /** Ensuring the same measurement twice inserts it at most once. */
  lemma EnsureIdempotent(table: seq<Stored>, foodId: int, m: Measurement)
    ensures var (t1, _) := EnsureMeasurement(table, foodId, m);
            EnsureMeasurement(t1, foodId, m) == (t1, false)
  {
  }

  // ---------------------------------------------------------------------------------------
  // The row loop of `run`

  /** The food-id cache is cleared once it grows past this many entries. */
  const CacheLimit: nat := 50000

  /** The importer's summary counters. */
  datatype Tally = Tally(scanned: nat, inserted: nat, existing: nat, missingFood: nat, invalid: nat, errors: nat)

  /** Every scanned row is counted under exactly one outcome. */
  predicate Balanced(t: Tally)
  {
    t.scanned == t.inserted + t.existing + t.missingFood + t.invalid + t.errors
  }

  /** The food lookup and the environment a run reads. `foods` maps a sourceId to the id the
      SELECT returns; a batch size below 1 is read as 1. */
  datatype Env = Env(foods: map<string, int>, units: map<string, string>, batchSize: int)

  /** The id the lookup query yields, 0 when there is no such food. */
  function FoodId(foods: map<string, int>, fdcId: string): int
  {
    if fdcId in foods then foods[fdcId] else 0
  }

  /** Every cached id is the one the query would return. */
  predicate Coherent(cache: map<string, int>, foods: map<string, int>)
  {
    forall k :: k in cache ==> cache[k] == FoodId(foods, k)
  }

  /** The cached id, or the queried one, which is then cached (0 included). */
  function Lookup(cache: map<string, int>, foods: map<string, int>, fdcId: string): (r: (map<string, int>, int))
    requires Coherent(cache, foods) && |cache| <= CacheLimit
    ensures r.1 == FoodId(foods, fdcId)
    ensures Coherent(r.0, foods) && |r.0| <= CacheLimit
    ensures fdcId in cache ==> r.0 == cache
    ensures fdcId !in cache && |cache| < CacheLimit ==> r.0 == cache[fdcId := r.1]
    ensures fdcId !in cache && |cache| == CacheLimit ==> r.0 == map[]
  {
    if fdcId in cache then (cache, cache[fdcId])
    else
      var id := FoodId(foods, fdcId);
      var grown := cache[fdcId := id];
      assert |grown| == |cache| + 1;
      if |grown| > CacheLimit then (map[], id) else (grown, id)
  }

  /** What a row leads to before the insert runs. */
  datatype Outcome = Invalid | MissingFood | Insert(foodId: int, m: Measurement)

  function Classify(cache: map<string, int>, row: PortionRow, env: Env, float: TokenValue, g: GFormat): (r: (map<string, int>, Outcome))
    requires Coherent(cache, env.foods) && |cache| <= CacheLimit
    ensures Coherent(r.0, env.foods) && |r.0| <= CacheLimit
    ensures PortionCleanString(row.fdcId).None? ==> r == (cache, Invalid)
    ensures r.1.Insert? ==> (r.1.foodId != 0 && PortionCleanString(row.fdcId).Some?
              && r.1.foodId == FoodId(env.foods, PortionCleanString(row.fdcId).value)
              && Some(r.1.m) == BuildMeasurement(row, UnitName(env.units, row), float, g))
    ensures r.1.MissingFood? <==> PortionCleanString(row.fdcId).Some? && FoodId(env.foods, PortionCleanString(row.fdcId).value) == 0
  {
    match PortionCleanString(row.fdcId)
    case None => (cache, Invalid)
    case Some(fdcId) =>
      var (c, id) := Lookup(cache, env.foods, fdcId);
      if id == 0 then (c, MissingFood)
      else match BuildMeasurement(row, UnitName(env.units, row), float, g)
        case None => (c, Invalid)
        case Some(m) => (c, Insert(id, m))
  }

  /** The importer between rows. The source keeps only the number of statements since the
      last commit; here that number is split into the inserts and the skips among them. */
  datatype Importer = Importer(
    tally: Tally, cache: map<string, int>, freshInserts: nat, freshSkips: nat,
    table: seq<Stored>, committed: seq<Stored>)

  function Pending(st: Importer): nat { st.freshInserts + st.freshSkips }

  /** A run before its first row, over the stored measurement table. */
  function Start(table: seq<Stored>): Importer
  {
    Importer(Tally(0, 0, 0, 0, 0, 0), map[], 0, 0, table, table)
  }

  /** `a` is an initial part of `b`; stated elementwise, since the slice form makes the solver
      chase indices when the two are equal. */
  predicate Prefix(a: seq<Stored>, b: seq<Stored>)
  {
    |a| <= |b| && forall i :: 0 <= i < |a| ==> a[i] == b[i]
  }

  /** The bookkeeping both versions of the loop keep: the cache is coherent and bounded, and
      the table is the committed one plus the inserts since the last commit. */
  predicate Tracks(st: Importer, env: Env)
  {
    && Coherent(st.cache, env.foods) && |st.cache| <= CacheLimit
    && |st.table| == |st.committed| + st.freshInserts && Prefix(st.committed, st.table)
    && st.freshInserts <= st.tally.inserted && st.freshSkips <= st.tally.existing
  }

  /** Between rows the counters also balance. */
  predicate Valid(st: Importer, env: Env)
  {
    Balanced(st.tally) && Tracks(st, env)
  }

  /** A successful statement, then a commit once the batch size is reached. */
  function Record(st: Importer, foodId: int, m: Measurement, env: Env): (r: Importer)
    requires Tracks(st, env)
    ensures Tracks(r, env) && r.cache == st.cache
    ensures r.tally.scanned == st.tally.scanned && r.tally.errors == st.tally.errors
    ensures r.tally.missingFood == st.tally.missingFood && r.tally.invalid == st.tally.invalid
    ensures r.tally.inserted + r.tally.existing == st.tally.inserted + st.tally.existing + 1
    ensures r.tally.inserted - |r.table| == st.tally.inserted - |st.table|
    ensures Has(r.table, foodId, m) && Prefix(st.table, r.table) && Prefix(st.committed, r.committed)
  {
    var (table, inserted) := EnsureMeasurement(st.table, foodId, m);
    var t := if inserted then st.tally.(inserted := st.tally.inserted + 1)
             else st.tally.(existing := st.tally.existing + 1);
    var fi := if inserted then st.freshInserts + 1 else st.freshInserts;
    var fs := if inserted then st.freshSkips else st.freshSkips + 1;
    if fi + fs >= Batching.Cap(env.batchSize) then st.(tally := t, freshInserts := 0, freshSkips := 0, table := table, committed := table)
    else st.(tally := t, freshInserts := fi, freshSkips := fs, table := table)
  }

  /** A classified row applied as the source does. A raising insert rolls the transaction back
      and counts one error; the rows of the discarded transaction keep their inserted and
      existing counts. */
  function Apply(st: Importer, cache: map<string, int>, o: Outcome, raises: bool, env: Env): (r: Importer)
    requires Valid(st, env) && Coherent(cache, env.foods) && |cache| <= CacheLimit
    ensures Valid(r, env)
    ensures r.tally.scanned == st.tally.scanned + 1
    ensures r.tally.inserted >= st.tally.inserted && Prefix(st.committed, r.committed)
    ensures r.tally.inserted - |r.table| >= st.tally.inserted - |st.table|
  {
    var t := st.tally.(scanned := st.tally.scanned + 1);
    match o
    case Invalid => st.(tally := t.(invalid := t.invalid + 1), cache := cache)
    case MissingFood => st.(tally := t.(missingFood := t.missingFood + 1), cache := cache)
    case Insert(id, m) =>
      if raises then
        st.(tally := t.(errors := t.errors + 1), cache := cache, freshInserts := 0, freshSkips := 0, table := st.committed)
      else Record(st.(tally := t, cache := cache), id, m, env)
  }

  /** One row of the loop in `run`. */
  function Step(st: Importer, row: PortionRow, raises: bool, env: Env, float: TokenValue, g: GFormat): (r: Importer)
    requires Valid(st, env)
    ensures Valid(r, env)
    ensures r.tally.scanned == st.tally.scanned + 1
    ensures r.tally.inserted >= st.tally.inserted && Prefix(st.committed, r.committed)
    ensures r.tally.inserted - |r.table| >= st.tally.inserted - |st.table|
  {
    var (cache, o) := Classify(st.cache, row, env, float, g);
    Apply(st, cache, o, raises, env)
  }

  /** The `finally` clause: commit whatever is pending. */
  function Finish(st: Importer): (r: Importer)
    requires |st.table| == |st.committed| + st.freshInserts && Prefix(st.committed, st.table)
    ensures r.committed == r.table && r.tally == st.tally && Prefix(st.committed, r.committed)
    ensures |r.committed| == |st.table|
  {
    if Pending(st) > 0 then st.(freshInserts := 0, freshSkips := 0, committed := st.table)
    else st.(freshInserts := 0, freshSkips := 0, table := st.committed)
  }

  /** Runs every row of food_portion.csv. `raises[i]` says whether row i's insert raises. */
  method ImportPortions(rows: seq<PortionRow>, raises: seq<bool>, env: Env, float: TokenValue, g: GFormat,
                         table0: seq<Stored>) returns (st: Importer)
    requires |raises| == |rows|
    ensures Balanced(st.tally) && st.tally.scanned == |rows|
    ensures Coherent(st.cache, env.foods) && |st.cache| <= CacheLimit
    ensures Prefix(table0, st.committed) && st.table == st.committed
    ensures |st.committed| <= |table0| + st.tally.inserted
  {
    st := Start(table0);
    var i := 0;
    while i < |rows|
      invariant i <= |rows| && Valid(st, env) && st.tally.scanned == i
      invariant Prefix(table0, st.committed) && |st.table| <= |table0| + st.tally.inserted
    {
      st := Step(st, rows[i], raises[i], env, float, g);
      i := i + 1;
    }
    st := Finish(st);
  }

  /** The discrepancy: a measurement counted as inserted, then discarded by the rollback that a
      later row's failing insert triggers in the same transaction. */
  lemma InsertedOvercounts()
    ensures var env := Env(map[], map[], 10);
            var st := Apply(Apply(Start([]), map[], Insert(7, Measurement("cup", "1 cup", "cup", 240 as real)), false, env),
                            map[], Insert(7, Measurement("cup", "2 cup", "cup", 480 as real)), true, env);
            st.tally.inserted == 1 && Finish(st).committed == []
  {
  }

  // ---------------------------------------------------------------------------------------
  // Corrected: a rollback takes back the counts of the rows it discards

  /** Like `Apply`, except that a rollback moves the rows of the discarded transaction from
      inserted and existing to errors, so `inserted` counts only measurements that stay. */
  function ApplyCorrected(st: Importer, cache: map<string, int>, o: Outcome, raises: bool, env: Env): (r: Importer)
    requires Valid(st, env) && Coherent(cache, env.foods) && |cache| <= CacheLimit
    ensures Valid(r, env)
    ensures r.tally.scanned == st.tally.scanned + 1
    ensures Prefix(st.committed, r.committed)
    ensures r.tally.inserted - |r.table| == st.tally.inserted - |st.table|
  {
    var t := st.tally.(scanned := st.tally.scanned + 1);
    match o
    case Invalid => st.(tally := t.(invalid := t.invalid + 1), cache := cache)
    case MissingFood => st.(tally := t.(missingFood := t.missingFood + 1), cache := cache)
    case Insert(id, m) =>
      if raises then
        var undone := t.(inserted := t.inserted - st.freshInserts, existing := t.existing - st.freshSkips,
                         errors := t.errors + Pending(st) + 1);
        st.(tally := undone, cache := cache, freshInserts := 0, freshSkips := 0, table := st.committed)
      else Record(st.(tally := t, cache := cache), id, m, env)
  }

  function StepCorrected(st: Importer, row: PortionRow, raises: bool, env: Env, float: TokenValue, g: GFormat): (r: Importer)
    requires Valid(st, env)
    ensures Valid(r, env)
    ensures r.tally.scanned == st.tally.scanned + 1
    ensures Prefix(st.committed, r.committed)
    ensures r.tally.inserted - |r.table| == st.tally.inserted - |st.table|
  {
    var (cache, o) := Classify(st.cache, row, env, float, g);
    ApplyCorrected(st, cache, o, raises, env)
  }

  /** With the correction, the inserted count is exactly the number of rows the run added. */
  method ImportPortionsCorrected(rows: seq<PortionRow>, raises: seq<bool>, env: Env, float: TokenValue, g: GFormat,
                         table0: seq<Stored>)
    returns (st: Importer)
    requires |raises| == |rows|
    ensures Balanced(st.tally) && st.tally.scanned == |rows|
    ensures Coherent(st.cache, env.foods) && |st.cache| <= CacheLimit
    ensures Prefix(table0, st.committed) && st.table == st.committed
    ensures |st.committed| == |table0| + st.tally.inserted
  {
    st := Start(table0);
    var i := 0;
    while i < |rows|
      invariant i <= |rows| && Valid(st, env) && st.tally.scanned == i
      invariant Prefix(table0, st.committed) && |st.table| == |table0| + st.tally.inserted
    {
      st := StepCorrected(st, rows[i], raises[i], env, float, g);
      i := i + 1;
    }
    st := Finish(st);
  }

  /** The scenario of `InsertedOvercounts` under the correction: nothing inserted, two errors. */
  lemma CorrectedRollbackUncounts()
    ensures var env := Env(map[], map[], 10);
            var st := ApplyCorrected(ApplyCorrected(Start([]), map[], Insert(7, Measurement("cup", "1 cup", "cup", 240 as real)), false, env),
                                     map[], Insert(7, Measurement("cup", "2 cup", "cup", 480 as real)), true, env);
            st.tally.inserted == 0 && st.tally.errors == 2 && Finish(st).committed == []
  {
  }

  /** The cache only saves queries: a row leads to the same outcome with an empty cache. */
  lemma CacheIsTransparent(cache: map<string, int>, row: PortionRow, env: Env, float: TokenValue, g: GFormat)
    requires Coherent(cache, env.foods) && |cache| <= CacheLimit
    ensures Classify(cache, row, env, float, g).1 == Classify(map[], row, env, float, g).1
  {
  }
}

=== FILE: recipe_service.dfy ===
/** The recipe service: a user's recipes with their ingredient lines, the food check every
    ingredient list passes first, and the paged, filtered recipe listing. The database is a map from
    recipe id to recipe plus the set of food ids; the listing reads the recipe table in the order
    the database sorts titles, which is a parameter. */
module RecipeService {
  import opened Wrappers
  import Text
  import Paging

  /** One ingredient line. `??` maps a missing measurement to `null`; both are `None` here. */
  datatype Ingredient = Ingredient(foodId: nat, servings: real, measurementId: Option<nat>)

  datatype Recipe = Recipe(owner: nat, title: string, servings: int, calories: Option<real>,
                           ingredients: seq<Ingredient>)

  datatype Store = Store(recipes: map<nat, Recipe>, foods: set<nat>, nextId: nat)

  datatype Error = NotFound | BadRequest

  /** Ids come from an auto-increment column: every stored id is below the next one. */
  predicate Valid(s: Store) { forall id :: id in s.recipes ==> id < s.nextId }

  // ---------------------------------------------------------------------------------------------
  // The food check

  /** The distinct food ids an ingredient list names (`new Set(…)`). */
  function FoodIds(ingredients: seq<Ingredient>): set<nat>
  {
    set i | 0 <= i < |ingredients| :: ingredients[i].foodId
  }

  /** Every ingredient names a known food. */
  predicate FoodsKnown(foods: set<nat>, ingredients: seq<Ingredient>)
  {
    forall i :: 0 <= i < |ingredients| ==> ingredients[i].foodId in foods
  }

  lemma {:induction false} SubsetSize<T>(a: set<T>, b: set<T>)
    requires a <= b
    ensures |a| <= |b|
    decreases |a|
  {
    if a != {} {
      var x :| x in a;
      SubsetSize(a - {x}, b - {x});
    }
  }

  /** A subset as large as its superset is the superset. */
  lemma SubsetSameSize<T>(a: set<T>, b: set<T>)
    requires a <= b && |a| == |b|
    ensures a == b
  {
    if a != b {
      var x :| x in b && x !in a;
      SubsetSize(a, b - {x});
    }
  }

  /** `ensureFoodsExist`: no query for an empty list; otherwise the number of foods found among
      the distinct ids must equal the number of distinct ids. */
  function EnsureFoodsExist(foods: set<nat>, ingredients: seq<Ingredient>): (r: Result<(), Error>)
    ensures r.Success? <==> FoodsKnown(foods, ingredients)
    ensures r.Failure? ==> r.error == BadRequest
  {
    var ids := FoodIds(ingredients);
    assert FoodsKnown(foods, ingredients) ==> ids * foods == ids by {
      if FoodsKnown(foods, ingredients) {
        forall x | x in ids ensures x in foods {
          var i :| 0 <= i < |ingredients| && ingredients[i].foodId == x;
        }
      }
    }
    if |ids| == 0 then
      assert forall i | 0 <= i < |ingredients| :: ingredients[i].foodId in ids;
      Success(())
    else if |ids * foods| != |ids| then
      Failure(BadRequest)
    else
      SubsetSameSize(ids * foods, ids);
      assert FoodsKnown(foods, ingredients) by {
        forall i | 0 <= i < |ingredients|
          ensures ingredients[i].foodId in foods
        {
          assert ingredients[i].foodId in ids;
        }
      }
      Success(())
  }

  // ---------------------------------------------------------------------------------------------
  // Single recipes

  datatype RecipeInput = RecipeInput(title: string, servings: int, calories: Option<real>,
                                     ingredients: seq<Ingredient>)

  /** `getRecipe`: found only under its owner. */
  function GetRecipe(s: Store, id: nat, userId: nat): (r: Result<Recipe, Error>)
    ensures r.Success? <==> id in s.recipes && s.recipes[id].owner == userId
    ensures r.Success? ==> r.value == s.recipes[id]
    ensures r.Failure? ==> r.error == NotFound
  {
    if id in s.recipes && s.recipes[id].owner == userId then Success(s.recipes[id]) else Failure(NotFound)
  }

  /** `create`: the food check, then one insert of the recipe with its lines under a fresh id.
      The result pairs the new id (or the error) with the store. */
  function Create(s: Store, input: RecipeInput, userId: nat): (r: (Result<nat, Error>, Store))
    ensures r.0.Failure? <==> !FoodsKnown(s.foods, input.ingredients)
    ensures r.0.Failure? ==> r.0.error == BadRequest && r.1 == s
    ensures r.0.Success? && Valid(s) ==> r.0.value !in s.recipes
    ensures r.0.Success? ==>
      && r.1.foods == s.foods
      && r.1.recipes == s.recipes[r.0.value := Recipe(userId, input.title, input.servings, input.calories,
                                                      input.ingredients)]
    ensures Valid(s) ==> Valid(r.1)
  {
    match EnsureFoodsExist(s.foods, input.ingredients)
    case Failure(e) => (Failure(e), s)
    case Success(_) =>
      var id := s.nextId;
      var recipe := Recipe(userId, input.title, input.servings, input.calories, input.ingredients);
      assert Valid(s) ==> id !in s.recipes;
      (Success(id), Store(s.recipes[id := recipe], s.foods, id + 1))
  }

  /** A created recipe is found by its owner and by nobody else. */
  lemma CreateThenGet(s: Store, input: RecipeInput, userId: nat, other: nat)
    requires Valid(s) && FoodsKnown(s.foods, input.ingredients) && other != userId
    ensures var (id, s') := Create(s, input, userId);
      && id.Success?
      && GetRecipe(s', id.value, userId)
         == Success(Recipe(userId, input.title, input.servings, input.calories, input.ingredients))
      && GetRecipe(s', id.value, other).Failure?
  {
  }

  /** `UpdateRecipeDto`: every field may be left out; `calories` may also be set to `null`. */
  datatype RecipePatch = RecipePatch(title: Option<string>, servings: Option<int>,
                                     calories: Option<Option<real>>, ingredients: Option<seq<Ingredient>>)

  /** The fields a patch sets, applied to a recipe. */
  function Patched(recipe: Recipe, patch: RecipePatch): (r: Recipe)
    ensures r.owner == recipe.owner
    ensures r.title == patch.title.GetOr(recipe.title)
    ensures r.servings == patch.servings.GetOr(recipe.servings)
    ensures r.calories == patch.calories.GetOr(recipe.calories)
    ensures r.ingredients == patch.ingredients.GetOr(recipe.ingredients)
  {
    recipe.(title := patch.title.GetOr(recipe.title),
            servings := patch.servings.GetOr(recipe.servings),
            calories := patch.calories.GetOr(recipe.calories),
            ingredients := patch.ingredients.GetOr(recipe.ingredients))
  }

  /** `update`: NotFound unless the user owns the recipe; a new ingredient list must pass the food
      check before the old lines are deleted; then the patched recipe is saved. A failure changes
      nothing. */
  function Update(s: Store, id: nat, patch: RecipePatch, userId: nat): (r: (Result<nat, Error>, Store))
    ensures r.0 == Failure(NotFound) <==> GetRecipe(s, id, userId).Failure?
    ensures r.0 == Failure(BadRequest) <==>
      GetRecipe(s, id, userId).Success? && patch.ingredients.Some?
      && !FoodsKnown(s.foods, patch.ingredients.value)
    ensures r.0.Failure? ==> r.1 == s
    ensures r.0.Success? ==>
      && r.0.value == id
      && r.1 == s.(recipes := s.recipes[id := Patched(s.recipes[id], patch)])
  {
    match GetRecipe(s, id, userId)
    case Failure(e) => (Failure(e), s)
    case Success(recipe) =>
      var checked := if patch.ingredients.Some? then EnsureFoodsExist(s.foods, patch.ingredients.value)
                     else Success(());
      if checked.Failure? then (Failure(checked.error), s)
      else (Success(id), s.(recipes := s.recipes[id := Patched(recipe, patch)]))
  }

  /** An update that sets nothing saves the recipe unchanged. */
  lemma EmptyPatchChangesNothing(s: Store, id: nat, userId: nat)
    ensures Update(s, id, RecipePatch(None, None, None, None), userId).1 == s
  {
    var patch := RecipePatch(None, None, None, None);
    if GetRecipe(s, id, userId).Success? {
      assert Patched(s.recipes[id], patch) == s.recipes[id];
      assert s.recipes[id := s.recipes[id]] == s.recipes;
    }
  }

  /** Updating twice with the same patch is updating once. */
  lemma UpdateIdempotent(s: Store, id: nat, patch: RecipePatch, userId: nat)
    ensures var once := Update(s, id, patch, userId).1;
      Update(once, id, patch, userId).1 == once
  {
    var once := Update(s, id, patch, userId).1;
    if GetRecipe(s, id, userId).Success? && once != s {
      assert Patched(Patched(s.recipes[id], patch), patch) == Patched(s.recipes[id], patch);
    }
  }

  /** `delete`: NotFound unless the user owns the recipe; then its lines and the recipe go. */
  function Delete(s: Store, id: nat, userId: nat): (r: (Result<bool, Error>, Store))
    ensures r.0.Failure? <==> GetRecipe(s, id, userId).Failure?
    ensures r.0.Failure? ==> r.0.error == NotFound && r.1 == s
    ensures r.0.Success? ==>
      && r.0.value
      && r.1.recipes.Keys == s.recipes.Keys - {id}
      && (forall k :: k in r.1.recipes ==> r.1.recipes[k] == s.recipes[k])
      && r.1.foods == s.foods && r.1.nextId == s.nextId
    ensures Valid(s) ==> Valid(r.1)
  {
    match GetRecipe(s, id, userId)
    case Failure(e) => (Failure(e), s)
    case Success(_) => (Success(true), s.(recipes := s.recipes - {id}))
  }

  /** After a delete the recipe is gone, and a second delete is NotFound. */
  lemma DeleteThenGet(s: Store, id: nat, userId: nat)
    requires GetRecipe(s, id, userId).Success?
    ensures var s' := Delete(s, id, userId).1;
      GetRecipe(s', id, userId).Failure? && Delete(s', id, userId).0 == Failure(NotFound)
  {
  }

  // ---------------------------------------------------------------------------------------------
  // The listing

  /** A listing's parameters: whose recipes, an optional search text, page size and page. */
  datatype Query = Query(userId: nat, search: Option<string>, limit: Option<nat>, page: Option<nat>)

  const DefaultLimit: nat := 50

  /** The title filter applies only to a search that is not blank; the search text itself is
      lower-cased but not trimmed. */
  predicate TitleMatches(title: string, search: Option<string>)
  {
    search.None? || Text.Strip(search.value) == [] || Text.IsInfix(Text.Lower(search.value), Text.Lower(title))
  }

  predicate Selects(q: Query, row: (nat, Recipe))
  {
    row.1.owner == q.userId && TitleMatches(row.1.title, q.search)
  }

  /** The rows the query's `WHERE` keeps, in table order. */
  function Selected(rows: seq<(nat, Recipe)>, q: Query): (r: seq<(nat, Recipe)>)
    ensures |r| <= |rows|
    decreases |rows|
  {
    if rows == [] then []
    else (if Selects(q, rows[0]) then [rows[0]] else []) + Selected(rows[1..], q)
  }

  lemma {:induction false} SelectedMembers(rows: seq<(nat, Recipe)>, q: Query, row: (nat, Recipe))
    ensures row in Selected(rows, q) <==> row in rows && Selects(q, row)
    decreases |rows|
  {
    if rows != [] {
      SelectedMembers(rows[1..], q, row);
      assert row in rows <==> row == rows[0] || row in rows[1..];
    }
  }

  /** `getRecipes`: `limit ?? 50`, the owner and title filter, then one page. */
  function GetRecipes(rows: seq<(nat, Recipe)>, q: Query): (r: seq<(nat, Recipe)>)
    ensures forall k :: 0 <= k < |r| ==> r[k] in rows && Selects(q, r[k])
    ensures q.limit.GetOr(DefaultLimit) > 0 ==> |r| <= q.limit.GetOr(DefaultLimit)
  {
    var r := Paging.Page(Selected(rows, q), q.limit.GetOr(DefaultLimit), q.page);
    forall k | 0 <= k < |r| ensures r[k] in rows && Selects(q, r[k]) {
      SelectedMembers(rows, q, r[k]);
    }
    r
  }

  /** The first `n` pages of a listing, fetched one call after another. */
  function Pages(rows: seq<(nat, Recipe)>, userId: nat, search: Option<string>, limit: nat, n: nat)
    : seq<(nat, Recipe)>
  {
    if n == 0 then []
    else Pages(rows, userId, search, limit, n - 1)
         + GetRecipes(rows, Query(userId, search, Some(limit), Some(n - 1)))
  }

  /** Successive listing calls with a positive page size show the selected recipes in title
      order, none skipped and none twice. */
  lemma {:induction false} ListingPagesCover(rows: seq<(nat, Recipe)>, userId: nat, search: Option<string>,
                                             limit: nat, n: nat)
    requires limit > 0
    ensures Pages(rows, userId, search, limit, n)
            == Paging.Prefix(Selected(rows, Query(userId, search, Some(limit), None)), n * limit)
  {
    if n > 0 {
      var q := Query(userId, search, Some(limit), Some(n - 1));
      var sel := Selected(rows, Query(userId, search, Some(limit), None));
      ListingPagesCover(rows, userId, search, limit, n - 1);
      SelectedIgnoresPaging(rows, q, Query(userId, search, Some(limit), None));
      assert GetRecipes(rows, q) == Paging.Page(sel, limit, Some(n - 1));
      Paging.PageIsSlice(sel, limit, n - 1);
    }
  }

  lemma {:induction false} SelectedIgnoresPaging(rows: seq<(nat, Recipe)>, q: Query, q': Query)
    requires q.userId == q'.userId && q.search == q'.search
    ensures Selected(rows, q) == Selected(rows, q')
    decreases |rows|
  {
    if rows != [] {
      SelectedIgnoresPaging(rows[1..], q, q');
    }
  }

  // ---------------------------------------------------------------------------------------------
  // Stored ingredient lines

  /** The columns the `RecipeFood` entity maps: the recipe, the food and `amount`. */
  datatype RecipeFoodRow = RecipeFoodRow(recipeId: nat, foodId: nat, amount: Option<real>)

  /** The line `create` and `update` build, as the entity stores it: the object sets `servings`
      and `measurementId`, which the entity has no columns for, and never sets `amount`. */
  function StoredRowAsWritten(recipeId: nat, i: Ingredient): (row: RecipeFoodRow)
    ensures row.recipeId == recipeId && row.foodId == i.foodId
  {
    RecipeFoodRow(recipeId, i.foodId, None)
  }

  /** Two ingredient lines with different servings are stored as the same row. */
  lemma ServingsLostAsWritten()
    ensures var a := Ingredient(7, 1.0, None);
      var b := Ingredient(7, 2.5, Some(3));
      a != b && StoredRowAsWritten(1, a) == StoredRowAsWritten(1, b)
  {
  }

  /** The line with its servings stored in `amount`, as the column's comment describes. */
  function StoredRow(recipeId: nat, i: Ingredient): (row: RecipeFoodRow)
    ensures row.recipeId == recipeId && row.foodId == i.foodId && row.amount == Some(i.servings)
  {
    RecipeFoodRow(recipeId, i.foodId, Some(i.servings))
  }

  /** Stored rows keep the food and the servings of every line. */
  lemma StoredRowKeepsServings(recipeId: nat, a: Ingredient, b: Ingredient)
    requires StoredRow(recipeId, a) == StoredRow(recipeId, b)
    ensures a.foodId == b.foodId && a.servings == b.servings
  {
  }
}

=== FILE: recipe_utils.dfy ===
/** The client's recipe arithmetic: picking a food's measurement, calories for a serving count,
    nutrient totals keyed by field name and their folding, scaling and display rows, and the
    amount-input sanitiser. Nutrient values a food carries are taken as already read into finite
    numbers; the totals are maps from field key to value, an absent key standing for `undefined`. */
module RecipeUtils {
  import opened Wrappers
  import opened Text
  import opened Batching
  import opened Rounding
  import opened JsNum

  datatype Measurement = Measurement(id: int, isDefault: bool, weightInGrams: real, name: string, abbreviation: string)

  /** A food as the client receives it. `measurements` is `None` when the payload carries no
      array there; `values` holds each nutrient field whose value reads as a finite number. */
  datatype Food = Food(name: string, calories: real, measurements: Option<seq<Measurement>>, values: map<string, real>)

  /** One display field of the nutrition panels. */
  datatype Field = Field(key: string, title: string, unit: string)

  type Totals = map<string, real>

  datatype Row = Row(key: string, title: string, value: Option<real>, unit: string)

  const CaloriesKey := "calories"

  const CoreFields: seq<Field> := [
    Field(CaloriesKey, "Calories", "cal"),
    Field("protein", "Protein", "g"),
    Field("carbs", "Carbs", "g"),
    Field("fat", "Fat", "g")
  ]

  /** Every field the client totals, the core four first. */
  const NutritionFields: seq<Field> := CoreFields + [
    Field("fiber", "Fiber", "g"),
    Field("sugar", "Sugar", "g"),
    Field("sodium", "Sodium", "mg"),
    Field("saturatedFat", "Saturated fat", "g"),
    Field("transFat", "Trans fat", "g"),
    Field("cholesterol", "Cholesterol", "mg"),
    Field("addedSugar", "Added sugar", "g"),
    Field("netCarbs", "Net carbs", "g"),
    Field("solubleFiber", "Soluble fiber", "g"),
    Field("insolubleFiber", "Insoluble fiber", "g"),
    Field("water", "Water", "g"),
    Field("pralScore", "PRAL score", ""),
    Field("omega3", "Omega 3", "mg"),
    Field("omega6", "Omega 6", "mg"),
    Field("calcium", "Calcium", "mg"),
    Field("iron", "Iron", "mg"),
    Field("potassium", "Potassium", "mg"),
    Field("magnesium", "Magnesium", "mg"),
    Field("vitaminAiu", "Vitamin A", "IU"),
    Field("vitaminArae", "Vitamin A (RAE)", "mcg"),
    Field("vitaminC", "Vitamin C", "mg"),
    Field("vitaminB12", "Vitamin B12", "mcg"),
    Field("vitaminD", "Vitamin D", "mcg"),
    Field("vitaminE", "Vitamin E", "mg"),
    Field("phosphorus", "Phosphorus", "mg"),
    Field("zinc", "Zinc", "mg"),
    Field("copper", "Copper", "mg"),
    Field("manganese", "Manganese", "mg"),
    Field("selenium", "Selenium", "mcg"),
    Field("fluoride", "Fluoride", "mg"),
    Field("molybdenum", "Molybdenum", "mcg"),
    Field("chlorine", "Chlorine", "mg"),
    Field("vitaminB1", "Vitamin B1", "mg"),
    Field("vitaminB2", "Vitamin B2", "mg"),
    Field("vitaminB3", "Vitamin B3", "mg"),
    Field("vitaminB5", "Vitamin B5", "mg"),
    Field("vitaminB6", "Vitamin B6", "mg"),
    Field("biotin", "Biotin", "mcg"),
    Field("folate", "Folate", "mcg"),
    Field("folicAcid", "Folic acid", "mcg"),
    Field("foodFolate", "Food folate", "mcg"),
    Field("folateDfe", "Folate DFE", "mcg"),
    Field("choline", "Choline", "mg"),
    Field("betaine", "Betaine", "mg"),
    Field("retinol", "Retinol", "mcg"),
    Field("caroteneBeta", "Carotene beta", "mcg"),
    Field("caroteneAlpha", "Carotene alpha", "mcg"),
    Field("lycopene", "Lycopene", "mcg"),
    Field("luteinZeaxanthin", "Lutein zeaxanthin", "mcg"),
    Field("vitaminD2", "Vitamin D2", "mcg"),
    Field("vitaminD3", "Vitamin D3", "mcg"),
    Field("vitaminDiu", "Vitamin D (IU)", "IU"),
    Field("vitaminK", "Vitamin K", "mcg"),
    Field("dihydrophylloquinone", "Dihydrophylloquinone", "mcg"),
    Field("menaquinone4", "Menaquinone-4", "mcg"),
    Field("monoFat", "Monounsaturated fat", "g"),
    Field("polyFat", "Polyunsaturated fat", "g"),
    Field("ala", "ALA", "mg"),
    Field("epa", "EPA", "mg"),
    Field("dpa", "DPA", "mg"),
    Field("dha", "DHA", "mg")
  ]

  function Keys(fields: seq<Field>): (ks: seq<string>)
    ensures |ks| == |fields|
    ensures forall i :: 0 <= i < |fields| ==> ks[i] == fields[i].key
  {
    seq(|fields|, i requires 0 <= i < |fields| => fields[i].key)
  }

  // ---------------------------------------------------------------------------------------------
  // Measurements

  /** A food's measurements, an absent or non-array value read as none. */
  function Measurements(food: Food): (ms: seq<Measurement>)
    ensures food.measurements.None? ==> ms == []
  {
    food.measurements.GetOr([])
  }

  /** The index of the first measurement satisfying `p`, or `|ms|` when none does. */
  function FindIndex(ms: seq<Measurement>, p: Measurement -> bool): (k: nat)
    ensures k <= |ms|
    ensures forall j :: 0 <= j < k ==> !p(ms[j])
    ensures k < |ms| ==> p(ms[k])
  {
    if ms == [] then 0 else if p(ms[0]) then 0 else 1 + FindIndex(ms[1..], p)
  }

  /** `Array.prototype.find`. */
  function Find(ms: seq<Measurement>, p: Measurement -> bool): (r: Option<Measurement>)
  {
    var k := FindIndex(ms, p);
    if k < |ms| then Some(ms[k]) else None
  }

  /** The first measurement marked default, else the first measurement, else nothing. */
  function DefaultMeasurement(food: Food): (r: Option<Measurement>)
    ensures r.None? <==> Measurements(food) == []
    ensures r.Some? ==> r.value in Measurements(food)
    ensures (exists i :: 0 <= i < |Measurements(food)| && Measurements(food)[i].isDefault)
      ==> r.Some? && r.value.isDefault
    ensures r.Some? && r.value.isDefault ==>
      exists k :: 0 <= k < |Measurements(food)| && Measurements(food)[k] == r.value
        && forall j :: 0 <= j < k ==> !Measurements(food)[j].isDefault
    ensures (forall i :: 0 <= i < |Measurements(food)| ==> !Measurements(food)[i].isDefault)
      ==> r == (if Measurements(food) == [] then None else Some(Measurements(food)[0]))
  {
    var ms := Measurements(food);
    match Find(ms, (m: Measurement) => m.isDefault)
    case Some(m) => Some(m)
    case None => if ms == [] then None else Some(ms[0])
  }

  /** No measurement for a null id; otherwise the first measurement carrying that id. */
  function MeasurementById(food: Food, id: Option<int>): (r: Option<Measurement>)
    ensures id.None? ==> r.None?
    ensures id.Some? ==>
      (r.Some? <==> exists i :: 0 <= i < |Measurements(food)| && Measurements(food)[i].id == id.value)
    ensures r.Some? ==>
      exists k :: 0 <= k < |Measurements(food)| && Measurements(food)[k] == r.value && r.value.id == id.value
        && forall j :: 0 <= j < k ==> Measurements(food)[j].id != id.value
  {
    match id
    case None => None
    case Some(v) => Find(Measurements(food), (m: Measurement) => m.id == v)
  }

  /** The measurement an ingredient is weighed in: its own, else the food's default. */
  function IngredientMeasurement(food: Food, id: Option<int>): (r: Option<Measurement>)
  {
    match MeasurementById(food, id)
    case Some(m) => Some(m)
    case None => DefaultMeasurement(food)
  }

  /** Grams in one serving; 100 g when there is no measurement. */
  function Grams(m: Option<Measurement>): real
  {
    match m
    case Some(x) => x.weightInGrams
    case None => 100 as real
  }

  /** The measurement's label: its name, else its abbreviation, else "100 g". */
  function MeasurementText(m: Option<Measurement>): (r: string)
    ensures r != []
    ensures m.Some? && m.value.name != [] ==> r == m.value.name
    ensures r != "100 g" ==> m.Some? && (r == m.value.name || r == m.value.abbreviation)
  {
    match m
    case None => "100 g"
    case Some(x) => if x.name != [] then x.name else if x.abbreviation != [] then x.abbreviation else "100 g"
  }

  // ---------------------------------------------------------------------------------------------
  // Calories

  /** Calories of `servings` servings: the food's per-100 g calories scaled by the grams eaten. */
  function CaloriesFor(food: Food, m: Option<Measurement>, servings: Num): (r: Num)
    ensures r.Finite? <==> servings.Finite?
  {
    match servings
    case Finite(s) => Finite(food.calories * (Grams(m) * s) / 100 as real)
    case NonFinite => NonFinite
  }

  /** Calories are linear in the serving count. */
  lemma CaloriesLinear(food: Food, m: Option<Measurement>, a: real, b: real, k: real)
    ensures CaloriesFor(food, m, Finite(a + b)).value
      == CaloriesFor(food, m, Finite(a)).value + CaloriesFor(food, m, Finite(b)).value
    ensures CaloriesFor(food, m, Finite(k * a)).value == k * CaloriesFor(food, m, Finite(a)).value
    ensures CaloriesFor(food, m, Finite(0 as real)).value == 0 as real
  {
    var c, g := food.calories, Grams(m);
    assert c * (g * (a + b)) == c * (g * a) + c * (g * b);
    assert c * (g * (k * a)) == k * (c * (g * a));
  }

  // ---------------------------------------------------------------------------------------------
  // Totals

  /** The totals value of `key`, an absent key counting as 0. */
  function ValueOr0(t: Totals, key: string): real
  {
    if key in t then t[key] else 0 as real
  }

  /** One step of `addNutritionTotals`. */
  function AddField(key: string, target: Totals, addition: Totals): Totals
  {
    if key in addition then target[key := ValueOr0(target, key) + addition[key]] else target
  }

  lemma AddFieldAt(key: string, target: Totals, addition: Totals, k: string)
    ensures k in AddField(key, target, addition) <==> k in target || (k == key && k in addition)
    ensures ValueOr0(AddField(key, target, addition), k)
      == ValueOr0(target, k) + (if k == key && k in addition then addition[k] else 0 as real)
  {
  }

  /** `addNutritionTotals(target, addition)` over `fields`, returning the updated target. */
  function AddTotals(fields: seq<Field>, target: Totals, addition: Totals): Totals
    decreases |fields|
  {
    if fields == [] then target
    else AddTotals(fields[1..], AddField(fields[0].key, target, addition), addition)
  }

  /** How many of the fields carry `key`. */
  function Listings(fields: seq<Field>, key: string): nat
  {
    if fields == [] then 0 else (if fields[0].key == key then 1 else 0) + Listings(fields[1..], key)
  }

  lemma {:induction false} ListingsKeys(fields: seq<Field>, key: string)
    ensures Listings(fields, key) > 0 <==> key in Keys(fields)
    decreases |fields|
  {
    if fields != [] {
      ListingsKeys(fields[1..], key);
      assert Keys(fields) == [fields[0].key] + Keys(fields[1..]);
    }
  }

  lemma Distribute(n: nat, x: real)
    ensures (n + 1) as real * x == n as real * x + x
  {
  }

  /** Adding creates a key only when it is listed and present in the addition. */
  lemma {:induction false} AddTotalsKeys(fields: seq<Field>, target: Totals, addition: Totals, k: string)
    ensures k in AddTotals(fields, target, addition) <==> k in target || (k in addition && Listings(fields, k) > 0)
    decreases |fields|
  {
    if fields != [] {
      AddTotalsKeys(fields[1..], AddField(fields[0].key, target, addition), addition, k);
    }
  }

  /** A key absent from the addition keeps its value or absence. */
  lemma {:induction false} AddTotalsSkips(fields: seq<Field>, target: Totals, addition: Totals, k: string)
    requires k !in addition
    ensures ValueOr0(AddTotals(fields, target, addition), k) == ValueOr0(target, k)
    decreases |fields|
  {
    if fields != [] {
      AddTotalsSkips(fields[1..], AddField(fields[0].key, target, addition), addition, k);
    }
  }

  /** `x` added `n` times. */
  function Repeated(n: nat, x: real): real
  {
    if n == 0 then 0 as real else x + Repeated(n - 1, x)
  }

  lemma {:induction false} RepeatedIsProduct(n: nat, x: real)
    ensures Repeated(n, x) == n as real * x
  {
    if n > 0 {
      RepeatedIsProduct(n - 1, x);
      Distribute(n - 1, x);
    }
  }

  /** A key of the addition gains its value once per listing, an absent target key counting as 0. */
  lemma {:induction false} AddTotalsAdds(fields: seq<Field>, target: Totals, addition: Totals, k: string)
    requires k in addition
    ensures ValueOr0(AddTotals(fields, target, addition), k)
      == ValueOr0(target, k) + Listings(fields, k) as real * addition[k]
  {
    AddTotalsRepeats(fields, target, addition, k);
    RepeatedIsProduct(Listings(fields, k), addition[k]);
  }

  lemma {:induction false} AddTotalsRepeats(fields: seq<Field>, target: Totals, addition: Totals, k: string)
    requires k in addition
    ensures ValueOr0(AddTotals(fields, target, addition), k)
      == ValueOr0(target, k) + Repeated(Listings(fields, k), addition[k])
    decreases |fields|
  {
    if fields != [] {
      AddTotalsRepeats(fields[1..], AddField(fields[0].key, target, addition), addition, k);
    }
  }

  /** The value of any key after adding. */
  lemma AddTotalsValueAt(fields: seq<Field>, target: Totals, addition: Totals, k: string)
    ensures ValueOr0(AddTotals(fields, target, addition), k) == ValueOr0(target, k)
      + (if k in addition then Listings(fields, k) as real * addition[k] else 0 as real)
  {
    if k in addition {
      AddTotalsAdds(fields, target, addition, k);
    } else {
      AddTotalsSkips(fields, target, addition, k);
    }
  }

  /** Adding two totals in either order gives the same result. */
  lemma AddTotalsCommute(fields: seq<Field>, t: Totals, a: Totals, b: Totals)
    ensures AddTotals(fields, AddTotals(fields, t, a), b) == AddTotals(fields, AddTotals(fields, t, b), a)
  {
    var ab, ba := AddTotals(fields, AddTotals(fields, t, a), b), AddTotals(fields, AddTotals(fields, t, b), a);
    forall k
      ensures k in ab <==> k in ba
      ensures k in ab ==> ab[k] == ba[k]
    {
      AddTotalsKeys(fields, t, a, k);
      AddTotalsKeys(fields, t, b, k);
      AddTotalsKeys(fields, AddTotals(fields, t, a), b, k);
      AddTotalsKeys(fields, AddTotals(fields, t, b), a, k);
      AddTotalsValueAt(fields, t, a, k);
      AddTotalsValueAt(fields, t, b, k);
      AddTotalsValueAt(fields, AddTotals(fields, t, a), b, k);
      AddTotalsValueAt(fields, AddTotals(fields, t, b), a, k);
    }
    assert ab.Keys == ba.Keys;
  }

  /** One step of `scaleNutritionTotals`. */
  function ScaleField(key: string, scaled: Totals, totals: Totals, factor: real): Totals
  {
    if key in totals then scaled[key := totals[key] * factor] else scaled
  }

  function ScaleInto(fields: seq<Field>, scaled: Totals, totals: Totals, factor: real): Totals
    decreases |fields|
  {
    if fields == [] then scaled
    else ScaleInto(fields[1..], ScaleField(fields[0].key, scaled, totals, factor), totals, factor)
  }

  /** `scaleNutritionTotals(totals, factor)` over `fields`. */
  function ScaleTotals(fields: seq<Field>, totals: Totals, factor: real): Totals
  {
    ScaleInto(fields, map[], totals, factor)
  }

  lemma {:induction false} ScaleIntoAt(fields: seq<Field>, scaled: Totals, totals: Totals, factor: real, k: string)
    ensures k in ScaleInto(fields, scaled, totals, factor) <==> k in scaled || (k in totals && k in Keys(fields))
    ensures k in totals && k in Keys(fields) ==> ScaleInto(fields, scaled, totals, factor)[k] == totals[k] * factor
    ensures k in scaled && !(k in totals && k in Keys(fields)) ==> ScaleInto(fields, scaled, totals, factor)[k] == scaled[k]
    decreases |fields|
  {
    if fields != [] {
      ScaleIntoAt(fields[1..], ScaleField(fields[0].key, scaled, totals, factor), totals, factor, k);
      assert Keys(fields) == [fields[0].key] + Keys(fields[1..]);
    }
  }

  /** Scaling keeps exactly the listed keys the totals have, each multiplied by the factor. */
  lemma ScaleTotalsValues(fields: seq<Field>, totals: Totals, factor: real)
    ensures ScaleTotals(fields, totals, factor)
      == map k | k in totals && k in Keys(fields) :: totals[k] * factor
  {
    var r := ScaleTotals(fields, totals, factor);
    var m := map k | k in totals && k in Keys(fields) :: totals[k] * factor;
    forall k
      ensures k in r <==> k in m
      ensures k in r ==> r[k] == m[k]
    {
      ScaleIntoAt(fields, map[], totals, factor, k);
    }
    assert r.Keys == m.Keys;
  }

  /** Scaling twice is scaling once by the product of the factors. */
  lemma ScaleCompose(fields: seq<Field>, totals: Totals, a: real, b: real)
    ensures ScaleTotals(fields, ScaleTotals(fields, totals, a), b) == ScaleTotals(fields, totals, a * b)
  {
    var once := ScaleTotals(fields, totals, a);
    var lhs, rhs := ScaleTotals(fields, once, b), ScaleTotals(fields, totals, a * b);
    forall k
      ensures k in lhs <==> k in rhs
      ensures k in lhs ==> lhs[k] == rhs[k]
    {
      ScaleIntoAt(fields, map[], totals, a, k);
      ScaleIntoAt(fields, map[], once, b, k);
      ScaleIntoAt(fields, map[], totals, a * b, k);
      if k in lhs {
        assert lhs[k] == (totals[k] * a) * b;
      }
    }
    assert lhs.Keys == rhs.Keys;
  }

  /** Every key of the totals is one of the fields. */
  predicate Within(t: Totals, fields: seq<Field>)
  {
    forall k :: k in t ==> k in Keys(fields)
  }

  /** Scaling by 1 totals that lie within the fields changes nothing. */
  lemma ScaleByOne(fields: seq<Field>, t: Totals)
    requires Within(t, fields)
    ensures ScaleTotals(fields, t, 1 as real) == t
  {
    var r := ScaleTotals(fields, t, 1 as real);
    forall k
      ensures k in r <==> k in t
      ensures k in r ==> r[k] == t[k]
    {
      ScaleIntoAt(fields, map[], t, 1 as real, k);
    }
    assert r.Keys == t.Keys;
  }

  lemma AddTotalsWithin(fields: seq<Field>, target: Totals, addition: Totals)
    requires Within(target, fields)
    ensures Within(AddTotals(fields, target, addition), fields)
  {
    forall k | k in AddTotals(fields, target, addition)
      ensures k in Keys(fields)
    {
      AddTotalsKeys(fields, target, addition, k);
      ListingsKeys(fields, k);
    }
  }

  /** `buildNutritionTotalsFromFields`: each listed nutrient the food has, times grams / 100. */
  function FoodTotals(food: Food, grams: real, fields: seq<Field>): Totals
  {
    ScaleTotals(fields, food.values, grams / 100 as real)
  }

  /** An ingredient of a recipe; `food` is absent when the recipe row has lost its food. */
  datatype Ingredient = Ingredient(food: Option<Food>, servings: Num, measurementId: Option<int>)

  /** The failures the client code runs into rather than returning a value. */
  datatype Error = MissingFood

  /** What one ingredient with a food adds: nothing unless its serving count is a positive
      finite number, else its food's totals for the grams of its measurement. */
  function Absorb(fields: seq<Field>, acc: Totals, food: Food, i: Ingredient): Totals
  {
    if !i.servings.Positive() then acc
    else AddTotals(fields, acc, FoodTotals(food, Grams(IngredientMeasurement(food, i.measurementId)) * i.servings.value, fields))
  }

  /** `getIngredientNutritionTotals` from an accumulated total. Reading the measurement of an
      ingredient without a food throws, whatever its servings. */
  function IngredientTotalsFrom(fields: seq<Field>, acc: Totals, ingredients: seq<Ingredient>): (r: Result<Totals, Error>)
    decreases |ingredients|
  {
    if ingredients == [] then Success(acc)
    else
      match ingredients[0].food
      case None => Failure(MissingFood)
      case Some(food) => IngredientTotalsFrom(fields, Absorb(fields, acc, food, ingredients[0]), ingredients[1..])
  }

  function IngredientTotals(ingredients: seq<Ingredient>): (r: Result<Totals, Error>)
  {
    IngredientTotalsFrom(NutritionFields, map[], ingredients)
  }

  predicate HasFood(i: Ingredient) { i.food.Some? }

  /** The fold throws exactly when some ingredient has no food. */
  lemma {:induction false} IngredientTotalsFails(fields: seq<Field>, acc: Totals, ingredients: seq<Ingredient>)
    ensures IngredientTotalsFrom(fields, acc, ingredients).Failure? <==>
      exists j :: 0 <= j < |ingredients| && !HasFood(ingredients[j])
    decreases |ingredients|
  {
    if ingredients != [] {
      var i := ingredients[0];
      if i.food.Some? {
        IngredientTotalsFails(fields, Absorb(fields, acc, i.food.value, i), ingredients[1..]);
        if exists j :: 0 <= j < |ingredients| && !HasFood(ingredients[j]) {
          var j :| 0 <= j < |ingredients| && !HasFood(ingredients[j]);
          assert ingredients[1..][j - 1] == ingredients[j];
        }
        if exists j :: 0 <= j < |ingredients| - 1 && !HasFood(ingredients[1..][j]) {
          var j :| 0 <= j < |ingredients| - 1 && !HasFood(ingredients[1..][j]);
          assert ingredients[j + 1] == ingredients[1..][j];
        }
      } else {
        assert !HasFood(ingredients[0]);
      }
    }
  }

  /** Ingredient totals only ever hold field keys. */
  lemma {:induction false} IngredientTotalsWithin(fields: seq<Field>, acc: Totals, ingredients: seq<Ingredient>)
    requires Within(acc, fields)
    ensures IngredientTotalsFrom(fields, acc, ingredients).Success? ==>
      Within(IngredientTotalsFrom(fields, acc, ingredients).value, fields)
    decreases |ingredients|
  {
    if ingredients != [] && ingredients[0].food.Some? {
      var i := ingredients[0];
      var acc' := Absorb(fields, acc, i.food.value, i);
      if i.servings.Positive() {
        AddTotalsWithin(fields, acc, FoodTotals(i.food.value, Grams(IngredientMeasurement(i.food.value, i.measurementId)) * i.servings.value, fields));
      }
      IngredientTotalsWithin(fields, acc', ingredients[1..]);
    }
  }

  /** Appending an ingredient folds it into the totals so far: an ingredient without a positive
      finite serving count leaves them unchanged. */
  lemma {:induction false} IngredientTotalsSnoc(fields: seq<Field>, acc: Totals, ingredients: seq<Ingredient>, i: Ingredient)
    requires IngredientTotalsFrom(fields, acc, ingredients).Success?
    ensures IngredientTotalsFrom(fields, acc, ingredients + [i]) ==
      match i.food
      case None => Failure(MissingFood)
      case Some(food) => Success(Absorb(fields, IngredientTotalsFrom(fields, acc, ingredients).value, food, i))
    decreases |ingredients|
  {
    if ingredients == [] {
      assert [] + [i] == [i];
    } else {
      var h := ingredients[0];
      assert (ingredients + [i])[1..] == ingredients[1..] + [i];
      assert (ingredients + [i])[0] == h;
      var acc' := Absorb(fields, acc, h.food.value, h);
      assert IngredientTotalsFrom(fields, acc, ingredients) == IngredientTotalsFrom(fields, acc', ingredients[1..]);
      IngredientTotalsSnoc(fields, acc', ingredients[1..], i);
    }
  }

  // ---------------------------------------------------------------------------------------------
  // Rows

  /** `Number(x.toFixed(2))`, except calories which are rounded to a whole number. */
  function Rounded(key: string, x: real): real
  {
    if key == CaloriesKey then JsRound(x) as real else Fixed2(x)
  }

  /** The row a field contributes, or `None` when it is filtered out. */
  function RowFor(totals: Totals, f: Field, includeZero: bool): Option<Row>
  {
    if f.key !in totals then
      if includeZero then Some(Row(f.key, f.title, None, f.unit)) else None
    else if !includeZero && totals[f.key] <= 0 as real then None
    else Some(Row(f.key, f.title, Some(Rounded(f.key, totals[f.key])), f.unit))
  }

  /** `buildNutritionRowsFromTotalsAndFields`: each field's row, in field order, with the
      filtered-out ones dropped. */
  function RowsFromTotals(totals: Totals, fields: seq<Field>, includeZero: bool): seq<Row>
  {
    if fields == [] then []
    else
      (match RowFor(totals, fields[0], includeZero) case Some(r) => [r] case None => [])
      + RowsFromTotals(totals, fields[1..], includeZero)
  }

  /** The fields a row is shown for when zero rows are hidden: those with a positive total. */
  function PositiveFields(totals: Totals, fields: seq<Field>): (r: seq<Field>)
    ensures forall f :: f in r <==> f in fields && f.key in totals && totals[f.key] > 0 as real
  {
    if fields == [] then []
    else
      (if fields[0].key in totals && totals[fields[0].key] > 0 as real then [fields[0]] else [])
      + PositiveFields(totals, fields[1..])
  }

  /** The row shown for a field with a value. */
  function ValueRow(totals: Totals, f: Field): Row
    requires f.key in totals
  {
    Row(f.key, f.title, Some(Rounded(f.key, totals[f.key])), f.unit)
  }

  /** With zero rows included, every field gets a row, in field order, with a null value exactly
      when the totals lack the key. */
  lemma {:induction false} RowsIncludeZero(totals: Totals, fields: seq<Field>)
    ensures |RowsFromTotals(totals, fields, true)| == |fields|
    ensures forall i :: 0 <= i < |fields| ==> RowsFromTotals(totals, fields, true)[i] == FieldRow(totals, fields[i])
    decreases |fields|
  {
    if fields != [] {
      RowsIncludeZero(totals, fields[1..]);
      var r := RowsFromTotals(totals, fields, true);
      assert r == [FieldRow(totals, fields[0])] + RowsFromTotals(totals, fields[1..], true);
      forall i | 1 <= i < |fields|
        ensures r[i] == FieldRow(totals, fields[i])
      {
        assert fields[1..][i - 1] == fields[i];
      }
    }
  }

  /** The row of a field when zero rows are included: its rounded total, or null without one. */
  function FieldRow(totals: Totals, f: Field): (r: Row)
    ensures r.key == f.key && r.title == f.title && r.unit == f.unit
    ensures r.value.None? <==> f.key !in totals
    ensures r.value.Some? ==> r.value.value == Rounded(f.key, totals[f.key])
  {
    Row(f.key, f.title, if f.key in totals then Some(Rounded(f.key, totals[f.key])) else None, f.unit)
  }

  /** The value rows of fields that all have a total, in order. */
  function ValueRows(totals: Totals, fs: seq<Field>): (rows: seq<Row>)
    requires forall f :: f in fs ==> f.key in totals
    ensures |rows| == |fs|
  {
    if fs == [] then [] else [ValueRow(totals, fs[0])] + ValueRows(totals, fs[1..])
  }

  /** Without zero rows, exactly the fields with a positive total get a row, in field order. */
  lemma {:induction false} RowsPositiveOnly(totals: Totals, fields: seq<Field>)
    ensures RowsFromTotals(totals, fields, false) == ValueRows(totals, PositiveFields(totals, fields))
    decreases |fields|
  {
    if fields != [] {
      RowsPositiveOnly(totals, fields[1..]);
      var f := fields[0];
      if f.key in totals && totals[f.key] > 0 as real {
        var p := PositiveFields(totals, fields);
        assert p == [f] + PositiveFields(totals, fields[1..]);
        assert p[1..] == PositiveFields(totals, fields[1..]);
      } else {
        assert RowFor(totals, f, false).None?;
        assert RowsFromTotals(totals, fields, false) == RowsFromTotals(totals, fields[1..], false);
        assert PositiveFields(totals, fields) == PositiveFields(totals, fields[1..]);
      }
    }
  }

  // ---------------------------------------------------------------------------------------------
  // Amount input

  predicate AmountChar(c: char) { IsDigit(c) || c == '.' }

  predicate AllAmountChars(s: string) { forall i :: 0 <= i < |s| ==> AmountChar(s[i]) }

  /** `value.replace(/[^0-9.]/g, '')`. */
  function Sanitize(s: string): (r: string)
    ensures AllAmountChars(r)
  {
    if s == [] then []
    else (if AmountChar(s[0]) then [s[0]] else []) + Sanitize(s[1..])
  }

  /** `normalizeAmount`: keep digits and dots, then fuse everything after the first dot. */
  function NormalizeAmount(s: string): string
  {
    var parts := Split(Sanitize(s), '.');
    if |parts| == 1 then parts[0] else parts[0] + "." + Concat(parts[1..])
  }

  /** The shape `normalizeAmount` leaves: the digits before the first dot, then at most one dot and
      the remaining digits. */
  function AmountForm(t: string): (r: string)
  {
    var k := IndexOf(t, '.');
    if k == |t| then t else t[..k] + "." + RemoveChar(t[k + 1..], '.')
  }

  lemma {:induction false} RemoveCharAppend(a: string, b: string, c: char)
    ensures RemoveChar(a + b, c) == RemoveChar(a, c) + RemoveChar(b, c)
    decreases |a|
  {
    if a != [] {
      assert (a + b)[1..] == a[1..] + b;
      assert (a + b)[0] == a[0];
      RemoveCharAppend(a[1..], b, c);
      if a[0] != c {
        assert RemoveChar(a, c) == [a[0]] + RemoveChar(a[1..], c);
        assert RemoveChar(a + b, c) == [a[0]] + RemoveChar(a[1..] + b, c);
      }
    } else {
      assert a + b == b;
    }
  }

  lemma {:induction false} RemoveCharAbsent(s: string, c: char)
    requires c !in s
    ensures RemoveChar(s, c) == s
    decreases |s|
  {
    if s != [] {
      RemoveCharAbsent(s[1..], c);
    }
  }

  lemma RemoveCharSkip(c: char, rest: string)
    ensures RemoveChar([c] + rest, c) == RemoveChar(rest, c)
  {
    assert ([c] + rest)[1..] == rest;
  }

  /** Removing a character around one occurrence of it: the part before, then the part after. */
  lemma RemoveCharAround(a: string, c: char, rest: string)
    requires c !in a
    ensures RemoveChar(a + [c] + rest, c) == a + RemoveChar(rest, c)
  {
    assert a + [c] + rest == a + ([c] + rest);
    RemoveCharAppend(a, [c] + rest, c);
    RemoveCharSkip(c, rest);
    RemoveCharAbsent(a, c);
  }

  /** Gluing the pieces of a split removes the separators. */
  lemma {:induction false} ConcatSplit(u: string, c: char)
    ensures Concat(Split(u, c)) == RemoveChar(u, c)
    decreases |u|
  {
    var k := IndexOf(u, c);
    if k == |u| {
      RemoveCharAbsent(u, c);
      assert Split(u, c) == [u];
      ConcatCons(u, []);
    } else {
      ConcatSplit(u[k + 1..], c);
      assert u == u[..k] + [c] + u[k + 1..];
      ConcatSplitStep(u[..k], c, u[k + 1..]);
    }
  }

  lemma ConcatSplitStep(a: string, c: char, rest: string)
    requires c !in a
    requires Concat(Split(rest, c)) == RemoveChar(rest, c)
    ensures Concat(Split(a + [c] + rest, c)) == RemoveChar(a + [c] + rest, c)
  {
    var u := a + [c] + rest;
    IndexOfAfter(a, rest, c);
    assert u[..|a|] == a;
    assert u[|a| + 1..] == rest;
    assert Split(u, c) == [a] + Split(rest, c);
    ConcatCons(a, Split(rest, c));
    RemoveCharAround(a, c, rest);
  }

  lemma NormalizeIsAmountForm(s: string)
    ensures NormalizeAmount(s) == AmountForm(Sanitize(s))
  {
    var t := Sanitize(s);
    var k := IndexOf(t, '.');
    FirstPieceIsSplitHead(t, '.');
    if k < |t| {
      assert Split(t, '.')[1..] == Split(t[k + 1..], '.');
      ConcatSplit(t[k + 1..], '.');
    }
  }

  lemma {:induction false} SanitizeKeeps(s: string)
    requires AllAmountChars(s)
    ensures Sanitize(s) == s
    decreases |s|
  {
    if s != [] {
      SanitizeKeeps(s[1..]);
    }
  }

  lemma {:induction false} RemoveCharKeeps(s: string, c: char)
    requires AllAmountChars(s)
    ensures AllAmountChars(RemoveChar(s, c))
    decreases |s|
  {
    if s != [] {
      RemoveCharKeeps(s[1..], c);
    }
  }

  /** The part of `AmountForm(t)` before its dot holds no dot. */
  lemma BeforeDot(t: string, k: nat)
    requires k == IndexOf(t, '.') < |t|
    ensures '.' !in t[..k]
  {
    forall i | 0 <= i < k
      ensures t[..k][i] != '.'
    {
      assert t[..k][i] == t[i];
    }
  }

  lemma AmountFormChars(t: string)
    requires AllAmountChars(t)
    ensures AllAmountChars(AmountForm(t))
  {
    var k := IndexOf(t, '.');
    if k < |t| {
      RemoveCharKeeps(t[k + 1..], '.');
    }
  }

  /** Every dot of the normal form is its first dot. */
  lemma AmountFormOneDot(t: string)
    ensures forall i :: 0 <= i < |AmountForm(t)| && AmountForm(t)[i] == '.' ==> i == IndexOf(AmountForm(t), '.')
  {
    var k := IndexOf(t, '.');
    if k < |t| {
      BeforeDot(t, k);
      var a, b := t[..k], RemoveChar(t[k + 1..], '.');
      var r := a + "." + b;
      assert r[k] == '.';
      assert forall i :: 0 <= i < |r| && i != k ==> r[i] != '.' by {
        forall i | 0 <= i < |r| && i != k
          ensures r[i] != '.'
        {
          if i < k { assert r[i] == a[i]; } else { assert r[i] == b[i - k - 1]; }
        }
      }
    }
  }

  /** The normal form keeps the digits in order and has a dot exactly when its input has one. */
  lemma AmountFormDigits(t: string)
    ensures RemoveChar(AmountForm(t), '.') == RemoveChar(t, '.')
    ensures '.' in AmountForm(t) <==> '.' in t
  {
    var k := IndexOf(t, '.');
    if k < |t| {
      BeforeDot(t, k);
      var a, rest := t[..k], t[k + 1..];
      var b := RemoveChar(rest, '.');
      assert t == a + ['.'] + rest;
      RemoveCharAround(a, '.', rest);
      RemoveCharAround(a, '.', b);
      RemoveCharAbsent(b, '.');
      assert AmountForm(t) == a + ['.'] + b;
      assert AmountForm(t)[k] == '.';
    }
  }

  /** The normal form is its own normal form. */
  lemma AmountFormFixed(t: string)
    ensures AmountForm(AmountForm(t)) == AmountForm(t)
  {
    var k := IndexOf(t, '.');
    if k < |t| {
      BeforeDot(t, k);
      var a, b := t[..k], RemoveChar(t[k + 1..], '.');
      var r := a + ['.'] + b;
      assert AmountForm(t) == r;
      IndexOfAfter(a, b, '.');
      assert r[..k] == a;
      assert r[k + 1..] == b;
      RemoveCharAbsent(b, '.');
    }
  }

  /** The normalised amount holds only digits and dots, every dot is the first one (so there is
      at most one), a dot is there exactly when the input has one, and the digits keep their order. */
  lemma NormalizeAmountShape(s: string)
    ensures AllAmountChars(NormalizeAmount(s))
    ensures forall i :: 0 <= i < |NormalizeAmount(s)| && NormalizeAmount(s)[i] == '.' ==> i == IndexOf(NormalizeAmount(s), '.')
    ensures '.' in NormalizeAmount(s) <==> '.' in Sanitize(s)
    ensures RemoveChar(NormalizeAmount(s), '.') == RemoveChar(Sanitize(s), '.')
  {
    NormalizeIsAmountForm(s);
    AmountFormChars(Sanitize(s));
    AmountFormOneDot(Sanitize(s));
    AmountFormDigits(Sanitize(s));
  }

  /** Normalising an already normalised amount changes nothing. */
  lemma NormalizeAmountIdempotent(s: string)
    ensures NormalizeAmount(NormalizeAmount(s)) == NormalizeAmount(s)
  {
    var t := Sanitize(s);
    NormalizeIsAmountForm(s);
    AmountFormChars(t);
    SanitizeKeeps(AmountForm(t));
    NormalizeIsAmountForm(AmountForm(t));
    AmountFormFixed(t);
  }
}

=== FILE: rounding.dfy ===
/** The integer conversions the sources apply to quantities, stated over exact reals:
    Python's `round()` (half to even) and `int()` (toward zero), JavaScript's `Math.round`
    (half toward positive infinity). Binary floating-point representation error is not modelled. */
module Rounding {

  /** Kilojoules per kilocalorie, the divisor every importer uses to read a kJ value as calories. */
  const KjPerKcal: real := 4.184

  /** Python `round(x)`: the nearest integer, ties going to the even neighbour. */
  function RoundHalfEven(x: real): (n: int)
    ensures -1 as real / 2 as real <= x - n as real <= 1 as real / 2 as real
    ensures x - n as real == 1 as real / 2 as real ==> n % 2 == 0
    ensures n as real - x == 1 as real / 2 as real ==> n % 2 == 0
  {
    var f := x.Floor;
    var d := x - f as real;
    if d < 1 as real / 2 as real then f
    else if d > 1 as real / 2 as real then f + 1
    else if f % 2 == 0 then f else f + 1
  }

  /** Python `int(x)` on a float: truncation toward zero. */
  function TruncToward0(x: real): (n: int)
    ensures x >= 0 as real ==> 0 <= n && n as real <= x < n as real + 1 as real
    ensures x < 0 as real ==> n <= 0 && n as real - 1 as real < x <= n as real
  {
    if x >= 0 as real then x.Floor else -((-x).Floor)
  }

  /** JavaScript `Math.round(x)`: the nearest integer, ties going up. */
  function JsRound(x: real): (n: int)
    ensures -1 as real / 2 as real <= x - n as real < 1 as real / 2 as real
  {
    (x + 1 as real / 2 as real).Floor
  }

  /** Rounding leaves integers alone and never flips the sign of a non-negative value. */
  lemma RoundIntegral(k: int)
    ensures RoundHalfEven(k as real) == k && JsRound(k as real) == k && TruncToward0(k as real) == k
  {
  }

  lemma RoundNonNegative(x: real)
    requires x >= 0 as real
    ensures RoundHalfEven(x) >= 0
  {
  }
}

=== FILE: signup_form.dfy ===
/** The sign-up screen's checks before it asks the API to create an account: the first failing
    check is reported and nothing is sent; a form that passes them all is sent as typed. */
module SignUpForm {
  import opened Wrappers
  import opened Text

  /** The five fields of the form, as typed. */
  datatype Form = Form(firstName: string, lastName: string, email: string, password: string, confirmPassword: string)

  /** The alerts `validateForm` can raise, in the order it checks for them. */
  datatype Problem =
    | FirstNameRequired
    | LastNameRequired
    | EmailRequired
    | InvalidEmail
    | PasswordRequired
    | PasswordTooShort
    | PasswordsDiffer

  const MinPasswordLength: nat := 6

  // ---------------------------------------------------------------------------------------------
  // The email pattern `^[^\s@]+@[^\s@]+\.[^\s@]+$`

  /** One `[^\s@]+` run: at least one character, none of them whitespace or `@`. */
  predicate Segment(p: string)
  {
    p != [] && NoSpace(p) && '@' !in p
  }

  /** The pattern matches with its `@` at `at` and its `\.` at `dot`: a run before the `@`, a run
      between it and the dot, and a run after the dot up to the end. */
  ghost predicate EmailAt(s: string, at: int, dot: int)
  {
    && 0 <= at < dot < |s| && s[at] == '@' && s[dot] == '.'
    && Segment(s[..at]) && Segment(s[at + 1..dot]) && Segment(s[dot + 1..])
  }

  /** `emailRegex.test(s)`: some placement of the `@` and the dot matches. */
  ghost predicate EmailPattern(s: string)
  {
    exists at, dot :: EmailAt(s, at, dot)
  }

  /** A direct check of the pattern: no whitespace, exactly one `@` with something before it,
      and a dot after it that is neither right after the `@` nor last. */
  function EmailMatches(s: string): (ok: bool)
  {
    var at := IndexOf(s, '@');
    && NoSpace(s) && 0 < at < |s| && '@' !in s[at + 1..]
    && |s| - at >= 4 && '.' in s[at + 2..|s| - 1]
  }

  /** The direct check accepts exactly the strings the pattern matches. */
  lemma EmailMatchesIff(s: string)
    ensures EmailMatches(s) <==> EmailPattern(s)
  {
    if EmailMatches(s) {
      MatchesGivesSplit(s);
    }
    if EmailPattern(s) {
      var at, dot :| EmailAt(s, at, dot);
      SplitGivesMatches(s, at, dot);
    }
  }

  lemma MatchesGivesSplit(s: string)
    requires EmailMatches(s)
    ensures EmailPattern(s)
  {
    var at := IndexOf(s, '@');
    var inner := s[at + 2..|s| - 1];
    var j :| 0 <= j < |inner| && inner[j] == '.';
    var dot := at + 2 + j;
    assert s[dot] == '.';
    var a, b, c := s[..at], s[at + 1..dot], s[dot + 1..];
    forall i | 0 <= i < |a| ensures a[i] != '@' { }
    forall i | 0 <= i < |b| ensures b[i] != '@' {
      assert b[i] == s[at + 1..][i];
    }
    forall i | 0 <= i < |c| ensures c[i] != '@' {
      assert c[i] == s[at + 1..][dot - at + i];
    }
    assert EmailAt(s, at, dot);
  }

  lemma SplitGivesMatches(s: string, at: int, dot: int)
    requires EmailAt(s, at, dot)
    ensures EmailMatches(s)
  {
    var a, b, c := s[..at], s[at + 1..dot], s[dot + 1..];
    assert s == a + ['@'] + b + ['.'] + c;
    forall i | 0 <= i < |s| ensures !IsSpace(s[i]) && (s[i] == '@' ==> i == at) {
      if i < at {
        assert s[i] == a[i];
      } else if at < i < dot {
        assert s[i] == b[i - at - 1];
      } else if dot < i {
        assert s[i] == c[i - dot - 1];
      }
    }
    assert a[at - 1] == s[at - 1];
    IndexOfFirst(s, '@', at);
    var rest := s[at + 1..];
    forall i | 0 <= i < |rest| ensures rest[i] != '@' {
      assert rest[i] == s[at + 1 + i];
    }
    assert s[at + 2..|s| - 1][dot - at - 2] == '.';
  }

  /** The first `c` is where the first `c` is. */
  lemma IndexOfFirst(s: string, c: char, k: nat)
    requires k < |s| && s[k] == c && forall i :: 0 <= i < k ==> s[i] != c
    ensures IndexOf(s, c) == k
  {
  }

  // ---------------------------------------------------------------------------------------------
  // The form

  /** `validateForm`: the first check the form fails, if any. A name, the email or the password
      that is blank once trimmed is missing; the email must match the pattern as typed (so
      surrounding whitespace makes it invalid); the password needs six characters, counting
      whitespace, and must equal its confirmation. */
  function ValidateForm(f: Form): (r: Option<Problem>)
    ensures r.None? ==>
      && Strip(f.firstName) != [] && Strip(f.lastName) != []
      && EmailPattern(f.email)
      && Strip(f.password) != [] && |f.password| >= MinPasswordLength && f.password == f.confirmPassword
    ensures r == Some(FirstNameRequired) <==> Strip(f.firstName) == []
    ensures r == Some(PasswordsDiffer) ==> f.password != f.confirmPassword
    ensures r == Some(InvalidEmail) ==> !EmailPattern(f.email)
  {
    EmailMatchesIff(f.email);
    if Strip(f.firstName) == [] then Some(FirstNameRequired)
    else if Strip(f.lastName) == [] then Some(LastNameRequired)
    else if Strip(f.email) == [] then Some(EmailRequired)
    else if !EmailMatches(f.email) then Some(InvalidEmail)
    else if Strip(f.password) == [] then Some(PasswordRequired)
    else if |f.password| < MinPasswordLength then Some(PasswordTooShort)
    else if f.password != f.confirmPassword then Some(PasswordsDiffer)
    else None
  }

  /** A form is accepted exactly when every field passes its check. */
  lemma ValidateFormAccepts(f: Form)
    ensures ValidateForm(f).None? <==>
      && Strip(f.firstName) != [] && Strip(f.lastName) != []
      && EmailPattern(f.email)
      && Strip(f.password) != [] && |f.password| >= MinPasswordLength && f.password == f.confirmPassword
  {
    EmailMatchesIff(f.email);
    if EmailPattern(f.email) {
      var at, dot :| EmailAt(f.email, at, dot);
      assert f.email[0] == f.email[..at][0];
      assert !IsSpace(f.email[0]);
      StripKeepsFirst(f.email);
    }
  }

  /** A string starting with a non-space character is not blank. */
  lemma StripKeepsFirst(s: string)
    requires s != [] && !IsSpace(s[0])
    ensures Strip(s) != []
  {
    StripEmptyIffAllSpace(s);
  }

  /** The checks run in order: a later alert is only raised when every earlier check passed. */
  lemma ValidateFormOrder(f: Form)
    ensures ValidateForm(f) == Some(LastNameRequired) <==> Strip(f.firstName) != [] && Strip(f.lastName) == []
    ensures ValidateForm(f) == Some(PasswordRequired) <==>
      Strip(f.firstName) != [] && Strip(f.lastName) != [] && EmailPattern(f.email) && Strip(f.password) == []
    ensures ValidateForm(f) == Some(PasswordTooShort) <==>
      && Strip(f.firstName) != [] && Strip(f.lastName) != [] && EmailPattern(f.email)
      && Strip(f.password) != [] && |f.password| < MinPasswordLength
  {
    EmailMatchesIff(f.email);
    if EmailPattern(f.email) {
      var at, dot :| EmailAt(f.email, at, dot);
      assert f.email[0] == f.email[..at][0];
      StripKeepsFirst(f.email);
    }
  }

  /** The email checks: a blank email is missing, a non-blank one that does not match the
      pattern is invalid, and a later alert means the password check was reached. */
  lemma ValidateFormEmailOrder(f: Form)
    ensures ValidateForm(f) == Some(EmailRequired) <==>
      Strip(f.firstName) != [] && Strip(f.lastName) != [] && Strip(f.email) == []
    ensures ValidateForm(f) == Some(InvalidEmail) <==>
      Strip(f.firstName) != [] && Strip(f.lastName) != [] && Strip(f.email) != [] && !EmailPattern(f.email)
    ensures ValidateForm(f) == Some(PasswordsDiffer) <==>
      && Strip(f.firstName) != [] && Strip(f.lastName) != [] && EmailPattern(f.email)
      && Strip(f.password) != [] && |f.password| >= MinPasswordLength && f.password != f.confirmPassword
  {
    EmailMatchesIff(f.email);
    if EmailPattern(f.email) {
      var at, dot :| EmailAt(f.email, at, dot);
      assert f.email[0] == f.email[..at][0];
      StripKeepsFirst(f.email);
    }
  }

  /** An email typed with whitespace around it is reported as invalid rather than trimmed. */
  lemma PaddedEmailInvalid(f: Form)
    requires Strip(f.firstName) != [] && Strip(f.lastName) != [] && Strip(f.email) != []
    requires IsSpace(f.email[0]) || IsSpace(f.email[|f.email| - 1])
    ensures ValidateForm(f) == Some(InvalidEmail)
  {
    EmailMatchesIff(f.email);
    assert !NoSpace(f.email);
  }

  /** A plain address matches the pattern. */
  lemma ExampleEmailMatches()
    ensures EmailMatches("ada@example.com")
  {
    var good := "ada@example.com";
    LettersSegment("ada");
    LettersSegment("example");
    LettersSegment("com");
    assert good[..3] == "ada";
    assert good[4..11] == "example";
    assert good[12..] == "com";
    assert good[3] == '@' && good[11] == '.';
    assert EmailAt(good, 3, 11);
    SplitGivesMatches(good, 3, 11);
  }

  /** A run of lower-case letters is a pattern segment. */
  lemma LettersSegment(p: string)
    requires p != [] && forall i :: 0 <= i < |p| ==> IsLowerLetter(p[i])
    ensures Segment(p)
  {
  }

  /** What the screen sends: the four fields as typed, the confirmation left behind. */
  datatype SignUpRequest = SignUpRequest(firstName: string, lastName: string, email: string, password: string)

  datatype Outcome = Alerted(problem: Problem) | Sent(request: SignUpRequest)

  /** `handleSignUp`: an invalid form raises its alert and sends nothing; a valid one is sent
      untrimmed. A failure of the call itself is the API's answer and is not modelled. */
  function HandleSignUp(f: Form): (r: Outcome)
    ensures r.Sent? <==> ValidateForm(f).None?
    ensures r.Alerted? ==> ValidateForm(f) == Some(r.problem)
    ensures r.Sent? ==> r.request == SignUpRequest(f.firstName, f.lastName, f.email, f.password)
  {
    match ValidateForm(f)
    case Some(p) => Alerted(p)
    case None => Sent(SignUpRequest(f.firstName, f.lastName, f.email, f.password))
  }

  /** Only a form passing every check is ever sent, and the password sent is the confirmed one. */
  lemma SentFormsAreValid(f: Form)
    requires HandleSignUp(f).Sent?
    ensures EmailPattern(HandleSignUp(f).request.email)
    ensures |HandleSignUp(f).request.password| >= MinPasswordLength
    ensures HandleSignUp(f).request.password == f.confirmPassword
  {
  }
}

=== FILE: text.dfy ===
/** Character and string helpers shared by the Python scripts and the TypeScript services:
    whitespace, `strip()`/`trim()`, ASCII lower-casing, splitting and joining. */
module Text {

  /** The whitespace characters `str.strip()`, `str.split()`, `\s` and `String.trim()` agree on. */
  predicate IsSpace(c: char) {
    c == ' ' || c == '\t' || c == '\n' || c == '\r' || c == '\U{000B}' || c == '\U{000C}'
  }

  predicate IsDigit(c: char) { '0' <= c <= '9' }

  predicate IsLowerLetter(c: char) { 'a' <= c <= 'z' }

  predicate IsUpperLetter(c: char) { 'A' <= c <= 'Z' }

  predicate NoSpace(s: string) { forall i :: 0 <= i < |s| ==> !IsSpace(s[i]) }

  predicate AllSpace(s: string) { forall i :: 0 <= i < |s| ==> IsSpace(s[i]) }

  predicate NoUpper(s: string) { forall i :: 0 <= i < |s| ==> !IsUpperLetter(s[i]) }

  predicate AllDigits(s: string) { forall i :: 0 <= i < |s| ==> IsDigit(s[i]) }

  /** `p` occurs in `s` as a contiguous run: SQL `LIKE '%p%'` without wildcards in `p`. */
  predicate IsInfix(p: string, s: string)
  {
    exists i :: 0 <= i <= |s| && p <= s[i..]
  }

  /** `s` with its leading whitespace removed. */
  function TrimStart(s: string): (r: string)
    ensures |r| <= |s| && (|r| == |s| ==> r == s)
    ensures |r| < |s| ==> r == s[|s| - |r|..]
    ensures r == [] || !IsSpace(r[0])
  {
    if s != [] && IsSpace(s[0]) then TrimStart(s[1..]) else s
  }

  /** What `TrimStart` removes is whitespace. */
  lemma {:induction false} TrimStartDropsSpace(s: string)
    ensures AllSpace(s[..|s| - |TrimStart(s)|])
  {
    if s != [] && IsSpace(s[0]) {
      var t := s[1..];
      TrimStartDropsSpace(t);
      var n, n' := |s| - |TrimStart(s)|, |t| - |TrimStart(t)|;
      assert n == n' + 1;
      forall i | 0 <= i < n
        ensures IsSpace(s[..n][i])
      {
        if i > 0 {
          assert s[..n][i] == t[..n'][i - 1];
        }
      }
    }
  }

  /** `s` with its trailing whitespace removed. */
  function TrimEnd(s: string): (r: string)
    ensures |r| <= |s| && r == s[..|r|]
    ensures r == [] || !IsSpace(r[|r| - 1])
  {
    if s != [] && IsSpace(s[|s| - 1]) then TrimEnd(s[..|s| - 1]) else s
  }

  /** What `TrimEnd` removes is whitespace. */
  lemma {:induction false} TrimEndDropsSpace(s: string)
    ensures AllSpace(s[|TrimEnd(s)|..])
  {
    if s != [] && IsSpace(s[|s| - 1]) {
      var t := s[..|s| - 1];
      TrimEndDropsSpace(t);
      assert s[|TrimEnd(s)|..] == t[|TrimEnd(t)|..] + [s[|s| - 1]];
    }
  }

  /** Python `str.strip()` and JavaScript `String.prototype.trim()`. */
  function Strip(s: string): (r: string)
    ensures r == [] || (!IsSpace(r[0]) && !IsSpace(r[|r| - 1]))
  {
    TrimEnd(TrimStart(s))
  }

  /** Stripping keeps a contiguous middle part of the input and drops only whitespace around it. */
  lemma StripIsSlice(s: string)
    ensures exists i, j :: 0 <= i <= j <= |s| && Strip(s) == s[i..j]
                           && AllSpace(s[..i]) && AllSpace(s[j..])
  {
    var t := TrimStart(s);
    var i := |s| - |t|;
    var j := i + |TrimEnd(t)|;
    TrimStartDropsSpace(s);
    TrimEndDropsSpace(t);
    assert Strip(s) == s[i..j];
    assert s[j..] == t[|TrimEnd(t)|..];
  }

  /** Text that neither starts nor ends with whitespace is its own strip. */
  lemma StripOfStripped(s: string)
    requires s == [] || (!IsSpace(s[0]) && !IsSpace(s[|s| - 1]))
    ensures Strip(s) == s
  {
  }

  lemma {:induction false} TrimStartPadded(a: string, w: string)
    requires AllSpace(a) && (w == [] || !IsSpace(w[0]))
    ensures TrimStart(a + w) == w
    decreases |a|
  {
    if a != [] {
      assert (a + w)[1..] == a[1..] + w;
      TrimStartPadded(a[1..], w);
    } else {
      assert a + w == w;
    }
  }

  lemma {:induction false} TrimEndPadded(w: string, b: string)
    requires AllSpace(b) && (w == [] || !IsSpace(w[|w| - 1]))
    ensures TrimEnd(w + b) == w
    decreases |b|
  {
    if b != [] {
      assert (w + b)[..|w + b| - 1] == w + b[..|b| - 1];
      TrimEndPadded(w, b[..|b| - 1]);
    } else {
      assert w + b == w;
    }
  }

  /** Whitespace around stripped text is exactly what `strip()` removes. */
  lemma StripPadded(a: string, w: string, b: string)
    requires AllSpace(a) && AllSpace(b) && w != [] && !IsSpace(w[0]) && !IsSpace(w[|w| - 1])
    ensures Strip(a + w + b) == w
  {
    assert a + w + b == a + (w + b);
    TrimStartPadded(a, w + b);
    TrimEndPadded(w, b);
  }

  lemma StripIdempotent(s: string)
    ensures Strip(Strip(s)) == Strip(s)
  {
    StripOfStripped(Strip(s));
  }

  /** Stripping adds no character the text did not hold. */
  lemma StripKeepsAbsent(s: string, c: char)
    requires c !in s
    ensures c !in Strip(s)
  {
    StripIsSlice(s);
    var i, j :| 0 <= i <= j <= |s| && Strip(s) == s[i..j];
    assert forall k :: 0 <= k < j - i ==> s[i..j][k] == s[i + k];
  }

  /** The strip of all-whitespace text, and only of such text, is empty. */
  lemma StripEmptyIffAllSpace(s: string)
    ensures Strip(s) == [] <==> AllSpace(s)
  {
    StripIsSlice(s);
  }

  function LowerChar(c: char): (r: char)
    ensures !IsUpperLetter(r)
    ensures IsSpace(r) <==> IsSpace(c)
    ensures IsDigit(r) <==> IsDigit(c)
  {
    if IsUpperLetter(c) then c - 'A' + 'a' else c
  }

  function UpperChar(c: char): (r: char)
    ensures !IsLowerLetter(r)
    ensures LowerChar(r) == LowerChar(c)
  {
    if IsLowerLetter(c) then c - 'a' + 'A' else c
  }

  /** ASCII `str.lower()` / `String.prototype.toLowerCase()`. */
  function Lower(s: string): (r: string)
    ensures |r| == |s|
    ensures forall i :: 0 <= i < |s| ==> r[i] == LowerChar(s[i])
  {
    seq(|s|, i requires 0 <= i < |s| => LowerChar(s[i]))
  }

  lemma LowerIdempotent(s: string)
    ensures Lower(Lower(s)) == Lower(s)
  {
  }

  /** `s[:n]` in Python: at most the first `n` characters. */
  function Take(s: string, n: nat): (r: string)
    ensures |r| <= n && |r| <= |s| && r == s[..|r|]
    ensures |s| <= n ==> r == s
  {
    if |s| <= n then s else s[..n]
  }

  /** `s.replace(c, "")`. */
  function RemoveChar(s: string, c: char): (r: string)
    ensures forall i :: 0 <= i < |r| ==> r[i] != c
    ensures |r| <= |s|
  {
    if s == [] then []
    else if s[0] == c then RemoveChar(s[1..], c)
    else [s[0]] + RemoveChar(s[1..], c)
  }

  /** Index of the first `c` in `s`, or `|s|` when there is none. */
  function IndexOf(s: string, c: char): (k: nat)
    ensures k <= |s|
    ensures forall i :: 0 <= i < k ==> s[i] != c
    ensures k < |s| ==> s[k] == c
  {
    if s == [] then 0 else if s[0] == c then 0 else 1 + IndexOf(s[1..], c)
  }

  /** `s.split(sep)` with a one-character separator: Python and JavaScript keep empty pieces. */
  function Split(s: string, sep: char): (parts: seq<string>)
    ensures |parts| >= 1
    ensures forall p :: p in parts ==> sep !in p
    decreases |s|
  {
    var k := IndexOf(s, sep);
    if k == |s| then [s] else [s[..k]] + Split(s[k + 1..], sep)
  }

  /** `sep.join(parts)`. */
  function Join(parts: seq<string>, sep: char): (r: string)
  {
    if parts == [] then []
    else if |parts| == 1 then parts[0]
    else parts[0] + [sep] + Join(parts[1..], sep)
  }

  /** Splitting on a separator and joining with it gives the original text back. */
  lemma {:induction false} JoinSplit(s: string, sep: char)
    ensures Join(Split(s, sep), sep) == s
    decreases |s|
  {
    var k := IndexOf(s, sep);
    if k < |s| {
      var rest := Split(s[k + 1..], sep);
      JoinSplit(s[k + 1..], sep);
      assert Split(s, sep) == [s[..k]] + rest;
      JoinCons(s[..k], rest, sep);
      SplitAt(s, k);
    }
  }

  /** Joining pieces without the separator and splitting again gives the pieces back. */
  lemma {:induction false} SplitJoin(parts: seq<string>, sep: char)
    requires parts != [] && forall k :: 0 <= k < |parts| ==> sep !in parts[k]
    ensures Split(Join(parts, sep), sep) == parts
    decreases |parts|
  {
    if |parts| == 1 {
      assert IndexOf(parts[0], sep) == |parts[0]|;
    } else {
      var a, rest := parts[0], parts[1..];
      var s := Join(parts, sep);
      assert s == a + [sep] + Join(rest, sep);
      IndexOfAfter(a, Join(rest, sep), sep);
      assert s[..|a|] == a && s[|a| + 1..] == Join(rest, sep);
      SplitJoin(rest, sep);
      assert parts == [a] + rest;
    }
  }

  lemma JoinCons(first: string, rest: seq<string>, sep: char)
    requires rest != []
    ensures Join([first] + rest, sep) == first + [sep] + Join(rest, sep)
  {
    assert ([first] + rest)[1..] == rest;
  }

  lemma SplitAt(s: string, k: nat)
    requires k < |s|
    ensures s == s[..k] + [s[k]] + s[k + 1..]
  {
  }

  /** The position of a separator right after a piece that holds none. */
  lemma IndexOfAfter(a: string, b: string, sep: char)
    requires sep !in a
    ensures IndexOf(a + [sep] + b, sep) == |a|
  {
    var s := a + [sep] + b;
    var k := IndexOf(s, sep);
    assert s[|a|] == sep;
    assert forall i :: 0 <= i < |a| ==> s[i] == a[i];
  }

  /** The first piece of `s.split(sep)`: everything before the first separator. */
  function FirstPiece(s: string, sep: char): (r: string)
    ensures sep !in r
    ensures |r| <= |s| && r == s[..|r|]
    ensures |r| < |s| ==> s[|r|] == sep
  {
    s[..IndexOf(s, sep)]
  }

  lemma FirstPieceIsSplitHead(s: string, sep: char)
    ensures Split(s, sep)[0] == FirstPiece(s, sep)
  {
  }

  /** Python's whitespace `str.split()`: the maximal runs of non-whitespace characters. */
  function Words(s: string): (ws: seq<string>)
    ensures forall w :: w in ws ==> w != [] && NoSpace(w)
    decreases |s|
  {
    var t := TrimStart(s);
    if t == [] then []
    else
      var k := WordEnd(t);
      [t[..k]] + Words(t[k..])
  }

  /** Length of the non-whitespace run at the start of `s`. */
  function WordEnd(s: string): (k: nat)
    ensures k <= |s|
    ensures forall i :: 0 <= i < k ==> !IsSpace(s[i])
    ensures k < |s| ==> IsSpace(s[k])
  {
    if s == [] || IsSpace(s[0]) then 0 else 1 + WordEnd(s[1..])
  }

  /** `s.split()` is empty exactly when `s` is all whitespace. */
  lemma WordsEmptyIffAllSpace(s: string)
    ensures Words(s) == [] <==> AllSpace(s)
  {
    var t := TrimStart(s);
    TrimStartDropsSpace(s);
    if !AllSpace(s) {
      var i :| 0 <= i < |s| && !IsSpace(s[i]);
      assert i >= |s| - |t|;
    }
  }

  /** The first word of `s.split()` starts at the first non-whitespace character. */
  lemma FirstWord(s: string)
    requires !AllSpace(s)
    ensures Words(s) != [] && Words(s)[0] == TrimStart(s)[..WordEnd(TrimStart(s))]
  {
    WordsEmptyIffAllSpace(s);
  }

  /** `re.sub(r"\s+", " ", s)`: every whitespace run becomes one space. */
  function CollapseSpaces(s: string): (r: string)
    ensures |r| <= |s|
    ensures forall i :: 0 <= i < |r| ==> (IsSpace(r[i]) ==> r[i] == ' ')
    ensures forall i :: 0 <= i < |r| - 1 ==> !(IsSpace(r[i]) && IsSpace(r[i + 1]))
    ensures s == [] <==> r == []
    ensures r != [] ==> (IsSpace(r[0]) <==> IsSpace(s[0]))
    ensures r != [] ==> (IsSpace(r[|r| - 1]) <==> IsSpace(s[|s| - 1]))
    decreases |s|
  {
    if s == [] then []
    else if IsSpace(s[0]) then
      var t := TrimStart(s);
      TrimStartDropsSpace(s);
      [' '] + CollapseSpaces(t)
    else [s[0]] + CollapseSpaces(s[1..])
  }

  /** Text with single spaces only is its own collapse. */
  lemma {:induction false} CollapseFixed(s: string)
    requires forall i :: 0 <= i < |s| ==> (IsSpace(s[i]) ==> s[i] == ' ')
    requires forall i :: 0 <= i < |s| - 1 ==> !(IsSpace(s[i]) && IsSpace(s[i + 1]))
    ensures CollapseSpaces(s) == s
    decreases |s|
  {
    if s != [] {
      if IsSpace(s[0]) {
        assert |s| == 1 || !IsSpace(s[1]);
        assert TrimStart(s[1..]) == s[1..];
        assert TrimStart(s) == s[1..];
      }
      CollapseFixed(s[1..]);
    }
  }

  /** End of the maximal digit run starting at `i`. */
  function DigitRun(s: string, i: nat): (e: nat)
    requires i <= |s|
    ensures i <= e <= |s|
    ensures AllDigits(s[i..e])
    ensures e < |s| ==> !IsDigit(s[e])
    decreases |s| - i
  {
    if i < |s| && IsDigit(s[i]) then DigitRun(s, i + 1) else i
  }

  /** Decimal rendering of a natural number, `str(n)`. */
  function NatToString(n: nat): (r: string)
    ensures r != [] && AllDigits(r)
    ensures |r| > 1 ==> r[0] != '0'
  {
    if n < 10 then [DigitChar(n)] else NatToString(n / 10) + [DigitChar(n % 10)]
  }

  function DigitChar(d: nat): (c: char)
    requires d < 10
    ensures IsDigit(c)
  {
    '0' + d as char
  }

  /** The value of a digit string, read left to right. */
  function DigitsValue(s: string): (n: nat)
    requires AllDigits(s)
  {
    if s == [] then 0 else DigitsValue(s[..|s| - 1]) * 10 + (s[|s| - 1] - '0') as nat
  }

  /** Reading back a rendered number gives the number. */
  lemma {:induction false} NatToStringRoundTrip(n: nat)
    ensures DigitsValue(NatToString(n)) == n
  {
    if n >= 10 {
      NatToStringRoundTrip(n / 10);
      var s := NatToString(n);
      assert s[..|s| - 1] == NatToString(n / 10);
    }
  }
}

=== FILE: token_revocation.dfy ===
/** Revoked access tokens: a table keyed by the token's hash and an in-memory cache of hashes that
    is refreshed from the table at most once a minute. The hash function, the clock and database
    failures are parameters. */
module TokenRevocation {

  datatype Revoked = Revoked(userId: int, reason: string, expiresAt: int)

  /** The revoked-token table, the cache and the time of its last refresh (milliseconds). */
  datatype State = State(db: map<string, Revoked>, cache: set<string>, lastRefresh: int)

  const CacheRefreshIntervalMs: int := 60000

  /** The cache holds the tokens whose expiry falls before this far ahead of the refresh. */
  const CacheWindowMs: int := 86400000

  /** The service at start: an empty cache last refreshed at the epoch. */
  const Initial: State := State(map[], {}, 0)

  /** Every cached hash is in the table. */
  predicate Consistent(s: State) { s.cache <= s.db.Keys }

  /** `revokeToken`: a hash already in the table changes nothing; otherwise the row is written
      and the hash cached. */
  function RevokeToken(s: State, hash: string -> string, token: string, userId: int, reason: string,
                       expiresAt: int): (r: State)
    ensures hash(token) in s.db ==> r == s
    ensures hash(token) !in s.db ==>
      && r.db == s.db[hash(token) := Revoked(userId, reason, expiresAt)]
      && r.cache == s.cache + {hash(token)}
      && r.lastRefresh == s.lastRefresh
    ensures Consistent(s) ==> Consistent(r)
  {
    var h := hash(token);
    if h in s.db then s
    else State(s.db[h := Revoked(userId, reason, expiresAt)], s.cache + {h}, s.lastRefresh)
  }

  /** Revoking twice is revoking once, whatever the second call's details. */
  lemma RevokeIdempotent(s: State, hash: string -> string, token: string, userId: int, reason: string,
                         expiresAt: int, userId': int, reason': string, expiresAt': int)
    ensures var once := RevokeToken(s, hash, token, userId, reason, expiresAt);
      RevokeToken(once, hash, token, userId', reason', expiresAt') == once
  {
  }

  /** `refreshCache`: on success the cache is replaced wholesale by the hashes expiring within the
      window and the refresh time is `now`; a failure leaves cache and timestamp as they were. */
  function RefreshCache(s: State, now: int, fails: bool): (r: State)
    ensures r.db == s.db
    ensures fails ==> r == s
    ensures !fails ==> r.lastRefresh == now
    ensures !fails ==> forall h :: h in r.cache <==> h in s.db && s.db[h].expiresAt < now + CacheWindowMs
    ensures Consistent(s) ==> Consistent(r)
  {
    if fails then s
    else State(s.db, (set h | h in s.db && s.db[h].expiresAt < now + CacheWindowMs), now)
  }

  /** `isTokenRevoked`: refresh a stale cache, then answer from the cache, then from the table,
      caching a table hit. The result pairs the answer with the new state. */
  function IsTokenRevoked(s: State, hash: string -> string, token: string, now: int, refreshFails: bool)
    : (r: (bool, State))
    ensures r.1.db == s.db
    ensures r.1.lastRefresh != s.lastRefresh ==> now - s.lastRefresh > CacheRefreshIntervalMs
    ensures hash(token) in s.db ==> r.0
    ensures r.0 ==> hash(token) in s.db || hash(token) in s.cache
    ensures Consistent(s) ==> Consistent(r.1) && (r.0 <==> hash(token) in s.db)
  {
    var h := hash(token);
    var s1 := if now - s.lastRefresh > CacheRefreshIntervalMs then RefreshCache(s, now, refreshFails) else s;
    if h in s1.cache then (true, s1)
    else if h in s1.db then (true, s1.(cache := s1.cache + {h}))
    else (false, s1)
  }

  /** `cleanupExpiredTokens`: delete the rows already expired at `now`, then refresh the cache.
      A failed delete is swallowed and changes nothing. */
  function CleanupExpiredTokens(s: State, now: int, deleteFails: bool, refreshFails: bool): (r: State)
    ensures deleteFails ==> r == s
    ensures !deleteFails ==> forall h :: h in r.db <==> h in s.db && s.db[h].expiresAt >= now
    ensures forall h :: h in r.db ==> h in s.db && r.db[h] == s.db[h]
    ensures !deleteFails && !refreshFails ==> Consistent(r) && r.lastRefresh == now
  {
    if deleteFails then s
    else
      var kept := map h | h in s.db && s.db[h].expiresAt >= now :: s.db[h];
      RefreshCache(s.(db := kept), now, refreshFails)
  }

  // ---------------------------------------------------------------------------------------------
  // Lifetimes

  datatype Op =
    | Revoke(token: string, userId: int, reason: string, expiresAt: int)
    | Check(token: string, now: int, refreshFails: bool)
    | Refresh(now: int, fails: bool)
    | Cleanup(now: int, deleteFails: bool, refreshFails: bool)

  function Apply(s: State, hash: string -> string, op: Op): State
  {
    match op
    case Revoke(t, u, why, e) => RevokeToken(s, hash, t, u, why, e)
    case Check(t, now, f) => IsTokenRevoked(s, hash, t, now, f).1
    case Refresh(now, f) => RefreshCache(s, now, f)
    case Cleanup(now, df, rf) => CleanupExpiredTokens(s, now, df, rf)
  }

  function Run(s: State, hash: string -> string, ops: seq<Op>): State
    decreases |ops|
  {
    if ops == [] then s else Run(Apply(s, hash, ops[0]), hash, ops[1..])
  }

  /** No cleanup in `ops` runs after `expiresAt`. */
  predicate NoCleanupAfter(ops: seq<Op>, expiresAt: int)
  {
    forall i :: 0 <= i < |ops| && ops[i].Cleanup? ==> ops[i].now <= expiresAt
  }

  /** A table row survives every operation except a cleanup run after it expired. */
  lemma {:induction false} RowSurvives(s: State, hash: string -> string, ops: seq<Op>, h: string)
    requires h in s.db && NoCleanupAfter(ops, s.db[h].expiresAt)
    ensures h in Run(s, hash, ops).db && Run(s, hash, ops).db[h] == s.db[h]
    decreases |ops|
  {
    if ops != [] {
      var s1 := Apply(s, hash, ops[0]);
      assert h in s1.db && s1.db[h] == s.db[h];
      assert forall i :: 0 <= i < |ops[1..]| ==> ops[1..][i] == ops[i + 1];
      RowSurvives(s1, hash, ops[1..], h);
    }
  }

  /** Once revoked, a token is reported revoked until a cleanup after its expiry, whatever
      revocations, checks, refreshes and failures happen in between. */
  lemma RevokedUntilCleanup(s: State, hash: string -> string, token: string, userId: int, reason: string,
                            expiresAt: int, ops: seq<Op>, now: int, refreshFails: bool)
    requires hash(token) !in s.db
    requires NoCleanupAfter(ops, expiresAt)
    ensures var after := Run(RevokeToken(s, hash, token, userId, reason, expiresAt), hash, ops);
      IsTokenRevoked(after, hash, token, now, refreshFails).0
  {
    RowSurvives(RevokeToken(s, hash, token, userId, reason, expiresAt), hash, ops, hash(token));
  }

  /** Unless a cleanup fails half-way, every operation keeps the cache inside the table. */
  lemma {:induction false} RunConsistent(s: State, hash: string -> string, ops: seq<Op>)
    requires Consistent(s)
    requires forall i :: 0 <= i < |ops| ==> !ops[i].Cleanup? || (!ops[i].deleteFails && !ops[i].refreshFails)
    ensures Consistent(Run(s, hash, ops))
    decreases |ops|
  {
    if ops != [] {
      assert forall i :: 0 <= i < |ops[1..]| ==> ops[1..][i] == ops[i + 1];
      RunConsistent(Apply(s, hash, ops[0]), hash, ops[1..]);
    }
  }

  /** A cleanup whose delete succeeds but whose refresh fails leaves the deleted hash cached, so
      the expired token still reads as revoked until the next successful refresh. */
  lemma CleanupWithFailedRefreshKeepsHash(hash: string -> string, token: string, now: int)
    requires now > 0
    ensures var s := State(map[hash(token) := Revoked(1, "logout", 0)], {hash(token)}, now);
      var r := CleanupExpiredTokens(s, now, false, true);
      && Consistent(s) && !Consistent(r)
      && hash(token) !in r.db
      && IsTokenRevoked(r, hash, token, now, false).0
  {
    var s := State(map[hash(token) := Revoked(1, "logout", 0)], {hash(token)}, now);
    var r := CleanupExpiredTokens(s, now, false, true);
    assert hash(token) !in r.db && hash(token) in r.cache;
  }
}

=== FILE: weights.dfy ===
/** The client's weight-chart normaliser: one weigh-in per calendar day, the latest of that day,
    sorted by time. The calendar day of a timestamp depends on the device's time zone, so it is a
    parameter `day` mapping a timestamp in milliseconds to a day key of any type `D`. */
module Weights {

  datatype Weight = Weight(id: int, weightEntry: real, time: int)

  // ---------------------------------------------------------------------------------------------
  // Keeping the latest weigh-in per day

  /** The position in `acc` of the entry for day `d`, or `|acc|` when there is none. */
  function DayIndex<D(==)>(acc: seq<Weight>, d: D, day: int -> D): (k: nat)
    ensures k <= |acc|
    ensures forall i :: 0 <= i < k ==> day(acc[i].time) != d
    ensures k < |acc| ==> day(acc[k].time) == d
  {
    if acc == [] then 0 else if day(acc[0].time) == d then 0 else 1 + DayIndex(acc[1..], d, day)
  }

  /** One iteration of the loop over the weigh-ins: a new day is appended; a later weigh-in on a
      known day replaces that day's entry in place; anything else changes nothing. */
  function Keep<D(==)>(acc: seq<Weight>, w: Weight, day: int -> D): (r: seq<Weight>)
    ensures var k := DayIndex(acc, day(w.time), day);
      && |r| == (if k == |acc| then |acc| + 1 else |acc|)
      && (forall i :: 0 <= i < |acc| && i != k ==> r[i] == acc[i])
      && (k == |acc| ==> r[k] == w)
      && (k < |acc| ==> r[k] == (if w.time > acc[k].time then w else acc[k]))
  {
    var k := DayIndex(acc, day(w.time), day);
    if k == |acc| then acc + [w]
    else if w.time > acc[k].time then acc[k := w]
    else acc
  }

  /** The map's values in insertion order after the loop over `ws`. */
  function ByDay<D(==)>(ws: seq<Weight>, day: int -> D): seq<Weight>
  {
    if ws == [] then [] else Keep(ByDay(ws[..|ws| - 1], day), ws[|ws| - 1], day)
  }

  predicate DistinctDays<D(==)>(xs: seq<Weight>, day: int -> D)
  {
    forall i, j :: 0 <= i < j < |xs| ==> day(xs[i].time) != day(xs[j].time)
  }

  predicate FromInput(xs: seq<Weight>, ws: seq<Weight>)
  {
    forall i :: 0 <= i < |xs| ==> xs[i] in ws
  }

  predicate HasDay<D(==)>(xs: seq<Weight>, d: D, day: int -> D)
  {
    exists i :: 0 <= i < |xs| && day(xs[i].time) == d
  }

  predicate Covers<D(==)>(xs: seq<Weight>, ws: seq<Weight>, day: int -> D)
  {
    forall j :: 0 <= j < |ws| ==> HasDay(xs, day(ws[j].time), day)
  }

  /** No weigh-in of the same day is later than the kept one. */
  predicate Latest<D(==)>(xs: seq<Weight>, ws: seq<Weight>, day: int -> D)
  {
    forall i, j :: 0 <= i < |xs| && 0 <= j < |ws| && day(ws[j].time) == day(xs[i].time) ==> ws[j].time <= xs[i].time
  }

  /** The kept weigh-in `x` comes first among the day's latest: every earlier one that day is earlier in time. */
  predicate FirstOfLatest<D(==)>(x: Weight, ws: seq<Weight>, day: int -> D)
  {
    exists k :: 0 <= k < |ws| && ws[k] == x && forall j :: 0 <= j < k && day(ws[j].time) == day(x.time) ==> ws[j].time < x.time
  }

  predicate AllFirstOfLatest<D(==)>(xs: seq<Weight>, ws: seq<Weight>, day: int -> D)
  {
    forall i :: 0 <= i < |xs| ==> FirstOfLatest(xs[i], ws, day)
  }

  lemma KeepDistinct<D>(acc: seq<Weight>, w: Weight, day: int -> D)
    requires DistinctDays(acc, day)
    ensures DistinctDays(Keep(acc, w, day), day)
  {
  }

  lemma KeepFromInput<D>(acc: seq<Weight>, ws: seq<Weight>, w: Weight, day: int -> D)
    requires FromInput(acc, ws)
    ensures FromInput(Keep(acc, w, day), ws + [w])
  {
  }

  lemma KeepCovers<D>(acc: seq<Weight>, ws: seq<Weight>, w: Weight, day: int -> D)
    requires Covers(acc, ws, day)
    ensures Covers(Keep(acc, w, day), ws + [w], day)
  {
    var r := Keep(acc, w, day);
    var k := DayIndex(acc, day(w.time), day);
    forall j | 0 <= j < |ws| + 1
      ensures HasDay(r, day((ws + [w])[j].time), day)
    {
      if j == |ws| {
        assert (ws + [w])[j] == w;
        if k == |acc| {
          assert r[|acc|] == w;
        } else {
          assert day(r[k].time) == day(w.time);
        }
      } else {
        assert (ws + [w])[j] == ws[j];
        var i :| 0 <= i < |acc| && day(acc[i].time) == day(ws[j].time);
        if i == k && k < |acc| {
          assert day(r[k].time) == day(acc[k].time);
        } else {
          assert r[i] == acc[i];
        }
      }
    }
  }

  lemma KeepLatest<D>(acc: seq<Weight>, ws: seq<Weight>, w: Weight, day: int -> D)
    requires DistinctDays(acc, day) && Covers(acc, ws, day) && Latest(acc, ws, day)
    ensures Latest(Keep(acc, w, day), ws + [w], day)
  {
    var r := Keep(acc, w, day);
    var ws' := ws + [w];
    var k := DayIndex(acc, day(w.time), day);
    forall i, j | 0 <= i < |r| && 0 <= j < |ws'| && day(ws'[j].time) == day(r[i].time)
      ensures ws'[j].time <= r[i].time
    {
      if j < |ws| {
        assert ws'[j] == ws[j];
        if k < |acc| && i == k {
          assert day(acc[k].time) == day(r[k].time);
          assert ws[j].time <= acc[k].time;
        } else if i == |acc| {
          assert false;
        } else {
          assert r[i] == acc[i];
        }
      } else {
        assert ws'[j] == w;
      }
    }
  }

  lemma KeepFirst<D>(acc: seq<Weight>, ws: seq<Weight>, w: Weight, day: int -> D)
    requires DistinctDays(acc, day) && Covers(acc, ws, day) && Latest(acc, ws, day) && AllFirstOfLatest(acc, ws, day)
    ensures AllFirstOfLatest(Keep(acc, w, day), ws + [w], day)
  {
    var r := Keep(acc, w, day);
    var ws' := ws + [w];
    var k := DayIndex(acc, day(w.time), day);
    forall i | 0 <= i < |r|
      ensures FirstOfLatest(r[i], ws', day)
    {
      if k < |acc| && i == k && w.time > acc[k].time {
        assert r[i] == w && ws'[|ws|] == w;
        forall j | 0 <= j < |ws| && day(ws'[j].time) == day(w.time)
          ensures ws'[j].time < w.time
        {
          assert ws'[j] == ws[j];
          assert ws[j].time <= acc[k].time;
        }
      } else if i == |acc| {
        assert r[i] == w && ws'[|ws|] == w;
        forall j | 0 <= j < |ws| && day(ws'[j].time) == day(w.time)
          ensures false
        {
        }
      } else {
        assert r[i] == acc[i];
        var m :| 0 <= m < |ws| && ws[m] == acc[i] && forall j :: 0 <= j < m && day(ws[j].time) == day(acc[i].time) ==> ws[j].time < acc[i].time;
        assert ws'[m] == ws[m];
      }
    }
  }

  /** The loop over all weigh-ins keeps one entry per day, each taken from the input, covering
      every day of the input, the latest of its day, and the first seen among equally late ones. */
  lemma {:induction false} ByDayKeeps<D>(ws: seq<Weight>, day: int -> D)
    ensures DistinctDays(ByDay(ws, day), day)
    ensures FromInput(ByDay(ws, day), ws)
    ensures Covers(ByDay(ws, day), ws, day)
    ensures Latest(ByDay(ws, day), ws, day)
    ensures AllFirstOfLatest(ByDay(ws, day), ws, day)
    decreases |ws|
  {
    if ws != [] {
      var init, w := ws[..|ws| - 1], ws[|ws| - 1];
      ByDayKeeps(init, day);
      var acc := ByDay(init, day);
      assert ws == init + [w];
      KeepDistinct(acc, w, day);
      KeepFromInput(acc, init, w, day);
      KeepCovers(acc, init, w, day);
      KeepLatest(acc, init, w, day);
      KeepFirst(acc, init, w, day);
    }
  }

  // ---------------------------------------------------------------------------------------------
  // Sorting by time

  predicate SortedByTime(xs: seq<Weight>)
  {
    forall i, j :: 0 <= i < j < |xs| ==> xs[i].time <= xs[j].time
  }

  /** Inserts `x` after every entry of `sorted` that is not later than it, so that an entry
      inserted later stays after equally timed ones: the stable insertion `Array.prototype.sort`
      performs with the comparator `left - right`. */
  function InsertByTime(sorted: seq<Weight>, x: Weight): (r: seq<Weight>)
    ensures multiset(r) == multiset(sorted) + multiset{x}
    ensures |r| == |sorted| + 1
  {
    if sorted == [] then [x]
    else if sorted[|sorted| - 1].time <= x.time then sorted + [x]
    else
      var init := sorted[..|sorted| - 1];
      assert sorted == init + [sorted[|sorted| - 1]];
      InsertByTime(init, x) + [sorted[|sorted| - 1]]
  }

  function SortByTime(xs: seq<Weight>): (r: seq<Weight>)
    ensures multiset(r) == multiset(xs)
  {
    if xs == [] then []
    else
      var init := xs[..|xs| - 1];
      assert xs == init + [xs[|xs| - 1]];
      InsertByTime(SortByTime(init), xs[|xs| - 1])
  }

  /** Inserting keeps every entry at or before a time that bounds both `sorted` and `x`. */
  lemma InsertByTimeBound(sorted: seq<Weight>, x: Weight, t: int)
    requires forall i :: 0 <= i < |sorted| ==> sorted[i].time <= t
    requires x.time <= t
    ensures forall i :: 0 <= i < |InsertByTime(sorted, x)| ==> InsertByTime(sorted, x)[i].time <= t
  {
    var r := InsertByTime(sorted, x);
    forall i | 0 <= i < |r|
      ensures r[i].time <= t
    {
      assert r[i] in multiset(sorted) + multiset{x};
    }
  }

  lemma {:induction false} InsertByTimeSorted(sorted: seq<Weight>, x: Weight)
    requires SortedByTime(sorted)
    ensures SortedByTime(InsertByTime(sorted, x))
    decreases |sorted|
  {
    if sorted != [] && sorted[|sorted| - 1].time > x.time {
      var init, last := sorted[..|sorted| - 1], sorted[|sorted| - 1];
      InsertByTimeSorted(init, x);
      InsertByTimeBound(init, x, last.time);
    }
  }

  lemma {:induction false} SortByTimeSorted(xs: seq<Weight>)
    ensures SortedByTime(SortByTime(xs))
    decreases |xs|
  {
    if xs != [] {
      SortByTimeSorted(xs[..|xs| - 1]);
      InsertByTimeSorted(SortByTime(xs[..|xs| - 1]), xs[|xs| - 1]);
    }
  }

  /** An entry of a permutation of `xs` sits somewhere in `xs`. */
  lemma PermutedFrom(xs: seq<Weight>, ys: seq<Weight>, i: int) returns (k: int)
    requires multiset(xs) == multiset(ys) && 0 <= i < |ys|
    ensures 0 <= k < |xs| && xs[k] == ys[i]
  {
    assert ys[i] in multiset(xs);
    k :| 0 <= k < |xs| && xs[k] == ys[i];
  }

  lemma {:induction false} InsertByTimeDistinct<D>(sorted: seq<Weight>, x: Weight, day: int -> D)
    requires DistinctDays(sorted, day)
    requires forall i :: 0 <= i < |sorted| ==> day(sorted[i].time) != day(x.time)
    ensures DistinctDays(InsertByTime(sorted, x), day)
    decreases |sorted|
  {
    if sorted != [] && sorted[|sorted| - 1].time > x.time {
      var init, last := sorted[..|sorted| - 1], sorted[|sorted| - 1];
      InsertByTimeDistinct(init, x, day);
      var r := InsertByTime(init, x);
      forall i | 0 <= i < |r|
        ensures day(r[i].time) != day(last.time)
      {
        if r[i] != x {
          var k := PermutedFrom(init + [x], r, i);
          assert sorted[k] == r[i];
        }
      }
    }
  }

  lemma {:induction false} SortByTimeDistinct<D>(xs: seq<Weight>, day: int -> D)
    requires DistinctDays(xs, day)
    ensures DistinctDays(SortByTime(xs), day)
    decreases |xs|
  {
    if xs != [] {
      var init, last := xs[..|xs| - 1], xs[|xs| - 1];
      SortByTimeDistinct(init, day);
      var s := SortByTime(init);
      forall i | 0 <= i < |s|
        ensures day(s[i].time) != day(last.time)
      {
        var k := PermutedFrom(init, s, i);
        assert xs[k] == s[i];
      }
      InsertByTimeDistinct(s, last, day);
    }
  }

  /** Reordering the kept entries preserves every property stated entry by entry. */
  lemma PermutedKeeps<D>(xs: seq<Weight>, ys: seq<Weight>, ws: seq<Weight>, day: int -> D)
    requires multiset(xs) == multiset(ys)
    requires FromInput(xs, ws) && Covers(xs, ws, day) && Latest(xs, ws, day) && AllFirstOfLatest(xs, ws, day)
    ensures FromInput(ys, ws) && Covers(ys, ws, day) && Latest(ys, ws, day) && AllFirstOfLatest(ys, ws, day)
  {
    forall i | 0 <= i < |ys|
      ensures ys[i] in ws && FirstOfLatest(ys[i], ws, day)
      ensures forall j :: 0 <= j < |ws| && day(ws[j].time) == day(ys[i].time) ==> ws[j].time <= ys[i].time
    {
      var k := PermutedFrom(xs, ys, i);
    }
    forall j | 0 <= j < |ws|
      ensures HasDay(ys, day(ws[j].time), day)
    {
      var i :| 0 <= i < |xs| && day(xs[i].time) == day(ws[j].time);
      var k := PermutedFrom(ys, xs, i);
    }
  }

  /** `normalizeWeightsByDay`: the latest weigh-in of each day, in time order. */
  function NormalizeWeightsByDay<D(==)>(ws: seq<Weight>, day: int -> D): seq<Weight>
  {
    SortByTime(ByDay(ws, day))
  }

  /** The normalised chart has exactly one entry per day of the input, each an input weigh-in
      that no weigh-in of its day beats in time (the first seen among equally late ones), and it
      is ordered by time. */
  lemma NormalizeWeightsByDayCorrect<D>(ws: seq<Weight>, day: int -> D)
    ensures var r := NormalizeWeightsByDay(ws, day);
      && SortedByTime(r)
      && DistinctDays(r, day)
      && FromInput(r, ws)
      && Covers(r, ws, day)
      && Latest(r, ws, day)
      && AllFirstOfLatest(r, ws, day)
      && multiset(r) == multiset(ByDay(ws, day))
  {
    var b := ByDay(ws, day);
    ByDayKeeps(ws, day);
    SortByTimeSorted(b);
    SortByTimeDistinct(b, day);
    PermutedKeeps(b, SortByTime(b), ws, day);
  }

  /** Two weigh-ins on one day after a weigh-in on another day keep the first day's entry and
      the later of the second day's two. */
  lemma ThreeByDay<D>(w1: Weight, w2: Weight, w3: Weight, day: int -> D)
    requires day(w1.time) != day(w2.time) && day(w2.time) == day(w3.time) && w3.time > w2.time
    ensures ByDay([w1, w2, w3], day) == [w1, w3]
  {
    assert [w1][..0] == [] && [w1, w2][..1] == [w1] && [w1, w2, w3][..2] == [w1, w2];
    assert ByDay([w1], day) == [w1];
    assert DayIndex([w1], day(w2.time), day) == 1;
    assert ByDay([w1, w2], day) == [w1, w2];
    assert DayIndex([w1, w2], day(w3.time), day) == 1;
  }

  /** Two entries out of time order swap. */
  lemma TwoSorted(a: Weight, b: Weight)
    requires a.time > b.time
    ensures SortByTime([a, b]) == [b, a]
  {
    assert [a, b][..1] == [a] && [a][..0] == [];
    assert SortByTime([a]) == [a];
    assert InsertByTime([a], b) == InsertByTime([], b) + [a];
  }

  /** The chart's own example: two weigh-ins on 1 January 2025 and one on 2 January (UTC), given
      out of order, keep the later of the first day and come out in time order. */
  lemma NormalizeExample()
    ensures var ws := [Weight(1, 180.2, 1735804800000), Weight(2, 179.6, 1735714800000),
                       Weight(3, 179.2, 1735767000000)];
      var r := NormalizeWeightsByDay(ws, (t: int) => t / 86400000);
      |r| == 2 && r[0].weightEntry == 179.2 && r[1].weightEntry == 180.2
  {
    var w1, w2, w3 := Weight(1, 180.2, 1735804800000), Weight(2, 179.6, 1735714800000),
                      Weight(3, 179.2, 1735767000000);
    var day := (t: int) => t / 86400000;
    assert day(w1.time) == 20090 && day(w2.time) == 20089 && day(w3.time) == 20089;
    ThreeByDay(w1, w2, w3, day);
    TwoSorted(w1, w3);
  }
}

=== FILE: wrappers.dfy ===
/** Failure-compatible wrappers shared by every module of the model. */
module Wrappers {

  /** A value that may be absent: Python's `None`, JavaScript's `null`/`undefined`. */
  datatype Option<+T> = None | Some(value: T) {

    /** The wrapped value, or `default` when absent (the `??` / `or` idiom). */
    function GetOr(default: T): (r: T)
      ensures Some? ==> r == value
      ensures None? ==> r == default
    {
      match this
      case Some(v) => v
      case None => default
    }
  }

  /** Either a value or the error that the source raises or returns instead. */
  datatype Result<+R, +E> = Success(value: R) | Failure(error: E)
}
